=== FILE: README.md ===
# Rosario front end in Dafny

This project models the front end of the Rosario-to-C compiler: the lexer, the boxed-tree
recursive-descent parser with its `main_pass`, the three AST passes (generic
monomorphisation, implicit `Range` trait synthesis, static number folding) and their
fixed pipeline, and the arena-based parser rewrite. Every part is a pure function. A
parser takes a token sequence and a 1-based cursor and returns the value read and the
cursor of its last token, or a `Failure` that records why the source would abort. The
failure kinds are:

- `Unimplemented` for `todo!`
- `Panicked` for `panic!`, `unwrap` and out-of-range indexing
- `Unreachable`
- `Overflow` for an `i128` debug overflow
- `Diverges` where the source would loop or recurse forever

The modules:

- `Outcome`: `Result` and `Failure`.
- `Order`: strict total orders and their lexicographic extension.
- `OrdMap`: a `BTreeMap` as a sorted sequence of pairs, iterated in key order.
- `Ast`: the AST of `ast.rs`, with the derived key orders.
- `Lexer`: scanning bytes into tokens.
- `ParserBase`, `DeclarationParser` and `ExpressionParser`: `parser.rs`.
- `DeclarationFacts` and `ExpressionFacts`: lemmas about `parser.rs`.
- `GenericPass`, `ImplicitPass` and `StaticPass`: `all_passes`.
- `StaticFacts`: idempotence of the static pass.
- `Pipeline`: `standard_pass`.
- `ArenaAst` and `ArenaParser`: `parser/ast.rs` and `parser/mod.rs`.

The arena parser cannot be built alongside `parser.rs` under the same module name, so it
is a separate model with its own AST.

Two behaviours are modelled as written even though they look unintended:

- **`**` rebalancing.** After `**`, a right-hand side `l + r` or `l - r` becomes
  `(left ** l) - r`, so an addition turns into a subtraction.
  `ExpressionFacts.PowerTakesLeftOfSum` states exactly this.
- **Rotation in `parse_binary_operator`.** The rotation reaches only one level into the
  right operand, so `1 - 2 - 3 - 4` builds `(1 - (2 - 3)) - 4`.
  `ArenaParser.CombineRotates` states the one-level step.

Where fuel bounds a recursion that the source bounds only by termination of its input,
running out of fuel is the `Diverges` failure. The fuel is chosen as the number of
entries the recursion can visit (type entries for alias chains, public functions for
nested calls); that this suffices for every chain the source finishes is argued, not
proved: a chain longer than that visits some entry twice and so would not end. `ImplicitPass.ResolveFuelIsEnough` and
`StaticFacts.FoldFuelIsEnough` show that more fuel never changes a result that was
already reached.

## Model

| member | source | states |
|---|---|---|
| Order.SeqLtIsStrictTotal | crates/rosarioparser/src/ast.rs:229-233 | the derived lexicographic order on sequences (generic lists, names) is a strict total order whenever the element order is |
| Order.StringLtIsStrictTotal | crates/rosarioparser/src/ast.rs:229-233 | string order, used for type names and package keys, is a strict total order |
| OrdMap.Get | crates/rosarioparser/src/ast.rs:259-270 | a lookup succeeds exactly when the map has the key, and returns a value stored under it |
| OrdMap.Insert | crates/rosarioparser/src/parser.rs:251-259 | `BTreeMap::insert`: afterwards the key maps to the new value, every other key keeps its lookup, and no foreign entry appears |
| OrdMap.InsertKeepsSorted | crates/rosarioparser/src/parser.rs:376-380 | inserting into a map sorted by a strict total order keeps it sorted |
| OrdMap.InsertPresentKeepsKeys | crates/rosarioparser/src/parser.rs:376-380 | overwriting an existing key leaves the key sequence unchanged |
| OrdMap.InsertAbsentGrows | crates/rosarioparser/src/parser.rs:251-259 | inserting a new key adds exactly one entry |
| OrdMap.SortedHasUniqueKeys | crates/rosarioparser/src/ast.rs:259-270 | a sorted map holds each key at most once |
| OrdMap.GetAtIndex | crates/rosarioparser/src/ast.rs:181-183 | in a map with unique keys, looking up an entry's key finds that entry |
| OrdMap.SetValueAt | crates/rosarioparser/src/all_passes/static_number_solver_pass.rs:110-148 | replacing a value in place keeps every key and every other entry |
| Ast.GenericOrderIsTotal | crates/rosarioparser/src/ast.rs:156-168 | `Generic` orders by name, then terminator; this order is a strict total order |
| Ast.GenericEndOrderIsTotal | crates/rosarioparser/src/ast.rs:162-168 | the terminator order None < Comma < Of is a strict total order |
| Ast.TypeSignatureOrderIsTotal | crates/rosarioparser/src/ast.rs:229-233 | `TypeSignature` (name, then generics) is a strict total order, so it is a lawful map key |
| Ast.TraitSignatureOrderIsTotal | crates/rosarioparser/src/ast.rs:235-240 | the trait signature order is a strict total order |
| Ast.ImplSignatureOrderIsTotal | crates/rosarioparser/src/ast.rs:252-256 | `ImplSignature` orders by trait first and a missing trait sorts before any trait; the order is strict and total |
| Ast.GetType | crates/rosarioparser/src/ast.rs:34-40 | a `Number` gives its stored tag, a `Let` gives `Some` of its type, and every other variant is an unimplemented failure |
| Lexer.KeywordTableInverse | crates/rosarioparser/src/lexer.rs:100-132 | the keyword table is a bijection between reserved words and keyword tokens |
| Lexer.SymbolTableInverse | crates/rosarioparser/src/lexer.rs:72-98 | the symbol table is a bijection between one- and two-byte spellings and operator tokens |
| Lexer.WordToken | crates/rosarioparser/src/lexer.rs:348-351 | a reserved word becomes its keyword token; any other word becomes `Identifier(word)` |
| Lexer.CurrentChar | crates/rosarioparser/src/lexer.rs:227-233 | the byte at the 1-based position, and 0 past the end of input |
| Lexer.Advance | crates/rosarioparser/src/lexer.rs:199-211 | one byte forward; a newline moves to column 0 of the next line and records the line's length; otherwise the column grows by one |
| Lexer.GoBack | crates/rosarioparser/src/lexer.rs:213-225 | one byte back; from column 0 it returns to the previous line's recorded end, and from (0, 0) the line underflows |
| Lexer.AdvanceThenGoBack | crates/rosarioparser/src/lexer.rs:199-225 | stepping forward and back restores the position; the location is restored except after a newline, where the column is one greater |
| Lexer.RunEnd | crates/rosarioparser/src/lexer.rs:343-346 | reference definition of a scanning run: the first index at or after the start whose byte ends the run, with every byte before it in the run |
| Lexer.ScanWhile | crates/rosarioparser/src/lexer.rs:343-346 | the `while in_run { advance }` loop stops exactly at `RunEnd` |
| Lexer.NextQuote | crates/rosarioparser/src/lexer.rs:321-324 | reference definition: the first quote at or after an index, or none |
| Lexer.ScanToQuote | crates/rosarioparser/src/lexer.rs:319-324 | the string loop stops on the next quote, and with none it diverges |
| Lexer.DropUnderscoresFilters | crates/rosarioparser/src/lexer.rs:372-376 | number scanning keeps every byte but `_`, as often as it occurs, and no `_` remains |
| Lexer.DropUnderscores | crates/rosarioparser/src/lexer.rs:372-376 | no `_` is left in the digits, and they get no longer |
| Lexer.BlankIsEndOfFile | crates/rosarioparser/src/lexer.rs:227-271 | a lone blank lexes to the single token `EndOfFile`, since past the end the current byte is 0 |
| Lexer.LexWord | crates/rosarioparser/src/lexer.rs:333-360 | `get_identifier`: the maximal run of letters, digits and `_` becomes its word token; its size is the run's length and the position ends one before the byte after the run |
| Lexer.LexNumber | crates/rosarioparser/src/lexer.rs:362-404 | `get_number`: the maximal digit-or-underscore run with `_` dropped; the fraction is always none, because the loop stops at `.`; the size is one less than the run |
| Lexer.LexString | crates/rosarioparser/src/lexer.rs:315-331 | `get_static_string`: the raw bytes between the quotes, with no escapes; with no closing quote the lexer diverges |
| Lexer.LexSymbol | crates/rosarioparser/src/lexer.rs:274-303 | a known pair gives its two-byte token; `--` skips to the end of the line and emits nothing; otherwise the lexer steps back and gives the one-byte token; a non-ASCII next byte aborts |
| Lexer.LexAt | crates/rosarioparser/src/lexer.rs:246-312 | by first byte: a letter gives a word token, a digit a number with no fraction, a quote a string, `;` a size-1 semicolon, byte 0 exactly a size-0 `EndOfFile` at the same position (and an `EndOfFile` only from byte 0); a stray byte gives `Character(c)` with size 1, and a non-ASCII byte aborts |
| Lexer.GetToken | crates/rosarioparser/src/lexer.rs:235-244 | skips blanks and always moves forward; an end-of-file token is emitted only past the input or at a 0 byte |
| Lexer.Scan | crates/rosarioparser/src/lexer.rs:407-409 | the loop consumes the whole input, and with no 0 byte in it no `EndOfFile` is emitted before the last token |
| Lexer.Start | crates/rosarioparser/src/lexer.rs:406-418 | when lexing succeeds there is at least one token, the last one is `EndOfFile`, and with no 0 byte in the input it is the only `EndOfFile`; empty input aborts on `last().unwrap()` |
| ParserBase.Tok | crates/rosarioparser/src/parser.rs:30-32 | `current_token` is the token at the 1-based cursor, and indexing outside fails |
| ParserBase.CheckToken | crates/rosarioparser/src/parser.rs:828-839 | `check_token` passes exactly when the current token is the expected one |
| ParserBase.GetIdentifier | crates/rosarioparser/src/parser.rs:817-826 | succeeds exactly on an identifier token and returns its name |
| ParserBase.CheckEnding | crates/rosarioparser/src/parser.rs:1024-1045 | `end` is required, then the expected name when one is given, else the expected keyword when one is given; both directions |
| ParserBase.GenericEndOf | crates/rosarioparser/src/parser.rs:115-124 | `>`, `,` and `of` are the terminators None, Comma and Of, and no other token is one |
| ParserBase.GenericEntry | crates/rosarioparser/src/parser.rs:111-129 | one generic entry is read exactly when a name is followed by a terminator, and records both |
| ParserBase.ParsedGenericsAt | crates/rosarioparser/src/parser.rs:107-136 | whatever the generic loop accepts is well formed (only the last entry ends in `>`), and its tokens stand at the cursor |
| ParserBase.GenericsAtReadBack | crates/rosarioparser/src/parser.rs:107-136 | a well-formed generic list standing at the cursor is read back, with the cursor on its `>` |
| ParserBase.ParseTypeSignature | crates/rosarioparser/src/parser.rs:102-142 | the generics are empty exactly when no `<` follows the name, and then the cursor stays on the name |
| ParserBase.ParsedGenericsArePrinted | crates/rosarioparser/src/parser.rs:107-136 | the tokens the generic loop reads are exactly the printed form of the list it returns |
| ParserBase.ParsedTypeSignatureIsPrinted | crates/rosarioparser/src/parser.rs:102-142 | the tokens a signature parse reads are exactly the printed form of the signature it returns |
| ParserBase.SignatureAtReadBack | crates/rosarioparser/src/parser.rs:102-142 | a well-formed signature standing at the cursor is read back, ending on its last token |
| ParserBase.ParsePrintedGenerics | crates/rosarioparser/src/parser.rs:107-136 | round trip: parsing a printed well-formed generic list gives the list back |
| ParserBase.ParsePrintedTypeSignature | crates/rosarioparser/src/parser.rs:102-142 | round trip: parsing a printed signature gives it back, provided a bare name is not followed by `<` |
| ParserBase.FirstNamed | crates/rosarioparser/src/parser.rs:1137-1141 | the first entry in key order whose signature has the given name, or none exactly when no entry has it |
| ParserBase.FindInPackages | crates/rosarioparser/src/parser.rs:1157-1171 | the packages are searched in key order, public types first and private ones only on request; found exactly when some package has the name |
| ParserBase.FindTypeByName | crates/rosarioparser/src/parser.rs:1128-1174 | the given public map, then the local map, then the packages are searched; a name found nowhere aborts, and a name found only in the packages gives the packages' first match |
| ParserBase.ParseGenerics | crates/rosarioparser/src/parser.rs:107-136 | the entry loop reads two tokens per entry and ends, within the tokens, on the token of its last entry |
| ParserBase.FirstIn | crates/rosarioparser/src/parser.rs:1157-1171 | within one package the public map is searched, then the private map only when private types are wanted; found exactly when one of them has the name |
| ParserBase.FindInPackagesIsFirst | crates/rosarioparser/src/parser.rs:1157-1171 | the search returns the match of the first package in key order that has the name, its public types before its private ones |
| ParserBase.Decimal | crates/rosarioparser/src/parser.rs:1185-1190 | the decimal spelling of a natural number: all digits, with no leading zero |
| ParserBase.DecimalRoundTrip | crates/rosarioparser/src/parser.rs:1185-1190 | reading back a decimal spelling gives the number |
| ParserBase.ParseI128 | crates/rosarioparser/src/parser.rs:1185-1190 | `parse::<i128>` on digits is their value when it fits, and none otherwise |
| ParserBase.LiteralValue | crates/rosarioparser/src/parser.rs:1185-1190 | a number token's digits become their value when it fits in `i128` and 0 otherwise (`unwrap_or(0)`) |
| ParserBase.LiteralRoundTrip | crates/rosarioparser/src/parser.rs:1185-1190 | every `i128` in range survives printing and parsing as a literal |
| DeclarationParser.PayloadArgument | crates/rosarioparser/src/parser.rs:70-81 | a payload named like a generic of the enum becomes `Generic`, and any other becomes `Type` |
| DeclarationParser.ParseEnum | crates/rosarioparser/src/parser.rs:34-100 | the variants are keyed 0, 1, 2, … in declaration order |
| DeclarationParser.Variants | crates/rosarioparser/src/parser.rs:39-95 | the variant loop keeps every variant keyed by its position |
| DeclarationParser.AddVariant | crates/rosarioparser/src/parser.rs:89-94 | a new variant goes after the others, under the number of variants before it |
| DeclarationParser.Payload | crates/rosarioparser/src/parser.rs:52-87 | no payload argument is left `Unknown` |
| DeclarationParser.ParseRange | crates/rosarioparser/src/parser.rs:194-218 | a range is signed exactly when its lower bound is written with a leading minus |
| DeclarationParser.ParseTypeDecl | crates/rosarioparser/src/parser.rs:144-185 | a type declaration ends on `;`, implements no traits, and has content |
| DeclarationParser.TypeContentAt | crates/rosarioparser/src/parser.rs:159-172 | the content kind follows the first token: `range`, `mod`, `enum`, or a name (an alias) |
| DeclarationParser.ParseSignature | crates/rosarioparser/src/parser.rs:845-962 | the argument list is always empty; procedures and only procedures return nothing; a return type named like an enclosing generic is `Generic`, and otherwise `Type` |
| DeclarationParser.ReturnTypeAt | crates/rosarioparser/src/parser.rs:925-955 | `=> [mutable] Type`: mutable exactly when `mutable` follows the arrow; generic or concrete by name |
| DeclarationParser.ArgumentDecl | crates/rosarioparser/src/parser.rs:856-919 | an argument is `self` exactly when it starts with `mutable` or `self`, and is mutable exactly when it starts with `mutable` |
| DeclarationParser.ParseRoutine | crates/rosarioparser/src/parser.rs:964-1022 | a procedure or function ends on `;`, and returns nothing exactly when it is a procedure |
| DeclarationParser.ParseMember | crates/rosarioparser/src/parser.rs:716-753 | a member goes into exactly one list of the implementation, chosen by its kind and visibility (for an operator, by mutability) |
| DeclarationParser.DropLast2 | crates/rosarioparser/src/parser.rs:356-357 | two `String::pop`s drop the last two characters, or everything if fewer remain |
| DeclarationParser.UseNames | crates/rosarioparser/src/parser.rs:332-354 | the names of a `use` path are non-empty, and without `*` the loop ends on `;` |
| DeclarationParser.ParseUse | crates/rosarioparser/src/parser.rs:303-374 | a `use` line ends on `;` and is a C include exactly when `C_LANG` follows `use` |
| DeclarationParser.MainStep | crates/rosarioparser/src/parser.rs:227-428 | `public` marks the next declaration, `use` and `trait` leave the file unchanged, and `implement` changes only the implementations |
| DeclarationParser.Declare | crates/rosarioparser/src/parser.rs:228-260 | a procedure or function is pushed onto the public or private list its mark selects; a type goes into that map and leaves the other map unchanged |
| DeclarationParser.ParseImplementation | crates/rosarioparser/src/parser.rs:697-781 | an implementation block ends on the `;` after `end implement`, past its opening token |
| DeclarationParser.ParseTraitDecl | crates/rosarioparser/src/parser.rs:381-422 | a trait declaration ends on its closing `;`; the bodiless `trait Name;` form gives no signatures and ends right after the name |
| DeclarationParser.DeclareKeepsSorted | crates/rosarioparser/src/parser.rs:251-259 | storing a declaration keeps the file's maps sorted |
| DeclarationParser.StepKeepsSorted | crates/rosarioparser/src/parser.rs:227-428 | every step of the declaration loop keeps the file's maps sorted |
| DeclarationParser.MainLoop | crates/rosarioparser/src/parser.rs:226-431 | the whole declaration loop keeps the file's maps sorted |
| DeclarationParser.MainPass | crates/rosarioparser/src/parser.rs:220-436 | succeeds exactly when the loop does; the file is stored under its name, and every other package is unchanged |
| DeclarationFacts.DropLast2OfLonger | crates/rosarioparser/src/parser.rs:356-357 | dropping two characters from a longer string only touches its end |
| DeclarationFacts.SuffixedLength | crates/rosarioparser/src/parser.rs:350-353 | a non-empty path with `::` after every name is at least two characters long |
| DeclarationFacts.UsePathJoinsNames | crates/rosarioparser/src/parser.rs:330-357 | a `use` path is the written names joined with `::` |
| DeclarationFacts.MainPassKeepsSorted | crates/rosarioparser/src/parser.rs:432-435 | the package map stays sorted by name, and the stored file's maps are sorted |
| DeclarationFacts.FirstVariantIsPosition | crates/rosarioparser/src/parser.rs:1081-1096 | a constructor resolves to the position of the first variant with its name |
| DeclarationFacts.DeclareAppendsProcedure | crates/rosarioparser/src/parser.rs:228-260 | a declared procedure is appended to the public or private list its mark selects; the other list and the rest of the file are unchanged |
| DeclarationFacts.DeclareAppendsFunction | crates/rosarioparser/src/parser.rs:228-260 | the same for a function |
| DeclarationFacts.DeclareInsertsType | crates/rosarioparser/src/parser.rs:228-260 | a declared type is stored under its signature in the public or private map its mark selects; every other key and the other map keep their entries |
| DeclarationFacts.MemberAppends | crates/rosarioparser/src/parser.rs:716-753 | a procedure, function or public operator member is appended to exactly one of the implementation's six lists, chosen by kind and visibility (for an operator, by mutability); the other five are unchanged |
| ExpressionParser.FirstVariant | crates/rosarioparser/src/parser.rs:1083-1089 | the index of the first variant with the name, and none exactly when no variant has it |
| ExpressionParser.ParseExpression | crates/rosarioparser/src/parser.rs:1176-1307 | an expression ends right before a delimiter token |
| ExpressionParser.ContinueAfter | crates/rosarioparser/src/parser.rs:1291-1306 | a node is returned before a delimiter; otherwise parsing goes on, and ends before one |
| ExpressionParser.Leaf | crates/rosarioparser/src/parser.rs:1185-1206 | a number keeps its value when it fits in `i128` and becomes 0 otherwise, with no tag; a string, `self` and `_` become their nodes |
| ExpressionParser.Signed | crates/rosarioparser/src/parser.rs:1208-1227 | with no left operand, `-` and `+` are prefix signs; with one, they are subtraction and addition |
| ExpressionParser.ParseStatement | crates/rosarioparser/src/parser.rs:1602-1606 | a statement moves the cursor forward |
| ExpressionParser.ParseBranch | crates/rosarioparser/src/parser.rs:1319-1338 | a branch moves the cursor forward |
| ExpressionParser.ParseMatchOption | crates/rosarioparser/src/parser.rs:1411-1470 | a match option ends right before `=>` |
| ExpressionParser.OptionNames | crates/rosarioparser/src/parser.rs:1413-1456 | the name loop of a match option ends on `=>` |
| ExpressionParser.VariableType | crates/rosarioparser/src/parser.rs:1054-1063 | a variable has a type signature exactly when `<` follows its name |
| ExpressionParser.EnumConstructor | crates/rosarioparser/src/parser.rs:1065-1099 | `T::V` needs a known enum type `T` and gives `NewEnum` with the index of the first variant named `V`, or 0 when there is none |
| ExpressionParser.ParseNode | crates/rosarioparser/src/parser.rs:1183-1290 | the node read never leaves the cursor before where it started |
| ExpressionParser.ParseOperator | crates/rosarioparser/src/parser.rs:1208-1290 | an operator node never leaves the cursor before the operator |
| ExpressionParser.ParseVariable | crates/rosarioparser/src/parser.rs:1047-1126 | a variable, call or enum constructor never leaves the cursor before the name |
| ExpressionParser.Arguments | crates/rosarioparser/src/parser.rs:1108-1120 | the argument loop never leaves the cursor before where it started |
| ExpressionParser.ParseLet | crates/rosarioparser/src/parser.rs:1530-1573 | a `let` never leaves the cursor before the keyword |
| ExpressionParser.ParseBody | crates/rosarioparser/src/parser.rs:1575-1614 | a body never leaves the cursor before where it started |
| ExpressionParser.Statements | crates/rosarioparser/src/parser.rs:1587-1607 | the statement loop never leaves the cursor before where it started |
| ExpressionParser.ParseIf | crates/rosarioparser/src/parser.rs:1309-1361 | an `if` never leaves the cursor before the keyword |
| ExpressionParser.Branches | crates/rosarioparser/src/parser.rs:1318-1356 | the branch loop never leaves the cursor before where it started |
| ExpressionParser.ParseMatch | crates/rosarioparser/src/parser.rs:1472-1528 | a `match` never leaves the cursor before the keyword |
| ExpressionParser.Arms | crates/rosarioparser/src/parser.rs:1489-1507 | the arm loop never leaves the cursor before where it started |
| ExpressionParser.ParseArm | crates/rosarioparser/src/parser.rs:1490-1506 | an arm moves the cursor forward |
| ExpressionFacts.StatementsEndAtStop | crates/rosarioparser/src/parser.rs:1587-1607 | the statement loop ends on its stop token: `end`, or one of `elsif`/`else`/`end` inside an `if` |
| ExpressionFacts.BranchEndsAtStop | crates/rosarioparser/src/parser.rs:1309-1361 | a branch of an `if` ends on `elsif`, `else` or `end` |
| ExpressionFacts.PowerTakesLeftOfSum | crates/rosarioparser/src/parser.rs:1248-1264 | after `**`, a right side `l + r` or `l - r` becomes `(left ** l) - r`, whichever sign it had |
| ExpressionFacts.VariableBeforeDelimiter | crates/rosarioparser/src/parser.rs:1176-1307 | a name right before a delimiter is a variable, and the cursor stays on it |
| ExpressionFacts.LetReadBack | crates/rosarioparser/src/parser.rs:1530-1573 | `let [mutable] name: Type = e` reads back as a `Let`, mutable exactly when `mutable` follows `let`, with that name, type and initializer, the initializer parsed with the bound name |
| ExpressionFacts.CallReadBack | crates/rosarioparser/src/parser.rs:1100-1125 | a name followed by `(` reads back as a call of that name with the arguments read after it |
| ExpressionFacts.IfElseReadBack | crates/rosarioparser/src/parser.rs:1309-1361 | a `then` branch followed by `else`, an `else` branch and `end if` read back as an `If` of exactly those two branches, ending on the closing `if` |
| ExpressionFacts.IfExample | crates/rosarioparser/src/parser.rs:1309-1361 | `if x then y; else z; end if` gives the branches `(x, [y])` and `(z, [])`: the first expression after `else` is read as a condition |
| ExpressionFacts.MatchReadBack | crates/rosarioparser/src/parser.rs:1472-1528 | a condition, `is`, the arms and `end match` read back as a `Match` of that condition and those arms, ending on the closing `match` |
| ExpressionFacts.MatchExample | crates/rosarioparser/src/parser.rs:1472-1528 | `match x is A => y, end match` gives one arm, from the option `A` to `y` |
| ExpressionFacts.BodyExample | crates/rosarioparser/src/parser.rs:1575-1614 | `begin x; end` gives a body of the one statement `x`, ending on `end` |
| GenericPass.PopLast | crates/rosarioparser/src/all_passes/generic_solver_pass.rs:20-21 | `String::pop` drops the last character, if there is one |
| GenericPass.SolvedSignature | crates/rosarioparser/src/all_passes/generic_solver_pass.rs:11-25 | the solved signature has no generics |
| GenericPass.SolvedNameJoinsGenerics | crates/rosarioparser/src/all_passes/generic_solver_pass.rs:11-25 | the solved name is the base name, `_`, then the generic names joined by `_` |
| GenericPass.UnderscoredPops | crates/rosarioparser/src/all_passes/generic_solver_pass.rs:14-21 | popping the trailing `_` leaves the names joined by `_` |
| GenericPass.SolveAll | crates/rosarioparser/src/all_passes/generic_solver_pass.rs:30-34 | a body's statements are rewritten one for one |
| GenericPass.SolveExpression | crates/rosarioparser/src/all_passes/generic_solver_pass.rs:27-55 | every instantiation an expression asks for writes generics |
| GenericPass.SettledIsFixed | crates/rosarioparser/src/all_passes/generic_solver_pass.rs:27-55 | an expression asks for nothing exactly when no reachable `Let`/`NewEnum` has generics, and then it is unchanged |
| GenericPass.SettledAllIsFixed | crates/rosarioparser/src/all_passes/generic_solver_pass.rs:30-34 | the same for each statement of a body |
| GenericPass.SolveSettles | crates/rosarioparser/src/all_passes/generic_solver_pass.rs:36-47 | after one call, no reachable `Let`/`NewEnum` has generics |
| GenericPass.SolveAllSettles | crates/rosarioparser/src/all_passes/generic_solver_pass.rs:30-34 | the same for a body |
| GenericPass.SolveIsIdempotent | crates/rosarioparser/src/all_passes/generic_solver_pass.rs:27-55 | a second call asks for nothing and changes nothing |
| GenericPass.SolveProcedures | crates/rosarioparser/src/all_passes/generic_solver_pass.rs:119-131 | procedures are rewritten one for one and keep their signatures |
| GenericPass.AddRequests | crates/rosarioparser/src/all_passes/generic_solver_pass.rs:122-129 | a package's request list is extended, or created when absent |
| GenericPass.CollectRequests | crates/rosarioparser/src/all_passes/generic_solver_pass.rs:118-144 | collecting changes only the private procedures of each package and keeps the package keys |
| GenericPass.AddPerProcedure | crates/rosarioparser/src/all_passes/generic_solver_pass.rs:120-130 | the per-procedure extends add exactly what the package's procedures ask for |
| GenericPass.ConversionMap | crates/rosarioparser/src/all_passes/generic_solver_pass.rs:57-72 | the conversion map is built exactly when the requested list is at least as long as the original |
| GenericPass.ConversionMapIsPositional | crates/rosarioparser/src/all_passes/generic_solver_pass.rs:57-72 | a name maps to the requested name at the position of its last occurrence in the original list |
| GenericPass.ConversionMapOfDistinct | crates/rosarioparser/src/all_passes/generic_solver_pass.rs:57-72 | with distinct names, the k-th original generic maps to the k-th requested one |
| GenericPass.SubstituteArgument | crates/rosarioparser/src/all_passes/generic_solver_pass.rs:89-106 | a mapped `Generic` payload becomes a concrete type with no generics, and anything else is unchanged |
| GenericPass.SubstituteArguments | crates/rosarioparser/src/all_passes/generic_solver_pass.rs:88-107 | every payload of a variant is substituted one for one |
| GenericPass.SubstituteVariants | crates/rosarioparser/src/all_passes/generic_solver_pass.rs:87-108 | every variant keeps its index and name; only its payload changes |
| GenericPass.ConvertToSolvedType | crates/rosarioparser/src/all_passes/generic_solver_pass.rs:74-115 | an enum with its generics substituted and its traits kept; anything but an enum, or a too-short request, fails |
| GenericPass.SubstituteReturn | crates/rosarioparser/src/all_passes/generic_solver_pass.rs:165-187 | a public function returning a mapped generic returns the concrete type; nothing else changes |
| GenericPass.InstantiateImplementation | crates/rosarioparser/src/all_passes/generic_solver_pass.rs:161-187 | a copied implementation differs only in its public functions' return types |
| GenericPass.CopyImplementations | crates/rosarioparser/src/all_passes/generic_solver_pass.rs:158-203 | copying adds only keys for the solved signature and leaves every other key as it was |
| GenericPass.CopyFromKey | crates/rosarioparser/src/all_passes/generic_solver_pass.rs:159-202 | within one map, the solved key of trait `t` holds the implementation of `(t, original)` with its generic returns substituted, and keeps its old entry when the map has none |
| GenericPass.CopyImplementationsLastWins | crates/rosarioparser/src/all_passes/generic_solver_pass.rs:158-203 | across packages in key order, the last package holding `(t, original)` decides the copy stored under `(t, solved)` |
| GenericPass.CopyImplementationsNoneKeeps | crates/rosarioparser/src/all_passes/generic_solver_pass.rs:158-203 | when no package holds `(t, original)`, `(t, solved)` keeps what the results held |
| GenericPass.CopyFrom | crates/rosarioparser/src/all_passes/generic_solver_pass.rs:159-202 | the same for one package's implementations |
| GenericPass.SolveRequest | crates/rosarioparser/src/all_passes/generic_solver_pass.rs:134-212 | an already-solved instantiation is skipped; otherwise the lookup by name succeeds, the package's results hold the converted type under the solved signature and the copied implementations, and other packages are unchanged |
| GenericPass.SolveRequestList | crates/rosarioparser/src/all_passes/generic_solver_pass.rs:134-213 | a package's requests touch only that package's results |
| GenericPass.Run | crates/rosarioparser/src/all_passes/generic_solver_pass.rs:117-215 | the package map changes only in private procedures' bodies, and keeps its keys |
| GenericPass.RepeatedRequestIsSkipped | crates/rosarioparser/src/all_passes/generic_solver_pass.rs:134-144 | a request solved once adds nothing the second time |
| GenericPass.SolveProceduresAsks | crates/rosarioparser/src/all_passes/generic_solver_pass.rs:120-130 | what any procedure asks for is among its package's requests |
| GenericPass.AddPerProcedureGrows | crates/rosarioparser/src/all_passes/generic_solver_pass.rs:124-130 | extending keeps earlier requests |
| GenericPass.AddPerProcedureKeepsOthers | crates/rosarioparser/src/all_passes/generic_solver_pass.rs:124-130 | extending one package's requests leaves the others alone |
| GenericPass.CollectAsksEverything | crates/rosarioparser/src/all_passes/generic_solver_pass.rs:118-144 | every instantiation any private procedure asks for is recorded |
| GenericPass.SolveRequestKeepsSolved | crates/rosarioparser/src/all_passes/generic_solver_pass.rs:134-212 | solving keeps the results sorted, keeps what was solved, and solves the request |
| GenericPass.SolveRequestListSolves | crates/rosarioparser/src/all_passes/generic_solver_pass.rs:134-213 | after a package's loop every one of its requests is solved, and earlier solutions remain |
| GenericPass.SolveRequestsSolves | crates/rosarioparser/src/all_passes/generic_solver_pass.rs:133-214 | after the outer loop every request is solved |
| GenericPass.SolveRequestsKeepsSolved | crates/rosarioparser/src/all_passes/generic_solver_pass.rs:133-214 | the outer loop keeps every earlier solution |
| GenericPass.RunSolvesEveryRequest | crates/rosarioparser/src/all_passes/generic_solver_pass.rs:117-215 | every instantiation asked for by any private procedure ends up in the generic results |
| ImplicitPass.FirstDefinitionNone | crates/rosarioparser/src/all_passes/implicit_trait_pass.rs:11-40 | a signature has no definition exactly when no package defines it, privately or publicly |
| ImplicitPass.FirstDefinitionIsFirst | crates/rosarioparser/src/all_passes/implicit_trait_pass.rs:15-36 | the first defining package in key order wins, and its private definition wins over its public one |
| ImplicitPass.Resolve | crates/rosarioparser/src/all_passes/implicit_trait_pass.rs:11-40 | resolution ends on a type that is not an alias, and fails when the signature is not defined |
| ImplicitPass.ResolveFuelIsEnough | crates/rosarioparser/src/all_passes/implicit_trait_pass.rs:11-40 | more fuel never changes a resolution that already ended |
| ImplicitPass.ResolveReadsTypes | crates/rosarioparser/src/all_passes/implicit_trait_pass.rs:11-40 | resolution reads only the packages' type maps |
| ImplicitPass.TraitNamed | crates/rosarioparser/src/all_passes/implicit_trait_pass.rs:132-136 | the first key with the name in one map (no earlier key has it), or none exactly when there is none |
| ImplicitPass.FindTraitByName | crates/rosarioparser/src/all_passes/implicit_trait_pass.rs:130-140 | a trait of the first package, in key order, whose public traits have the name, found by `TraitNamed`; a panic exactly when none exists |
| ImplicitPass.SameTraitsSameTrait | crates/rosarioparser/src/all_passes/implicit_trait_pass.rs:130-140 | the lookup reads only the public traits |
| ImplicitPass.MinMax | crates/rosarioparser/src/all_passes/implicit_trait_pass.rs:59-75 | `Min` and `Max` take no arguments, return the type's own signature as not mutable, and have the range's bounds as bodies |
| ImplicitPass.RangeBehind | crates/rosarioparser/src/all_passes/implicit_trait_pass.rs:46-124 | a range type gives its range; an alias succeeds exactly when its chain resolves to a range and then gives that range, and fails as unimplemented when it resolves to anything else; any other kind gives none |
| ImplicitPass.AppendTo | crates/rosarioparser/src/all_passes/implicit_trait_pass.rs:53-59 | `entry().or_insert` then pushes: the functions are appended to the entry or to a new default, and every other key is unchanged |
| ImplicitPass.Step | crates/rosarioparser/src/all_passes/implicit_trait_pass.rs:47-125 | one type changes only keys for its own signature, and only under the `Range` trait |
| ImplicitPass.StepAppendsPair | crates/rosarioparser/src/all_passes/implicit_trait_pass.rs:47-125 | a range-backed type gets `Min` and `Max` appended under its `Range` key |
| ImplicitPass.Synthesize | crates/rosarioparser/src/all_passes/implicit_trait_pass.rs:46-126 | the loop changes only keys of the package's public types, and only under the `Range` trait |
| ImplicitPass.RunOn | crates/rosarioparser/src/all_passes/implicit_trait_pass.rs:42-128 | each package's implementations are replaced by its synthesized ones, and nothing else changes |
| ImplicitPass.Run | crates/rosarioparser/src/all_passes/implicit_trait_pass.rs:42-128 | only implementations change; names, types, traits and procedures stay as they were |
| ImplicitPass.SynthesizeAppendsPair | crates/rosarioparser/src/all_passes/implicit_trait_pass.rs:46-126 | the loop reaches every public type, and a range-backed one gets its pair |
| ImplicitPass.RangeTypesGetMinMax | crates/rosarioparser/src/all_passes/implicit_trait_pass.rs:46-76 | every public range-backed type of every package gets `Min` and `Max` under its `Range` key |
| ImplicitPass.RunKeepsLookups | crates/rosarioparser/src/all_passes/implicit_trait_pass.rs:42-128 | the pass writes nothing its lookups read |
| ImplicitPass.RunTwiceAppendsTwice | crates/rosarioparser/src/all_passes/implicit_trait_pass.rs:53-59 | running the pass twice appends the pair twice, leaving four functions |
| ImplicitPass.OnlyRangeBackedTypesChange | crates/rosarioparser/src/all_passes/implicit_trait_pass.rs:46-124 | private types get no synthesized implementation |
| StaticPass.ImplementationsIn | crates/rosarioparser/src/all_passes/static_number_solver_pass.rs:17-21 | exactly the entries of one map implemented for the signature |
| StaticPass.FindImplementations | crates/rosarioparser/src/all_passes/static_number_solver_pass.rs:11-25 | exactly the implementations for the signature, each from some package |
| StaticPass.KeyIndices | crates/rosarioparser/src/all_passes/static_number_solver_pass.rs:17-21 | the positions in one map implemented for the signature, ascending and all of them |
| StaticPass.Places | crates/rosarioparser/src/all_passes/static_number_solver_pass.rs:16-22 | every (package, entry) position implemented for the signature, ordered by package and then by entry |
| StaticPass.ImplementationsInOrder | crates/rosarioparser/src/all_passes/static_number_solver_pass.rs:17-21 | one map's implementations are listed in key order: exactly the entries at `KeyIndices` |
| StaticPass.FindImplementationsInOrder | crates/rosarioparser/src/all_passes/static_number_solver_pass.rs:11-25 | the search lists exactly the entries at `Places`: package order, then key order |
| StaticPass.AsU32 | crates/rosarioparser/src/all_passes/static_number_solver_pass.rs:56-65 | `as u32` keeps the low 32 bits, so values already in range are kept |
| StaticPass.Checked | crates/rosarioparser/src/all_passes/static_number_solver_pass.rs:36-76 | a result in `i128` range is kept; one outside it is an overflow |
| StaticPass.FoldIsArithmetic | crates/rosarioparser/src/all_passes/static_number_solver_pass.rs:27-105 | constant arithmetic folds to its value (reference `Value`) exactly when it has no fraction and every step fits in `i128`; otherwise it is unimplemented or an overflow |
| StaticPass.Fold | crates/rosarioparser/src/all_passes/static_number_solver_pass.rs:27-105 | a literal folds exactly when it has no fraction; only literals, `+`, `-`, `**`, parentheses, signs and argument-less calls through a type give a value |
| StaticPass.FoldCall | crates/rosarioparser/src/all_passes/static_number_solver_pass.rs:78-102 | a call with arguments never folds, and a value comes only from a candidate function with the call's name |
| StaticPass.LiteralFoldsToItself | crates/rosarioparser/src/all_passes/static_number_solver_pass.rs:32-35 | a literal folds to its own value, whatever its tag |
| StaticPass.FoldFunction | crates/rosarioparser/src/all_passes/static_number_solver_pass.rs:112-147 | a folding body becomes a literal tagged with the return type, a non-folding body is kept, and a folding function with no type return fails |
| StaticPass.FoldFunctions | crates/rosarioparser/src/all_passes/static_number_solver_pass.rs:112-147 | each function is folded in place |
| StaticPass.FoldImplementation | crates/rosarioparser/src/all_passes/static_number_solver_pass.rs:110-148 | only an implementation's functions and public functions change |
| StaticPass.FoldImplementations | crates/rosarioparser/src/all_passes/static_number_solver_pass.rs:110-148 | each implementation is folded in place, and the keys are kept |
| StaticPass.FoldType | crates/rosarioparser/src/all_passes/static_number_solver_pass.rs:152-191 | a range's bounds become literals tagged with the type's signature when both fold; otherwise the range and every non-range type are unchanged |
| StaticPass.FoldTypes | crates/rosarioparser/src/all_passes/static_number_solver_pass.rs:151-191 | each type is folded in place, and the keys are kept |
| StaticPass.FoldPackage | crates/rosarioparser/src/all_passes/static_number_solver_pass.rs:107-193 | only implementations and types change |
| StaticPass.RunOn | crates/rosarioparser/src/all_passes/static_number_solver_pass.rs:107-193 | each package is folded in place |
| StaticPass.Run | crates/rosarioparser/src/all_passes/static_number_solver_pass.rs:107-193 | procedures, top-level functions, traits and imports are untouched |
| StaticFacts.FoldFuelIsEnough | crates/rosarioparser/src/all_passes/static_number_solver_pass.rs:78-102 | more fuel never changes a fold that already ended |
| StaticFacts.FoldIsStable | crates/rosarioparser/src/all_passes/static_number_solver_pass.rs:78-102 | a fold gives the same result over the packages after the pass as before |
| StaticFacts.RunRefolds | crates/rosarioparser/src/all_passes/static_number_solver_pass.rs:107-193 | after one run every call sees the same candidates, folded |
| StaticFacts.FoldFunctionAgain | crates/rosarioparser/src/all_passes/static_number_solver_pass.rs:112-147 | folding a folded function changes nothing |
| StaticFacts.FoldTypeAgain | crates/rosarioparser/src/all_passes/static_number_solver_pass.rs:152-191 | folding a folded type changes nothing |
| StaticFacts.FoldPackageAgain | crates/rosarioparser/src/all_passes/static_number_solver_pass.rs:107-193 | folding a folded package changes nothing |
| StaticFacts.RunIsIdempotent | crates/rosarioparser/src/all_passes/static_number_solver_pass.rs:107-193 | the pass is idempotent: running it on its own result succeeds and changes nothing |
| Pipeline.StandardPass | crates/rosarioparser/src/all_passes/mod.rs:11-15 | the generic results are those of the generic pass alone, and the package keys are kept |
| Pipeline.StandardPassStages | crates/rosarioparser/src/all_passes/mod.rs:11-15 | the pipeline is the generic, implicit and static passes, once each, in that order |
| Pipeline.OnlyBodiesImplementationsAndTypesChange | crates/rosarioparser/src/all_passes/mod.rs:11-15 | a package changes only in private procedures (from the generic pass), implementations and types; public procedures and top-level functions are as parsed |
| Pipeline.RangeBoundsEndAsLiterals | crates/rosarioparser/src/all_passes/mod.rs:13-14 | a public range type with constant bounds ends with `Min` and `Max` whose bodies are its bounds' values, as literals tagged with its signature |
| Pipeline.ImplementedMinMax | crates/rosarioparser/src/all_passes/implicit_trait_pass.rs:46-76 | after the generic pass, the implicit pass appends the pair for each public range type |
| Pipeline.StaticFoldsMinMax | crates/rosarioparser/src/all_passes/static_number_solver_pass.rs:109-148 | the static pass folds a trailing `Min`/`Max` pair to the bounds' values |
| Pipeline.FoldedBound | crates/rosarioparser/src/all_passes/static_number_solver_pass.rs:131-147 | a constant bound function keeps its signature and gets a tagged literal of the bound's value |
| ArenaAst.BinOpOrderIsTotal | crates/rosarioparser/src/parser/ast.rs:185-199 | the operator order is strict and total, and runs Unknown < Sub < Add < Div < Mul < ToThePowerOf < the compound assignments |
| ArenaAst.TypeSignatureOrderIsTotal | crates/rosarioparser/src/parser/ast.rs:200-205 | type signatures order by owner, then name, as a strict total order |
| ArenaAst.OwnerOrderIsTotal | crates/rosarioparser/src/parser/ast.rs:108-114 | the derived owner order, `Unknown` before `Path` before `Type` and then by payload, is strict and total |
| ArenaAst.ReturnTypeOrderIsTotal | crates/rosarioparser/src/parser/ast.rs:122 | the derived order on an optional return type, none first, is strict and total |
| ArenaAst.DefinitionSignatureOrderIsTotal | crates/rosarioparser/src/parser/ast.rs:110-124 | the definition signature order is strict and total |
| ArenaAst.NewExpression | crates/rosarioparser/src/parser/ast.rs:15-55 | the counter grows by one; the node is stored under the new, nonzero id that was unused; every other id keeps its node |
| ArenaAst.SetExpression | crates/rosarioparser/src/parser/ast.rs:61-63 | a write through an existing id changes that node only |
| ArenaAst.NewVariable | crates/rosarioparser/src/parser/ast.rs:65-77 | both counters grow; the variable is stored under its signature and new id; the returned expression id has no node |
| ArenaAst.NewType | crates/rosarioparser/src/parser/ast.rs:28-30 | an insert under (owner, name) that overwrites that key only and keeps the map sorted |
| ArenaAst.NewDefinition | crates/rosarioparser/src/parser/ast.rs:24-26 | an insert under the signature that overwrites that key only and keeps the map sorted |
| ArenaAst.FindTypeSignatureOwner | crates/rosarioparser/src/parser/ast.rs:79-87 | the owner of the first type in key order with the name, or the empty string when there is none |
| ArenaAst.GetBinaryOperator | crates/rosarioparser/src/parser/ast.rs:157-171 | some operator exactly when the node is a binary operation |
| ArenaParser.CurrentToken | crates/rosarioparser/src/parser/mod.rs:407-413 | the token before the 1-based cursor; fails at 0 and past the end |
| ArenaParser.Advance | crates/rosarioparser/src/parser/mod.rs:397-400 | exactly one step forward, and fails past the end |
| ArenaParser.GoBack | crates/rosarioparser/src/parser/mod.rs:402-405 | exactly one step back, and fails when at the first token |
| ArenaParser.AdvanceThenGoBack | crates/rosarioparser/src/parser/mod.rs:397-405 | going forward and back restores the state |
| ArenaParser.GoBackThenAdvance | crates/rosarioparser/src/parser/mod.rs:397-405 | going back and forward restores the state |
| ArenaParser.GetIdentifier | crates/rosarioparser/src/parser/mod.rs:390-395 | succeeds exactly on an identifier and returns its name |
| ArenaParser.Expect | crates/rosarioparser/src/parser/mod.rs:135-140 | passes exactly when the current token is the expected one |
| ArenaParser.IsTokenDelimiter | crates/rosarioparser/src/parser/mod.rs:342-347 | only `;` and `..` are delimiters |
| ArenaParser.BinOpTokenToType | crates/rosarioparser/src/parser/mod.rs:248-257 | exactly `+`, `-`, `*`, `/` and `**` are binary operators, and each gives the operator written with that symbol |
| ArenaParser.ParseU128 | crates/rosarioparser/src/parser/mod.rs:309-340 | digits parse to their value when it fits in `u128`, and to none otherwise |
| ArenaParser.CombineNests | crates/rosarioparser/src/parser/mod.rs:259-307 | a right operand that is not a binary operation, or whose operator is greater, becomes the right child of a new node, and nothing else changes |
| ArenaParser.CombineRotates | crates/rosarioparser/src/parser/mod.rs:271-301 | otherwise the right operand's left child is replaced by a new node over `left` and that child, and the right operand's id is returned |
| ArenaParser.CombineKeepsChildless | crates/rosarioparser/src/parser/mod.rs:271-301 | a rotated right operand without a left child is returned unchanged, and no node is made |
| ArenaParser.Combine | crates/rosarioparser/src/parser/mod.rs:259-307 | only the arena's expressions and counter change, and the numbering stays fresh |
| ArenaParser.NumberNode | crates/rosarioparser/src/parser/mod.rs:317-323 | a number succeeds exactly when its digit strings parse as `u128`, and the number is stored under the fresh id (the counter plus one, which becomes the new counter) with every other node kept |
| ArenaParser.ParseBinaryOperator | crates/rosarioparser/src/parser/mod.rs:259-307 | an operator step leaves the definitions, types and current definition alone and keeps the numbering fresh |
| ArenaParser.ParseExpression | crates/rosarioparser/src/parser/mod.rs:309-340 | an expression ends right before a delimiter |
| ArenaParser.ParseStatements | crates/rosarioparser/src/parser/mod.rs:352-366 | the statement loop ends on `end` or the end of the file |
| ArenaParser.ParseStatement | crates/rosarioparser/src/parser/mod.rs:357-365 | a statement is followed by `;`, and the cursor moves past it |
| ArenaParser.StatementsExtend | crates/rosarioparser/src/parser/mod.rs:352-366 | statements are appended after those already read |
| ArenaParser.ParseBody | crates/rosarioparser/src/parser/mod.rs:349-371 | the node stored under the returned id is a `Body` of the statements read after `begin` |
| ArenaParser.SkipSemicolon | crates/rosarioparser/src/parser/mod.rs:359-365 | passes exactly on `;`, and moves past it |
| ArenaParser.ParseEnding | crates/rosarioparser/src/parser/mod.rs:373-388 | requires `end`, then the expected name when one is given |
| ArenaParser.ParseLet | crates/rosarioparser/src/parser/mod.rs:170-208 | a `let` succeeds only inside a definition, and the newest variable of that definition has the name after `let` and the type after `:`, and is a plain value |
| ArenaParser.ParseTypeSignature | crates/rosarioparser/src/parser/mod.rs:126-133 | a name whose owner is that of the first known type with the name; the cursor does not move |
| ArenaParser.ParseGenerics | crates/rosarioparser/src/parser/mod.rs:210-246 | unless the current token is `>`, there are no generics and the cursor steps back |
| ArenaParser.GenericEntries | crates/rosarioparser/src/parser/mod.rs:220-243 | the entry loop ends on a `>` |
| ArenaParser.GenericEntry | crates/rosarioparser/src/parser/mod.rs:221-238 | an entry is read exactly when a name is followed by `,`, `of` or `>`, and records both |
| ArenaParser.EntriesAtReadBack | crates/rosarioparser/src/parser/mod.rs:220-243 | well-formed entries standing at the cursor are read back, with the cursor on their `>` |
| ArenaParser.GenericsPrinted | crates/rosarioparser/src/parser/mod.rs:210-246 | a printed generic list stands where it is written |
| ArenaParser.GenericsReadBack | crates/rosarioparser/src/parser/mod.rs:210-246 | round trip: a printed generic list, empty or well formed, is read back |
| ArenaParser.ParsePrintedGenerics | crates/rosarioparser/src/parser/mod.rs:210-246 | round trip in one step: `parse_generics` on a printed list, empty or well formed, wherever it stands, gives the list back with the cursor on its closing `>` |
| ArenaParser.SkipToClose | crates/rosarioparser/src/parser/mod.rs:97-100 | the skipping loop stops on the first `)` |
| ArenaParser.ParseDefinitionSignature | crates/rosarioparser/src/parser/mod.rs:86-120 | the arguments are always empty, the owner is the file's path, the name is the first token, and a return type carries the owner `find_type_signature_owner` gives its name |
| ArenaParser.ParseReturnType | crates/rosarioparser/src/parser/mod.rs:102-112 | there is a return type exactly when the cursor moved past `=>`, and it is the name after `=>` with the owner `find_type_signature_owner` gives it |
| ArenaParser.ParseRange | crates/rosarioparser/src/parser/mod.rs:68-84 | a range moves the cursor forward |
| ArenaParser.ParseType | crates/rosarioparser/src/parser/mod.rs:38-66 | `type Name is range …;` stores `Range` of the bounds `parse_range` reads after `range`, with no generics, under (the file's path, Name); every other type key keeps its entry, the types stay sorted, and the definitions are left alone |
| ArenaParser.RangeType | crates/rosarioparser/src/parser/mod.rs:51-65 | the range arm stores `Range` of the parsed bounds, with no generics, under the signature, keeps every other type key and keeps the types sorted |
| ArenaParser.StoreRangeType | crates/rosarioparser/src/parser/mod.rs:65 | the `new_type` call stores exactly the given range, with no generics, under the signature, and every other type key keeps its entry |
| ArenaParser.ParseProcedure | crates/rosarioparser/src/parser/mod.rs:142-168 | a procedure clears the current definition, leaves the types alone, keeps the definitions sorted, and stores a definition under (the file's path, the name after `procedure`, no arguments) while every other signature keeps its entry |
| ArenaParser.ProcedureBody | crates/rosarioparser/src/parser/mod.rs:149-167 | after `is`, the body expression parsed with the procedure's name is stored under the signature, and every other signature keeps its entry |
| ArenaParser.StoreDefinition | crates/rosarioparser/src/parser/mod.rs:163-167 | the body id is stored under the signature, every other signature keeps its entry, and the current definition is cleared |
| ArenaParser.Items | crates/rosarioparser/src/parser/mod.rs:21-36 | the item loop keeps the numbering fresh and both maps sorted |
| ArenaParser.Start | crates/rosarioparser/src/parser/mod.rs:21-36 | the arena of a file has fresh numbering and sorted maps, and no tokens fail |
| ArenaParser.Parse | crates/rosarioparser/src/parser/mod.rs:21-36 | lexing then parsing gives an arena with fresh numbering |

## Left out

- DeclarationParser.ParseImplementation: the contract fixes only where the block ends; what each member contributes is stated on `DeclarationParser.ParseMember`.
- DeclarationParser.ParseTraitDecl: for a trait with a body the contract fixes only where it ends, because `main_pass` drops the signatures it reads.
- The C code generator, the CLI, `parse_core` and the tests: they are outside the front end.
- `Lexer::from` and `Lexer::from_file`: they read files and canonicalize paths. The model starts from the input bytes, and file names are input strings.
- The `package` branch of `main_pass`: it reads and parses a sibling file. In the model it is an unimplemented failure.
- `Parser::start` of `parser.rs` and the older passes inside `parser.rs` (lines 438-682): the `all_passes` versions are modelled once.
- `parse_match_option_variables`: it is modelled only as far as the match option loop reaches it.
- Token locations are kept, but no contract states them beyond the lexer's `Advance` and `GoBack`.
- `Lexer` (lexer.rs:135) has no `main_rosario_path` field, which parser/mod.rs:123 reads; the model takes it as an input string.
- Fuel: alias resolution, folding and recursive calls in folding are bounded by fuel. Running out is the `Diverges` failure, which the source would show as an endless loop or a stack overflow.
- The `u64` expression and variable counters of the arena are unbounded naturals. Wrap-around after 2^64 nodes is not modelled.
- `pow` overflow in folding: `i128::pow` panics on overflow in a debug build. The model reports the `Overflow` failure for every intermediate value outside the `i128` range, including a power.
- Old-parser `Number` nodes carry no type tag, as the older parser builds them.
- Trait declarations are parsed and dropped by `main_pass`, so no trait is ever stored.
- Lexer.DropUnderscores: its own contract states only that no `_` is left and the length bound; what it keeps is stated by `Lexer.DropUnderscoresFilters`.
- Lexer.GetToken: the token kind is stated by `Lexer.LexAt`, not by this contract.
- ParserBase.ParseGenerics: its own contract states only the cursor; the list it returns is stated by `ParserBase.ParsedGenericsArePrinted` and `ParserBase.ParsePrintedGenerics`.
- ExpressionParser.ParseExpression: the contract states where an expression ends, not the tree it builds; `ExpressionFacts.PowerTakesLeftOfSum` states the `**` case.
- ExpressionParser.ContinueAfter: the contract states where parsing ends, not the tree.
- ExpressionParser.ParseStatement: the contract states only that the cursor moves forward.
- ExpressionParser.ParseBranch: the contract states only that the cursor moves forward; `ExpressionFacts.BranchEndsAtStop` states where it ends.
- ExpressionParser.ParseMatchOption: the contract states where the option ends, not the option's shape.
- ExpressionParser.OptionNames: the contract states only where the loop ends.
- ArenaParser.ParseExpression: the contract states where an expression ends, not the tree; `ArenaParser.CombineNests` and `ArenaParser.CombineRotates` state the operator step.
- ArenaParser.ParseRange: the contract states only the cursor.
- ArenaParser.ParseStatements: the contract states where the loop ends; `ArenaParser.StatementsExtend` states the contents.
- ArenaParser.Start: a non-empty token sequence is not shown to succeed; only the arena's invariants are stated.
- ArenaParser.Parse: only the numbering invariant is stated.
- Pipeline.RangeBoundsEndAsLiterals: covers a public type whose own content is a range with constant bounds, not an alias to one.
- ImplicitPass.OnlyRangeBackedTypesChange: states that keys outside the public types are untouched; public enum, modulo and empty types are covered by `ImplicitPass.RangeBehind` returning none.
- ExpressionParser.ParseNode: the contract states only the cursor; the nodes are stated by `ExpressionFacts.VariableBeforeDelimiter`, `ExpressionFacts.PowerTakesLeftOfSum` and the read-back lemmas.
- ExpressionParser.ParseOperator: the contract states only the cursor; `ExpressionFacts.PowerTakesLeftOfSum` states the `**` case.
- ExpressionParser.ParseVariable: the contract states only the cursor; `ExpressionFacts.CallReadBack` states calls and `ExpressionParser.EnumConstructor` enum constructors.
- ExpressionParser.Arguments: the contract states only the cursor; the arguments appear in `ExpressionFacts.CallReadBack` as whatever the loop reads.
- ExpressionParser.ParseLet: the contract states only the cursor; `ExpressionFacts.LetReadBack` states the node.
- ExpressionParser.ParseBody: the contract states only the cursor; `ExpressionFacts.BodyExample` and `ExpressionFacts.StatementsEndAtStop` state contents and end.
- ExpressionParser.Statements: the contract states only the cursor; `ExpressionFacts.StatementsEndAtStop` states where the loop ends.
- ExpressionParser.ParseIf: the contract states only the cursor; `ExpressionFacts.IfElseReadBack` reads back an `if` with one `then` and one `else` branch, and no lemma covers `elsif` chains.
- ExpressionParser.Branches: the contract states only the cursor; see `ExpressionFacts.IfElseReadBack`.
- ExpressionParser.ParseMatch: the contract states only the cursor; `ExpressionFacts.MatchReadBack` states the node for a `match` ended without a name.
- ExpressionParser.Arms: the contract states only the cursor; see `ExpressionFacts.MatchReadBack`.
- ExpressionParser.ParseArm: the contract states only the cursor.
- ArenaParser.ParseBinaryOperator: the contract states only the state it keeps; the node built is stated by `ArenaParser.CombineNests` and `ArenaParser.CombineRotates`.
- ArenaParser.ParseLet: the generics and initializer of the stored variable are not stated.
- ArenaParser.ParseProcedure: the body id stored is stated by `ArenaParser.ProcedureBody`, not by this contract.
- StaticPass.Fold: the value folded is stated by `StaticPass.FoldIsArithmetic` for arithmetic, not by this contract.
- StaticPass.FoldCall: which candidate's value is returned is not stated.
- GenericPass.SolveExpression: the rewritten expression is stated by `GenericPass.SolveSettles` and `GenericPass.SettledIsFixed`, not by this contract.

=== FILE: arena_ast.dfy ===
/** The arena syntax tree of the parser rewrite (`crates/rosarioparser/src/parser/ast.rs`).

    Expressions live in one map keyed by `ExpressionId` and refer to each other by
    id. A counter hands out the ids: every node constructor increments it first and
    stores the node under the new value, so ids are fresh, strictly increasing and
    never 0, which the parser uses as "no node". Variables live in a second map,
    per definition, under ids from their own counter.

    Every map is a `BTreeMap`, modelled as the entry sequence in key order; the key
    orders are the ones `#[derive(PartialOrd, Ord)]` gives the key types.
 */
module ArenaAst {
  import opened Outcome
  import opened Order
  import opened OrdMap

  type ExpressionId = nat
  type VariableId = nat

  /** The id the parser uses for "no node"; the counter never hands it out. */
  const NoExpression: ExpressionId := 0

  datatype TypeSignature = TypeSignature(owner: string, name: string)

  datatype GenericEnd = Nothing | Comma | Of

  datatype Generic = Generic(name: string, end: GenericEnd)

  datatype Range = Range(min: ExpressionId, max: ExpressionId)

  datatype TypeBody = Unknown | RangeBody(range: Range)

  datatype RosarioType = RosarioType(generics: seq<Generic>, body: TypeBody)

  datatype DefinitionOwner = UnknownOwner | Path(path: string) | OwnerType(sig: TypeSignature)

  datatype DefinitionSignature = DefinitionSignature(
    owner: DefinitionOwner,
    name: string,
    args: seq<VariableId>,
    returnType: Option<TypeSignature>)

  datatype VariableType = UnknownVariable | Value | Reference | MutableValue | MutableReference

  datatype Variable = Variable(
    name: string,
    ty: TypeSignature,
    variableType: VariableType,
    generics: seq<Generic>,
    initializer: Option<ExpressionId>)

  datatype BinOpType =
    | UnknownOp | Sub | Add | Div | Mul | ToThePowerOf
    | AddEquals | SubEquals | MulEquals | DivEquals

  datatype BinOp = BinOp(op: BinOpType, left: ExpressionId, right: ExpressionId)

  /** `Expression`; its default variant `None` is `Blank` here, `NewVariable` is
      `VariableDeclaration` and `Variable` is `VariableUse`. */
  datatype Expression =
    | Blank
    | Number(natural: nat, decimal: Option<nat>)
    | BinaryOperation(binOp: BinOp)
    | VariableDeclaration(newId: VariableId)
    | VariableUse(id: VariableId)
    | Body(contents: seq<ExpressionId>)

  datatype Ast = Ast(
    definitions: OMap<DefinitionSignature, ExpressionId>,
    types: OMap<TypeSignature, RosarioType>,
    uses: OMap<string, seq<TypeSignature>>,
    expressions: OMap<ExpressionId, Expression>,
    variables: OMap<DefinitionSignature, OMap<VariableId, Variable>>,
    expressionId: ExpressionId,
    variableId: VariableId)

  /** `Ast::default()`: empty maps, both counters at 0. */
  const EmptyAst: Ast := Ast([], [], [], [], [], 0, 0)

  // ----- the derived key orders -----

  /** The position of an operator in its declaration, which is what the derived
      order compares. */
  function Rank(op: BinOpType): nat {
    match op
    case UnknownOp => 0
    case Sub => 1
    case Add => 2
    case Div => 3
    case Mul => 4
    case ToThePowerOf => 5
    case AddEquals => 6
    case SubEquals => 7
    case MulEquals => 8
    case DivEquals => 9
  }

  predicate BinOpLt(a: BinOpType, b: BinOpType) {
    Rank(a) < Rank(b)
  }

  /** The operator order is a strict total order, and it runs
      Unknown < Sub < Add < Div < Mul < ToThePowerOf < the compound assignments. */
  lemma BinOpOrderIsTotal()
    ensures StrictTotalOrder(BinOpLt)
    ensures BinOpLt(UnknownOp, Sub) && BinOpLt(Sub, Add) && BinOpLt(Add, Div) && BinOpLt(Div, Mul)
    ensures BinOpLt(Mul, ToThePowerOf) && BinOpLt(ToThePowerOf, AddEquals)
  {
    forall a, b ensures a == b || BinOpLt(a, b) || BinOpLt(b, a) {
      RankIsInjective(a);
      RankIsInjective(b);
    }
  }

  /** The operator at a position of the declaration. */
  function OpOfRank(n: nat): BinOpType {
    if n == 0 then UnknownOp else if n == 1 then Sub else if n == 2 then Add
    else if n == 3 then Div else if n == 4 then Mul else if n == 5 then ToThePowerOf
    else if n == 6 then AddEquals else if n == 7 then SubEquals else if n == 8 then MulEquals
    else DivEquals
  }

  lemma RankIsInjective(op: BinOpType)
    ensures OpOfRank(Rank(op)) == op
  {
  }

  /** `TypeSignature` compares its owner first, then its name. */
  predicate TypeSignatureLt(a: TypeSignature, b: TypeSignature) {
    StringLt(a.owner, b.owner) || (a.owner == b.owner && StringLt(a.name, b.name))
  }

  lemma TypeSignatureOrderIsTotal()
    ensures StrictTotalOrder(TypeSignatureLt)
  {
    StringLtIsStrictTotal();
    forall a, b, c | TypeSignatureLt(a, b) && TypeSignatureLt(b, c) ensures TypeSignatureLt(a, c) {
    }
    forall a, b ensures a == b || TypeSignatureLt(a, b) || TypeSignatureLt(b, a) {
      assert a.owner == b.owner || StringLt(a.owner, b.owner) || StringLt(b.owner, a.owner);
    }
  }

  /** `Option<T>`: `None` first, then the values in their order. */
  predicate OptionLt<T>(lt: (T, T) -> bool, a: Option<T>, b: Option<T>) {
    if a.None? then b.Some? else b.Some? && lt(a.value, b.value)
  }

  /** `DefinitionOwner`: variants in declaration order, then their contents. */
  function OwnerRank(o: DefinitionOwner): nat {
    match o
    case UnknownOwner => 0
    case Path(_) => 1
    case OwnerType(_) => 2
  }

  predicate OwnerLt(a: DefinitionOwner, b: DefinitionOwner) {
    OwnerRank(a) < OwnerRank(b) ||
    (a.Path? && b.Path? && StringLt(a.path, b.path)) ||
    (a.OwnerType? && b.OwnerType? && TypeSignatureLt(a.sig, b.sig))
  }

  predicate ArgsLt(a: seq<VariableId>, b: seq<VariableId>) {
    SeqLt(NatLt, a, b)
  }

  /** `DefinitionSignature`: owner, then name, then arguments, then return type. */
  predicate DefinitionSignatureLt(a: DefinitionSignature, b: DefinitionSignature) {
    OwnerLt(a.owner, b.owner) ||
    (a.owner == b.owner && StringLt(a.name, b.name)) ||
    (a.owner == b.owner && a.name == b.name && ArgsLt(a.args, b.args)) ||
    (a.owner == b.owner && a.name == b.name && a.args == b.args && OptionLt(TypeSignatureLt, a.returnType, b.returnType))
  }

  lemma OwnerOrderIsTotal()
    ensures StrictTotalOrder(OwnerLt)
  {
    StringLtIsStrictTotal();
    TypeSignatureOrderIsTotal();
    forall a, b, c | OwnerLt(a, b) && OwnerLt(b, c) ensures OwnerLt(a, c) {
    }
    forall a, b ensures a == b || OwnerLt(a, b) || OwnerLt(b, a) {
      if a.Path? && b.Path? {
        assert a.path == b.path || StringLt(a.path, b.path) || StringLt(b.path, a.path);
      } else if a.OwnerType? && b.OwnerType? {
        assert a.sig == b.sig || TypeSignatureLt(a.sig, b.sig) || TypeSignatureLt(b.sig, a.sig);
      }
    }
  }

  lemma ReturnTypeOrderIsTotal()
    ensures StrictTotalOrder((a: Option<TypeSignature>, b: Option<TypeSignature>) => OptionLt(TypeSignatureLt, a, b))
  {
    TypeSignatureOrderIsTotal();
    var lt := (a: Option<TypeSignature>, b: Option<TypeSignature>) => OptionLt(TypeSignatureLt, a, b);
    forall a, b ensures a == b || lt(a, b) || lt(b, a) {
      if a.Some? && b.Some? {
        assert a.value == b.value || TypeSignatureLt(a.value, b.value) || TypeSignatureLt(b.value, a.value);
      }
    }
  }

  /** The definition order is a strict total order, so the definitions and
      variables maps hold each signature once, in that order. */
  lemma DefinitionSignatureOrderIsTotal()
    ensures StrictTotalOrder(DefinitionSignatureLt)
  {
    StringLtIsStrictTotal();
    OwnerOrderIsTotal();
    ReturnTypeOrderIsTotal();
    assert StrictTotalOrder(NatLt);
    SeqLtIsStrictTotal(NatLt);
    forall a: DefinitionSignature ensures !DefinitionSignatureLt(a, a) {
      assert !ArgsLt(a.args, a.args);
    }
    forall a, b, c | DefinitionSignatureLt(a, b) && DefinitionSignatureLt(b, c)
      ensures DefinitionSignatureLt(a, c)
    {
      if a.owner == b.owner && b.owner == c.owner && a.name == b.name && b.name == c.name {
        if a.args != b.args && b.args != c.args {
          assert ArgsLt(a.args, c.args);
        }
      }
    }
    forall a, b ensures a == b || DefinitionSignatureLt(a, b) || DefinitionSignatureLt(b, a) {
      assert a.owner == b.owner || OwnerLt(a.owner, b.owner) || OwnerLt(b.owner, a.owner);
      assert a.name == b.name || StringLt(a.name, b.name) || StringLt(b.name, a.name);
      assert a.args == b.args || ArgsLt(a.args, b.args) || ArgsLt(b.args, a.args);
      assert a.returnType == b.returnType || OptionLt(TypeSignatureLt, a.returnType, b.returnType)
        || OptionLt(TypeSignatureLt, b.returnType, a.returnType);
    }
  }

  // ----- the arena -----

  /** Every stored expression has an id the counter has handed out (so in 1..counter),
      and the entries are in id order. */
  ghost predicate WellNumbered(a: Ast) {
    Sorted(NatLt, a.expressions) &&
    forall i :: 0 <= i < |a.expressions| ==> 1 <= a.expressions[i].0 <= a.expressionId
  }

  /** `find_expression`. */
  function FindExpression(a: Ast, id: ExpressionId): Option<Expression> {
    Get(a.expressions, id)
  }

  /** Store `e` under a fresh id: the shared body of `new_body`, `new_number` and
      `new_binary_operator`. */
  function NewExpression(a: Ast, e: Expression): (r: (ExpressionId, Ast))
    ensures r.0 == a.expressionId + 1 && r.1.expressionId == r.0 && r.0 != NoExpression
    ensures r.1 == a.(expressions := r.1.expressions, expressionId := r.1.expressionId)
    ensures FindExpression(r.1, r.0) == Some(e)
    ensures forall id :: id != r.0 ==> FindExpression(r.1, id) == FindExpression(a, id)
    ensures WellNumbered(a) ==> WellNumbered(r.1) && FindExpression(a, r.0).None?
  {
    var id := a.expressionId + 1;
    var expressions := Insert<ExpressionId, Expression>(NatLt, a.expressions, id, e);
    assert StrictTotalOrder(NatLt);
    InsertPreservesSorted<ExpressionId, Expression>(NatLt, a.expressions, id, e);
    InsertedKeys<ExpressionId, Expression>(NatLt, a.expressions, id, e);
    (id, a.(expressions := expressions, expressionId := id))
  }

  /** `new_body`. */
  function NewBody(a: Ast, contents: seq<ExpressionId>): (r: (ExpressionId, Ast))
  {
    NewExpression(a, Body(contents))
  }

  /** `new_number`. */
  function NewNumber(a: Ast, natural: nat, decimal: Option<nat>): (r: (ExpressionId, Ast))
  {
    NewExpression(a, Number(natural, decimal))
  }

  /** `new_binary_operator`. */
  function NewBinaryOperator(a: Ast, op: BinOpType, left: ExpressionId, right: ExpressionId): (r: (ExpressionId, Ast))
  {
    NewExpression(a, BinaryOperation(BinOp(op, left, right)))
  }

  /** Overwrite the node stored under an existing id, as a write through
      `find_mut_expression` does. */
  function SetExpression(a: Ast, id: ExpressionId, e: Expression): (r: Ast)
    requires FindExpression(a, id).Some?
    ensures r == a.(expressions := r.expressions)
    ensures FindExpression(r, id) == Some(e)
    ensures forall other :: other != id ==> FindExpression(r, other) == FindExpression(a, other)
    ensures WellNumbered(a) ==> WellNumbered(r)
  {
    var expressions := Insert<ExpressionId, Expression>(NatLt, a.expressions, id, e);
    assert StrictTotalOrder(NatLt);
    InsertPreservesSorted<ExpressionId, Expression>(NatLt, a.expressions, id, e);
    InsertedKeys<ExpressionId, Expression>(NatLt, a.expressions, id, e);
    a.(expressions := expressions)
  }

  /** `new_variable`: both counters step, the variable is stored under the new
      variable id in the map of `signature`, created empty if absent, and the new
      expression id is returned without any node stored under it. */
  function NewVariable(a: Ast, signature: DefinitionSignature, v: Variable): (r: (ExpressionId, Ast))
    ensures r.0 == a.expressionId + 1 && r.1.expressionId == r.0 && r.1.variableId == a.variableId + 1
    ensures r.1 == a.(variables := r.1.variables, expressionId := r.1.expressionId, variableId := r.1.variableId)
    ensures Get(r.1.variables, signature).Some?
    ensures Get(Get(r.1.variables, signature).value, r.1.variableId) == Some(v)
    ensures forall id :: id != r.1.variableId ==>
      Get(Get(r.1.variables, signature).value, id) == Get(Get(a.variables, signature).GetOr([]), id)
    ensures forall other :: other != signature ==> Get(r.1.variables, other) == Get(a.variables, other)
    ensures WellNumbered(a) ==> WellNumbered(r.1) && FindExpression(r.1, r.0).None?
  {
    var id := a.expressionId + 1;
    var variableId := a.variableId + 1;
    var inner := Get(a.variables, signature).GetOr([]);
    var variables := Insert(DefinitionSignatureLt, a.variables, signature, Insert<VariableId, Variable>(NatLt, inner, variableId, v));
    (id, a.(variables := variables, expressionId := id, variableId := variableId))
  }

  /** `new_type`: an insert under (owner, name), overwriting an entry with that key. */
  function NewType(a: Ast, name: string, owner: string, ty: RosarioType): (r: Ast)
    ensures r == a.(types := r.types)
    ensures Get(r.types, TypeSignature(owner, name)) == Some(ty)
    ensures forall sig :: sig != TypeSignature(owner, name) ==> Get(r.types, sig) == Get(a.types, sig)
    ensures Sorted(TypeSignatureLt, a.types) ==> Sorted(TypeSignatureLt, r.types)
  {
    TypeSignatureOrderIsTotal();
    InsertPreservesSorted(TypeSignatureLt, a.types, TypeSignature(owner, name), ty);
    a.(types := Insert(TypeSignatureLt, a.types, TypeSignature(owner, name), ty))
  }

  /** `new_definition`: an insert under the signature, overwriting an entry with that key. */
  function NewDefinition(a: Ast, signature: DefinitionSignature, body: ExpressionId): (r: Ast)
    ensures r == a.(definitions := r.definitions)
    ensures Get(r.definitions, signature) == Some(body)
    ensures forall sig :: sig != signature ==> Get(r.definitions, sig) == Get(a.definitions, sig)
    ensures Sorted(DefinitionSignatureLt, a.definitions) ==> Sorted(DefinitionSignatureLt, r.definitions)
  {
    DefinitionSignatureOrderIsTotal();
    InsertPreservesSorted(DefinitionSignatureLt, a.definitions, signature, body);
    a.(definitions := Insert(DefinitionSignatureLt, a.definitions, signature, body))
  }

  /** `find_type_signature_owner`: the owner of the first type in key order with this
      name; the empty string when there is none. */
  function FindTypeSignatureOwner(types: OMap<TypeSignature, RosarioType>, name: string): (r: string)
    ensures (forall i :: 0 <= i < |types| ==> types[i].0.name != name) ==> r == ""
    ensures (exists i :: 0 <= i < |types| && types[i].0.name == name) ==>
      exists i :: 0 <= i < |types| && types[i].0 == TypeSignature(r, name) &&
        forall j :: 0 <= j < i ==> types[j].0.name != name
  {
    if |types| == 0 then ""
    else if types[0].0.name == name then types[0].0.owner
    else
      var r := FindTypeSignatureOwner(types[1..], name);
      assert forall i :: 1 <= i < |types| ==> types[i] == types[1..][i - 1];
      if exists i :: 0 <= i < |types| && types[i].0.name == name then
        var i :| 0 <= i < |types| && types[i].0.name == name;
        assert types[1..][i - 1].0.name == name;
        var k :| 0 <= k < |types[1..]| && types[1..][k].0 == TypeSignature(r, name) &&
          forall j :: 0 <= j < k ==> types[1..][j].0.name != name;
        assert types[k + 1].0 == TypeSignature(r, name);
        r
      else
        r
  }

  /** `get_binary_operator` (and its `mut` twin). */
  function GetBinaryOperator(e: Expression): (r: Option<BinOp>)
    ensures r.Some? <==> e.BinaryOperation?
    ensures r.Some? ==> r.value == e.binOp
  {
    if e.BinaryOperation? then Some(e.binOp) else None
  }
}

=== FILE: arena_parser.dfy ===
/** The parser rewrite (`crates/rosarioparser/src/parser/mod.rs`) over the arena of
    `ArenaAst`.

    The parser owns a cursor into the lexer's token sequence, the arena, and the
    signature of the definition being parsed; the model threads them through every
    call as a `State` and returns each parsed value together with the new state. The
    cursor is 1-based like the source's `current_item`: the current token is
    `toks[pos - 1]`, and reading it at 0 or past the end panics. Each parse function
    leaves the cursor on the last token it consumed, as the source does.

    `file_path_to_rosario` formats two fields of the lexer, the main path and the
    file name; they are inputs here (`Origin`).
 */
module ArenaParser {
  import opened Outcome
  import opened Order
  import opened OrdMap
  import opened ArenaAst
  import L = Lexer
  import PB = ParserBase

  type Tokens = seq<L.TokenType>

  // Where a failure happens, named after the source function.
  const AtCurrentToken: string := "Parser::current_token"
  const AtGoBack: string := "Parser::go_back"
  const AtGetIdentifier: string := "Parser::get_identifier"
  const AtExpectedToken: string := "Parser::expected_token_found_error"
  const AtBinOpTokenToType: string := "Parser::bin_op_token_to_type"
  const AtParseExpression: string := "Parser::parse_expression"
  const AtParseBody: string := "Parser::parse_body"
  const AtParseEnding: string := "Parser::parse_ending"
  const AtParseGenerics: string := "Parser::parse_generics"
  const AtParseDefinitionSignature: string := "Parser::parse_definition_signature"
  const AtParseType: string := "Parser::parse_type"
  const AtParseLet: string := "Parser::parse_let"
  const AtStart: string := "Parser::start"

  const U128Max: int := 0xffff_ffff_ffff_ffff_ffff_ffff_ffff_ffff

  /** The lexer fields that `file_path_to_rosario` formats. */
  datatype Origin = Origin(mainRosarioPath: string, fileName: string)

  /** `file_path_to_rosario`: `"{main path}::{file name}"`. */
  function FilePathToRosario(o: Origin): string {
    o.mainRosarioPath + "::" + o.fileName
  }

  /** The mutable part of `Parser`. */
  datatype State = State(pos: nat, ast: Ast, currentDefSig: Option<DefinitionSignature>)

  datatype Parsed<T> = Parsed(value: T, state: State)

  // ----- the cursor -----

  /** `current_token`. */
  function CurrentToken(toks: Tokens, s: State): (r: Result<L.TokenType>)
    ensures r.Ok? <==> 1 <= s.pos <= |toks|
    ensures r.Ok? ==> r.value == toks[s.pos - 1]
  {
    if s.pos == 0 then Fail(Failure(Panicked, AtCurrentToken))
    else if s.pos - 1 < |toks| then Ok(toks[s.pos - 1])
    else Fail(Failure(Panicked, AtCurrentToken))
  }

  /** `advance`: one step forward, then `current_token`. */
  function Advance(toks: Tokens, s: State): (r: Result<State>)
    ensures r.Ok? <==> s.pos + 1 <= |toks|
    ensures r.Ok? ==> r.value == s.(pos := s.pos + 1)
  {
    var next := s.(pos := s.pos + 1);
    var _ :- CurrentToken(toks, next);
    Ok(next)
  }

  /** `go_back`: one step back (a `usize` underflow at 0), then `current_token`. */
  function GoBack(toks: Tokens, s: State): (r: Result<State>)
    ensures r.Ok? <==> 2 <= s.pos <= |toks| + 1
    ensures r.Ok? ==> r.value == s.(pos := s.pos - 1)
  {
    if s.pos == 0 then Fail(Failure(Panicked, AtGoBack))
    else
      var prior := s.(pos := s.pos - 1);
      var _ :- CurrentToken(toks, prior);
      Ok(prior)
  }

  /** Stepping forward and back again returns to the same state. */
  lemma AdvanceThenGoBack(toks: Tokens, s: State)
    requires 1 <= s.pos && s.pos + 1 <= |toks|
    ensures Advance(toks, s).Ok? && GoBack(toks, Advance(toks, s).value) == Ok(s)
  {
  }

  /** Stepping back and forward again returns to the same state. */
  lemma GoBackThenAdvance(toks: Tokens, s: State)
    requires 2 <= s.pos <= |toks|
    ensures GoBack(toks, s).Ok? && Advance(toks, GoBack(toks, s).value) == Ok(s)
  {
  }

  /** `get_identifier`. */
  function GetIdentifier(toks: Tokens, s: State): (r: Result<string>)
    ensures r.Ok? <==> 1 <= s.pos <= |toks| && toks[s.pos - 1].Identifier?
    ensures r.Ok? ==> r.value == toks[s.pos - 1].name
  {
    var t :- CurrentToken(toks, s);
    if t.Identifier? then Ok(t.name) else Fail(Failure(Unimplemented, AtGetIdentifier))
  }

  /** `expected_token_found_error` unless the current token is `t`. */
  function Expect(toks: Tokens, s: State, t: L.TokenType): (c: Check)
    ensures c.Pass? <==> 1 <= s.pos <= |toks| && toks[s.pos - 1] == t
  {
    Need(1 <= s.pos <= |toks| && toks[s.pos - 1] == t, Panicked, AtExpectedToken)
  }

  /** `is_token_delimiter`: only `;` and `..` end an expression. */
  predicate IsDelimiter(t: L.TokenType) {
    t == L.Semicolon || t == L.RangeDots
  }

  function IsTokenDelimiter(toks: Tokens, s: State): (r: Result<bool>)
    ensures r.Ok? <==> 1 <= s.pos <= |toks|
    ensures r.Ok? ==> (r.value <==> IsDelimiter(toks[s.pos - 1]))
  {
    var t :- CurrentToken(toks, s);
    Ok(IsDelimiter(t))
  }

  /** How an arithmetic operator is written in Rosario source. */
  function OpSymbol(op: BinOpType): Option<string> {
    match op
    case Add => Some("+")
    case Sub => Some("-")
    case Mul => Some("*")
    case Div => Some("/")
    case ToThePowerOf => Some("**")
    case _ => None
  }

  /** `bin_op_token_to_type`. The operator it gives is written as the symbol the lexer
      read for the token. */
  function BinOpTokenToType(t: L.TokenType): (r: Result<BinOpType>)
    ensures r.Ok? <==> t in {L.Add, L.Sub, L.Multiply, L.Divide, L.ToThePowerOf}
    ensures r.Ok? ==> OpSymbol(r.value).Some? && OpSymbol(r.value) == L.SymbolText(t)
    ensures r.Ok? ==> L.SymbolOf(OpSymbol(r.value).value) == Some(t)
  {
    if t == L.Add then Ok(Add)
    else if t == L.Sub then Ok(Sub)
    else if t == L.Multiply then Ok(Mul)
    else if t == L.Divide then Ok(Div)
    else if t == L.ToThePowerOf then Ok(ToThePowerOf)
    else Fail(Failure(Unimplemented, AtBinOpTokenToType))
  }

  predicate IsOperatorToken(t: L.TokenType) {
    t == L.Add || t == L.Sub || t == L.Multiply || t == L.Divide || t == L.ToThePowerOf
  }

  /** Rust's `str::parse::<u128>`: an optional `+`, then at least one decimal digit,
      at most `u128::MAX`. */
  function ParseU128(s: string): (r: Option<nat>)
    ensures PB.AllDigits(s) && |s| >= 1 ==>
      r == if PB.DecimalValue(s) <= U128Max then Some(PB.DecimalValue(s)) else None
    ensures r.Some? ==> r.value <= U128Max
  {
    var digits := if |s| > 0 && s[0] == '+' then s[1..] else s;
    if |digits| == 0 || !PB.AllDigits(digits) then None
    else if PB.DecimalValue(digits) <= U128Max then Some(PB.DecimalValue(digits))
    else None
  }

  /** The measure every parse function decreases: tokens left after the cursor. */
  function Remaining(toks: Tokens, s: State): nat {
    if s.pos <= |toks| then |toks| - s.pos else 0
  }

  /** What an expression parse may do to the state: move the cursor forward (never
      past the last token), keep the definition being parsed and the tables of
      definitions, types and uses, never turn the expression counter back, and keep
      the arena well numbered. */
  ghost predicate Moves(toks: Tokens, s: State, t: State) {
    s.pos <= t.pos <= |toks| && t.currentDefSig == s.currentDefSig &&
    t.ast.definitions == s.ast.definitions && t.ast.types == s.ast.types && t.ast.uses == s.ast.uses &&
    s.ast.expressionId <= t.ast.expressionId &&
    (WellNumbered(s.ast) ==> WellNumbered(t.ast))
  }

  /** Two moves in a row make one move. */
  lemma MovesCompose(toks: Tokens, s: State, mid: State, t: State)
    requires Moves(toks, s, mid) && Moves(toks, mid, t)
    ensures Moves(toks, s, t)
  {
  }

  // ----- binary operators -----

  /** The tail of `parse_binary_operator`, once the right operand `right` has been
      parsed: a right operand that is a binary operation binding no tighter than
      `cur` (its operator is not greater) is rotated: its left child becomes a new
      `cur` node over `left` and that child, and `right` is the result. Anything else
      becomes a new `cur` node over `left` and `right`. */
  function Combine(a: Ast, cur: BinOpType, left: ExpressionId, right: ExpressionId): (r: (ExpressionId, Ast))
    ensures r.1 == a.(expressions := r.1.expressions, expressionId := r.1.expressionId)
    ensures a.expressionId <= r.1.expressionId
    ensures WellNumbered(a) ==> WellNumbered(r.1)
  {
    var found := FindExpression(a, right);
    var rightOp := if found.Some? then GetBinaryOperator(found.value) else None;
    var rightOpLeft := if rightOp.Some? && !BinOpLt(cur, rightOp.value.op) then rightOp.value.left else NoExpression;
    var (rotated, a1) := if rightOpLeft != NoExpression then NewBinaryOperator(a, cur, left, rightOpLeft) else (NoExpression, a);
    var again := FindExpression(a1, right);
    var mutRightOp := if again.Some? then GetBinaryOperator(again.value) else None;
    if mutRightOp.Some? && !BinOpLt(cur, mutRightOp.value.op) then
      (right, SetExpression(a1, right, BinaryOperation(mutRightOp.value.(left := rotated))))
    else
      NewBinaryOperator(a1, cur, left, right)
  }

  /** A right operand that is not a binary operation, or whose operator binds
      tighter than `cur`, is nested: the result is a fresh `cur` node over `left` and
      `right`, and no other node changes. */
  lemma CombineNests(a: Ast, cur: BinOpType, left: ExpressionId, right: ExpressionId)
    requires var e := FindExpression(a, right); e.None? || !e.value.BinaryOperation? || BinOpLt(cur, e.value.binOp.op)
    ensures Combine(a, cur, left, right).0 == a.expressionId + 1
    ensures FindExpression(Combine(a, cur, left, right).1, a.expressionId + 1) == Some(BinaryOperation(BinOp(cur, left, right)))
    ensures forall id :: id != a.expressionId + 1 ==> FindExpression(Combine(a, cur, left, right).1, id) == FindExpression(a, id)
  {
  }

  /** A right operand whose operator binds no tighter than `cur` is rotated one level:
      its id is the result, and its left child `l` is replaced by a fresh `cur` node
      over `left` and `l`; no other node changes. Only the right operand's own left
      child moves, so in `1 - 2 - 3 - 4`, whose right operand `2 - 3 - 4` is already
      `(2 - 3) - 4`, the result is `(1 - (2 - 3)) - 4`. */
  lemma CombineRotates(a: Ast, cur: BinOpType, left: ExpressionId, right: ExpressionId, b: BinOp)
    requires WellNumbered(a)
    requires FindExpression(a, right) == Some(BinaryOperation(b)) && !BinOpLt(cur, b.op) && b.left != NoExpression
    ensures Combine(a, cur, left, right).0 == right
    ensures Combine(a, cur, left, right).1.expressionId == a.expressionId + 1
    ensures FindExpression(Combine(a, cur, left, right).1, a.expressionId + 1) == Some(BinaryOperation(BinOp(cur, left, b.left)))
    ensures FindExpression(Combine(a, cur, left, right).1, right) == Some(BinaryOperation(b.(left := a.expressionId + 1)))
    ensures forall id :: id != a.expressionId + 1 && id != right ==> FindExpression(Combine(a, cur, left, right).1, id) == FindExpression(a, id)
  {
    var n := RotationStep(a, cur, left, right, b);
    var c := SetExpression(n.1, right, BinaryOperation(b.(left := n.0)));
    assert FindExpression(n.1, a.expressionId + 1) == Some(BinaryOperation(BinOp(cur, left, b.left)));
    assert FindExpression(c, a.expressionId + 1) == FindExpression(n.1, a.expressionId + 1);
  }

  /** The two writes of a rotation: the new node, then the right operand. */
  lemma RotationStep(a: Ast, cur: BinOpType, left: ExpressionId, right: ExpressionId, b: BinOp) returns (n: (ExpressionId, Ast))
    requires WellNumbered(a)
    requires FindExpression(a, right) == Some(BinaryOperation(b)) && !BinOpLt(cur, b.op) && b.left != NoExpression
    ensures n == NewBinaryOperator(a, cur, left, b.left) && n.0 == a.expressionId + 1 && n.0 != right
    ensures FindExpression(n.1, right).Some?
    ensures Combine(a, cur, left, right) == (right, SetExpression(n.1, right, BinaryOperation(b.(left := n.0))))
  {
    n := NewBinaryOperator(a, cur, left, b.left);
    assert FindExpression(n.1, right) == Some(BinaryOperation(b));
  }

  /** A right operand to be rotated that has no left child stays as it is, and no
      node is created. */
  lemma CombineKeepsChildless(a: Ast, cur: BinOpType, left: ExpressionId, right: ExpressionId, b: BinOp)
    requires FindExpression(a, right) == Some(BinaryOperation(b)) && !BinOpLt(cur, b.op) && b.left == NoExpression
    ensures Combine(a, cur, left, right).0 == right
    ensures Combine(a, cur, left, right).1.expressionId == a.expressionId
    ensures forall id :: FindExpression(Combine(a, cur, left, right).1, id) == FindExpression(a, id)
  {
  }

  // ----- expressions, bodies and `let` -----

  /** `parse_expression`: one node, chosen by the current token, then a step
      forward. On `;` or `..` the cursor steps back onto the node's last token and the
      node is the result; otherwise parsing goes on with the node as left operand. */
  function ParseExpression(toks: Tokens, s: State, endName: Option<string>, left: Option<ExpressionId>): (r: Result<Parsed<ExpressionId>>)
    ensures r.Ok? ==> Moves(toks, s, r.value.state)
    ensures r.Ok? ==> r.value.state.pos < |toks| && IsDelimiter(toks[r.value.state.pos])
    decreases Remaining(toks, s), 2
  {
    var t :- CurrentToken(toks, s);
    var node :- if t == L.Begin then ParseBody(toks, s, endName)
      else if t == L.Let then ParseLet(toks, s)
      else if t.Number? then NumberNode(s, t)
      else if IsOperatorToken(t) then
        (if left.Some? then ParseBinaryOperator(toks, s, left.value) else Fail(Failure(Panicked, AtParseExpression)))
      else Fail(Failure(Unimplemented, AtParseExpression));
    var next :- Advance(toks, node.state);
    if IsTokenDelimiter(toks, next).value then
      Ok(Parsed(node.value, GoBack(toks, next).value))
    else
      ParseExpression(toks, next, endName, Some(node.value))
  }

  /** The number arm of `parse_expression`: both digit strings must parse as `u128`. */
  function NumberNode(s: State, t: L.TokenType): (r: Result<Parsed<ExpressionId>>)
    requires t.Number?
    ensures r.Ok? ==> r.value.state == s.(ast := r.value.state.ast) && s.ast.expressionId <= r.value.state.ast.expressionId
    ensures r.Ok? ==> WellNumbered(s.ast) ==> WellNumbered(r.value.state.ast)
    ensures r.Ok? <==> ParseU128(t.digits).Some? && (t.fraction.Some? ==> ParseU128(t.fraction.value).Some?)
    ensures r.Ok? ==> (FindExpression(r.value.state.ast, r.value.value) ==
      Some(Number(ParseU128(t.digits).value, if t.fraction.Some? then Some(ParseU128(t.fraction.value).value) else None)))
    ensures r.Ok? ==> r.value.value == s.ast.expressionId + 1 == r.value.state.ast.expressionId
    ensures r.Ok? ==> forall id :: id != r.value.value ==> FindExpression(r.value.state.ast, id) == FindExpression(s.ast, id)
  {
    var natural :- PB.Unwrap(ParseU128(t.digits), AtParseExpression);
    var decimal :- if t.fraction.Some? then
        var d :- PB.Unwrap(ParseU128(t.fraction.value), AtParseExpression);
        Ok(Some(d))
      else Ok(None);
    var (id, ast) := NewNumber(s.ast, natural, decimal);
    Ok(Parsed(id, s.(ast := ast)))
  }

  /** `parse_binary_operator`: the operator of the current token, then the right
      operand parsed from the next token on, then `Combine`. */
  function ParseBinaryOperator(toks: Tokens, s: State, left: ExpressionId): (r: Result<Parsed<ExpressionId>>)
    ensures r.Ok? ==> Moves(toks, s, r.value.state)
    decreases Remaining(toks, s), 1
  {
    var t :- CurrentToken(toks, s);
    var cur :- BinOpTokenToType(t);
    var next :- Advance(toks, s);
    var right :- ParseExpression(toks, next, None, None);
    var (id, ast) := Combine(right.state.ast, cur, left, right.value);
    Ok(Parsed(id, right.state.(ast := ast)))
  }

  /** `parse_body`: statements up to `end` or the end of the file, then the ending
      check, then a new `Body` node. */
  function ParseBody(toks: Tokens, s: State, endName: Option<string>): (r: Result<Parsed<ExpressionId>>)
    ensures r.Ok? ==> Moves(toks, s, r.value.state)
    ensures r.Ok? ==> s.pos + 1 <= |toks| && ParseStatements(toks, s.(pos := s.pos + 1), []).Ok?
    ensures r.Ok? ==> FindExpression(r.value.state.ast, r.value.value) == Some(Body(ParseStatements(toks, s.(pos := s.pos + 1), []).value.value))
    decreases Remaining(toks, s), 1
  {
    var next :- Advance(toks, s);
    var statements :- ParseStatements(toks, next, []);
    var ending :- ParseEnding(toks, statements.state, endName);
    var (id, ast) := NewBody(ending.ast, statements.value);
    Ok(Parsed(id, ending.(ast := ast)))
  }

  /** The tokens that stop the statements of a body. */
  predicate EndsBody(t: L.TokenType) {
    t == L.End || t == L.EndOfFile
  }

  /** The loop of `parse_body`: each statement must be followed by `;`. */
  function ParseStatements(toks: Tokens, s: State, contents: seq<ExpressionId>): (r: Result<Parsed<seq<ExpressionId>>>)
    ensures r.Ok? ==> Moves(toks, s, r.value.state)
    ensures r.Ok? ==> 1 <= r.value.state.pos && EndsBody(toks[r.value.state.pos - 1])
    decreases Remaining(toks, s), 4
  {
    var t :- CurrentToken(toks, s);
    if EndsBody(t) then Ok(Parsed(contents, s))
    else
      var statement :- ParseStatement(toks, s);
      var rest :- ParseStatements(toks, statement.state, contents + [statement.value]);
      MovesCompose(toks, s, statement.state, rest.state);
      Ok(rest)
  }

  /** One statement of `parse_body`: an expression and the `;` after it. */
  function ParseStatement(toks: Tokens, s: State): (r: Result<Parsed<ExpressionId>>)
    ensures r.Ok? ==> Moves(toks, s, r.value.state) && s.pos + 2 <= r.value.state.pos
    ensures r.Ok? ==> toks[r.value.state.pos - 2] == L.Semicolon
    decreases Remaining(toks, s), 3
  {
    var statement :- ParseExpression(toks, s, None, None);
    var next :- SkipSemicolon(toks, statement.state);
    Ok(Parsed(statement.value, next))
  }

  /** The statements of a body are appended to those already read. */
  lemma {:induction false} StatementsExtend(toks: Tokens, s: State, contents: seq<ExpressionId>)
    requires ParseStatements(toks, s, contents).Ok?
    ensures |ParseStatements(toks, s, contents).value.value| >= |contents|
    ensures ParseStatements(toks, s, contents).value.value[..|contents|] == contents
    decreases Remaining(toks, s)
  {
    if !EndsBody(toks[s.pos - 1]) {
      var statement := ParseStatement(toks, s).value;
      StatementsExtend(toks, statement.state, contents + [statement.value]);
      assert (contents + [statement.value])[..|contents|] == contents;
    }
  }

  /** After a statement of `parse_body`: the next token must be `;`, and the cursor
      moves past it. */
  function SkipSemicolon(toks: Tokens, s: State): (r: Result<State>)
    requires s.pos < |toks|
    ensures r.Ok? <==> toks[s.pos] == L.Semicolon && s.pos + 2 <= |toks|
    ensures r.Ok? ==> r.value == s.(pos := s.pos + 2)
  {
    var afterStatement := Advance(toks, s).value;
    if toks[afterStatement.pos - 1] != L.Semicolon then Fail(Failure(Unimplemented, AtParseBody))
    else Advance(toks, afterStatement)
  }

  /** `parse_let`: `let name : Type [generics] [= initializer]`, stored as a variable
      of the definition being parsed; the initializer is parsed first, so a `let`
      outside a definition fails only after it. */
  function ParseLet(toks: Tokens, s: State): (r: Result<Parsed<ExpressionId>>)
    ensures r.Ok? ==> Moves(toks, s, r.value.state)
    ensures r.Ok? ==> s.currentDefSig.Some? && s.pos + 4 <= |toks| && toks[s.pos].Identifier? && toks[s.pos + 1] == L.Colon && toks[s.pos + 2].Identifier?
    ensures r.Ok? ==> LetStored(r.value.state, s.currentDefSig.value, toks[s.pos].name,
      TypeSignature(FindTypeSignatureOwner(s.ast.types, toks[s.pos + 2].name), toks[s.pos + 2].name))
    decreases Remaining(toks, s), 1
  {
    var atName :- Advance(toks, s);
    var name :- GetIdentifier(toks, atName);
    var atColon :- Advance(toks, atName);
    var _ :- Expect(toks, atColon, L.Colon);
    var atType :- Advance(toks, atColon);
    LetAtType(toks, atType, name)
  }

  /** `parse_let` from the type on: the type, then the rest. */
  function LetAtType(toks: Tokens, s: State, name: string): (r: Result<Parsed<ExpressionId>>)
    ensures r.Ok? ==> Moves(toks, s, r.value.state)
    ensures r.Ok? ==> s.currentDefSig.Some? && s.pos + 1 <= |toks| && 1 <= s.pos && toks[s.pos - 1].Identifier?
    ensures r.Ok? ==> LetStored(r.value.state, s.currentDefSig.value, name,
      TypeSignature(FindTypeSignatureOwner(s.ast.types, toks[s.pos - 1].name), toks[s.pos - 1].name))
    decreases Remaining(toks, s), 2
  {
    var ty :- ParseTypeSignature(toks, s);
    var afterType :- Advance(toks, s);
    LetAfterType(toks, afterType, name, ty)
  }

  /** The variable a `let` stored last: the one under the newest variable id of the
      definition `signature`, a plain value with this name and type. */
  ghost predicate LetStored(s: State, signature: DefinitionSignature, name: string, ty: TypeSignature) {
    Get(s.ast.variables, signature).Some? &&
    var v := Get(Get(s.ast.variables, signature).value, s.ast.variableId);
    v.Some? && v.value.name == name && v.value.ty == ty && v.value.variableType == Value
  }

  /** The rest of `parse_let`, from the token after the type: generics, the optional
      initializer, then the new variable of the current definition. */
  function LetAfterType(toks: Tokens, s: State, name: string, ty: TypeSignature): (r: Result<Parsed<ExpressionId>>)
    ensures r.Ok? ==> Moves(toks, s, r.value.state)
    ensures r.Ok? ==> s.currentDefSig.Some? && LetStored(r.value.state, s.currentDefSig.value, name, ty)
    decreases Remaining(toks, s), 1
  {
    var generics :- ParseGenerics(toks, s);
    var afterGenerics :- Advance(toks, generics.state);
    var initialized :- LetInitializer(toks, afterGenerics, name);
    var signature :- PB.Unwrap(initialized.state.currentDefSig, AtParseLet);
    var v := Variable(name, ty, Value, generics.value, initialized.value);
    var (id, ast) := NewVariable(initialized.state.ast, signature, v);
    Ok(Parsed(id, initialized.state.(ast := ast)))
  }

  /** The initializer of `parse_let`: with `=`, the expression after it (ended by the
      variable's name when it is a block); otherwise none, and the cursor stays. */
  function LetInitializer(toks: Tokens, s: State, name: string): (r: Result<Parsed<Option<ExpressionId>>>)
    requires 1 <= s.pos <= |toks|
    ensures r.Ok? ==> Moves(toks, s, r.value.state)
    ensures r.Ok? ==> (r.value.value.Some? <==> toks[s.pos - 1] == L.Equals)
    decreases Remaining(toks, s), 0
  {
    if toks[s.pos - 1] == L.Equals then
      var atInitializer :- Advance(toks, s);
      var e :- ParseExpression(toks, atInitializer, Some(name), None);
      Ok(Parsed(Some(e.value), e.state))
    else Ok(Parsed(None, s))
  }

  /** `parse_ending`: the current token must be `end`; with an expected name, the next
      token must be that name. */
  function ParseEnding(toks: Tokens, s: State, endName: Option<string>): (r: Result<State>)
    ensures r.Ok? ==> 1 <= s.pos <= |toks| && toks[s.pos - 1] == L.End
    ensures r.Ok? && endName.None? ==> r.value == s
    ensures r.Ok? && endName.Some? ==> r.value == s.(pos := s.pos + 1) && s.pos < |toks| && toks[s.pos] == L.Identifier(endName.value)
  {
    var t :- CurrentToken(toks, s);
    if t != L.End then Fail(Failure(Unimplemented, AtParseEnding))
    else if endName.None? then Ok(s)
    else
      var next :- Advance(toks, s);
      var name :- GetIdentifier(toks, next);
      if name != endName.value then Fail(Failure(Unimplemented, AtParseEnding)) else Ok(next)
  }

  // ----- signatures and generics -----

  /** `parse_type_signature`: a name whose owner is that of the first known type with
      that name. The cursor does not move. */
  function ParseTypeSignature(toks: Tokens, s: State): (r: Result<TypeSignature>)
    ensures r.Ok? <==> 1 <= s.pos <= |toks| && toks[s.pos - 1].Identifier?
    ensures r.Ok? ==> r.value == TypeSignature(FindTypeSignatureOwner(s.ast.types, toks[s.pos - 1].name), toks[s.pos - 1].name)
  {
    var name :- GetIdentifier(toks, s);
    Ok(TypeSignature(FindTypeSignatureOwner(s.ast.types, name), name))
  }

  /** The token that closes a generic entry. */
  function EndOf(t: L.TokenType): Option<GenericEnd> {
    if t == L.Character(',') then Some(Comma)
    else if t == L.Of then Some(Of)
    else if t == L.MoreThan then Some(Nothing)
    else None
  }

  function EndToken(e: GenericEnd): L.TokenType {
    match e
    case Comma => L.Character(',')
    case Of => L.Of
    case Nothing => L.MoreThan
  }

  /** `parse_generics`: unless the current token is `>`, step back and return no
      generics; otherwise read entries up to the next `>`. */
  function ParseGenerics(toks: Tokens, s: State): (r: Result<Parsed<seq<Generic>>>)
    ensures r.Ok? ==> r.value.state == s.(pos := r.value.state.pos) && s.pos <= r.value.state.pos + 1 && r.value.state.pos <= |toks|
    ensures r.Ok? && 1 <= s.pos <= |toks| && toks[s.pos - 1] != L.MoreThan ==> r.value == Parsed([], s.(pos := s.pos - 1))
  {
    var t :- CurrentToken(toks, s);
    if t != L.MoreThan then
      var back :- GoBack(toks, s);
      Ok(Parsed([], back))
    else
      var next :- Advance(toks, s);
      GenericEntries(toks, next)
  }

  /** The loop of `parse_generics`: a name and its closing token per entry; the entry
      closed by `>` is the last, and so is any entry followed by `>`. */
  function GenericEntries(toks: Tokens, s: State): (r: Result<Parsed<seq<Generic>>>)
    ensures r.Ok? ==> r.value.state == s.(pos := r.value.state.pos) && s.pos <= r.value.state.pos <= |toks|
    ensures r.Ok? ==> 1 <= r.value.state.pos && toks[r.value.state.pos - 1] == L.MoreThan
    decreases Remaining(toks, s)
  {
    var t :- CurrentToken(toks, s);
    if t == L.MoreThan then Ok(Parsed([], s))
    else
      var entry :- GenericEntry(toks, s);
      if entry.value.end == Nothing then Ok(Parsed([entry.value], entry.state))
      else
        var next :- Advance(toks, entry.state);
        var rest :- GenericEntries(toks, next);
        Ok(Parsed([entry.value] + rest.value, rest.state))
  }

  /** One entry of `parse_generics`: a name, then the token that closes it, which
      must be `,`, `of` or `>`. */
  function GenericEntry(toks: Tokens, s: State): (r: Result<Parsed<Generic>>)
    ensures r.Ok? <==> 1 <= s.pos && s.pos + 1 <= |toks| && toks[s.pos - 1].Identifier? && EndOf(toks[s.pos]).Some?
    ensures r.Ok? ==> r.value == Parsed(Generic(toks[s.pos - 1].name, EndOf(toks[s.pos]).value), s.(pos := s.pos + 1))
  {
    var name :- GetIdentifier(toks, s);
    var atEnd :- Advance(toks, s);
    var end :- PB.Unwrap(EndOf(toks[atEnd.pos - 1]), AtParseGenerics);
    Ok(Parsed(Generic(name, end), atEnd))
  }

  /** The tokens of a generic list as `parse_generics` reads it: the opening `>`, then
      each name with its closing token. The empty list is `> >`. */
  function PrintGenerics(gs: seq<Generic>): (ts: Tokens)
    ensures |ts| == if |gs| == 0 then 2 else 1 + 2 * |gs|
    ensures ts[0] == L.MoreThan && (|gs| == 0 ==> ts[1] == L.MoreThan)
  {
    if |gs| == 0 then [L.MoreThan, L.MoreThan] else [L.MoreThan] + PrintEntries(gs)
  }

  function PrintEntries(gs: seq<Generic>): (ts: Tokens)
    ensures |ts| == 2 * |gs|
  {
    if |gs| == 0 then [] else [L.Identifier(gs[0].name), EndToken(gs[0].end)] + PrintEntries(gs[1..])
  }

  /** A list the parser can read back: every entry but the last is closed by `,` or
      `of`, and the last by `>`. */
  predicate WellEnded(gs: seq<Generic>) {
    |gs| >= 1 && gs[|gs| - 1].end == Nothing && forall i :: 0 <= i < |gs| - 1 ==> gs[i].end != Nothing
  }

  /** The last entry of `parse_generics`: a name closed by `>`. */
  lemma LastEntry(toks: Tokens, s: State, gs: seq<Generic>)
    requires |gs| == 1 && 1 <= s.pos && s.pos + 1 <= |toks| && gs[0].end == Nothing
    requires toks[s.pos - 1] == L.Identifier(gs[0].name) && toks[s.pos] == L.MoreThan
    ensures GenericEntries(toks, s) == Ok(Parsed(gs, s.(pos := s.pos + 1)))
  {
    EntryAt(toks, s, gs[0]);
    assert [gs[0]] == gs;
  }

  /** An entry: its name, then the token that closes it. */
  lemma EntryAt(toks: Tokens, s: State, g: Generic)
    requires 1 <= s.pos && s.pos + 1 <= |toks|
    requires toks[s.pos - 1] == L.Identifier(g.name) && toks[s.pos] == EndToken(g.end)
    ensures GenericEntry(toks, s) == Ok(Parsed(g, s.(pos := s.pos + 1)))
  {
    assert EndOf(toks[s.pos]) == Some(g.end);
  }

  /** An entry closed by `,` or `of`, followed by the entries read from the next name
      on. */
  lemma MoreEntries(toks: Tokens, s: State, gs: seq<Generic>, t: State)
    requires |gs| > 1 && 1 <= s.pos && s.pos + 2 <= |toks| && gs[0].end != Nothing
    requires toks[s.pos - 1] == L.Identifier(gs[0].name) && toks[s.pos] == EndToken(gs[0].end)
    requires GenericEntries(toks, s.(pos := s.pos + 2)) == Ok(Parsed(gs[1..], t))
    ensures GenericEntries(toks, s) == Ok(Parsed(gs, t))
  {
    EntryAt(toks, s, gs[0]);
    EntriesStep(toks, s, gs, t);
  }

  /** One turn of the entry loop on an entry that is not the last. */
  lemma EntriesStep(toks: Tokens, s: State, gs: seq<Generic>, t: State)
    requires |gs| > 1 && 1 <= s.pos && s.pos + 2 <= |toks| && gs[0].end != Nothing && toks[s.pos - 1] != L.MoreThan
    requires GenericEntry(toks, s) == Ok(Parsed(gs[0], s.(pos := s.pos + 1)))
    requires GenericEntries(toks, s.(pos := s.pos + 2)) == Ok(Parsed(gs[1..], t))
    ensures GenericEntries(toks, s) == Ok(Parsed(gs, t))
  {
    assert CurrentToken(toks, s) == Ok(toks[s.pos - 1]);
    assert Advance(toks, s.(pos := s.pos + 1)) == Ok(s.(pos := s.pos + 2));
    assert [gs[0]] + gs[1..] == gs;
  }

  /** The entries `gs` written as tokens from index `n` of `toks` on. */
  ghost predicate EntriesAt(toks: Tokens, n: nat, gs: seq<Generic>)
    decreases |gs|
  {
    n + 2 * |gs| <= |toks| &&
    (|gs| == 0 ||
     (toks[n] == L.Identifier(gs[0].name) && toks[n + 1] == EndToken(gs[0].end) && EntriesAt(toks, n + 2, gs[1..])))
  }

  lemma {:induction false} PrintedEntriesAt(toks: Tokens, n: nat, gs: seq<Generic>)
    requires n + 2 * |gs| <= |toks|
    requires forall i :: 0 <= i < 2 * |gs| ==> toks[n + i] == PrintEntries(gs)[i]
    ensures EntriesAt(toks, n, gs)
    decreases |gs|
  {
    if |gs| > 0 {
      var ts := PrintEntries(gs);
      assert ts[0] == L.Identifier(gs[0].name) && ts[1] == EndToken(gs[0].end);
      assert toks[n + 0] == ts[0] && toks[n + 1] == ts[1];
      forall i | 0 <= i < 2 * |gs[1..]|
        ensures toks[n + 2 + i] == PrintEntries(gs[1..])[i]
      {
        assert ts[i + 2] == PrintEntries(gs[1..])[i];
        assert toks[n + (i + 2)] == ts[i + 2];
      }
      PrintedEntriesAt(toks, n + 2, gs[1..]);
    }
  }

  /** The element `i` of a middle part, in a sequence put together from three. */
  lemma InMiddle<T>(before: seq<T>, middle: seq<T>, after: seq<T>, i: nat)
    requires i < |middle|
    ensures (before + middle + after)[|before| + i] == middle[i]
  {
  }

  /** Reading entries gives them back, with the cursor on the closing `>`; with
      `EntriesPrinted`, the entry loop reads back what `PrintEntries` writes. */
  lemma {:induction false} EntriesAtReadBack(gs: seq<Generic>, toks: Tokens, s: State)
    requires WellEnded(gs)
    requires 1 <= s.pos && EntriesAt(toks, s.pos - 1, gs)
    ensures GenericEntries(toks, s) == Ok(Parsed(gs, s.(pos := s.pos - 1 + 2 * |gs|)))
    decreases |gs|
  {
    if |gs| == 1 {
      LastEntry(toks, s, gs);
    } else {
      assert gs[0].end != Nothing;
      assert WellEnded(gs[1..]);
      var next := s.(pos := s.pos + 2);
      var last := s.(pos := s.pos - 1 + 2 * |gs|);
      EntriesAtReadBack(gs[1..], toks, next);
      assert next.(pos := next.pos - 1 + 2 * |gs[1..]|) == last;
      MoreEntries(toks, s, gs, last);
    }
  }

  /** Printed entries, wherever they stand in the token sequence, are there to be
      read. */
  lemma EntriesPrinted(gs: seq<Generic>, before: Tokens, after: Tokens)
    ensures EntriesAt(before + PrintEntries(gs) + after, |before|, gs)
  {
    var toks := before + PrintEntries(gs) + after;
    forall i | 0 <= i < 2 * |gs|
      ensures toks[|before| + i] == PrintEntries(gs)[i]
    {
      InMiddle(before, PrintEntries(gs), after, i);
    }
    PrintedEntriesAt(toks, |before|, gs);
  }

  /** The generic list `gs` written as tokens from index `n` of `toks` on: `>`, then
      the entries, or a second `>` for the empty list. */
  ghost predicate GenericsAt(toks: Tokens, n: nat, gs: seq<Generic>) {
    n + 2 <= |toks| && toks[n] == L.MoreThan &&
    (if gs == [] then toks[n + 1] == L.MoreThan else EntriesAt(toks, n + 1, gs))
  }

  /** A printed generic list, wherever it stands in the token sequence, is there to be
      read. */
  lemma GenericsPrinted(gs: seq<Generic>, before: Tokens, after: Tokens)
    ensures GenericsAt(before + PrintGenerics(gs) + after, |before|, gs)
  {
    if gs == [] {
      EmptyGenericsPrinted(before, after);
    } else {
      var toks := before + PrintGenerics(gs) + after;
      InMiddle(before, PrintGenerics(gs), after, 0);
      EntriesAfterOpen(gs, before, after);
      PrintedEntriesAt(toks, |before| + 1, gs);
    }
  }

  /** The empty generic list is printed as `> >`. */
  lemma EmptyGenericsPrinted(before: Tokens, after: Tokens)
    ensures GenericsAt(before + PrintGenerics([]) + after, |before|, [])
  {
    InMiddle(before, PrintGenerics([]), after, 0);
    InMiddle(before, PrintGenerics([]), after, 1);
  }

  /** The entries of a printed non-empty generic list follow its opening `>`. */
  lemma EntriesAfterOpen(gs: seq<Generic>, before: Tokens, after: Tokens)
    requires gs != []
    ensures forall i :: 0 <= i < 2 * |gs| ==> (before + PrintGenerics(gs) + after)[|before| + 1 + i] == PrintEntries(gs)[i]
  {
    var ts := PrintGenerics(gs);
    forall i | 0 <= i < 2 * |gs|
      ensures (before + ts + after)[|before| + 1 + i] == PrintEntries(gs)[i]
    {
      assert ts[1 + i] == PrintEntries(gs)[i];
      InMiddle(before, ts, after, 1 + i);
    }
  }

  /** Reading a generic list gives it back, with the cursor on its closing `>`;
      with `GenericsPrinted`, `parse_generics` reads back what `PrintGenerics`
      writes. */
  lemma GenericsReadBack(gs: seq<Generic>, toks: Tokens, s: State)
    requires (gs == [] || WellEnded(gs)) && 1 <= s.pos && GenericsAt(toks, s.pos - 1, gs)
    ensures ParseGenerics(toks, s) == Ok(Parsed(gs, s.(pos := s.pos + (if gs == [] then 1 else 2 * |gs|))))
  {
    GenericsOpen(toks, s);
    var next := s.(pos := s.pos + 1);
    if gs != [] {
      EntriesAtReadBack(gs, toks, next);
      assert next.(pos := next.pos - 1 + 2 * |gs|) == s.(pos := s.pos + 2 * |gs|);
    }
  }

  /** Round trip: `parse_generics` on the cursor at a printed generic list, wherever
      it stands, gives the list back. */
  lemma ParsePrintedGenerics(gs: seq<Generic>, before: Tokens, after: Tokens, s: State)
    requires gs == [] || WellEnded(gs)
    requires s.pos == |before| + 1
    ensures ParseGenerics(before + PrintGenerics(gs) + after, s) ==
      Ok(Parsed(gs, s.(pos := s.pos + (if gs == [] then 1 else 2 * |gs|))))
  {
    GenericsPrinted(gs, before, after);
    GenericsReadBack(gs, before + PrintGenerics(gs) + after, s);
  }

  /** On `>`, `parse_generics` reads the entries from the next token on. */
  lemma GenericsOpen(toks: Tokens, s: State)
    requires 1 <= s.pos && s.pos + 1 <= |toks| && toks[s.pos - 1] == L.MoreThan
    ensures ParseGenerics(toks, s) == GenericEntries(toks, s.(pos := s.pos + 1))
    ensures toks[s.pos] == L.MoreThan ==> GenericEntries(toks, s.(pos := s.pos + 1)) == Ok(Parsed([], s.(pos := s.pos + 1)))
  {
    assert CurrentToken(toks, s) == Ok(L.MoreThan);
    assert Advance(toks, s) == Ok(s.(pos := s.pos + 1));
    assert CurrentToken(toks, s.(pos := s.pos + 1)) == Ok(toks[s.pos]);
  }

  /** The skipping loop of `parse_definition_signature`: forward to the first `)` at
      or after the cursor. */
  function SkipToClose(toks: Tokens, s: State): (r: Result<State>)
    ensures r.Ok? ==> r.value == s.(pos := r.value.pos) && 1 <= s.pos <= r.value.pos <= |toks|
    ensures r.Ok? ==> toks[r.value.pos - 1] == L.Character(')')
    ensures r.Ok? ==> forall i :: s.pos - 1 <= i < r.value.pos - 1 ==> toks[i] != L.Character(')')
    decreases Remaining(toks, s)
  {
    var t :- CurrentToken(toks, s);
    if t == L.Character(')') then Ok(s)
    else
      var next :- Advance(toks, s);
      SkipToClose(toks, next)
  }

  /** `parse_definition_signature`: a name, `(`, anything up to the first `)`, and an
      optional `=> Type`. The arguments are skipped, so `args` is always empty, and the
      owner is the file's path. Without `=>` the cursor steps back onto the `)`. */
  function ParseDefinitionSignature(toks: Tokens, origin: Origin, s: State): (r: Result<Parsed<DefinitionSignature>>)
    ensures r.Ok? ==> r.value.state == s.(pos := r.value.state.pos) && 1 <= s.pos < r.value.state.pos <= |toks|
    ensures r.Ok? ==> r.value.value.args == [] && r.value.value.owner == Path(FilePathToRosario(origin))
    ensures r.Ok? ==> toks[s.pos - 1] == L.Identifier(r.value.value.name)
    ensures r.Ok? ==> ReturnTypeRead(toks, r.value.state.pos, r.value.value.returnType)
    ensures r.Ok? && r.value.value.returnType.Some? ==>
      r.value.value.returnType.value == OwnedBy(s.ast.types, r.value.value.returnType.value.name)
  {
    var name :- GetIdentifier(toks, s);
    var atOpen :- Advance(toks, s);
    if toks[atOpen.pos - 1] != L.Character('(') then Fail(Failure(Unimplemented, AtParseDefinitionSignature))
    else
      var afterOpen :- Advance(toks, atOpen);
      var atClose :- SkipToClose(toks, afterOpen);
      var ret :- ParseReturnType(toks, atClose);
      Ok(Parsed(DefinitionSignature(Path(FilePathToRosario(origin)), name, [], ret.value), ret.state))
  }

  /** How the cursor `pos` left by `parse_definition_signature` relates to the return
      type read: with none, it is on a token that is not followed by `=>`; with one,
      it is on the type's name, right after `=>`. */
  ghost predicate ReturnTypeRead(toks: Tokens, pos: nat, ret: Option<TypeSignature>) {
    match ret
    case None => pos < |toks| && toks[pos] != L.Arrow
    case Some(ty) => 2 <= pos <= |toks| && toks[pos - 2] == L.Arrow && toks[pos - 1] == L.Identifier(ty.name)
  }

  /** A type name with the owner `find_type_signature_owner` gives it. */
  function OwnedBy(types: OMap<TypeSignature, RosarioType>, name: string): TypeSignature {
    TypeSignature(FindTypeSignatureOwner(types, name), name)
  }

  /** The end of `parse_definition_signature`, from the `)` on: `=> Type` gives a
      return type; anything else leaves the cursor on the `)`. */
  function ParseReturnType(toks: Tokens, s: State): (r: Result<Parsed<Option<TypeSignature>>>)
    requires 1 <= s.pos <= |toks|
    ensures r.Ok? ==> r.value.state == s.(pos := r.value.state.pos) && s.pos <= r.value.state.pos <= |toks|
    ensures r.Ok? ==> (r.value.value.None? <==> r.value.state.pos == s.pos)
    ensures r.Ok? ==> ReturnTypeRead(toks, r.value.state.pos, r.value.value)
    ensures r.Ok? && r.value.value.Some? ==> r.value.value.value == OwnedBy(s.ast.types, r.value.value.value.name)
  {
    var after :- Advance(toks, s);
    if toks[after.pos - 1] == L.Arrow then
      var atType :- Advance(toks, after);
      var ty :- ParseTypeSignature(toks, atType);
      Ok(Parsed(Some(ty), atType))
    else
      Ok(Parsed(None, s))
  }

  // ----- top-level items -----

  /** `parse_range`: an expression, `..`, an expression. */
  function ParseRange(toks: Tokens, s: State): (r: Result<Parsed<Range>>)
    ensures r.Ok? ==> Moves(toks, s, r.value.state)
    ensures r.Ok? ==> r.value.state.pos < |toks|
  {
    var atMin :- Advance(toks, s);
    var min :- ParseExpression(toks, atMin, None, None);
    var atDots := Advance(toks, min.state).value;
    var _ :- Expect(toks, atDots, L.RangeDots);
    var atMax :- Advance(toks, atDots);
    var max :- ParseExpression(toks, atMax, None, None);
    Ok(Parsed(Range(min.value, max.value), max.state))
  }

  /** `parse_type`: `type Name is range … ;`, stored under (the file's path, Name) with
      no generics. Any content but a range is unimplemented. */
  function ParseType(toks: Tokens, origin: Origin, s: State): (r: Result<State>)
    ensures r.Ok? ==> ItemStep(toks, s, r.value) && r.value.currentDefSig == s.currentDefSig
    ensures r.Ok? ==> r.value.ast.definitions == s.ast.definitions
    ensures r.Ok? ==> s.pos + 3 <= |toks| && toks[s.pos].Identifier? && toks[s.pos + 1] == L.Is && toks[s.pos + 2] == L.Range
    ensures r.Ok? ==> IsRangeType(Get(r.value.ast.types, TypeSignature(FilePathToRosario(origin), toks[s.pos].name)))
    ensures r.Ok? ==> Sorted(TypeSignatureLt, s.ast.types) ==> Sorted(TypeSignatureLt, r.value.ast.types)
    ensures r.Ok? ==> ParseRange(toks, s.(pos := s.pos + 3)).Ok?
    ensures r.Ok? ==> (Get(r.value.ast.types, TypeSignature(FilePathToRosario(origin), toks[s.pos].name)) ==
      Some(RosarioType([], RangeBody(ParseRange(toks, s.(pos := s.pos + 3)).value.value))))
    ensures r.Ok? ==> forall other :: other != TypeSignature(FilePathToRosario(origin), toks[s.pos].name) ==>
      Get(r.value.ast.types, other) == Get(s.ast.types, other)
  {
    var atName :- Advance(toks, s);
    var name :- GetIdentifier(toks, atName);
    var atIs :- Advance(toks, atName);
    var _ :- Expect(toks, atIs, L.Is);
    var atContent :- Advance(toks, atIs);
    if toks[atContent.pos - 1] != L.Range then Fail(Failure(Unimplemented, AtParseType))
    else RangeType(toks, TypeSignature(FilePathToRosario(origin), name), atContent)
  }

  /** A stored type as `parse_type` builds it: a range with no generics. */
  predicate IsRangeType(t: Option<RosarioType>) {
    t.Some? && t.value.generics == [] && t.value.body.RangeBody?
  }

  /** The range arm of `parse_type`: the range, `;`, and the new type under `sig`. */
  function RangeType(toks: Tokens, sig: TypeSignature, s: State): (r: Result<State>)
    ensures r.Ok? ==> ItemStep(toks, s, r.value) && r.value.currentDefSig == s.currentDefSig
    ensures r.Ok? ==> r.value.ast.definitions == s.ast.definitions
    ensures r.Ok? ==> IsRangeType(Get(r.value.ast.types, sig))
    ensures r.Ok? ==> Sorted(TypeSignatureLt, s.ast.types) ==> Sorted(TypeSignatureLt, r.value.ast.types)
    ensures r.Ok? ==> ParseRange(toks, s).Ok? && Get(r.value.ast.types, sig) == Some(RosarioType([], RangeBody(ParseRange(toks, s).value.value)))
    ensures r.Ok? ==> forall other :: other != sig ==> Get(r.value.ast.types, other) == Get(s.ast.types, other)
  {
    var range :- ParseRange(toks, s);
    var atSemicolon := Advance(toks, range.state).value;
    var _ :- Expect(toks, atSemicolon, L.Semicolon);
    var stored := StoreRangeType(atSemicolon, sig, range.value);
    MovedThenStored(toks, s, range.state, stored);
    Ok(stored)
  }

  /** An item that moved over some tokens and then stored a type or definition, leaving
      the arena alone, made an item step. */
  lemma MovedThenStored(toks: Tokens, s: State, mid: State, t: State)
    requires Moves(toks, s, mid) && mid.pos < t.pos <= |toks|
    requires t.ast.expressions == mid.ast.expressions && t.ast.expressionId == mid.ast.expressionId
    ensures ItemStep(toks, s, t)
  {
  }

  /** The `new_type` call of the range arm: only the type map changes, and `sig` now
      holds a range type. */
  function StoreRangeType(s: State, sig: TypeSignature, range: Range): (r: State)
    ensures r.pos == s.pos && r.currentDefSig == s.currentDefSig
    ensures r.ast.expressions == s.ast.expressions && r.ast.expressionId == s.ast.expressionId
    ensures r.ast.definitions == s.ast.definitions
    ensures IsRangeType(Get(r.ast.types, sig))
    ensures Sorted(TypeSignatureLt, s.ast.types) ==> Sorted(TypeSignatureLt, r.ast.types)
    ensures Get(r.ast.types, sig) == Some(RosarioType([], RangeBody(range)))
    ensures forall other :: other != sig ==> Get(r.ast.types, other) == Get(s.ast.types, other)
  {
    s.(ast := NewType(s.ast, sig.name, sig.owner, RosarioType([], RangeBody(range))))
  }

  /** `parse_procedure`: a signature, `is`, the body expression (which must end with
      the procedure's name when it is a `begin … end` block), `;`. The body is parsed
      with the signature as the current definition, which is cleared afterwards. */
  function ParseProcedure(toks: Tokens, origin: Origin, s: State): (r: Result<State>)
    ensures r.Ok? ==> ItemStep(toks, s, r.value) && r.value.currentDefSig.None? && r.value.ast.types == s.ast.types
    ensures r.Ok? ==> Sorted(DefinitionSignatureLt, s.ast.definitions) ==> Sorted(DefinitionSignatureLt, r.value.ast.definitions)
    ensures r.Ok? ==> ParseDefinitionSignature(toks, origin, s.(pos := s.pos + 1)).Ok?
    ensures r.Ok? ==> var signature := ParseDefinitionSignature(toks, origin, s.(pos := s.pos + 1)).value.value;
      signature.owner == Path(FilePathToRosario(origin)) && signature.args == [] &&
      toks[s.pos] == L.Identifier(signature.name) && Get(r.value.ast.definitions, signature).Some? &&
      forall other :: other != signature ==> Get(r.value.ast.definitions, other) == Get(s.ast.definitions, other)
  {
    var atName :- Advance(toks, s);
    var signature :- ParseDefinitionSignature(toks, origin, atName);
    ProcedureBody(toks, signature.value, signature.state.(currentDefSig := Some(signature.value)))
  }

  /** The rest of `parse_procedure`, with `signature` the current definition. */
  function ProcedureBody(toks: Tokens, signature: DefinitionSignature, s: State): (r: Result<State>)
    ensures r.Ok? ==> ItemStep(toks, s, r.value) && r.value.currentDefSig.None? && r.value.ast.types == s.ast.types
    ensures r.Ok? ==> Get(r.value.ast.definitions, signature).Some?
    ensures r.Ok? ==> s.pos + 2 <= |toks| && toks[s.pos] == L.Is
    ensures r.Ok? ==> ParseExpression(toks, s.(pos := s.pos + 2), Some(signature.name), None).Ok?
    ensures r.Ok? ==> Get(r.value.ast.definitions, signature) == Some(ParseExpression(toks, s.(pos := s.pos + 2), Some(signature.name), None).value.value)
    ensures r.Ok? ==> forall other :: other != signature ==> Get(r.value.ast.definitions, other) == Get(s.ast.definitions, other)
    ensures r.Ok? ==> Sorted(DefinitionSignatureLt, s.ast.definitions) ==> Sorted(DefinitionSignatureLt, r.value.ast.definitions)
  {
    var atIs :- Advance(toks, s);
    var _ :- Expect(toks, atIs, L.Is);
    var atBody :- Advance(toks, atIs);
    var body :- ParseExpression(toks, atBody, Some(signature.name), None);
    var atSemicolon := Advance(toks, body.state).value;
    var _ :- Expect(toks, atSemicolon, L.Semicolon);
    var stored := StoreDefinition(atSemicolon, signature, body.value);
    MovedThenStored(toks, s, body.state, stored);
    Ok(stored)
  }

  /** The `new_definition` call closing `parse_procedure`: the definition is stored
      under its signature and stops being the current one; nothing else changes. */
  function StoreDefinition(s: State, signature: DefinitionSignature, body: ExpressionId): (r: State)
    ensures r.pos == s.pos && r.currentDefSig.None?
    ensures r.ast.expressions == s.ast.expressions && r.ast.expressionId == s.ast.expressionId
    ensures r.ast.types == s.ast.types
    ensures Get(r.ast.definitions, signature).Some?
    ensures Get(r.ast.definitions, signature) == Some(body)
    ensures forall other :: other != signature ==> Get(r.ast.definitions, other) == Get(s.ast.definitions, other)
    ensures Sorted(DefinitionSignatureLt, s.ast.definitions) ==> Sorted(DefinitionSignatureLt, r.ast.definitions)
  {
    s.(currentDefSig := None, ast := NewDefinition(s.ast, signature, body))
  }

  /** What a top-level item does to the state: moves the cursor forward, never turns
      the expression counter back and keeps the arena well numbered. */
  ghost predicate ItemStep(toks: Tokens, s: State, t: State) {
    s.pos < t.pos <= |toks| && s.ast.expressionId <= t.ast.expressionId &&
    (WellNumbered(s.ast) ==> WellNumbered(t.ast))
  }

  /** The item loop of `start`: procedures and types until the end of the file. */
  function Items(toks: Tokens, origin: Origin, s: State): (r: Result<Ast>)
    ensures r.Ok? ==> s.ast.expressionId <= r.value.expressionId && (WellNumbered(s.ast) ==> WellNumbered(r.value))
    ensures r.Ok? ==> Sorted(TypeSignatureLt, s.ast.types) ==> Sorted(TypeSignatureLt, r.value.types)
    ensures r.Ok? ==> Sorted(DefinitionSignatureLt, s.ast.definitions) ==> Sorted(DefinitionSignatureLt, r.value.definitions)
    decreases Remaining(toks, s)
  {
    var t :- CurrentToken(toks, s);
    if t == L.EndOfFile then Ok(s.ast)
    else
      var item :- if t == L.Procedure then ParseProcedure(toks, origin, s)
        else if t == L.Type then ParseType(toks, origin, s)
        else Fail(Failure(Unimplemented, AtStart));
      var next :- Advance(toks, item);
      Items(toks, origin, next)
  }

  /** `Parser::start` on a token sequence: the arena of the whole file. */
  function Start(toks: Tokens, origin: Origin): (r: Result<Ast>)
    ensures r.Ok? ==> WellNumbered(r.value)
    ensures r.Ok? ==> Sorted(TypeSignatureLt, r.value.types) && Sorted(DefinitionSignatureLt, r.value.definitions)
    ensures |toks| == 0 ==> r.Fail?
  {
    var first :- Advance(toks, State(0, EmptyAst, None));
    Items(toks, origin, first)
  }

  /** `Parser::start` from the source text: the lexer's tokens, then the items. */
  function Parse(input: seq<L.Byte>, origin: Origin): (r: Result<Ast>)
    ensures r.Ok? ==> WellNumbered(r.value)
  {
    var tokens :- L.Start(input);
    Start(L.Types(tokens), origin)
  }
}

=== FILE: ast.dfy ===
/** The syntax tree the parser builds and the three passes rewrite
    (`crates/rosarioparser/src/ast.rs`).

    Boxes become plain recursive constructors, `Vec` becomes `seq`, and every
    `BTreeMap` becomes an `OMap` (its entries in key order). The derived orders of
    the map keys are written out below and proved to be strict total orders, which
    is what a `BTreeMap` key needs.
 */
module Ast {
  import opened Outcome
  import opened Order
  import opened OrdMap

  const I128Min: int := -0x8000_0000_0000_0000_0000_0000_0000_0000
  const I128Max: int := 0x7fff_ffff_ffff_ffff_ffff_ffff_ffff_ffff

  /** Rust's `i128`. */
  type I128 = x: int | I128Min <= x <= I128Max

  // ----- signatures and their derived orders -----

  /** Which token closed a generic argument: `>` (None), `,` or `of`. */
  datatype GenericEnd = EndNone | EndComma | EndOf

  datatype Generic = Generic(name: string, endsWith: GenericEnd)

  datatype TypeSignature = TypeSignature(name: string, generics: seq<Generic>)

  datatype TraitSignature = TraitSignature(name: string, generics: seq<Generic>)

  datatype ImplSignature = ImplSignature(implOf: Option<TraitSignature>, implFor: TypeSignature)

  /** Derived enum order: variants compare by declaration position. */
  function EndRank(e: GenericEnd): nat {
    match e
    case EndNone => 0
    case EndComma => 1
    case EndOf => 2
  }

  predicate GenericEndLt(a: GenericEnd, b: GenericEnd) {
    EndRank(a) < EndRank(b)
  }

  /** Derived struct order: by `name`, then by `ends_with`. */
  predicate GenericLt(a: Generic, b: Generic) {
    StringLt(a.name, b.name) || (a.name == b.name && GenericEndLt(a.endsWith, b.endsWith))
  }

  /** Derived struct order: by `name`, then by the generic list lexicographically. */
  predicate TypeSignatureLt(a: TypeSignature, b: TypeSignature) {
    StringLt(a.name, b.name) || (a.name == b.name && SeqLt(GenericLt, a.generics, b.generics))
  }

  predicate TraitSignatureLt(a: TraitSignature, b: TraitSignature) {
    StringLt(a.name, b.name) || (a.name == b.name && SeqLt(GenericLt, a.generics, b.generics))
  }

  /** Derived `Option` order: `None` sorts before every `Some`. */
  predicate TraitOptionLt(a: Option<TraitSignature>, b: Option<TraitSignature>) {
    match (a, b)
    case (None, Some(_)) => true
    case (Some(x), Some(y)) => TraitSignatureLt(x, y)
    case _ => false
  }

  /** Derived struct order: by `impl_of` first, then by `impl_for`. */
  predicate ImplSignatureLt(a: ImplSignature, b: ImplSignature) {
    TraitOptionLt(a.implOf, b.implOf) || (a.implOf == b.implOf && TypeSignatureLt(a.implFor, b.implFor))
  }

  lemma GenericEndOrderIsTotal()
    ensures StrictTotalOrder(GenericEndLt)
  {
    forall a: GenericEnd, b: GenericEnd ensures a == b || GenericEndLt(a, b) || GenericEndLt(b, a) {
    }
  }

  lemma GenericOrderIsTotal()
    ensures StrictTotalOrder(GenericLt)
  {
    StringLtIsStrictTotal();
    GenericEndOrderIsTotal();
    forall a: Generic, b: Generic ensures a == b || GenericLt(a, b) || GenericLt(b, a) {
      assert a.name == b.name || StringLt(a.name, b.name) || StringLt(b.name, a.name);
      assert a.endsWith == b.endsWith || GenericEndLt(a.endsWith, b.endsWith) || GenericEndLt(b.endsWith, a.endsWith);
    }
  }

  /** `TypeSignature` is a lawful `BTreeMap` key: its derived order is a strict total order. */
  lemma TypeSignatureOrderIsTotal()
    ensures StrictTotalOrder(TypeSignatureLt)
  {
    StringLtIsStrictTotal();
    GenericOrderIsTotal();
    SeqLtIsStrictTotal(GenericLt);
    forall a: TypeSignature, b: TypeSignature
      ensures a == b || TypeSignatureLt(a, b) || TypeSignatureLt(b, a)
    {
      assert a.name == b.name || StringLt(a.name, b.name) || StringLt(b.name, a.name);
      assert a.generics == b.generics || SeqLt(GenericLt, a.generics, b.generics) || SeqLt(GenericLt, b.generics, a.generics);
    }
  }

  lemma TraitSignatureOrderIsTotal()
    ensures StrictTotalOrder(TraitSignatureLt)
  {
    StringLtIsStrictTotal();
    GenericOrderIsTotal();
    SeqLtIsStrictTotal(GenericLt);
    forall a: TraitSignature, b: TraitSignature
      ensures a == b || TraitSignatureLt(a, b) || TraitSignatureLt(b, a)
    {
      assert a.name == b.name || StringLt(a.name, b.name) || StringLt(b.name, a.name);
      assert a.generics == b.generics || SeqLt(GenericLt, a.generics, b.generics) || SeqLt(GenericLt, b.generics, a.generics);
    }
  }

  /** `ImplSignature` is a lawful `BTreeMap` key, and a missing trait sorts before any trait. */
  lemma ImplSignatureOrderIsTotal()
    ensures StrictTotalOrder(ImplSignatureLt)
    ensures forall t: TraitSignature, x: TypeSignature, y: TypeSignature ::
      ImplSignatureLt(ImplSignature(None, x), ImplSignature(Some(t), y))
  {
    TraitSignatureOrderIsTotal();
    TypeSignatureOrderIsTotal();
    assert StrictTotalOrder(TraitOptionLt) by {
      forall a: Option<TraitSignature>, b: Option<TraitSignature>
        ensures a == b || TraitOptionLt(a, b) || TraitOptionLt(b, a)
      {
        if a.Some? && b.Some? {
          assert a.value == b.value || TraitSignatureLt(a.value, b.value) || TraitSignatureLt(b.value, a.value);
        }
      }
    }
    forall a: ImplSignature, b: ImplSignature
      ensures a == b || ImplSignatureLt(a, b) || ImplSignatureLt(b, a)
    {
      assert a.implOf == b.implOf || TraitOptionLt(a.implOf, b.implOf) || TraitOptionLt(b.implOf, a.implOf);
      assert a.implFor == b.implFor || TypeSignatureLt(a.implFor, b.implFor) || TypeSignatureLt(b.implFor, a.implFor);
    }
  }

  // ----- expressions -----

  datatype ConditionType = Equals | LessThan | MoreThan | LessThanOrEquals | MoreThanOrEquals | NotEquals

  datatype MatchOption =
    | AllCombinations
    | SingleIdentifier(variant: string, bindings: seq<string>)
    | MultipleIdentifiers(variants: seq<(string, seq<string>)>)
    | SingleNumber(number: nat, upTo: Option<nat>)
    | MultipleNumbers(numbers: seq<(nat, Option<nat>)>)

  datatype FunctionCall = FunctionCall(name: string, arguments: seq<Expression>)

  datatype Expression =
    | Empty
    | Number(value: I128, fraction: Option<I128>, tag: Option<TypeSignature>)
    | Negative(inner: Expression)
    | Positive(inner: Expression)
    | Not(inner: Expression)
    | Sub(left: Expression, right: Expression)
    | Add(left: Expression, right: Expression)
    | Let(isMutable: bool, name: string, ty: TypeSignature, initializer: Expression)
    | Body(content: seq<Expression>)
    | Match(condition: Expression, elements: seq<(MatchOption, Expression)>)
    | Variable(name: string)
    | Call(call: FunctionCall)
    | StaticString(text: string)
    | MatchAll
    | If(statements: seq<(Expression, seq<Expression>)>)
    | Condition(left: Expression, cond: ConditionType, right: Expression)
    | Parenthesis(inner: Expression)
    | ToThePowerOf(left: Expression, right: Expression)
    | SelfVariable
    | AccessFunction(target: Expression, call: FunctionCall)
    | AccessVariable(target: Expression, field: string)
    | AccessTypeImplementation(owner: TypeSignature, access: Expression)
    | Clang(inner: Expression)
    | NewEnum(ty: TypeSignature, item: nat, payload: Expression)
    | Return(inner: Expression)

  /** `Expression::get_type`: only literals and `let` bindings know their type. */
  function GetType(e: Expression): (r: Result<Option<TypeSignature>>)
    ensures r.Ok? <==> e.Number? || e.Let?
    ensures e.Number? ==> r == Ok(e.tag)
    ensures e.Let? ==> r == Ok(Some(e.ty))
    ensures r.Fail? ==> r.failure.kind == Unimplemented
  {
    if e.Number? then Ok(e.tag)
    else if e.Let? then Ok(Some(e.ty))
    else Fail(Failure(Unimplemented, "Expression::get_type"))
  }

  // ----- declarations -----

  datatype IsMutable = NotMutable | Mutable

  datatype ReturnType =
    | NoReturn
    | ReturnsType(mutability: IsMutable, sig: TypeSignature)
    | ReturnsGeneric(mutability: IsMutable, generic: string)

  datatype ArgumentType = UnknownArgumentType | NamedArgument(argName: string, argType: TypeSignature) | SelfArgument

  datatype Argument = Argument(argumentType: ArgumentType, isMutable: bool)

  datatype Signature = Signature(name: string, arguments: seq<Argument>, returnType: ReturnType)

  datatype Procedure = Procedure(signature: Signature, body: Expression)

  datatype Function = Function(signature: Signature, body: Expression)

  datatype Operator = Operator(ty: string, signature: Signature, body: Expression)

  datatype TypeImplementation = TypeImplementation(
    procedures: seq<Procedure>,
    publicProcedures: seq<Procedure>,
    functions: seq<Function>,
    publicFunctions: seq<Function>,
    operators: seq<Operator>,
    mutableOperators: seq<Operator>)

  const EmptyImplementation := TypeImplementation([], [], [], [], [], [])

  datatype EnumArgument = UnknownArgument | GenericArgument(generic: string) | TypeArgument(sig: TypeSignature)

  /** Variants keyed by their index; the map is iterated in ascending index order. */
  datatype Enum = Enum(contents: OMap<nat, (string, seq<EnumArgument>)>)

  datatype Range = Range(isSigned: bool, left: Expression, right: Expression)

  datatype TypeContent =
    | NoContent
    | RangeContent(range: Range)
    | EnumContent(enumeration: Enum)
    | Modulo(modulus: Expression)
    | TypeRef(target: TypeSignature)

  datatype RosarioType = RosarioType(traits: seq<string>, content: TypeContent)

  datatype Trait = Trait(signatures: seq<Signature>)

  type TypeMap = OMap<TypeSignature, RosarioType>

  type ImplMap = OMap<ImplSignature, TypeImplementation>

  type TraitMap = OMap<TraitSignature, Trait>

  /** Private and public declarations live in separate fields and are never merged. */
  datatype File = File(
    types: TypeMap,
    publicTypes: TypeMap,
    implementations: ImplMap,
    traits: TraitMap,
    publicTraits: TraitMap,
    procedures: seq<Procedure>,
    publicProcedures: seq<Procedure>,
    functions: seq<Function>,
    publicFunctions: seq<Function>,
    publicPackages: seq<string>)

  const EmptyFile := File([], [], [], [], [], [], [], [], [], [])

  datatype Package = Package(packages: seq<(string, bool)>, cIncludes: seq<string>, file: File)

  const EmptyPackage := Package([], [], EmptyFile)

  /** `ParsedResult::packages` and `Parser::generic_results`: packages by name. */
  type Packages = OMap<string, Package>
}

=== FILE: declaration_facts.dfy ===
/** Properties of the declaration parser that span several calls: the path a `use`
    line builds, and the map invariants `main_pass` keeps. */
module DeclarationFacts {
  import opened Outcome
  import opened Order
  import opened OrdMap
  import opened Ast
  import opened ParserBase
  import opened ExpressionParser
  import opened DeclarationParser
  import L = Lexer

  lemma DropLast2OfLonger(x: string, y: string)
    requires |y| >= 2
    ensures DropLast2(x + y) == x + DropLast2(y)
  {
    assert (x + y)[..|x + y| - 2] == x + y[..|y| - 2];
  }

  lemma {:induction false} SuffixedLength(names: seq<string>)
    requires |names| > 0
    ensures |Suffixed(names)| >= 2
  {
    assert Suffixed(names) == names[0] + "::" + Suffixed(names[1..]);
  }

  /** A `use` line names its package by the written names joined with `::`. */
  lemma {:induction false} UsePathJoinsNames(names: seq<string>)
    ensures UsePath(names) == Joined(names)
  {
    if |names| == 1 {
      assert Suffixed(names) == names[0] + "::" + Suffixed([]);
      assert names[0] + "::" == names[0] + "::" + "";
      assert DropLast2(names[0] + "::") == names[0];
    } else if |names| > 1 {
      SuffixedLength(names[1..]);
      UsePathJoinsNames(names[1..]);
      assert Suffixed(names) == (names[0] + "::") + Suffixed(names[1..]);
      DropLast2OfLonger(names[0] + "::", Suffixed(names[1..]));
    }
  }

  /** `main_pass` stores a file whose maps are sorted, and keeps the package map
      sorted by name. */
  lemma MainPassKeepsSorted(toks: Tokens, fileName: string, packages: Packages)
    requires MainPass(toks, fileName, packages).Ok?
    requires Sorted(StringLt, packages)
    ensures Sorted(StringLt, MainPass(toks, fileName, packages).value)
    ensures SortedFile(Get(MainPass(toks, fileName, packages).value, fileName).value.file)
  {
    var main := MainLoop(toks, 1, fileName, packages, EmptyPackage, false).value;
    assert SortedFile(EmptyPackage.file);
    StringLtIsStrictTotal();
    InsertKeepsSorted(StringLt, packages, fileName, main);
  }

  /** Enum variants are keyed by position, so the index an enum constructor resolves
      to is the position of the first variant with the given name. */
  lemma FirstVariantIsPosition(contents: OMap<nat, (string, seq<EnumArgument>)>, name: string)
    requires KeyedByPosition(contents)
    requires FirstVariant(contents, name).Some?
    ensures var v := FirstVariant(contents, name).value;
      v < |contents| && contents[v].1.0 == name && forall j :: 0 <= j < v ==> contents[j].1.0 != name
  {
  }

  // ----- what a declaration stores -----

  /** A top-level procedure is appended, as the parsed signature and body, to exactly
      the procedure list its visibility selects; nothing else in the package changes. */
  lemma DeclareAppendsProcedure(toks: Tokens, pos: nat, sc: Scope, main: Package, isPublic: bool)
    requires Declare(toks, pos, L.Procedure, sc, main, isPublic).Ok?
    ensures ParseRoutine(toks, pos, true, [], sc).Ok?
    ensures var routine := ParseRoutine(toks, pos, true, [], sc).value;
      var p := Procedure(routine.value.0, routine.value.1);
      var f := Declare(toks, pos, L.Procedure, sc, main, isPublic).value.value.file;
      && (isPublic ==> f.publicProcedures == main.file.publicProcedures + [p] && f.procedures == main.file.procedures)
      && (!isPublic ==> f.procedures == main.file.procedures + [p] && f.publicProcedures == main.file.publicProcedures)
      && f.(procedures := main.file.procedures, publicProcedures := main.file.publicProcedures) == main.file
  {
  }

  /** A top-level function is appended to exactly the function list its visibility
      selects; nothing else in the package changes. */
  lemma DeclareAppendsFunction(toks: Tokens, pos: nat, sc: Scope, main: Package, isPublic: bool)
    requires Declare(toks, pos, L.Function, sc, main, isPublic).Ok?
    ensures ParseRoutine(toks, pos, false, [], sc).Ok?
    ensures var routine := ParseRoutine(toks, pos, false, [], sc).value;
      var fn := Function(routine.value.0, routine.value.1);
      var f := Declare(toks, pos, L.Function, sc, main, isPublic).value.value.file;
      && (isPublic ==> f.publicFunctions == main.file.publicFunctions + [fn] && f.functions == main.file.functions)
      && (!isPublic ==> f.functions == main.file.functions + [fn] && f.publicFunctions == main.file.publicFunctions)
      && f.(functions := main.file.functions, publicFunctions := main.file.publicFunctions) == main.file
  {
  }

  /** A top-level type is stored under its signature in exactly the type map its
      visibility selects; every other signature keeps its entry and nothing else in
      the package changes. */
  lemma DeclareInsertsType(toks: Tokens, pos: nat, sc: Scope, main: Package, isPublic: bool)
    requires Declare(toks, pos, L.Type, sc, main, isPublic).Ok?
    ensures ParseTypeDecl(toks, pos, sc).Ok?
    ensures var (sig, ty) := ParseTypeDecl(toks, pos, sc).value.value;
      var f := Declare(toks, pos, L.Type, sc, main, isPublic).value.value.file;
      var chosen := if isPublic then f.publicTypes else f.types;
      var before := if isPublic then main.file.publicTypes else main.file.types;
      && Get(chosen, sig) == Some(ty)
      && (forall k :: k != sig ==> Get(chosen, k) == Get(before, k))
      && f.(types := main.file.types, publicTypes := main.file.publicTypes) == main.file
      && (if isPublic then f.types == main.file.types else f.publicTypes == main.file.publicTypes)
  {
    var parsed := ParseTypeDecl(toks, pos, sc).value;
    DeclaredTypeIsInserted(toks, pos, sc, main, isPublic, parsed);
    InsertedTypeIsStored(main.file, isPublic, parsed.value.0, parsed.value.1);
  }

  /** Inserting a type into one of a file's two type maps. */
  lemma InsertedTypeIsStored(file: File, isPublic: bool, sig: TypeSignature, ty: RosarioType)
    ensures var f := if isPublic then file.(publicTypes := Insert(TypeSignatureLt, file.publicTypes, sig, ty))
                     else file.(types := Insert(TypeSignatureLt, file.types, sig, ty));
      var chosen := if isPublic then f.publicTypes else f.types;
      var before := if isPublic then file.publicTypes else file.types;
      && Get(chosen, sig) == Some(ty)
      && (forall k :: k != sig ==> Get(chosen, k) == Get(before, k))
      && f.(types := file.types, publicTypes := file.publicTypes) == file
      && (if isPublic then f.types == file.types else f.publicTypes == file.publicTypes)
  {
  }

  /** The type branch of a declaration inserts the parsed type into one map. */
  lemma DeclaredTypeIsInserted(toks: Tokens, pos: nat, sc: Scope, main: Package, isPublic: bool,
                               parsed: Parsed<(TypeSignature, RosarioType)>)
    requires ParseTypeDecl(toks, pos, sc) == Ok(parsed)
    ensures var (sig, ty) := parsed.value;
      Declare(toks, pos, L.Type, sc, main, isPublic) == Ok(Parsed(main.(file :=
        if isPublic then main.file.(publicTypes := Insert(TypeSignatureLt, main.file.publicTypes, sig, ty))
        else main.file.(types := Insert(TypeSignatureLt, main.file.types, sig, ty))), parsed.pos))
  {
  }

  /** A member of an implementation block is appended, as parsed, to exactly the list
      its kind and visibility (for an operator: its mutability) select; the other
      lists are unchanged. */
  lemma MemberAppends(toks: Tokens, pos: nat, t: L.TokenType, generics: seq<Generic>, sc: Scope, acc: TypeImplementation,
                      isPublic: bool, isMutableOperator: bool)
    requires ParseMember(toks, pos, t, generics, sc, acc, isPublic, isMutableOperator).Ok?
    ensures t == L.Procedure || t == L.Function || (t == L.Operator && isPublic)
    ensures ParseRoutine(toks, pos, t == L.Procedure, generics, sc).Ok?
    ensures var routine := ParseRoutine(toks, pos, t == L.Procedure, generics, sc).value;
      var sig := routine.value.0;
      var body := routine.value.1;
      var r := ParseMember(toks, pos, t, generics, sc, acc, isPublic, isMutableOperator).value.value;
      && (t == L.Procedure && isPublic ==> r == acc.(publicProcedures := acc.publicProcedures + [Procedure(sig, body)]))
      && (t == L.Procedure && !isPublic ==> r == acc.(procedures := acc.procedures + [Procedure(sig, body)]))
      && (t == L.Function && isPublic ==> r == acc.(publicFunctions := acc.publicFunctions + [Function(sig, body)]))
      && (t == L.Function && !isPublic ==> r == acc.(functions := acc.functions + [Function(sig, body)]))
      && (t == L.Operator && isMutableOperator ==> r == acc.(mutableOperators := acc.mutableOperators + [Operator(sig.name, sig, body)]))
      && (t == L.Operator && !isMutableOperator ==> r == acc.(operators := acc.operators + [Operator(sig.name, sig, body)]))
  {
  }
}

=== FILE: declaration_parser.dfy ===
/** The declaration part of the recursive-descent parser (`crates/rosarioparser/src/parser.rs`):
    `main_pass` and what it dispatches to — types (ranges, moduli, enums, aliases),
    procedures, functions, implementation blocks with their operators, traits and
    `use` lines.

    Every function starts on the keyword of its construct and returns the cursor of
    the last token it read, like the expression parser.
 */
module DeclarationParser {
  import opened Outcome
  import opened Order
  import opened OrdMap
  import opened Ast
  import opened ParserBase
  import opened ExpressionParser
  import L = Lexer

  const AtParseEnum: string := "Parser::parse_enum"
  const AtParseType: string := "Parser::parse_type"
  const AtParseSignature: string := "Parser::parse_signature"
  const AtParseImplementation: string := "Parser::parse_implementation"
  const AtMainPass: string := "Parser::main_pass"

  // ----- enums -----

  /** Some generic of the enclosing declaration has this name. */
  predicate HasGenericNamed(generics: seq<Generic>, name: string) {
    exists i :: 0 <= i < |generics| && generics[i].name == name
  }

  /** A payload type names a generic of the enum when a generic has its name, and is
      a concrete type otherwise. */
  function PayloadArgument(generics: seq<Generic>, ty: TypeSignature): (a: EnumArgument)
    ensures a.GenericArgument? <==> HasGenericNamed(generics, ty.name)
    ensures a.GenericArgument? ==> a.generic == ty.name
    ensures a.TypeArgument? ==> a.sig == ty
  {
    if exists i :: 0 <= i < |generics| && generics[i].name == ty.name then GenericArgument(ty.name) else TypeArgument(ty)
  }

  /** The entries of an enum are keyed by their position. */
  predicate KeyedByPosition(contents: OMap<nat, (string, seq<EnumArgument>)>) {
    forall i :: 0 <= i < |contents| ==> contents[i].0 == i
  }

  /** `parse_enum`, entered on `enum`: variants until `end`, then `end Name`. */
  function ParseEnum(toks: Tokens, pos: nat, name: Option<string>, generics: seq<Generic>): (r: Result<Parsed<Enum>>)
    ensures r.Ok? ==> pos < r.value.pos && KeyedByPosition(r.value.value.contents)
  {
    var variants :- Variants(toks, pos + 1, generics, []);
    var closing :- CheckEnding(toks, variants.pos, name, None);
    Ok(Parsed(Enum(variants.value), closing))
  }

  /** The variant loop of `parse_enum`: `Name`, `Name,` or `Name(T, …)[,]`, until
      `end`; each variant is stored under the number of variants before it. */
  function Variants(toks: Tokens, pos: nat, generics: seq<Generic>, acc: OMap<nat, (string, seq<EnumArgument>)>)
    : (r: Result<Parsed<OMap<nat, (string, seq<EnumArgument>)>>>)
    requires KeyedByPosition(acc)
    ensures r.Ok? ==> pos <= r.value.pos && KeyedByPosition(r.value.value)
    decreases |toks| + 1 - pos
  {
    var t :- Tok(toks, pos);
    if t == L.End then Ok(Parsed(acc, pos))
    else
      var variant :- GetIdentifier(toks, pos);
      var next :- Tok(toks, pos + 1);
      if next == L.Character(',') then Variants(toks, pos + 2, generics, AddVariant(acc, variant, []))
      else if next != L.Character('(') then Variants(toks, pos + 1, generics, AddVariant(acc, variant, []))
      else
        var payload :- Payload(toks, pos + 1, generics);
        var _ :- CheckToken(toks, payload.pos, L.Character(')'));
        var after :- Tok(toks, payload.pos + 1);
        var resume := if after == L.Character(',') then payload.pos + 2 else payload.pos + 1;
        Variants(toks, resume, generics, AddVariant(acc, variant, payload.value))
  }

  /** The next variant, stored under the number of variants before it. */
  function AddVariant(acc: OMap<nat, (string, seq<EnumArgument>)>, name: string, args: seq<EnumArgument>)
    : (r: OMap<nat, (string, seq<EnumArgument>)>)
    requires KeyedByPosition(acc)
    ensures KeyedByPosition(r) && |r| == |acc| + 1 && r[..|acc|] == acc && r[|acc|].1 == (name, args)
  {
    acc + [(|acc|, (name, args))]
  }

  /** The payload loop, entered on `(` or `,`: a type signature followed by `,` or
      `)`, until `)`. Returns the cursor of the `)`. */
  function Payload(toks: Tokens, pos: nat, generics: seq<Generic>): (r: Result<Parsed<seq<EnumArgument>>>)
    ensures r.Ok? ==> pos <= r.value.pos
    ensures r.Ok? ==> forall k :: 0 <= k < |r.value.value| ==> !r.value.value[k].UnknownArgument?
    decreases |toks| + 1 - pos
  {
    var t :- Tok(toks, pos);
    if t == L.Character(')') then Ok(Parsed([], pos))
    else
      var ty :- ParseTypeSignature(toks, pos + 1);
      var separator :- Tok(toks, ty.pos + 1);
      if separator != L.Character(',') && separator != L.Character(')') then Fail(Failure(Panicked, AtParseEnum))
      else
        var rest :- Payload(toks, ty.pos + 1, generics);
        Ok(Parsed([PayloadArgument(generics, ty.value)] + rest.value, rest.pos))
  }

  // ----- type declarations -----

  /** `parse_range`, entered on `range`: `left .. right`; the range is signed when its
      lower bound is written with a leading minus. */
  function ParseRange(toks: Tokens, pos: nat, sc: Scope): (r: Result<Parsed<Range>>)
    ensures r.Ok? ==> pos < r.value.pos
    ensures r.Ok? ==> (r.value.value.isSigned <==> r.value.value.left.Negative?)
  {
    var left :- ParseExpression(toks, pos + 1, None, None, sc);
    var _ :- CheckToken(toks, left.pos + 1, L.RangeDots);
    var right :- ParseExpression(toks, left.pos + 2, None, None, sc);
    Ok(Parsed(Range(left.value.Negative?, left.value, right.value), right.pos))
  }

  /** `parse_type`, entered on `type`: `type Sig is <content>;`. The content is a
      range, `mod e`, an enum or another type's signature; anything else is not
      implemented. The new type implements no traits yet. */
  function ParseTypeDecl(toks: Tokens, pos: nat, sc: Scope): (r: Result<Parsed<(TypeSignature, RosarioType)>>)
    ensures r.Ok? ==> pos < r.value.pos && At(toks, r.value.pos, L.Semicolon)
    ensures r.Ok? ==> r.value.value.1.traits == []
    ensures r.Ok? ==> !r.value.value.1.content.NoContent?
  {
    var sig :- ParseTypeSignature(toks, pos + 1);
    var _ :- CheckToken(toks, sig.pos + 1, L.Is);
    var content :- TypeContentAt(toks, sig.pos + 2, sig.value, sc);
    var _ :- CheckToken(toks, content.pos + 1, L.Semicolon);
    Ok(Parsed((sig.value, RosarioType([], content.value)), content.pos + 1))
  }

  /** The content of a type declaration, by its first token. */
  function TypeContentAt(toks: Tokens, pos: nat, sig: TypeSignature, sc: Scope): (r: Result<Parsed<TypeContent>>)
    ensures r.Ok? ==> pos <= r.value.pos && !r.value.value.NoContent?
    ensures r.Ok? ==> 1 <= pos <= |toks|
    ensures r.Ok? ==> (r.value.value.RangeContent? <==> toks[pos - 1] == L.Range)
    ensures r.Ok? ==> (r.value.value.Modulo? <==> toks[pos - 1] == L.Modulo)
    ensures r.Ok? ==> (r.value.value.EnumContent? <==> toks[pos - 1] == L.Enum)
    ensures r.Ok? ==> (r.value.value.TypeRef? <==> toks[pos - 1].Identifier?)
  {
    var t :- Tok(toks, pos);
    if t == L.Range then
      var range :- ParseRange(toks, pos, sc);
      Ok(Parsed(RangeContent(range.value), range.pos))
    else if t == L.Modulo then
      var modulus :- ParseExpression(toks, pos + 1, None, None, sc);
      Ok(Parsed(Modulo(modulus.value), modulus.pos))
    else if t == L.Enum then
      var enumeration :- ParseEnum(toks, pos, Some(sig.name), sig.generics);
      Ok(Parsed(EnumContent(enumeration.value), enumeration.pos))
    else if t.Identifier? then
      var target :- ParseTypeSignature(toks, pos);
      Ok(Parsed(TypeRef(target.value), target.pos))
    else Fail(Failure(Unimplemented, AtParseType))
  }

  // ----- signatures and routines -----

  /** `parse_signature`, entered on the name: `name(args)` for a procedure, and
      `name(args) => [mutable] Type` for a function or operator. The arguments are
      read and checked but the signature keeps none of them. A return type that
      names a generic of the enclosing block becomes a generic return. */
  function ParseSignature(toks: Tokens, pos: nat, isProcedure: bool, generics: seq<Generic>): (r: Result<Parsed<Signature>>)
    ensures r.Ok? ==> pos < r.value.pos && r.value.value.arguments == []
    ensures r.Ok? ==> (r.value.value.returnType.NoReturn? <==> isProcedure)
    ensures r.Ok? && r.value.value.returnType.ReturnsGeneric? ==>
      HasGenericNamed(generics, r.value.value.returnType.generic) && r.value.value.returnType.generic != ""
    ensures r.Ok? && r.value.value.returnType.ReturnsType? ==>
      !HasGenericNamed(generics, r.value.value.returnType.sig.name) || r.value.value.returnType.sig.name == ""
  {
    var t :- Tok(toks, pos);
    var name :- if t.Identifier? then Ok(t.name) else if t.StaticString? then Ok(t.text)
                else Fail(Failure(Unimplemented, AtParseSignature));
    var _ :- CheckToken(toks, pos + 1, L.Character('('));
    var arguments :- ArgumentDecls(toks, pos + 1);
    var _ :- CheckToken(toks, arguments.pos, L.Character(')'));
    if isProcedure then Ok(Parsed(Signature(name, [], NoReturn), arguments.pos))
    else
      var returned :- ReturnTypeAt(toks, arguments.pos + 1, generics);
      Ok(Parsed(Signature(name, [], returned.value), returned.pos))
  }

  /** `=> [mutable] Type` after the arguments of a function. */
  function ReturnTypeAt(toks: Tokens, pos: nat, generics: seq<Generic>): (r: Result<Parsed<ReturnType>>)
    ensures r.Ok? ==> pos < r.value.pos && !r.value.value.NoReturn?
    ensures r.Ok? ==> (r.value.value.mutability == Mutable <==> At(toks, pos + 1, L.Mutable))
    ensures r.Ok? && r.value.value.ReturnsGeneric? ==> HasGenericNamed(generics, r.value.value.generic) && r.value.value.generic != ""
    ensures r.Ok? && r.value.value.ReturnsType? ==> !HasGenericNamed(generics, r.value.value.sig.name) || r.value.value.sig.name == ""
  {
    var _ :- CheckToken(toks, pos, L.Arrow);
    var t :- Tok(toks, pos + 1);
    var mutability := if t == L.Mutable then Mutable else NotMutable;
    var sig :- ParseTypeSignature(toks, if t == L.Mutable then pos + 2 else pos + 1);
    if sig.value.name != "" && HasGenericNamed(generics, sig.value.name) then Ok(Parsed(ReturnsGeneric(mutability, sig.value.name), sig.pos))
    else Ok(Parsed(ReturnsType(mutability, sig.value), sig.pos))
  }

  /** The argument loop of `parse_signature`, entered on `(` or `,`: arguments
      separated by `,`, until `)`. Returns the cursor of the `)`. */
  function ArgumentDecls(toks: Tokens, pos: nat): (r: Result<Parsed<seq<Argument>>>)
    ensures r.Ok? ==> pos < r.value.pos
    decreases |toks| + 1 - pos
  {
    var t :- Tok(toks, pos + 1);
    if t == L.Character(')') then Ok(Parsed([], pos + 1))
    else
      var argument :- ArgumentDecl(toks, pos + 1);
      var separator :- Tok(toks, argument.pos + 1);
      if separator == L.Character(')') then Ok(Parsed([argument.value], argument.pos + 1))
      else if separator != L.Character(',') then Fail(Failure(Panicked, AtParseSignature))
      else
        var rest :- ArgumentDecls(toks, argument.pos + 1);
        Ok(Parsed([argument.value] + rest.value, rest.pos))
  }

  /** One argument: `mutable self`, `self`, or `name: [mutable] Type`. */
  function ArgumentDecl(toks: Tokens, pos: nat): (r: Result<Parsed<Argument>>)
    ensures r.Ok? ==> pos <= r.value.pos
    ensures r.Ok? ==> (r.value.value.argumentType.SelfArgument? <==> At(toks, pos, L.Mutable) || At(toks, pos, L.SelfVariable))
    ensures r.Ok? && At(toks, pos, L.Mutable) ==> r.value.value.isMutable
    ensures r.Ok? && At(toks, pos, L.SelfVariable) ==> !r.value.value.isMutable
  {
    var t :- Tok(toks, pos);
    if t == L.Mutable then
      var _ :- CheckToken(toks, pos + 1, L.SelfVariable);
      Ok(Parsed(Argument(SelfArgument, true), pos + 1))
    else if t == L.SelfVariable then Ok(Parsed(Argument(SelfArgument, false), pos))
    else
      var name :- GetIdentifier(toks, pos);
      var _ :- CheckToken(toks, pos + 1, L.Colon);
      var m :- Tok(toks, pos + 2);
      var ty :- ParseTypeSignature(toks, if m == L.Mutable then pos + 3 else pos + 2);
      Ok(Parsed(Argument(NamedArgument(name, ty.value), m == L.Mutable), ty.pos))
  }

  /** What `parse_procedure`, `parse_function` and `parse_operator` share, entered on
      the keyword: `signature is body;`, the body parsed with the signature's name. */
  function ParseRoutine(toks: Tokens, pos: nat, isProcedure: bool, generics: seq<Generic>, sc: Scope)
    : (r: Result<Parsed<(Signature, Expression)>>)
    ensures r.Ok? ==> pos < r.value.pos && At(toks, r.value.pos, L.Semicolon)
    ensures r.Ok? ==> (r.value.value.0.returnType.NoReturn? <==> isProcedure)
  {
    var sig :- ParseSignature(toks, pos + 1, isProcedure, generics);
    var _ :- CheckToken(toks, sig.pos + 1, L.Is);
    var body :- ParseExpression(toks, sig.pos + 2, None, Some(sig.value.name), sc);
    var _ :- CheckToken(toks, body.pos + 1, L.Semicolon);
    Ok(Parsed((sig.value, body.value), body.pos + 1))
  }

  // ----- implementation blocks -----

  /** `parse_implementation`, entered on `implement`: `implement Sig … end implement;`.
      Routines take the generics of the implemented type. */
  function ParseImplementation(toks: Tokens, pos: nat, sc: Scope): (r: Result<Parsed<(TypeSignature, TypeImplementation)>>)
    ensures r.Ok? ==> pos < r.value.pos && At(toks, r.value.pos, L.Semicolon)
  {
    var sig :- ParseTypeSignature(toks, pos + 1);
    var members :- Members(toks, sig.pos + 1, sig.value.generics, sc, EmptyImplementation, false, false);
    var closing :- CheckEnding(toks, members.pos, None, Some(L.Implement));
    var _ :- CheckToken(toks, closing + 1, L.Semicolon);
    Ok(Parsed((sig.value, members.value), closing + 1))
  }

  /** The member loop of `parse_implementation`, until `end`. `public` marks the next
      routine; an operator must be public, and `mutable` in front of it makes it a
      mutable operator. */
  function Members(toks: Tokens, pos: nat, generics: seq<Generic>, sc: Scope, acc: TypeImplementation,
                   isPublic: bool, isMutableOperator: bool): (r: Result<Parsed<TypeImplementation>>)
    ensures r.Ok? ==> pos <= r.value.pos
    decreases |toks| + 1 - pos
  {
    var t :- Tok(toks, pos);
    if t == L.End then Ok(Parsed(acc, pos))
    else if t == L.Public then Members(toks, pos + 1, generics, sc, acc, true, isMutableOperator)
    else if t == L.Mutable then
      var next :- Tok(toks, pos + 1);
      if next != L.Operator then Fail(Failure(Panicked, AtParseImplementation))
      else Members(toks, pos + 1, generics, sc, acc, isPublic, true)
    else
      var member :- ParseMember(toks, pos, t, generics, sc, acc, isPublic, isMutableOperator);
      Members(toks, member.pos + 1, generics, sc, member.value, false, if t == L.Operator then false else isMutableOperator)
  }

  /** A procedure, function or operator inside an implementation block, added to the
      list its visibility (for an operator: its mutability) selects. */
  function ParseMember(toks: Tokens, pos: nat, t: L.TokenType, generics: seq<Generic>, sc: Scope, acc: TypeImplementation,
                       isPublic: bool, isMutableOperator: bool): (r: Result<Parsed<TypeImplementation>>)
    ensures r.Ok? ==> pos < r.value.pos
    ensures r.Ok? && t == L.Procedure ==>
      |r.value.value.publicProcedures| == |acc.publicProcedures| + (if isPublic then 1 else 0) &&
      |r.value.value.procedures| == |acc.procedures| + (if isPublic then 0 else 1)
    ensures r.Ok? && t == L.Function ==>
      |r.value.value.publicFunctions| == |acc.publicFunctions| + (if isPublic then 1 else 0) &&
      |r.value.value.functions| == |acc.functions| + (if isPublic then 0 else 1)
    ensures r.Ok? && t == L.Operator ==> isPublic
    ensures r.Ok? && t == L.Operator && isMutableOperator ==> |r.value.value.mutableOperators| == |acc.mutableOperators| + 1
    ensures r.Ok? && t == L.Operator && !isMutableOperator ==> |r.value.value.operators| == |acc.operators| + 1
  {
    if t == L.Procedure then
      var routine :- ParseRoutine(toks, pos, true, generics, sc);
      var p := Procedure(routine.value.0, routine.value.1);
      Ok(Parsed(if isPublic then acc.(publicProcedures := acc.publicProcedures + [p]) else acc.(procedures := acc.procedures + [p]), routine.pos))
    else if t == L.Function then
      var routine :- ParseRoutine(toks, pos, false, generics, sc);
      var f := Function(routine.value.0, routine.value.1);
      Ok(Parsed(if isPublic then acc.(publicFunctions := acc.publicFunctions + [f]) else acc.(functions := acc.functions + [f]), routine.pos))
    else if t == L.Operator then
      if !isPublic then Fail(Failure(Panicked, AtParseImplementation))
      else
        var routine :- ParseRoutine(toks, pos, false, generics, sc);
        var o := Operator(routine.value.0.name, routine.value.0, routine.value.1);
        Ok(Parsed(if isMutableOperator then acc.(mutableOperators := acc.mutableOperators + [o]) else acc.(operators := acc.operators + [o]), routine.pos))
    else Fail(Failure(Unimplemented, AtParseImplementation))
  }

  // ----- traits -----

  /** The trait branch of `main_pass`, entered on `trait`: `trait Name;` or
      `trait Name is <signature>; … end Name;`. The signatures are read and then
      dropped: `main_pass` stores no trait. */
  function ParseTraitDecl(toks: Tokens, pos: nat): (r: Result<Parsed<seq<Signature>>>)
    ensures r.Ok? ==> pos < r.value.pos && At(toks, r.value.pos, L.Semicolon)
    ensures r.Ok? && At(toks, pos + 2, L.Semicolon) ==> r.value.value == [] && r.value.pos == pos + 2
  {
    var name :- GetIdentifier(toks, pos + 1);
    var t :- Tok(toks, pos + 2);
    if t == L.Semicolon then Ok(Parsed([], pos + 2))
    else TraitBody(toks, pos + 2, name)
  }

  /** A trait's body, from `is` through `end Name;`. */
  function TraitBody(toks: Tokens, pos: nat, name: string): (r: Result<Parsed<seq<Signature>>>)
    ensures r.Ok? ==> pos < r.value.pos && At(toks, r.value.pos, L.Semicolon)
  {
    var _ :- CheckToken(toks, pos, L.Is);
    var signatures :- TraitSignatures(toks, pos + 1);
    var closing :- CheckEnding(toks, signatures.pos, Some(name), None);
    var _ :- CheckToken(toks, closing + 1, L.Semicolon);
    Ok(Parsed(signatures.value, closing + 1))
  }

  /** The signature loop of a trait: `procedure sig;` or `function sig;` until `end`. */
  function TraitSignatures(toks: Tokens, pos: nat): (r: Result<Parsed<seq<Signature>>>)
    ensures r.Ok? ==> pos <= r.value.pos
    decreases |toks| + 1 - pos
  {
    var t :- Tok(toks, pos);
    if t == L.End then Ok(Parsed([], pos))
    else if t != L.Procedure && t != L.Function then Fail(Failure(Panicked, AtMainPass))
    else
      var sig :- ParseSignature(toks, pos + 1, t == L.Procedure, []);
      var _ :- CheckToken(toks, sig.pos + 1, L.Semicolon);
      var rest :- TraitSignatures(toks, sig.pos + 2);
      Ok(Parsed([sig.value] + rest.value, rest.pos))
  }

  // ----- use lines -----

  /** What a `use` line adds to the package: a C header, or a package path with its
      "import everything" flag. */
  datatype UseItem = CInclude(header: string) | UsePackage(path: string, grabAll: bool)

  /** Each name followed by `::`, the way the source accumulates the path. */
  function Suffixed(names: seq<string>): string {
    if |names| == 0 then "" else names[0] + "::" + Suffixed(names[1..])
  }

  /** `String::pop` twice: drop up to two trailing characters. */
  function DropLast2(s: string): (r: string)
    ensures |s| >= 2 ==> r == s[..|s| - 2]
    ensures |s| < 2 ==> r == ""
  {
    if |s| >= 2 then s[..|s| - 2] else ""
  }

  /** The names joined by `::`, with no separator at the ends. */
  function Joined(names: seq<string>): string {
    if |names| == 0 then ""
    else if |names| == 1 then names[0]
    else names[0] + "::" + Joined(names[1..])
  }

  /** The path a `use` line builds from its names: `a::b::` with the last `::` dropped. */
  function UsePath(names: seq<string>): string {
    DropLast2(Suffixed(names))
  }

  /** The name loop of a `use` line: `name ::` pairs until `;`, or up to `*`. Returns
      the non-empty names, whether a `*` ended the list, and the cursor of the `;`
      (or of the token after `*`). */
  function UseNames(toks: Tokens, pos: nat): (r: Result<Parsed<(seq<string>, bool)>>)
    ensures r.Ok? ==> pos <= r.value.pos
    ensures r.Ok? ==> forall k :: 0 <= k < |r.value.value.0| ==> r.value.value.0[k] != ""
    ensures r.Ok? && !r.value.value.1 ==> At(toks, r.value.pos, L.Semicolon)
    decreases |toks| + 1 - pos
  {
    var t :- Tok(toks, pos);
    if t == L.Semicolon then Ok(Parsed(([], false), pos))
    else if t == L.Multiply then Ok(Parsed(([], true), pos + 1))
    else if !t.Identifier? then Fail(Failure(Unimplemented, AtMainPass))
    else
      var _ :- CheckToken(toks, pos + 1, L.DoubleColon);
      var rest :- UseNames(toks, pos + 2);
      Ok(Parsed((if t.name != "" then [t.name] + rest.value.0 else rest.value.0, rest.value.1), rest.pos))
  }

  /** The `use` branch of `main_pass`, entered on `use`: `use C_LANG("header");` or
      `use a::b::…;` / `use a::b::*;`. A path that is not a package parsed before
      this file is taken relative to the current file. Ends on the `;`. */
  function ParseUse(toks: Tokens, pos: nat, fileName: string, packages: Packages): (r: Result<Parsed<UseItem>>)
    ensures r.Ok? ==> pos < r.value.pos && At(toks, r.value.pos, L.Semicolon)
    ensures r.Ok? ==> (r.value.value.CInclude? <==> At(toks, pos + 1, L.Clang))
  {
    var t :- Tok(toks, pos + 1);
    if t == L.Clang then
      var _ :- CheckToken(toks, pos + 2, L.Character('('));
      var header :- Tok(toks, pos + 3);
      var text :- if header.StaticString? then Ok(header.text) else Fail(Failure(Panicked, AtMainPass));
      var _ :- CheckToken(toks, pos + 4, L.Character(')'));
      var _ :- CheckToken(toks, pos + 5, L.Semicolon);
      Ok(Parsed(CInclude(text), pos + 5))
    else
      var names :- UseNames(toks, pos + 1);
      var _ :- CheckToken(toks, names.pos, L.Semicolon);
      var path := UsePath(names.value.0);
      Ok(Parsed(UsePackage(if HasKey(packages, path) then path else fileName + "::" + path, names.value.1), names.pos))
  }

  // ----- the main pass -----

  /** The types a declaration of the file under construction can name. */
  function ScopeOf(main: Package, packages: Packages): Scope {
    Scope(packages, main.file.publicTypes, main.file.types)
  }

  /** One declaration of `main_pass`, entered on its first token: the package after
      it, whether the next declaration is public, and the cursor of the declaration's
      last token. `public` marks the next procedure, function or type; `use`,
      `implement` and `trait` leave the mark as it is. */
  function MainStep(toks: Tokens, pos: nat, fileName: string, packages: Packages, main: Package, isPublic: bool)
    : (r: Result<Parsed<(Package, bool)>>)
    requires 1 <= pos <= |toks| && toks[pos - 1] != L.EndOfFile
    ensures r.Ok? ==> pos <= r.value.pos
    ensures r.Ok? ==> (r.value.value.1 <==> toks[pos - 1] == L.Public || (isPublic && toks[pos - 1] in {L.Use, L.Implement, L.Trait}))
    ensures r.Ok? && toks[pos - 1] in {L.Public, L.Use, L.Trait} ==> r.value.value.0.file == main.file
    ensures r.Ok? && toks[pos - 1] == L.Implement ==> r.value.value.0.file == main.file.(implementations := r.value.value.0.file.implementations)
  {
    var t := toks[pos - 1];
    if t == L.Public then Ok(Parsed((main, true), pos))
    else if t == L.Procedure || t == L.Function || t == L.Type then
      var next :- Declare(toks, pos, t, ScopeOf(main, packages), main, isPublic);
      Ok(Parsed((next.value, false), next.pos))
    else if t == L.Use then
      var u :- ParseUse(toks, pos, fileName, packages);
      var next := match u.value
        case CInclude(header) => main.(cIncludes := main.cIncludes + [header])
        case UsePackage(path, grabAll) => main.(packages := main.packages + [(path, grabAll)]);
      Ok(Parsed((next, isPublic), u.pos))
    else if t == L.Implement then
      var im :- ParseImplementation(toks, pos, ScopeOf(main, packages));
      var key := ImplSignature(None, im.value.0);
      var file := main.file.(implementations := Insert(ImplSignatureLt, main.file.implementations, key, im.value.1));
      Ok(Parsed((main.(file := file), isPublic), im.pos))
    else if t == L.Trait then
      var tr :- ParseTraitDecl(toks, pos);
      Ok(Parsed((main, isPublic), tr.pos))
    else
      // Anything else is not implemented; so is `package`, whose file loading is
      // outside this model.
      Fail(Failure(Unimplemented, AtMainPass))
  }

  /** A procedure, function or type at the top level of the file, stored with the
      public declarations when it was marked `public` and with the private ones
      otherwise. */
  function Declare(toks: Tokens, pos: nat, t: L.TokenType, sc: Scope, main: Package, isPublic: bool): (r: Result<Parsed<Package>>)
    requires t == L.Procedure || t == L.Function || t == L.Type
    ensures r.Ok? ==> pos < r.value.pos
    ensures r.Ok? ==> r.value.value.packages == main.packages && r.value.value.cIncludes == main.cIncludes
    ensures r.Ok? && t == L.Procedure ==>
      |r.value.value.file.publicProcedures| == |main.file.publicProcedures| + (if isPublic then 1 else 0) &&
      |r.value.value.file.procedures| == |main.file.procedures| + (if isPublic then 0 else 1)
    ensures r.Ok? && t == L.Function ==>
      |r.value.value.file.publicFunctions| == |main.file.publicFunctions| + (if isPublic then 1 else 0) &&
      |r.value.value.file.functions| == |main.file.functions| + (if isPublic then 0 else 1)
    ensures r.Ok? && t == L.Type ==> (if isPublic then r.value.value.file.types == main.file.types else r.value.value.file.publicTypes == main.file.publicTypes)
  {
    var file := main.file;
    if t == L.Procedure then
      var routine :- ParseRoutine(toks, pos, true, [], sc);
      var p := Procedure(routine.value.0, routine.value.1);
      Ok(Parsed(main.(file := if isPublic then file.(publicProcedures := file.publicProcedures + [p]) else file.(procedures := file.procedures + [p])), routine.pos))
    else if t == L.Function then
      var routine :- ParseRoutine(toks, pos, false, [], sc);
      var f := Function(routine.value.0, routine.value.1);
      Ok(Parsed(main.(file := if isPublic then file.(publicFunctions := file.publicFunctions + [f]) else file.(functions := file.functions + [f])), routine.pos))
    else
      var ty :- ParseTypeDecl(toks, pos, sc);
      var (sig, declared) := ty.value;
      Ok(Parsed(main.(file := if isPublic then file.(publicTypes := Insert(TypeSignatureLt, file.publicTypes, sig, declared))
                              else file.(types := Insert(TypeSignatureLt, file.types, sig, declared))), ty.pos))
  }

  /** The ordered maps of a file are sorted by their key orders, as a `BTreeMap` is. */
  ghost predicate SortedFile(f: File) {
    && Sorted(TypeSignatureLt, f.types)
    && Sorted(TypeSignatureLt, f.publicTypes)
    && Sorted(ImplSignatureLt, f.implementations)
  }

  lemma DeclareKeepsSorted(toks: Tokens, pos: nat, t: L.TokenType, sc: Scope, main: Package, isPublic: bool)
    requires t == L.Procedure || t == L.Function || t == L.Type
    requires Declare(toks, pos, t, sc, main, isPublic).Ok?
    requires SortedFile(main.file)
    ensures SortedFile(Declare(toks, pos, t, sc, main, isPublic).value.value.file)
  {
    if t == L.Type {
      TypeSignatureOrderIsTotal();
      var ty := ParseTypeDecl(toks, pos, sc).value.value;
      InsertKeepsSorted(TypeSignatureLt, main.file.types, ty.0, ty.1);
      InsertKeepsSorted(TypeSignatureLt, main.file.publicTypes, ty.0, ty.1);
    }
  }

  lemma StepKeepsSorted(toks: Tokens, pos: nat, fileName: string, packages: Packages, main: Package, isPublic: bool)
    requires 1 <= pos <= |toks| && toks[pos - 1] != L.EndOfFile
    requires MainStep(toks, pos, fileName, packages, main, isPublic).Ok?
    ensures SortedFile(main.file) ==> SortedFile(MainStep(toks, pos, fileName, packages, main, isPublic).value.value.0.file)
  {
    var t := toks[pos - 1];
    if !SortedFile(main.file) {
    } else if t == L.Procedure || t == L.Function || t == L.Type {
      DeclareKeepsSorted(toks, pos, t, ScopeOf(main, packages), main, isPublic);
    } else if t == L.Implement {
      ImplSignatureOrderIsTotal();
      var im := ParseImplementation(toks, pos, ScopeOf(main, packages)).value.value;
      InsertKeepsSorted(ImplSignatureLt, main.file.implementations, ImplSignature(None, im.0), im.1);
    }
  }

  /** The declaration loop of `main_pass`, until the end of the file. Every
      declaration it stores keeps the file's maps sorted. */
  function MainLoop(toks: Tokens, pos: nat, fileName: string, packages: Packages, main: Package, isPublic: bool): (r: Result<Package>)
    ensures r.Ok? && SortedFile(main.file) ==> SortedFile(r.value.file)
    decreases |toks| + 1 - pos
  {
    var t :- Tok(toks, pos);
    if t == L.EndOfFile then Ok(main)
    else
      var step :- MainStep(toks, pos, fileName, packages, main, isPublic);
      StepKeepsSorted(toks, pos, fileName, packages, main, isPublic);
      MainLoop(toks, step.pos + 1, fileName, packages, step.value.0, step.value.1)
  }

  /** `main_pass`: parse the file and store it in the package map under the file's
      name, next to the packages parsed before it. */
  function MainPass(toks: Tokens, fileName: string, packages: Packages): (r: Result<Packages>)
    ensures r.Ok? <==> MainLoop(toks, 1, fileName, packages, EmptyPackage, false).Ok?
    ensures r.Ok? ==> Get(r.value, fileName) == Some(MainLoop(toks, 1, fileName, packages, EmptyPackage, false).value)
    ensures r.Ok? ==> forall name :: name != fileName ==> Get(r.value, name) == Get(packages, name)
  {
    var main :- MainLoop(toks, 1, fileName, packages, EmptyPackage, false);
    Ok(Insert(StringLt, packages, fileName, main))
  }
}

=== FILE: expression_facts.dfy ===
/** Properties of the expression parser that relate several of its calls. */
module ExpressionFacts {
  import opened Outcome
  import opened Ast
  import opened ParserBase
  import opened ExpressionParser
  import L = Lexer

  /** The statement loop returns on a token it stops at: `end` in a `begin` block, and
      `elsif`, `else` or `end` inside an `if`. That is the token the caller goes on
      to check. */
  lemma {:induction false} StatementsEndAtStop(toks: Tokens, pos: nat, inIf: bool, sc: Scope)
    requires Statements(toks, pos, inIf, sc).Ok?
    ensures var end := Statements(toks, pos, inIf, sc).value.pos;
      1 <= pos <= end <= |toks| && IsStop(toks[end - 1], inIf)
    decreases |toks| + 1 - pos
  {
    var t := Tok(toks, pos);
    assert t.Ok?;
    if !IsStop(t.value, inIf) {
      var statement := ParseStatement(toks, pos, sc);
      assert statement.Ok?;
      StatementsEndAtStop(toks, statement.value.pos + 1, inIf, sc);
    }
  }

  /** A branch of an `if` ends on the keyword that follows it. */
  lemma BranchEndsAtStop(toks: Tokens, pos: nat, inElse: bool, sc: Scope)
    requires 1 <= pos <= |toks|
    requires ParseBranch(toks, pos, inElse, sc).Ok?
    ensures var end := ParseBranch(toks, pos, inElse, sc).value.pos;
      end <= |toks| && toks[end - 1] in IfStops
  {
    BranchNeedsCondition(toks, pos, inElse, sc);
    BranchEndsAfterCondition(toks, pos, inElse, sc, ParseExpression(toks, pos + 1, None, None, sc).value);
  }

  /** `BranchEndsAtStop`, with the condition in hand. */
  lemma BranchEndsAfterCondition(toks: Tokens, pos: nat, inElse: bool, sc: Scope, condition: Parsed<Expression>)
    requires 1 <= pos <= |toks|
    requires ParseBranch(toks, pos, inElse, sc).Ok?
    requires ParseExpression(toks, pos + 1, None, None, sc) == Ok(condition)
    ensures var end := ParseBranch(toks, pos, inElse, sc).value.pos;
      end <= |toks| && toks[end - 1] in IfStops
  {
    BranchStartsWithCondition(toks, pos, inElse, sc, condition);
    BranchEndsWithStatements(toks, inElse, sc, condition);
    StatementsEndAtStop(toks, condition.pos + 2, true, sc);
  }

  /** A branch that parses has a condition that parses. */
  lemma BranchNeedsCondition(toks: Tokens, pos: nat, inElse: bool, sc: Scope)
    requires 1 <= pos <= |toks|
    requires ParseBranch(toks, pos, inElse, sc).Ok?
    ensures ParseExpression(toks, pos + 1, None, None, sc).Ok?
  {
  }

  /** A branch ends where its statement loop ends. */
  lemma BranchEndsWithStatements(toks: Tokens, inElse: bool, sc: Scope, condition: Parsed<Expression>)
    requires condition.pos < |toks|
    requires BranchAfterCondition(toks, condition, inElse, sc).Ok?
    ensures Statements(toks, condition.pos + 2, true, sc).Ok?
    ensures BranchAfterCondition(toks, condition, inElse, sc).value.pos == Statements(toks, condition.pos + 2, true, sc).value.pos
  {
    BodyInIfIsStatements(toks, condition.pos + 2, sc);
  }

  /** `a ** b + c` and `a ** b - c`: when the right operand of `**` parses as a sum or a
      difference, the power takes its left part and the result subtracts the right
      part, whichever the sign was. */
  lemma PowerTakesLeftOfSum(toks: Tokens, pos: nat, l: Expression, name: Option<string>, sc: Scope)
    requires At(toks, pos, L.ToThePowerOf)
    requires ParseExpression(toks, pos + 1, None, None, sc).Ok?
    requires var right := ParseExpression(toks, pos + 1, None, None, sc).value.value; right.Add? || right.Sub?
    ensures var right := ParseExpression(toks, pos + 1, None, None, sc).value;
      ParseExpression(toks, pos, Some(l), name, sc)
        == Ok(Parsed(Sub(ToThePowerOf(l, right.value.left), right.value.right), right.pos))
  {
  }

  // ----- read-back of small expressions -----

  /** A node that is not `=`/`^` and that a delimiter follows is the whole expression. */
  lemma NodeBeforeDelimiter(toks: Tokens, pos: nat, left: Option<Expression>, name: Option<string>, sc: Scope, node: Parsed<Expression>)
    requires 1 <= pos <= |toks| && toks[pos - 1] != L.IsEquals && toks[pos - 1] != L.ToThePowerOf
    requires ParseNode(toks, pos, left, name, sc) == Ok(node) && pos <= node.pos < |toks| && IsDelimiter(toks[node.pos])
    ensures ParseExpression(toks, pos, left, name, sc) == Ok(node)
  {
    assert ContinueAfter(toks, pos, node, name, sc) == Ok(node);
  }

  /** A name that a delimiter follows is a variable, and the cursor stays on it. */
  lemma NameBeforeDelimiter(toks: Tokens, pos: nat, id: string, sc: Scope)
    requires At(toks, pos, L.Identifier(id)) && pos < |toks| && IsDelimiter(toks[pos])
    ensures ParseVariable(toks, pos, id, sc) == Ok(Parsed(Variable(id), pos))
  {
    assert VariableType(toks, pos, toks[pos]) == Ok((None, pos + 1));
  }

  /** A name right before a delimiter is a variable, and the cursor stays on it. */
  lemma VariableBeforeDelimiter(toks: Tokens, pos: nat, id: string, name: Option<string>, sc: Scope)
    requires At(toks, pos, L.Identifier(id)) && pos < |toks| && IsDelimiter(toks[pos])
    ensures ParseExpression(toks, pos, None, name, sc) == Ok(Parsed(Variable(id), pos))
  {
    NameBeforeDelimiter(toks, pos, id, sc);
    assert ParseConstruct(toks, pos, L.Identifier(id), name, sc) == Ok(Parsed(Variable(id), pos));
    assert ParseNode(toks, pos, None, name, sc) == Ok(Parsed(Variable(id), pos));
    NodeBeforeDelimiter(toks, pos, None, name, sc, Parsed(Variable(id), pos));
  }

  /** A literal right before a delimiter is that literal. */
  lemma LeafBeforeDelimiter(toks: Tokens, pos: nat, name: Option<string>, sc: Scope)
    requires 1 <= pos < |toks| && IsDelimiter(toks[pos])
    requires var t := toks[pos - 1]; t.Number? || t.SelfVariable? || t.StaticString? || t == L.Character('_')
    ensures ParseExpression(toks, pos, None, name, sc) == Ok(Parsed(Leaf(toks[pos - 1]), pos))
  {
    assert ParseNode(toks, pos, None, name, sc) == Ok(Parsed(Leaf(toks[pos - 1]), pos));
    NodeBeforeDelimiter(toks, pos, None, name, sc, Parsed(Leaf(toks[pos - 1]), pos));
  }

  /** A statement is an expression and the `;` after it. */
  lemma StatementReadBack(toks: Tokens, pos: nat, sc: Scope, e: Parsed<Expression>)
    requires ParseExpression(toks, pos, None, None, sc) == Ok(e) && At(toks, e.pos + 1, L.Semicolon)
    ensures ParseStatement(toks, pos, sc) == Ok(Parsed(e.value, e.pos + 1))
  {
  }

  /** The statement loop on a stop token reads nothing. */
  lemma NoStatements(toks: Tokens, pos: nat, inIf: bool, sc: Scope)
    requires 1 <= pos <= |toks| && IsStop(toks[pos - 1], inIf)
    ensures Statements(toks, pos, inIf, sc) == Ok(Parsed([], pos))
  {
  }

  /** One statement before a stop token: the statement loop reads exactly it. */
  lemma OneStatement(toks: Tokens, pos: nat, inIf: bool, sc: Scope, statement: Parsed<Expression>)
    requires 1 <= pos <= |toks| && !IsStop(toks[pos - 1], inIf)
    requires ParseStatement(toks, pos, sc) == Ok(statement)
    requires statement.pos < |toks| && IsStop(toks[statement.pos], inIf)
    ensures Statements(toks, pos, inIf, sc) == Ok(Parsed([statement.value], statement.pos + 1))
  {
    assert Tok(toks, pos) == Ok(toks[pos - 1]);
    NoStatements(toks, statement.pos + 1, inIf, sc);
    var none: seq<Expression> := [];
    assert [statement.value] + none == [statement.value];
  }

  // ----- `if` -----

  /** The loop of `if` on an `else` branch that `end` follows reads that one branch. */
  lemma ElseBranchIsLast(toks: Tokens, pos: nat, sc: Scope, branch: Parsed<(Expression, seq<Expression>)>)
    requires 1 <= pos <= |toks| && toks[pos - 1] != L.End
    requires ParseBranch(toks, pos, true, sc) == Ok(branch) && At(toks, branch.pos, L.End)
    ensures Branches(toks, pos, true, sc) == Ok(Parsed([branch.value], branch.pos))
  {
  }

  /** The loop of `if` on a branch with `then` that `else` follows reads that branch,
      then goes on in the `else` branch. */
  lemma ThenBranchBeforeElse(toks: Tokens, pos: nat, sc: Scope, branch: Parsed<(Expression, seq<Expression>)>,
                             rest: Parsed<seq<(Expression, seq<Expression>)>>)
    requires 1 <= pos <= |toks| && toks[pos - 1] != L.End
    requires ParseBranch(toks, pos, false, sc) == Ok(branch) && At(toks, branch.pos, L.Else)
    requires Branches(toks, branch.pos, true, sc) == Ok(rest)
    ensures Branches(toks, pos, false, sc) == Ok(Parsed([branch.value] + rest.value, rest.pos))
  {
  }

  /** A branch is its condition and the statements after it (after `then` unless it is
      the `else` branch). */
  lemma BranchReadBack(toks: Tokens, pos: nat, inElse: bool, sc: Scope, condition: Parsed<Expression>, body: Parsed<seq<Expression>>)
    requires 1 <= pos <= |toks|
    requires ParseExpression(toks, pos + 1, None, None, sc) == Ok(condition)
    requires !inElse ==> At(toks, condition.pos + 1, L.Then)
    requires Statements(toks, condition.pos + 2, true, sc) == Ok(body)
    ensures ParseBranch(toks, pos, inElse, sc) == Ok(Parsed((condition.value, body.value), body.pos))
  {
    BranchStartsWithCondition(toks, pos, inElse, sc, condition);
    BranchBodyReadBack(toks, inElse, sc, condition, body);
  }

  /** A branch is its condition and what follows it. */
  lemma BranchStartsWithCondition(toks: Tokens, pos: nat, inElse: bool, sc: Scope, condition: Parsed<Expression>)
    requires 1 <= pos <= |toks|
    requires ParseExpression(toks, pos + 1, None, None, sc) == Ok(condition)
    ensures ParseBranch(toks, pos, inElse, sc) == BranchAfterCondition(toks, condition, inElse, sc)
  {
  }

  /** After the condition (and `then`), a branch holds the statements up to its stop
      token. */
  lemma BranchBodyReadBack(toks: Tokens, inElse: bool, sc: Scope, condition: Parsed<Expression>, body: Parsed<seq<Expression>>)
    requires condition.pos < |toks|
    requires !inElse ==> At(toks, condition.pos + 1, L.Then)
    requires Statements(toks, condition.pos + 2, true, sc) == Ok(body)
    ensures BranchAfterCondition(toks, condition, inElse, sc) == Ok(Parsed((condition.value, body.value), body.pos))
  {
    BodyInIfIsStatements(toks, condition.pos + 2, sc);
  }

  /** Inside an `if`, the body is just the statement loop. */
  lemma BodyInIfIsStatements(toks: Tokens, pos: nat, sc: Scope)
    ensures ParseBody(toks, pos, None, true, sc) == Statements(toks, pos, true, sc)
  {
  }

  /** `if c then …; else d; …; end if`: a branch with `then`, an `else` branch and the
      ending give an `if` of exactly those two branches, ending on the last token of
      the ending. */
  lemma IfElseReadBack(toks: Tokens, pos: nat, name: Option<string>, sc: Scope,
                       first: Parsed<(Expression, seq<Expression>)>, second: Parsed<(Expression, seq<Expression>)>, closing: nat)
    requires At(toks, pos, L.If)
    requires ParseBranch(toks, pos, false, sc) == Ok(first) && At(toks, first.pos, L.Else)
    requires ParseBranch(toks, first.pos, true, sc) == Ok(second)
    requires CheckEnding(toks, second.pos, name, Some(L.If)) == Ok(closing)
    ensures ParseIf(toks, pos, name, sc) == Ok(Parsed(If([first.value, second.value]), closing))
  {
    ElseBranchIsLast(toks, first.pos, sc, second);
    ThenBranchBeforeElse(toks, pos, sc, first, Parsed([second.value], second.pos));
    assert [first.value] + [second.value] == [first.value, second.value];
  }

  /** The tokens of `if x then y; else z; end if;`. */
  const IfTokens: Tokens := [L.If, L.Identifier("x"), L.Then, L.Identifier("y"), L.Semicolon,
                             L.Else, L.Identifier("z"), L.Semicolon, L.End, L.If, L.Semicolon]

  /** The statements of the first branch of `if x then y; else z; end if`. */
  lemma IfExampleThenStatements(sc: Scope)
    ensures Statements(IfTokens, 4, true, sc) == Ok(Parsed([Variable("y")], 6))
  {
    VariableBeforeDelimiter(IfTokens, 4, "y", None, sc);
    StatementReadBack(IfTokens, 4, sc, Parsed(Variable("y"), 4));
    OneStatement(IfTokens, 4, true, sc, Parsed(Variable("y"), 5));
  }

  /** The first branch of `if x then y; else z; end if`. */
  lemma IfExampleThenBranch(sc: Scope)
    ensures ParseBranch(IfTokens, 1, false, sc) == Ok(Parsed((Variable("x"), [Variable("y")]), 6))
  {
    VariableBeforeDelimiter(IfTokens, 2, "x", None, sc);
    IfExampleThenStatements(sc);
    BranchReadBack(IfTokens, 1, false, sc, Parsed(Variable("x"), 2), Parsed([Variable("y")], 6));
  }

  /** The `else` branch of `if x then y; else z; end if`. */
  lemma IfExampleElseBranch(sc: Scope)
    ensures ParseBranch(IfTokens, 6, true, sc) == Ok(Parsed((Variable("z"), []), 9))
  {
    VariableBeforeDelimiter(IfTokens, 7, "z", None, sc);
    NoStatements(IfTokens, 9, true, sc);
    BranchReadBack(IfTokens, 6, true, sc, Parsed(Variable("z"), 7), Parsed([], 9));
  }

  /** `if x then y; else z; end if` parses to its two branches; the expression after
      `else` is taken as that branch's condition, so the `else` branch has no
      statements. */
  lemma IfExample(sc: Scope)
    ensures ParseIf(IfTokens, 1, None, sc) == Ok(Parsed(If([(Variable("x"), [Variable("y")]), (Variable("z"), [])]), 10))
  {
    IfExampleThenBranch(sc);
    IfExampleElseBranch(sc);
    IfElseReadBack(IfTokens, 1, None, sc, Parsed((Variable("x"), [Variable("y")]), 6), Parsed((Variable("z"), []), 9), 10);
  }

  // ----- `match` -----

  /** The arm loop on `end` reads nothing. */
  lemma NoArms(toks: Tokens, pos: nat, sc: Scope)
    requires At(toks, pos, L.End)
    ensures Arms(toks, pos, sc) == Ok(Parsed([], pos))
  {
  }

  /** An arm is its option, `=>`, an expression and `,`. */
  lemma ArmReadBack(toks: Tokens, pos: nat, sc: Scope, option: Parsed<MatchOption>, right: Parsed<Expression>)
    requires ParseMatchOption(toks, pos) == Ok(option)
    requires ParseExpression(toks, option.pos + 2, None, None, sc) == Ok(right) && At(toks, right.pos + 1, L.Character(','))
    ensures ParseArm(toks, pos, sc) == Ok(Parsed((option.value, right.value), right.pos + 1))
  {
  }

  /** A single variant name before `=>` is a single option without bindings, ending
      right before the arrow. */
  lemma SingleOption(toks: Tokens, pos: nat, id: string)
    requires At(toks, pos, L.Identifier(id)) && At(toks, pos + 1, L.Arrow)
    ensures ParseMatchOption(toks, pos) == Ok(Parsed(SingleIdentifier(id, []), pos))
  {
    assert OptionNames(toks, pos + 1) == Ok(Parsed([], pos + 1));
    var names: seq<(string, seq<string>)> := [(id, [])];
    assert names + [] == names;
    assert OptionNames(toks, pos) == Ok(Parsed(names, pos + 1));
  }

  /** The arm loop reads an arm, then goes on after its comma. */
  lemma NextArm(toks: Tokens, pos: nat, sc: Scope, arm: Parsed<(MatchOption, Expression)>, rest: Parsed<seq<(MatchOption, Expression)>>)
    requires 1 <= pos <= |toks| && toks[pos - 1] != L.End
    requires ParseArm(toks, pos, sc) == Ok(arm) && Arms(toks, arm.pos + 1, sc) == Ok(rest)
    ensures Arms(toks, pos, sc) == Ok(Parsed([arm.value] + rest.value, rest.pos))
  {
    ArmAndRestReadBack(toks, pos, sc, arm, rest);
    assert Tok(toks, pos) == Ok(toks[pos - 1]);
  }

  /** One pass of the arm loop is the arm and the rest of the loop. */
  lemma ArmAndRestReadBack(toks: Tokens, pos: nat, sc: Scope, arm: Parsed<(MatchOption, Expression)>, rest: Parsed<seq<(MatchOption, Expression)>>)
    requires ParseArm(toks, pos, sc) == Ok(arm) && Arms(toks, arm.pos + 1, sc) == Ok(rest)
    ensures ArmAndRest(toks, pos, sc) == Ok(Parsed([arm.value] + rest.value, rest.pos))
  {
    var r := ArmAndRest(toks, pos, sc);
    assert r.Ok?;
    assert r.value.pos == rest.pos;
  }

  /** A `match` is its condition and what follows it. */
  lemma MatchStartsWithCondition(toks: Tokens, pos: nat, name: Option<string>, sc: Scope, condition: Parsed<Expression>)
    requires At(toks, pos, L.Match)
    requires ParseExpression(toks, pos + 1, None, None, sc) == Ok(condition)
    ensures ParseMatch(toks, pos, name, sc) == MatchAfterCondition(toks, condition, name, sc)
  {
  }

  /** `is`, the arms and `end match` after a condition give a match of exactly those
      arms, ending on `match`. */
  lemma ArmsReadBack(toks: Tokens, sc: Scope, condition: Parsed<Expression>, arms: Parsed<seq<(MatchOption, Expression)>>)
    requires At(toks, condition.pos + 1, L.Is)
    requires Arms(toks, condition.pos + 2, sc) == Ok(arms) && At(toks, arms.pos + 1, L.Match)
    ensures MatchAfterCondition(toks, condition, None, sc) == Ok(Parsed(Match(condition.value, arms.value), arms.pos + 1))
  {
  }

  /** `match c is <arms> end match`: the condition, `is`, the arms and `match` after
      their `end` give a match of exactly those arms, ending on `match`. */
  lemma MatchReadBack(toks: Tokens, pos: nat, sc: Scope, condition: Parsed<Expression>, arms: Parsed<seq<(MatchOption, Expression)>>)
    requires At(toks, pos, L.Match)
    requires ParseExpression(toks, pos + 1, None, None, sc) == Ok(condition) && At(toks, condition.pos + 1, L.Is)
    requires Arms(toks, condition.pos + 2, sc) == Ok(arms) && At(toks, arms.pos + 1, L.Match)
    ensures ParseMatch(toks, pos, None, sc) == Ok(Parsed(Match(condition.value, arms.value), arms.pos + 1))
  {
    MatchStartsWithCondition(toks, pos, None, sc, condition);
    ArmsReadBack(toks, sc, condition, arms);
  }

  /** The tokens of `match x is A => y, end match;`. */
  const MatchTokens: Tokens := [L.Match, L.Identifier("x"), L.Is, L.Identifier("A"), L.Arrow,
                                L.Identifier("y"), L.Character(','), L.End, L.Match, L.Semicolon]

  /** `match x is A => y, end match` parses to one arm for the single variant `A`
      without bindings. */
  lemma MatchExample(sc: Scope)
    ensures ParseMatch(MatchTokens, 1, None, sc) == Ok(Parsed(Match(Variable("x"), [(SingleIdentifier("A", []), Variable("y"))]), 9))
  {
    VariableBeforeDelimiter(MatchTokens, 2, "x", None, sc);
    MatchExampleArmList(sc);
    MatchReadBack(MatchTokens, 1, sc, Parsed(Variable("x"), 2), Parsed([(SingleIdentifier("A", []), Variable("y"))], 8));
  }

  /** The arm loop of `match x is A => y, end match` reads the one arm and stops on `end`. */
  lemma MatchExampleArmList(sc: Scope)
    ensures Arms(MatchTokens, 4, sc) == Ok(Parsed([(SingleIdentifier("A", []), Variable("y"))], 8))
  {
    var arm: Parsed<(MatchOption, Expression)> := Parsed((SingleIdentifier("A", []), Variable("y")), 7);
    var none: Parsed<seq<(MatchOption, Expression)>> := Parsed([], 8);
    assert [arm.value] + none.value == [arm.value];
    MatchExampleArm(sc);
    NoArms(MatchTokens, 8, sc);
    NextArm(MatchTokens, 4, sc, arm, none);
  }

  /** The arm of `match x is A => y, end match`. */
  lemma MatchExampleArm(sc: Scope)
    ensures ParseArm(MatchTokens, 4, sc) == Ok(Parsed((SingleIdentifier("A", []), Variable("y")), 7))
  {
    VariableBeforeDelimiter(MatchTokens, 6, "y", None, sc);
    SingleOption(MatchTokens, 4, "A");
    ArmReadBack(MatchTokens, 4, sc, Parsed(SingleIdentifier("A", []), 4), Parsed(Variable("y"), 6));
  }

  // ----- `begin … end` -----

  /** The tokens of `begin x; end;`. */
  const BodyTokens: Tokens := [L.Begin, L.Identifier("x"), L.Semicolon, L.End, L.Semicolon]

  /** `begin x; end` parses to a body of the one statement `x`, ending on `end`. */
  lemma BodyExample(sc: Scope)
    ensures ParseBody(BodyTokens, 1, None, false, sc) == Ok(Parsed([Variable("x")], 4))
  {
    var toks := BodyTokens;
    VariableBeforeDelimiter(toks, 2, "x", None, sc);
    StatementReadBack(toks, 2, sc, Parsed(Variable("x"), 2));
    OneStatement(toks, 2, false, sc, Parsed(Variable("x"), 3));
  }

  // ----- `let` and calls -----

  /** `let [mutable] name: Type = initializer` reads back as a `Let` that is mutable
      exactly when `mutable` follows `let`, with the name before `:`, the type after it
      and the initializer after `=`, parsed with the bound name; it ends where the
      initializer ends. */
  lemma LetReadBack(toks: Tokens, pos: nat, sc: Scope, at: nat, name: string, ty: Parsed<TypeSignature>, init: Parsed<Expression>)
    requires At(toks, pos, L.Let) && pos < |toks| && at == (if toks[pos] == L.Mutable then pos + 2 else pos + 1)
    requires At(toks, at, L.Identifier(name)) && At(toks, at + 1, L.Colon)
    requires ParseTypeSignature(toks, at + 2) == Ok(ty) && At(toks, ty.pos + 1, L.Equals)
    requires ParseExpression(toks, ty.pos + 2, None, Some(name), sc) == Ok(init)
    ensures ParseLet(toks, pos, sc) == Ok(Parsed(Let(toks[pos] == L.Mutable, name, ty.value, init.value), init.pos))
  {
    BindingReadBack(toks, at, toks[pos] == L.Mutable, sc, name, ty, init);
  }

  /** The binding part of `let`: name, `:`, type, `=`, initializer. */
  lemma BindingReadBack(toks: Tokens, at: nat, isMutable: bool, sc: Scope, name: string, ty: Parsed<TypeSignature>, init: Parsed<Expression>)
    requires At(toks, at, L.Identifier(name)) && At(toks, at + 1, L.Colon)
    requires ParseTypeSignature(toks, at + 2) == Ok(ty) && At(toks, ty.pos + 1, L.Equals)
    requires ParseExpression(toks, ty.pos + 2, None, Some(name), sc) == Ok(init)
    ensures LetBinding(toks, at, isMutable, sc) == Ok(Parsed(Let(isMutable, name, ty.value, init.value), init.pos))
  {
    InitializerReadBack(toks, isMutable, name, ty, sc, init);
  }

  /** `= initializer` after the type of a `let`. */
  lemma InitializerReadBack(toks: Tokens, isMutable: bool, name: string, ty: Parsed<TypeSignature>, sc: Scope, init: Parsed<Expression>)
    requires ty.pos <= |toks| && At(toks, ty.pos + 1, L.Equals)
    requires ParseExpression(toks, ty.pos + 2, None, Some(name), sc) == Ok(init)
    ensures LetInitializer(toks, isMutable, name, ty, sc) == Ok(Parsed(Let(isMutable, name, ty.value, init.value), init.pos))
  {
    assert Tok(toks, ty.pos + 1) == Ok(L.Equals);
    assert LetInitializer(toks, isMutable, name, ty, sc).Ok?;
    assert LetInitializer(toks, isMutable, name, ty, sc).value.pos == init.pos;
  }

  /** A name followed by `(` reads back as a call of that name with the arguments read
      after the `(`, and ends where they end. */
  lemma CallReadBack(toks: Tokens, pos: nat, id: string, sc: Scope, args: Parsed<seq<Expression>>)
    requires At(toks, pos, L.Identifier(id)) && At(toks, pos + 1, L.Character('('))
    requires Arguments(toks, pos + 2, sc) == Ok(args)
    ensures ParseVariable(toks, pos, id, sc) == Ok(Parsed(Call(FunctionCall(id, args.value)), args.pos))
  {
    assert VariableType(toks, pos, toks[pos]) == Ok((None, pos + 1));
  }
}

=== FILE: expression_parser.dfy ===
/** The expression part of the recursive-descent parser (`crates/rosarioparser/src/parser.rs`):
    `parse_expression` and the constructs it dispatches to (`let`, `begin … end`,
    `if`, `match`, variables, calls and enum constructors).

    The functions are mutually recursive, as in the source. Each one either consumes
    a token or hands over to a function of lower rank at the same cursor, which is
    what the two-part `decreases` clauses say.

    `parse_expression` builds a node, then looks at the next token: on a delimiter it
    steps back and returns, otherwise it parses again with the node as the left
    operand. So a parsed expression always ends right before a delimiter token.
 */
module ExpressionParser {
  import opened Outcome
  import opened OrdMap
  import opened Ast
  import opened ParserBase
  import L = Lexer

  const AtParseExpression: string := "Parser::parse_expression"
  const AtParseLet: string := "Parser::parse_let"
  const AtParseIf: string := "Parser::parse_if"
  const AtParseMatch: string := "Parser::parse_match"
  const AtParseMatchOption: string := "Parser::parse_match_option"
  const AtParseVariable: string := "Parser::parse_variable"

  /** The types an expression can name: the file's public and private types so far,
      and the packages parsed before this file. */
  datatype Scope = Scope(packages: Packages, publicTypes: TypeMap, localTypes: TypeMap)

  /** The tokens that end an expression. */
  predicate IsDelimiter(t: L.TokenType) {
    || t == L.Semicolon || t == L.RangeDots || t == L.Character(')') || t == L.Arrow
    || t.Number? || t == L.Character(',') || t == L.Then || t == L.Is
  }

  /** The tokens that end a branch of an `if`. */
  const IfStops: seq<L.TokenType> := [L.ElsIf, L.Else, L.End]

  /** The index of the first variant, in index order, with the given name. */
  function FirstVariant(contents: OMap<nat, (string, seq<EnumArgument>)>, name: string): (r: Option<nat>)
    ensures r.Some? <==> exists i :: 0 <= i < |contents| && contents[i].1.0 == name
    ensures r.Some? ==> exists i :: (0 <= i < |contents| && contents[i].1.0 == name && contents[i].0 == r.value &&
      forall j :: 0 <= j < i ==> contents[j].1.0 != name)
  {
    if |contents| == 0 then None
    else if contents[0].1.0 == name then Some(contents[0].0)
    else
      var r := FirstVariant(contents[1..], name);
      if r.Some? then
        ghost var i :| 0 <= i < |contents[1..]| && contents[1..][i].1.0 == name && contents[1..][i].0 == r.value &&
          forall j :: 0 <= j < i ==> contents[1..][j].1.0 != name;
        assert contents[i + 1] == contents[1..][i];
        r
      else
        assert forall i :: 1 <= i < |contents| ==> contents[i] == contents[1..][i - 1];
        r
  }

  /** `parse_expression`. `left` is the operand already parsed, `name` the name an
      `end` may have to repeat. */
  function ParseExpression(toks: Tokens, pos: nat, left: Option<Expression>, name: Option<string>, sc: Scope): (r: Result<Parsed<Expression>>)
    ensures r.Ok? ==> pos <= r.value.pos < |toks| && IsDelimiter(toks[r.value.pos])
    decreases |toks| + 1 - pos, 8
  {
    var t :- Tok(toks, pos);
    if t == L.IsEquals then
      var right :- ParseExpression(toks, pos + 1, None, None, sc);
      var l :- Unwrap(left, AtParseExpression);
      Ok(Parsed(Condition(l, Equals, right.value), right.pos))
    else if t == L.ToThePowerOf then
      var right :- ParseExpression(toks, pos + 1, None, None, sc);
      var l :- Unwrap(left, AtParseExpression);
      if right.value.Add? || right.value.Sub? then
        Ok(Parsed(Sub(ToThePowerOf(l, right.value.left), right.value.right), right.pos))
      else ContinueAfter(toks, pos, Parsed(ToThePowerOf(l, right.value), right.pos), name, sc)
    else
      var node :- ParseNode(toks, pos, left, name, sc);
      ContinueAfter(toks, pos, node, name, sc)
  }

  /** The end of `parse_expression`: return the node before a delimiter, otherwise
      parse on with the node as the left operand. */
  function ContinueAfter(toks: Tokens, start: nat, node: Parsed<Expression>, name: Option<string>, sc: Scope): (r: Result<Parsed<Expression>>)
    requires start <= node.pos
    ensures r.Ok? ==> node.pos <= r.value.pos < |toks| && IsDelimiter(toks[r.value.pos])
    decreases |toks| + 1 - start, 7
  {
    var t :- Tok(toks, node.pos + 1);
    if IsDelimiter(t) then Ok(node)
    else ParseExpression(toks, node.pos + 1, Some(node.value), name, sc)
  }

  /** The node `parse_expression` builds for the current token, before it looks for a
      delimiter: a leaf, a construct that starts with a keyword or a name, or an
      operator. */
  function ParseNode(toks: Tokens, pos: nat, left: Option<Expression>, name: Option<string>, sc: Scope): (r: Result<Parsed<Expression>>)
    ensures r.Ok? ==> pos <= r.value.pos
    decreases |toks| + 1 - pos, 6
  {
    var t :- Tok(toks, pos);
    if t.Number? || t.SelfVariable? || t.StaticString? || t == L.Character('_') then Ok(Parsed(Leaf(t), pos))
    else if t.Let? || t.Begin? || t.Match? || t.If? || t.Identifier? then ParseConstruct(toks, pos, t, name, sc)
    else ParseOperator(toks, pos, t, left, name, sc)
  }

  /** The one-token expressions. A number literal keeps its value when it fits an
      `i128` and becomes 0 otherwise; it carries no type yet. */
  function Leaf(t: L.TokenType): (e: Expression)
    requires t.Number? || t.SelfVariable? || t.StaticString? || t == L.Character('_')
    ensures t.Number? ==> e.Number? && e.value == LiteralValue(t.digits) && e.tag.None?
    ensures t.Number? ==> (e.fraction.Some? <==> t.fraction.Some?)
    ensures t.StaticString? ==> e == StaticString(t.text)
    ensures t.SelfVariable? ==> e == SelfVariable
    ensures t == L.Character('_') ==> e == MatchAll
  {
    match t
    case Number(digits, fraction) =>
      Number(LiteralValue(digits), if fraction.Some? then Some(LiteralValue(fraction.value)) else None, None)
    case SelfVariable => SelfVariable
    case StaticString(text) => StaticString(text)
    case Character(_) => MatchAll
  }

  /** The constructs that start with `let`, `begin`, `match`, `if` or a name. */
  function ParseConstruct(toks: Tokens, pos: nat, t: L.TokenType, name: Option<string>, sc: Scope): (r: Result<Parsed<Expression>>)
    requires At(toks, pos, t)
    ensures r.Ok? ==> pos <= r.value.pos
    decreases |toks| + 1 - pos, 5
  {
    if t.Let? then ParseLet(toks, pos, sc)
    else if t.Begin? then
      var body :- ParseBody(toks, pos, name, false, sc);
      Ok(Parsed(Body(body.value), body.pos))
    else if t.Match? then ParseMatch(toks, pos, name, sc)
    else if t.If? then ParseIf(toks, pos, name, sc)
    else if t.Identifier? then ParseVariable(toks, pos, t.name, sc)
    else Fail(Failure(Unimplemented, AtParseExpression))
  }

  /** The operators: prefix and infix signs, `(`, `not`, `.` and the C escape; anything
      else is not implemented. */
  function ParseOperator(toks: Tokens, pos: nat, t: L.TokenType, left: Option<Expression>, name: Option<string>, sc: Scope): (r: Result<Parsed<Expression>>)
    requires At(toks, pos, t)
    ensures r.Ok? ==> pos <= r.value.pos
    decreases |toks| + 1 - pos, 5
  {
    if t == L.Sub || t == L.Add then
      var right :- ParseExpression(toks, pos + 1, left, name, sc);
      Ok(Parsed(Signed(t == L.Sub, left, right.value), right.pos))
    else if t == L.Character('(') then
      var inner :- ParseExpression(toks, pos + 1, left, name, sc);
      var _ :- CheckToken(toks, inner.pos + 1, L.Character(')'));
      Ok(Parsed(Parenthesis(inner.value), inner.pos + 1))
    else if t == L.Not || t == L.Clang then
      var inner :- ParseExpression(toks, pos + 1, None, if t == L.Clang then name else None, sc);
      Ok(Parsed(if t == L.Clang then Clang(inner.value) else Not(inner.value), inner.pos))
    else if t == L.Dot then
      var right :- ParseExpression(toks, pos + 1, None, None, sc);
      var l :- if right.value.Call? || right.value.Variable? then Unwrap(left, AtParseExpression)
               else Fail(Failure(Unimplemented, AtParseExpression));
      Ok(Parsed(if right.value.Call? then AccessFunction(l, right.value.call) else AccessVariable(l, right.value.name), right.pos))
    else Fail(Failure(Unimplemented, AtParseExpression))
  }

  /** `-`/`+`: a sign in front of an expression without a left operand, a subtraction
      or addition with one. The right-hand side is parsed with the left operand still
      in hand, as in the source. */
  function Signed(minus: bool, left: Option<Expression>, right: Expression): (e: Expression)
    ensures left.None? ==> e == (if minus then Negative(right) else Positive(right))
    ensures left.Some? ==> e == (if minus then Sub(left.value, right) else Add(left.value, right))
  {
    match left
    case None => if minus then Negative(right) else Positive(right)
    case Some(l) => if minus then Sub(l, right) else Add(l, right)
  }

  /** `parse_let`: `let [mutable] name: Type = initializer`; the initializer is parsed
      with the binding's name. */
  function ParseLet(toks: Tokens, pos: nat, sc: Scope): (r: Result<Parsed<Expression>>)
    requires At(toks, pos, L.Let)
    ensures r.Ok? ==> pos <= r.value.pos
    decreases |toks| + 1 - pos, 2
  {
    var t :- Tok(toks, pos + 1);
    var isMutable := t == L.Mutable;
    LetBinding(toks, if isMutable then pos + 2 else pos + 1, isMutable, sc)
  }

  /** The rest of `parse_let` from the bound name at `at`. */
  function LetBinding(toks: Tokens, at: nat, isMutable: bool, sc: Scope): (r: Result<Parsed<Expression>>)
    requires at <= |toks| + 1
    ensures r.Ok? ==> at <= r.value.pos
    decreases |toks| + 1 - at, 2
  {
    var bound :- GetIdentifier(toks, at);
    var _ :- CheckToken(toks, at + 1, L.Colon);
    var ty :- ParseTypeSignature(toks, at + 2);
    LetInitializer(toks, isMutable, bound, ty, sc)
  }

  /** The end of `parse_let`: `=` after the type, then the initializer. */
  function LetInitializer(toks: Tokens, isMutable: bool, bound: string, ty: Parsed<TypeSignature>, sc: Scope): (r: Result<Parsed<Expression>>)
    requires ty.pos <= |toks|
    ensures r.Ok? ==> ty.pos < r.value.pos
    decreases |toks| + 1 - ty.pos, 2
  {
    var next :- Tok(toks, ty.pos + 1);
    if next != L.Equals then Fail(Failure(Panicked, AtParseLet))
    else
      var init :- ParseExpression(toks, ty.pos + 2, None, Some(bound), sc);
      Ok(Parsed(Let(isMutable, bound, ty.value, init.value), init.pos))
  }

  /** `parse_body`. Outside an `if` it reads `begin … end [name]`; inside a branch of
      an `if` it reads statements until `elsif`, `else` or `end` and leaves the cursor
      on that token. */
  function ParseBody(toks: Tokens, pos: nat, name: Option<string>, inIf: bool, sc: Scope): (r: Result<Parsed<seq<Expression>>>)
    ensures r.Ok? ==> pos <= r.value.pos
    decreases |toks| + 1 - pos, if inIf then 11 else 2
  {
    if !inIf then
      var _ :- CheckToken(toks, pos, L.Begin);
      var content :- Statements(toks, pos + 1, false, sc);
      var closing :- CheckEnding(toks, content.pos, name, None);
      Ok(Parsed(content.value, closing))
    else Statements(toks, pos, true, sc)
  }

  /** Whether the statement loop stops at a token: at `end`, and inside an `if` also
      at `elsif` and `else`. */
  predicate IsStop(t: L.TokenType, inIf: bool) {
    if inIf then t in IfStops else t == L.End
  }

  /** The statement loop of `parse_body`: statements until a stop token. */
  function Statements(toks: Tokens, pos: nat, inIf: bool, sc: Scope): (r: Result<Parsed<seq<Expression>>>)
    ensures r.Ok? ==> pos <= r.value.pos
    decreases |toks| + 1 - pos, 10
  {
    var t :- Tok(toks, pos);
    if IsStop(t, inIf) then Ok(Parsed([], pos))
    else
      var statement :- ParseStatement(toks, pos, sc);
      var rest :- Statements(toks, statement.pos + 1, inIf, sc);
      Ok(Parsed([statement.value] + rest.value, rest.pos))
  }

  /** One statement: an expression followed by `;`, ending on the `;`. */
  function ParseStatement(toks: Tokens, pos: nat, sc: Scope): (r: Result<Parsed<Expression>>)
    ensures r.Ok? ==> pos < r.value.pos
    decreases |toks| + 1 - pos, 9
  {
    var statement :- ParseExpression(toks, pos, None, None, sc);
    var _ :- CheckToken(toks, statement.pos + 1, L.Semicolon);
    Ok(Parsed(statement.value, statement.pos + 1))
  }

  /** `parse_if`: branches until `end`, then `end if` (or `end name`). */
  function ParseIf(toks: Tokens, pos: nat, name: Option<string>, sc: Scope): (r: Result<Parsed<Expression>>)
    requires At(toks, pos, L.If)
    ensures r.Ok? ==> pos <= r.value.pos
    decreases |toks| + 1 - pos, 2
  {
    var branches :- Branches(toks, pos, false, sc);
    var closing :- CheckEnding(toks, branches.pos, name, Some(L.If));
    Ok(Parsed(If(branches.value), closing))
  }

  /** The loop of `parse_if`, entered on `if`, `elsif` or `else`, until `end`. After
      an `else` branch `end` must follow; after any other branch `elsif` or `else`. */
  function Branches(toks: Tokens, pos: nat, inElse: bool, sc: Scope): (r: Result<Parsed<seq<(Expression, seq<Expression>)>>>)
    ensures r.Ok? ==> pos <= r.value.pos
    decreases |toks| + 1 - pos, 1
  {
    var t :- Tok(toks, pos);
    if t == L.End then Ok(Parsed([], pos))
    else
      var branch :- ParseBranch(toks, pos, inElse, sc);
      if inElse then
        var _ :- CheckToken(toks, branch.pos, L.End);
        Ok(Parsed([branch.value], branch.pos))
      else
        var next :- Tok(toks, branch.pos);
        if next != L.ElsIf && next != L.Else then Fail(Failure(Panicked, AtParseIf))
        else
          var rest :- Branches(toks, branch.pos, next == L.Else, sc);
          Ok(Parsed([branch.value] + rest.value, rest.pos))
  }

  /** One branch of an `if`, from its keyword to the token that ends it. Every branch
      but an `else` needs `then` after its condition; the first expression after
      `else` is taken as that branch's condition. */
  function ParseBranch(toks: Tokens, pos: nat, inElse: bool, sc: Scope): (r: Result<Parsed<(Expression, seq<Expression>)>>)
    requires 1 <= pos <= |toks|
    ensures r.Ok? ==> pos < r.value.pos
    decreases |toks| + 1 - pos, 0
  {
    var condition :- ParseExpression(toks, pos + 1, None, None, sc);
    BranchAfterCondition(toks, condition, inElse, sc)
  }

  /** The rest of a branch once its condition is parsed: `then` unless it is the
      `else` branch, then the statements. */
  function BranchAfterCondition(toks: Tokens, condition: Parsed<Expression>, inElse: bool, sc: Scope): (r: Result<Parsed<(Expression, seq<Expression>)>>)
    requires condition.pos < |toks|
    ensures r.Ok? ==> condition.pos < r.value.pos
    decreases |toks| + 1 - condition.pos, 12
  {
    var _ :- if inElse then Pass else CheckToken(toks, condition.pos + 1, L.Then);
    var body :- ParseBody(toks, condition.pos + 2, None, true, sc);
    Ok(Parsed((condition.value, body.value), body.pos))
  }

  /** `parse_match`: `match e is option => e, … end match` (or `end name`). */
  function ParseMatch(toks: Tokens, pos: nat, name: Option<string>, sc: Scope): (r: Result<Parsed<Expression>>)
    requires At(toks, pos, L.Match)
    ensures r.Ok? ==> pos <= r.value.pos
    decreases |toks| + 1 - pos, 2
  {
    var condition :- ParseExpression(toks, pos + 1, None, None, sc);
    MatchAfterCondition(toks, condition, name, sc)
  }

  /** The rest of `parse_match` once the condition is parsed: `is`, the arms, and
      `end` followed by `match` (or by the name). */
  function MatchAfterCondition(toks: Tokens, condition: Parsed<Expression>, name: Option<string>, sc: Scope): (r: Result<Parsed<Expression>>)
    ensures r.Ok? ==> condition.pos <= r.value.pos
    decreases |toks| + 1 - condition.pos, 2
  {
    var _ :- CheckToken(toks, condition.pos + 1, L.Is);
    var arms :- Arms(toks, condition.pos + 2, sc);
    var closing := arms.pos + 1;
    var _ :- if name.Some? then Need(GetIdentifier(toks, closing) == Ok(name.value), Panicked, AtParseMatch)
             else CheckToken(toks, closing, L.Match);
    Ok(Parsed(Match(condition.value, arms.value), closing))
  }

  /** The arm loop of `parse_match`: arms until `end`. */
  function Arms(toks: Tokens, pos: nat, sc: Scope): (r: Result<Parsed<seq<(MatchOption, Expression)>>>)
    ensures r.Ok? ==> pos <= r.value.pos
    decreases |toks| + 1 - pos, 2
  {
    var t :- Tok(toks, pos);
    if t == L.End then Ok(Parsed([], pos))
    else ArmAndRest(toks, pos, sc)
  }

  /** One pass of the arm loop: an arm, then the loop again after its comma. */
  function ArmAndRest(toks: Tokens, pos: nat, sc: Scope): (r: Result<Parsed<seq<(MatchOption, Expression)>>>)
    ensures r.Ok? ==> pos < r.value.pos
    decreases |toks| + 1 - pos, 1
  {
    var arm :- ParseArm(toks, pos, sc);
    var rest :- Arms(toks, arm.pos + 1, sc);
    Ok(Parsed([arm.value] + rest.value, rest.pos))
  }

  /** One arm: `option => expression ,`, ending on the comma. The arrow check of the
      source always passes, because the option stops right before the arrow. */
  function ParseArm(toks: Tokens, pos: nat, sc: Scope): (r: Result<Parsed<(MatchOption, Expression)>>)
    ensures r.Ok? ==> pos < r.value.pos
    decreases |toks| + 1 - pos, 0
  {
    var option :- ParseMatchOption(toks, pos);
    var right :- ParseExpression(toks, option.pos + 2, None, None, sc);
    var _ :- CheckToken(toks, right.pos + 1, L.Character(','));
    Ok(Parsed((option.value, right.value), right.pos + 1))
  }

  /** `parse_match_option`: variant names, each with an optional binding list, up to
      `=>`; the cursor ends just before the arrow. One name is a single option,
      anything else (also none) a multiple one. */
  function ParseMatchOption(toks: Tokens, pos: nat): (r: Result<Parsed<MatchOption>>)
    ensures r.Ok? ==> pos <= r.value.pos + 1 && At(toks, r.value.pos + 1, L.Arrow)
  {
    var names :- OptionNames(toks, pos);
    var option :=
      if |names.value| == 1 then SingleIdentifier(names.value[0].0, names.value[0].1)
      else MultipleIdentifiers(names.value);
    Ok(Parsed(option, names.pos - 1))
  }

  /** The name loop of `parse_match_option`; returns the cursor of the arrow. */
  function OptionNames(toks: Tokens, pos: nat): (r: Result<Parsed<seq<(string, seq<string>)>>>)
    ensures r.Ok? ==> pos <= r.value.pos && At(toks, r.value.pos, L.Arrow)
    decreases |toks| + 1 - pos
  {
    var t :- Tok(toks, pos);
    if t == L.Arrow then Ok(Parsed([], pos))
    else if !t.Identifier? then Fail(Failure(Unimplemented, AtParseMatchOption))
    else
      var next :- Tok(toks, pos + 1);
      var bindings :- if next == L.Character('(') then Bindings(toks, pos + 2) else Ok(Parsed([], pos + 1));
      var rest :- OptionNames(toks, bindings.pos);
      Ok(Parsed([(t.name, bindings.value)] + rest.value, rest.pos))
  }

  /** The binding loop inside `(…)`: names or `_`, separated by `,`. Returns the cursor
      after `)`, or the cursor of `)` when the loop found it before any binding. */
  function Bindings(toks: Tokens, pos: nat): (r: Result<Parsed<seq<string>>>)
    ensures r.Ok? ==> pos <= r.value.pos
    decreases |toks| + 1 - pos
  {
    var t :- Tok(toks, pos);
    if t == L.Character(')') then Ok(Parsed([], pos))
    else
      var binding :- if t.Identifier? then Ok(t.name) else if t == L.Character('_') then Ok("_")
                     else Fail(Failure(Unimplemented, AtParseMatchOption));
      var next :- Tok(toks, pos + 1);
      if next == L.Character(')') then Ok(Parsed([binding], pos + 2))
      else if next != L.Character(',') then Fail(Failure(Panicked, AtParseMatchOption))
      else
        var rest :- Bindings(toks, pos + 2);
        Ok(Parsed([binding] + rest.value, rest.pos))
  }

  /** The optional `<…>` after a variable's name: the signature and the cursor after it. */
  function VariableType(toks: Tokens, pos: nat, next: L.TokenType): (r: Result<(Option<TypeSignature>, nat)>)
    ensures r.Ok? ==> pos + 1 <= r.value.1
    ensures r.Ok? ==> (r.value.0.Some? <==> next == L.LessThan)
  {
    if next == L.LessThan then
      var sig :- ParseTypeSignature(toks, pos);
      Ok((Some(sig.value), sig.pos + 1))
    else Ok((None, pos + 1))
  }

  /** `parse_variable`: a name, `Type<…>::Variant payload` (an enum constructor), or a
      call `name(args)`. The variant index is that of the first variant with the
      given name, and 0 when the type has no such variant. */
  function ParseVariable(toks: Tokens, pos: nat, id: string, sc: Scope): (r: Result<Parsed<Expression>>)
    requires At(toks, pos, L.Identifier(id))
    ensures r.Ok? ==> pos <= r.value.pos
    decreases |toks| + 1 - pos, 2
  {
    var next :- Tok(toks, pos + 1);
    var typed :- VariableType(toks, pos, next);
    var p := typed.1;
    var t :- Tok(toks, p);
    if t == L.DoubleColon then EnumConstructor(toks, p, typed.0, sc)
    else if t != L.Character('(') then Ok(Parsed(Variable(id), p - 1))
    else
      var arguments :- Arguments(toks, p + 1, sc);
      Ok(Parsed(Call(FunctionCall(id, arguments.value)), arguments.pos))
  }

  /** `Type<…>::Variant payload`, from the `::` on. The payload is parsed first, then
      the type is looked up and must be an enum; a type written without `<…>` aborts.
      The variant index is that of the first variant, in index order, named after the
      `::`, and 0 when the enum has no such variant. */
  function EnumConstructor(toks: Tokens, p: nat, ty: Option<TypeSignature>, sc: Scope): (r: Result<Parsed<Expression>>)
    requires At(toks, p, L.DoubleColon)
    ensures r.Ok? ==> p < r.value.pos
    ensures ty.None? ==> r.Fail?
    ensures r.Ok? ==> && r.value.value.NewEnum? && ty == Some(r.value.value.ty) && p < |toks| && toks[p].Identifier?
    ensures r.Ok? ==>
      var found := FindTypeByName(ty.value.name, Some(sc.publicTypes), Some(sc.localTypes), sc.packages, false);
      && found.Ok? && found.value.1.content.EnumContent?
      && r.value.value.item == FirstVariant(found.value.1.content.enumeration.contents, toks[p].name).GetOr(0)
    decreases |toks| + 1 - p, 1
  {
    var variant :- GetIdentifier(toks, p + 1);
    var payload :- ParseVariable(toks, p + 1, variant, sc);
    var sig :- Unwrap(ty, AtParseVariable);
    var found :- FindTypeByName(sig.name, Some(sc.publicTypes), Some(sc.localTypes), sc.packages, false);
    if found.1.content.EnumContent? then
      Ok(Parsed(NewEnum(sig, FirstVariant(found.1.content.enumeration.contents, variant).GetOr(0), payload.value), payload.pos))
    else Fail(Failure(Unimplemented, AtParseVariable))
  }

  /** The argument loop of a call: expressions separated by `,`, up to `)`. */
  function Arguments(toks: Tokens, pos: nat, sc: Scope): (r: Result<Parsed<seq<Expression>>>)
    ensures r.Ok? ==> pos <= r.value.pos
    decreases |toks| + 1 - pos, 10
  {
    var t :- Tok(toks, pos);
    if t == L.Character(')') then Ok(Parsed([], pos))
    else
      var argument :- ParseArgument(toks, pos, sc);
      if argument.value.1 then Ok(Parsed([argument.value.0], argument.pos))
      else
        var rest :- Arguments(toks, argument.pos + 1, sc);
        Ok(Parsed([argument.value.0] + rest.value, rest.pos))
  }

  /** One argument, ending on the `)` that closes the call (flagged as the last one)
      or on the `,` after it. */
  function ParseArgument(toks: Tokens, pos: nat, sc: Scope): (r: Result<Parsed<(Expression, bool)>>)
    ensures r.Ok? ==> pos < r.value.pos
    decreases |toks| + 1 - pos, 9
  {
    var argument :- ParseExpression(toks, pos, None, None, sc);
    if toks[argument.pos] == L.Character(')') then Ok(Parsed((argument.value, true), argument.pos + 1))
    else
      var _ :- CheckToken(toks, argument.pos + 1, L.Character(','));
      Ok(Parsed((argument.value, false), argument.pos + 1))
  }
}

=== FILE: generic_pass.dfy ===
/** The generic monomorphisation pass (`crates/rosarioparser/src/all_passes/generic_solver_pass.rs`).

    The pass collects every instantiation `T<A, …>` that a `let` or an enum
    constructor in a private procedure writes, rewrites those nodes to the
    instantiated name `T_A_…`, and builds, per package, the instantiated enum types
    and copies of the implementations of `T` in the separate package map
    `generic_results`. Requests already present there are skipped.
 */
module GenericPass {
  import opened Outcome
  import opened Order
  import opened OrdMap
  import opened Ast
  import opened ParserBase

  const AtConversionMap: string := "get_generic_conversion_tree_map"
  const AtConvertToSolvedType: string := "convert_to_solved_type"

  // ----- the instantiated name -----

  /** Each generic's name followed by `_`, as the source accumulates it. */
  function Underscored(gs: seq<Generic>): string {
    if |gs| == 0 then "" else gs[0].name + "_" + Underscored(gs[1..])
  }

  /** `String::pop`: drop the last character, if any. */
  function PopLast(s: string): (r: string)
    ensures |s| > 0 ==> r == s[..|s| - 1]
    ensures |s| == 0 ==> r == ""
  {
    if |s| > 0 then s[..|s| - 1] else s
  }

  /** The generic names joined by `_`. */
  function JoinedNames(gs: seq<Generic>): string {
    if |gs| == 0 then ""
    else if |gs| == 1 then gs[0].name
    else gs[0].name + "_" + JoinedNames(gs[1..])
  }

  /** `get_solved_generic_type_signature`: `T<A, B>` becomes `T_A_B` with no generics. */
  function SolvedSignature(ty: TypeSignature): (s: TypeSignature)
    ensures s.generics == []
  {
    TypeSignature(ty.name + "_" + PopLast(Underscored(ty.generics)), [])
  }

  lemma PopLastOfLonger(x: string, y: string)
    requires |y| > 0
    ensures PopLast(x + y) == x + PopLast(y)
  {
    assert (x + y)[..|x + y| - 1] == x + y[..|y| - 1];
  }

  /** The instantiated name is the base name, `_`, and the generic names joined by
      `_`; a signature without generics gets a bare trailing `_`. */
  lemma {:induction false} SolvedNameJoinsGenerics(ty: TypeSignature)
    ensures SolvedSignature(ty).name == ty.name + "_" + JoinedNames(ty.generics)
  {
    UnderscoredPops(ty.generics);
  }

  lemma {:induction false} UnderscoredPops(gs: seq<Generic>)
    ensures PopLast(Underscored(gs)) == JoinedNames(gs)
  {
    if |gs| == 1 {
      assert Underscored(gs) == gs[0].name + "_" + Underscored([]);
      assert gs[0].name + "_" + "" == gs[0].name + "_";
      assert PopLast(gs[0].name + "_") == gs[0].name;
    } else if |gs| > 1 {
      UnderscoredPops(gs[1..]);
      var rest := Underscored(gs[1..]);
      assert |rest| > 0 by {
        assert rest == gs[1].name + "_" + Underscored(gs[2..]);
      }
      assert Underscored(gs) == (gs[0].name + "_") + rest;
      PopLastOfLonger(gs[0].name + "_", rest);
    }
  }

  /** `Box<Int>` is instantiated as `Box_Int`. */
  lemma BoxIntExample()
    ensures SolvedSignature(TypeSignature("Box", [Generic("Int", EndNone)])).name == "Box_Int"
  {
    SolvedNameJoinsGenerics(TypeSignature("Box", [Generic("Int", EndNone)]));
  }

  // ----- collecting requests -----

  /** `get_solved_generics`: the instantiations written in an expression, in pre-order,
      and the expression with each of them replaced by its instantiated signature.
      Only bodies, `let` initializers and enum payloads are searched. */
  function SolveExpression(e: Expression): (r: (seq<TypeSignature>, Expression))
    ensures forall i :: 0 <= i < |r.0| ==> r.0[i].generics != []
    decreases e, 1
  {
    if e.Body? then
      var (requests, content) := SolveAll(e.content);
      (requests, Body(content))
    else if e.Let? then
      var own := if e.ty.generics != [] then [e.ty] else [];
      var (requests, initializer) := SolveExpression(e.initializer);
      (own + requests, e.(ty := if e.ty.generics != [] then SolvedSignature(e.ty) else e.ty, initializer := initializer))
    else if e.NewEnum? then
      var own := if e.ty.generics != [] then [e.ty] else [];
      var (requests, payload) := SolveExpression(e.payload);
      (own + requests, e.(ty := if e.ty.generics != [] then SolvedSignature(e.ty) else e.ty, payload := payload))
    else ([], e)
  }

  /** `get_solved_generics` over each statement of a body, in order. */
  function SolveAll(es: seq<Expression>): (r: (seq<TypeSignature>, seq<Expression>))
    ensures |r.1| == |es|
    ensures forall i :: 0 <= i < |r.0| ==> r.0[i].generics != []
    decreases es, 0
  {
    if |es| == 0 then ([], [])
    else
      var (first, e) := SolveExpression(es[0]);
      var (rest, tail) := SolveAll(es[1..]);
      (first + rest, [e] + tail)
  }

  /** No `let` or enum constructor reachable the way `get_solved_generics` searches
      writes generics. */
  predicate Settled(e: Expression)
    decreases e, 1
  {
    if e.Body? then SettledAll(e.content)
    else if e.Let? then e.ty.generics == [] && Settled(e.initializer)
    else if e.NewEnum? then e.ty.generics == [] && Settled(e.payload)
    else true
  }

  predicate SettledAll(es: seq<Expression>)
    decreases es, 0
  {
    |es| == 0 || (Settled(es[0]) && SettledAll(es[1..]))
  }

  /** A settled expression asks for nothing and is left as it is; an unsettled one
      asks for at least one instantiation. */
  lemma {:induction false} SettledIsFixed(e: Expression)
    ensures Settled(e) <==> SolveExpression(e).0 == []
    ensures Settled(e) ==> SolveExpression(e).1 == e
    decreases e, 1
  {
    if e.Body? {
      SettledAllIsFixed(e.content);
    } else if e.Let? {
      SettledIsFixed(e.initializer);
    } else if e.NewEnum? {
      SettledIsFixed(e.payload);
    }
  }

  lemma {:induction false} SettledAllIsFixed(es: seq<Expression>)
    ensures SettledAll(es) <==> SolveAll(es).0 == []
    ensures SettledAll(es) ==> SolveAll(es).1 == es
    decreases es, 0
  {
    if |es| > 0 {
      SettledIsFixed(es[0]);
      SettledAllIsFixed(es[1..]);
      if SettledAll(es) {
        assert [es[0]] + es[1..] == es;
      }
    }
  }

  /** After one call, everything reachable is settled. */
  lemma {:induction false} SolveSettles(e: Expression)
    ensures Settled(SolveExpression(e).1)
    decreases e, 1
  {
    if e.Body? {
      SolveAllSettles(e.content);
    } else if e.Let? {
      SolveSettles(e.initializer);
    } else if e.NewEnum? {
      SolveSettles(e.payload);
    }
  }

  lemma {:induction false} SolveAllSettles(es: seq<Expression>)
    ensures SettledAll(SolveAll(es).1)
    decreases es, 0
  {
    if |es| > 0 {
      SolveSettles(es[0]);
      SolveAllSettles(es[1..]);
      var r := SolveAll(es).1;
      assert r[0] == SolveExpression(es[0]).1 && r[1..] == SolveAll(es[1..]).1;
    }
  }

  /** Idempotence: a second call asks for nothing and changes nothing. */
  lemma SolveIsIdempotent(e: Expression)
    ensures SolveExpression(SolveExpression(e).1) == ([], SolveExpression(e).1)
  {
    SolveSettles(e);
    SettledIsFixed(SolveExpression(e).1);
  }

  /** The procedures of one package with their bodies rewritten, and what they asked for. */
  function SolveProcedures(ps: seq<Procedure>): (r: (seq<TypeSignature>, seq<Procedure>))
    ensures |r.1| == |ps|
    ensures forall i :: 0 <= i < |ps| ==> r.1[i].signature == ps[i].signature
  {
    if |ps| == 0 then ([], [])
    else
      var (first, body) := SolveExpression(ps[0].body);
      var (rest, tail) := SolveProcedures(ps[1..]);
      (first + rest, [Procedure(ps[0].signature, body)] + tail)
  }

  /** The request map: package name to the instantiations its private procedures ask
      for. Only a package with at least one procedure gets an entry. */
  type Requests = OMap<string, seq<TypeSignature>>

  /** Append `more` to the entry of `name`, creating it when absent. */
  function AddRequests(requests: Requests, name: string, more: seq<TypeSignature>): (r: Requests)
    ensures Get(r, name) == Some(Get(requests, name).GetOr([]) + more)
  {
    match Get(requests, name)
    case Some(known) => Insert(StringLt, requests, name, known + more)
    case None => assert [] + more == more; Insert(StringLt, requests, name, more)
  }

  /** The first loop of `generic_solver_pass`: rewrite each package's private
      procedures and record, per procedure, what it asked for. */
  function CollectRequests(packages: Packages, requests: Requests): (r: (Packages, Requests))
    ensures Keys(r.0) == Keys(packages)
    ensures forall k :: 0 <= k < |packages| ==>
      r.0[k].1 == packages[k].1.(file := packages[k].1.file.(procedures := r.0[k].1.file.procedures))
  {
    if |packages| == 0 then ([], requests)
    else
      var (name, package) := packages[0];
      var (asked, procedures) := SolveProcedures(package.file.procedures);
      var requests' := if |procedures| == 0 then requests else AddPerProcedure(requests, name, package.file.procedures);
      var (rest, requests'') := CollectRequests(packages[1..], requests');
      ([(name, package.(file := package.file.(procedures := procedures)))] + rest, requests'')
  }

  /** One `extend` (or `insert`) per procedure, as the source does it. */
  function AddPerProcedure(requests: Requests, name: string, ps: seq<Procedure>): (r: Requests)
    requires |ps| > 0
    ensures Get(r, name) == Some(Get(requests, name).GetOr([]) + SolveProcedures(ps).0)
    decreases |ps|
  {
    var first := AddRequests(requests, name, SolveExpression(ps[0].body).0);
    if |ps| == 1 then
      assert ps[1..] == [];
      assert SolveProcedures(ps).0 == SolveExpression(ps[0].body).0 + [];
      assert SolveExpression(ps[0].body).0 + [] == SolveExpression(ps[0].body).0;
      first
    else
      var r := AddPerProcedure(first, name, ps[1..]);
      var known, a, b := Get(requests, name).GetOr([]), SolveExpression(ps[0].body).0, SolveProcedures(ps[1..]).0;
      assert SolveProcedures(ps).0 == a + b;
      assert (known + a) + b == known + (a + b);
      r
  }

  // ----- substituting generics -----

  /** `get_generic_conversion_tree_map`: the k-th generic name of the original
      signature maps to the k-th generic name of the requested one. A requested list
      shorter than the original one indexes out of bounds. */
  function ConversionMap(original: TypeSignature, solved: TypeSignature): (r: Result<OMap<string, string>>)
    ensures r.Ok? <==> |original.generics| <= |solved.generics|
  {
    ConversionFrom(original.generics, solved.generics, 0, [])
  }

  function ConversionFrom(from: seq<Generic>, to: seq<Generic>, k: nat, acc: OMap<string, string>): (r: Result<OMap<string, string>>)
    requires k <= |from|
    ensures r.Ok? <==> |from| <= |to| || k == |from|
    decreases |from| - k
  {
    if k == |from| then Ok(acc)
    else if k >= |to| then Fail(Failure(Panicked, AtConversionMap))
    else ConversionFrom(from, to, k + 1, Insert(StringLt, acc, from[k].name, to[k].name))
  }

  /** The entry for a name is the requested generic at the last position where the
      original list has that name. */
  function LastMatch(from: seq<Generic>, to: seq<Generic>, name: string, k: nat): (r: Option<string>)
    requires |from| <= |to| && k <= |from|
    decreases k
  {
    if k == 0 then None
    else if from[k - 1].name == name then Some(to[k - 1].name)
    else LastMatch(from, to, name, k - 1)
  }

  lemma {:induction false} ConversionFromLooksUp(from: seq<Generic>, to: seq<Generic>, k: nat, acc: OMap<string, string>, name: string)
    requires |from| <= |to| && k <= |from|
    requires Get(acc, name) == LastMatch(from, to, name, k)
    ensures Get(ConversionFrom(from, to, k, acc).value, name) == LastMatch(from, to, name, |from|)
    decreases |from| - k
  {
    if k < |from| {
      var acc' := Insert(StringLt, acc, from[k].name, to[k].name);
      assert Get(acc', name) == LastMatch(from, to, name, k + 1);
      ConversionFromLooksUp(from, to, k + 1, acc', name);
    }
  }

  /** The conversion map is positional: a name maps to the requested generic at its
      (last) position in the original list, and is absent when the original has no
      generic of that name. */
  lemma ConversionMapIsPositional(original: TypeSignature, solved: TypeSignature, name: string)
    requires |original.generics| <= |solved.generics|
    ensures Get(ConversionMap(original, solved).value, name) == LastMatch(original.generics, solved.generics, name, |original.generics|)
  {
    ConversionFromLooksUp(original.generics, solved.generics, 0, [], name);
  }

  lemma {:induction false} LastMatchOfDistinct(from: seq<Generic>, to: seq<Generic>, k: nat, j: nat)
    requires |from| <= |to| && j < k <= |from|
    requires forall a, b :: 0 <= a < b < |from| ==> from[a].name != from[b].name
    ensures LastMatch(from, to, from[j].name, k) == Some(to[j].name)
    decreases k
  {
    if k - 1 != j {
      LastMatchOfDistinct(from, to, k - 1, j);
    }
  }

  /** With distinct generic names, the k-th original name maps to the k-th requested name. */
  lemma ConversionMapOfDistinct(original: TypeSignature, solved: TypeSignature, k: nat)
    requires |original.generics| <= |solved.generics| && k < |original.generics|
    requires forall a, b :: 0 <= a < b < |original.generics| ==> original.generics[a].name != original.generics[b].name
    ensures Get(ConversionMap(original, solved).value, original.generics[k].name) == Some(solved.generics[k].name)
  {
    ConversionMapIsPositional(original, solved, original.generics[k].name);
    LastMatchOfDistinct(original.generics, solved.generics, |original.generics|, k);
  }

  /** A payload that names a mapped generic becomes the concrete type it maps to. */
  function SubstituteArgument(m: OMap<string, string>, a: EnumArgument): (r: EnumArgument)
    ensures a.GenericArgument? && Get(m, a.generic).Some? ==> r == TypeArgument(TypeSignature(Get(m, a.generic).value, []))
    ensures !(a.GenericArgument? && Get(m, a.generic).Some?) ==> r == a
  {
    if a.GenericArgument? && Get(m, a.generic).Some? then TypeArgument(TypeSignature(Get(m, a.generic).value, [])) else a
  }

  function SubstituteArguments(m: OMap<string, string>, args: seq<EnumArgument>): (r: seq<EnumArgument>)
    ensures |r| == |args| && forall j :: 0 <= j < |args| ==> r[j] == SubstituteArgument(m, args[j])
  {
    seq(|args|, j requires 0 <= j < |args| => SubstituteArgument(m, args[j]))
  }

  /** Every variant keeps its index and name; its payload is substituted. */
  function SubstituteVariants(m: OMap<string, string>, contents: OMap<nat, (string, seq<EnumArgument>)>)
    : (r: OMap<nat, (string, seq<EnumArgument>)>)
    ensures |r| == |contents|
    ensures forall i :: 0 <= i < |contents| ==>
      r[i].0 == contents[i].0 && r[i].1.0 == contents[i].1.0 && r[i].1.1 == SubstituteArguments(m, contents[i].1.1)
  {
    seq(|contents|, i requires 0 <= i < |contents| => (contents[i].0, (contents[i].1.0, SubstituteArguments(m, contents[i].1.1))))
  }

  /** `convert_to_solved_type`: the original enum with its generics replaced by the
      requested types. Anything but an enum is not implemented. */
  function ConvertToSolvedType(originalSignature: TypeSignature, original: RosarioType, solved: TypeSignature): (r: Result<RosarioType>)
    ensures r.Ok? <==> |originalSignature.generics| <= |solved.generics| && original.content.EnumContent?
    ensures r.Ok? ==> r.value.traits == original.traits && r.value.content.EnumContent?
    ensures r.Ok? ==>
      r.value.content.enumeration.contents == SubstituteVariants(ConversionMap(originalSignature, solved).value, original.content.enumeration.contents)
  {
    var m :- ConversionMap(originalSignature, solved);
    if original.content.EnumContent? then
      Ok(RosarioType(original.traits, EnumContent(Enum(SubstituteVariants(m, original.content.enumeration.contents)))))
    else Fail(Failure(Unimplemented, AtConvertToSolvedType))
  }

  /** A public function returning a mapped generic returns the concrete type instead. */
  function SubstituteReturn(m: OMap<string, string>, f: Function): (r: Function)
    ensures r.body == f.body && r.signature.name == f.signature.name && r.signature.arguments == f.signature.arguments
    ensures f.signature.returnType.ReturnsGeneric? && Get(m, f.signature.returnType.generic).Some? ==>
      r.signature.returnType == ReturnsType(f.signature.returnType.mutability, TypeSignature(Get(m, f.signature.returnType.generic).value, []))
    ensures !(f.signature.returnType.ReturnsGeneric? && Get(m, f.signature.returnType.generic).Some?) ==> r == f
  {
    var rt := f.signature.returnType;
    if rt.ReturnsGeneric? && Get(m, rt.generic).Some? then
      f.(signature := f.signature.(returnType := ReturnsType(rt.mutability, TypeSignature(Get(m, rt.generic).value, []))))
    else f
  }

  /** The copy of an implementation: only the public functions' return types change. */
  function InstantiateImplementation(m: OMap<string, string>, im: TypeImplementation): (r: TypeImplementation)
    ensures r == im.(publicFunctions := r.publicFunctions)
    ensures |r.publicFunctions| == |im.publicFunctions|
    ensures forall i :: 0 <= i < |im.publicFunctions| ==> r.publicFunctions[i] == SubstituteReturn(m, im.publicFunctions[i])
  {
    im.(publicFunctions := seq(|im.publicFunctions|, i requires 0 <= i < |im.publicFunctions| => SubstituteReturn(m, im.publicFunctions[i])))
  }

  // ----- building the instantiations -----

  /** Copy, into `target`, every implementation (of any package, in key order) whose
      implemented type is `original`, keyed by the same trait and the solved signature. */
  function CopyImplementations(packages: Packages, original: TypeSignature, m: OMap<string, string>, solved: TypeSignature,
                               target: ImplMap): (r: ImplMap)
    ensures forall k: ImplSignature :: HasKey(r, k) ==> HasKey(target, k) || k.implFor == solved
    ensures forall k: ImplSignature :: k.implFor != solved ==> Get(r, k) == Get(target, k)
  {
    if |packages| == 0 then target
    else CopyImplementations(packages[1..], original, m, solved, CopyFrom(packages[0].1.file.implementations, original, m, solved, target))
  }

  function CopyFrom(impls: ImplMap, original: TypeSignature, m: OMap<string, string>, solved: TypeSignature, target: ImplMap): (r: ImplMap)
    ensures forall k: ImplSignature :: HasKey(r, k) ==> HasKey(target, k) || k.implFor == solved
    ensures forall k: ImplSignature :: k.implFor != solved ==> Get(r, k) == Get(target, k)
  {
    if |impls| == 0 then target
    else
      var (sig, im) := impls[0];
      var target' := if sig.implFor == original
        then Insert(ImplSignatureLt, target, ImplSignature(sig.implOf, solved), InstantiateImplementation(m, im))
        else target;
      CopyFrom(impls[1..], original, m, solved, target')
  }

  /** Copying from one map with one entry per key: the solved key of trait `t` ends up
      holding the instantiated implementation of `(t, original)` when the map has one,
      and keeps what `target` held otherwise. */
  lemma {:induction false} CopyFromKey(impls: ImplMap, original: TypeSignature, m: OMap<string, string>, solved: TypeSignature,
                                       target: ImplMap, t: Option<TraitSignature>)
    requires UniqueKeys(impls)
    ensures Get(CopyFrom(impls, original, m, solved, target), ImplSignature(t, solved)) ==
      if HasKey(impls, ImplSignature(t, original))
      then Some(InstantiateImplementation(m, Get(impls, ImplSignature(t, original)).value))
      else Get(target, ImplSignature(t, solved))
  {
    if |impls| > 0 {
      var (sig, im) := impls[0];
      var key := ImplSignature(t, original);
      var target' := if sig.implFor == original
        then Insert(ImplSignatureLt, target, ImplSignature(sig.implOf, solved), InstantiateImplementation(m, im))
        else target;
      assert UniqueKeys(impls[1..]);
      CopyFromKey(impls[1..], original, m, solved, target', t);
      if sig == key {
        forall i | 0 <= i < |impls| - 1 ensures impls[1..][i].0 != key {
          assert impls[1..][i] == impls[i + 1];
        }
      } else {
        HasKeyTail(impls, key);
      }
    }
  }

  /** Across the packages, the last package whose implementations hold `(t, original)`
      decides what the solved key of `t` holds. */
  lemma {:induction false} CopyImplementationsLastWins(packages: Packages, original: TypeSignature, m: OMap<string, string>,
                                                       solved: TypeSignature, target: ImplMap, t: Option<TraitSignature>, k: nat)
    requires forall j :: 0 <= j < |packages| ==> UniqueKeys(packages[j].1.file.implementations)
    requires k < |packages| && HasKey(packages[k].1.file.implementations, ImplSignature(t, original))
    requires forall j :: k < j < |packages| ==> !HasKey(packages[j].1.file.implementations, ImplSignature(t, original))
    ensures Get(CopyImplementations(packages, original, m, solved, target), ImplSignature(t, solved)) ==
      Some(InstantiateImplementation(m, Get(packages[k].1.file.implementations, ImplSignature(t, original)).value))
  {
    var target' := CopyFrom(packages[0].1.file.implementations, original, m, solved, target);
    assert forall j :: 1 <= j < |packages| ==> packages[1..][j - 1] == packages[j];
    if k == 0 {
      CopyFromKey(packages[0].1.file.implementations, original, m, solved, target, t);
      CopyImplementationsNoneKeeps(packages[1..], original, m, solved, target', t);
    } else {
      CopyImplementationsLastWins(packages[1..], original, m, solved, target', t, k - 1);
    }
  }

  /** When no package holds `(t, original)`, the solved key of `t` keeps what `target` held. */
  lemma {:induction false} CopyImplementationsNoneKeeps(packages: Packages, original: TypeSignature, m: OMap<string, string>,
                                                        solved: TypeSignature, target: ImplMap, t: Option<TraitSignature>)
    requires forall j :: 0 <= j < |packages| ==> UniqueKeys(packages[j].1.file.implementations)
    requires forall j :: 0 <= j < |packages| ==> !HasKey(packages[j].1.file.implementations, ImplSignature(t, original))
    ensures Get(CopyImplementations(packages, original, m, solved, target), ImplSignature(t, solved)) ==
      Get(target, ImplSignature(t, solved))
  {
    if |packages| > 0 {
      var target' := CopyFrom(packages[0].1.file.implementations, original, m, solved, target);
      CopyFromKey(packages[0].1.file.implementations, original, m, solved, target, t);
      assert forall j :: 1 <= j < |packages| ==> packages[1..][j - 1] == packages[j];
      CopyImplementationsNoneKeeps(packages[1..], original, m, solved, target', t);
    }
  }

  /** Some package of the generic results already holds this instantiated type. */
  predicate AlreadySolved(results: Packages, solved: TypeSignature) {
    exists k :: 0 <= k < |results| && HasKey(results[k].1.file.publicTypes, solved)
  }

  /** The body of the request loop for one requested signature of package `name`:
      skip it when some generic-results package already has its instantiated type;
      otherwise look the generic type up among all types of all packages,
      instantiate it and the implementations of it, and store both in the generic
      results of `name`. */
  function SolveRequest(packages: Packages, results: Packages, name: string, request: TypeSignature): (r: Result<Packages>)
    ensures AlreadySolved(results, SolvedSignature(request)) ==> r == Ok(results)
    ensures r.Ok? ==> Get(r.value, name).Some? || AlreadySolved(results, SolvedSignature(request))
    ensures r.Ok? && !AlreadySolved(results, SolvedSignature(request)) ==>
      HasKey(Get(r.value, name).value.file.publicTypes, SolvedSignature(request))
    ensures r.Ok? ==> forall other :: other != name ==> Get(r.value, other) == Get(results, other)
    ensures r.Ok? && !AlreadySolved(results, SolvedSignature(request)) ==>
      var found := FindTypeByName(request.name, None, None, packages, true);
      && found.Ok?
      && ConvertToSolvedType(found.value.0, found.value.1, request).Ok?
      && ConversionMap(found.value.0, request).Ok?
      && Get(Get(r.value, name).value.file.publicTypes, SolvedSignature(request)) ==
           Some(ConvertToSolvedType(found.value.0, found.value.1, request).value)
      && Get(r.value, name).value.file.implementations ==
           CopyImplementations(packages, found.value.0, ConversionMap(found.value.0, request).value, SolvedSignature(request),
                               Get(results, name).GetOr(EmptyPackage).file.implementations)
  {
    var solved := SolvedSignature(request);
    if exists k :: 0 <= k < |results| && HasKey(results[k].1.file.publicTypes, solved) then Ok(results)
    else
      var target := Get(results, name).GetOr(EmptyPackage);
      var found :- FindTypeByName(request.name, None, None, packages, true);
      var solvedType :- ConvertToSolvedType(found.0, found.1, request);
      var m := ConversionMap(found.0, request).value;
      var impls := CopyImplementations(packages, found.0, m, solved, target.file.implementations);
      var file := target.file.(implementations := impls, publicTypes := Insert(TypeSignatureLt, target.file.publicTypes, solved, solvedType));
      assert HasKey(file.publicTypes, solved);
      Ok(Insert(StringLt, results, name, target.(file := file)))
  }

  /** The request loop over one package's requests, in order. */
  function SolveRequestList(packages: Packages, results: Packages, name: string, requests: seq<TypeSignature>): (r: Result<Packages>)
    ensures r.Ok? ==> forall other :: other != name ==> Get(r.value, other) == Get(results, other)
    decreases |requests|
  {
    if |requests| == 0 then Ok(results)
    else
      var next :- SolveRequest(packages, results, name, requests[0]);
      SolveRequestList(packages, next, name, requests[1..])
  }

  /** The request loop over all packages, in key order. */
  function SolveRequests(packages: Packages, results: Packages, requests: Requests): (r: Result<Packages>)
    decreases |requests|
  {
    if |requests| == 0 then Ok(results)
    else
      var next :- SolveRequestList(packages, results, requests[0].0, requests[0].1);
      SolveRequests(packages, next, requests[1..])
  }

  /** `generic_solver_pass`: the rewritten package map and the new generic results.
      The package map changes only in its private procedures' bodies. */
  function Run(packages: Packages, results: Packages): (r: Result<(Packages, Packages)>)
    ensures r.Ok? ==> Keys(r.value.0) == Keys(packages)
    ensures r.Ok? ==> forall k :: 0 <= k < |packages| ==>
      r.value.0[k].1 == packages[k].1.(file := packages[k].1.file.(procedures := r.value.0[k].1.file.procedures))
  {
    var (rewritten, requests) := CollectRequests(packages, []);
    var solved :- SolveRequests(rewritten, results, requests);
    Ok((rewritten, solved))
  }

  /** A repeated request adds nothing: once a request is solved, solving it again
      returns the generic results unchanged. */
  lemma RepeatedRequestIsSkipped(packages: Packages, results: Packages, name: string, request: TypeSignature)
    requires SolveRequest(packages, results, name, request).Ok?
    ensures var once := SolveRequest(packages, results, name, request).value;
      SolveRequest(packages, once, name, request) == Ok(once)
  {
    var once := SolveRequest(packages, results, name, request).value;
    var solved := SolvedSignature(request);
    if !AlreadySolved(results, solved) {
      var k := IndexOfKey(once, name);
      assert HasKey(once[k].1.file.publicTypes, solved);
    }
  }

  // ----- every request ends up solved -----

  /** Some package's request list holds `q`. */
  ghost predicate Asked(requests: Requests, q: TypeSignature) {
    exists n :: Get(requests, n).Some? && q in Get(requests, n).value
  }

  lemma {:induction false} SolveProceduresAsks(ps: seq<Procedure>, j: nat)
    requires j < |ps|
    ensures forall q :: q in SolveExpression(ps[j].body).0 ==> q in SolveProcedures(ps).0
  {
    if j > 0 {
      SolveProceduresAsks(ps[1..], j - 1);
      assert ps[1..][j - 1] == ps[j];
    }
  }

  lemma {:induction false} AddPerProcedureGrows(requests: Requests, name: string, ps: seq<Procedure>, q: TypeSignature)
    requires |ps| > 0 && Asked(requests, q)
    ensures Asked(AddPerProcedure(requests, name, ps), q)
  {
    var n :| Get(requests, n).Some? && q in Get(requests, n).value;
    var r := AddPerProcedure(requests, name, ps);
    if n != name {
      AddPerProcedureKeepsOthers(requests, name, ps, n);
      assert Get(r, n).Some? && q in Get(r, n).value;
    } else {
      assert Get(r, name).Some? && q in Get(r, name).value;
    }
  }

  lemma {:induction false} AddPerProcedureKeepsOthers(requests: Requests, name: string, ps: seq<Procedure>, other: string)
    requires |ps| > 0 && other != name
    ensures Get(AddPerProcedure(requests, name, ps), other) == Get(requests, other)
    decreases |ps|
  {
    var first := AddRequests(requests, name, SolveExpression(ps[0].body).0);
    assert Get(first, other) == Get(requests, other) by {
      match Get(requests, name)
      case Some(known) =>
      case None =>
    }
    if |ps| > 1 {
      AddPerProcedureKeepsOthers(first, name, ps[1..], other);
    }
  }

  /** Collecting keeps what was asked before and records everything each procedure of
      each package asks for. */
  lemma {:induction false} CollectAsksEverything(packages: Packages, requests: Requests)
    ensures forall q :: Asked(requests, q) ==> Asked(CollectRequests(packages, requests).1, q)
    ensures forall k, j, q ::
      (0 <= k < |packages| && 0 <= j < |packages[k].1.file.procedures| && q in SolveExpression(packages[k].1.file.procedures[j].body).0) ==>
        Asked(CollectRequests(packages, requests).1, q)
    decreases |packages|
  {
    if |packages| > 0 {
      var (name, package) := packages[0];
      var ps := package.file.procedures;
      var requests' := if |ps| == 0 then requests else AddPerProcedure(requests, name, ps);
      assert CollectRequests(packages, requests).1 == CollectRequests(packages[1..], requests').1;
      CollectAsksEverything(packages[1..], requests');
      forall q | Asked(requests, q) ensures Asked(requests', q) {
        if |ps| > 0 {
          AddPerProcedureGrows(requests, name, ps, q);
        }
      }
      forall j, q | 0 <= j < |ps| && q in SolveExpression(ps[j].body).0 ensures Asked(requests', q) {
        SolveProceduresAsks(ps, j);
        assert Get(requests', name).Some? && q in Get(requests', name).value;
      }
      forall k, j, q | 0 < k < |packages| && 0 <= j < |packages[k].1.file.procedures|
        && q in SolveExpression(packages[k].1.file.procedures[j].body).0
        ensures Asked(CollectRequests(packages, requests).1, q)
      {
        assert packages[1..][k - 1] == packages[k];
      }
    }
  }

  /** A solved instantiation stays solved, and the generic results keep one entry per
      package name. */
  lemma SolveRequestKeepsSolved(packages: Packages, results: Packages, name: string, request: TypeSignature, s: TypeSignature)
    requires Sorted(StringLt, results)
    requires SolveRequest(packages, results, name, request).Ok?
    ensures Sorted(StringLt, SolveRequest(packages, results, name, request).value)
    ensures AlreadySolved(results, s) ==> AlreadySolved(SolveRequest(packages, results, name, request).value, s)
    ensures AlreadySolved(SolveRequest(packages, results, name, request).value, SolvedSignature(request))
  {
    var r := SolveRequest(packages, results, name, request).value;
    var solved := SolvedSignature(request);
    StringLtIsStrictTotal();
    SortedHasUniqueKeys(StringLt, results);
    if !AlreadySolved(results, solved) {
      var target := Get(results, name).GetOr(EmptyPackage);
      var found := FindTypeByName(request.name, None, None, packages, true).value;
      var solvedType := ConvertToSolvedType(found.0, found.1, request).value;
      var m := ConversionMap(found.0, request).value;
      var impls := CopyImplementations(packages, found.0, m, solved, target.file.implementations);
      var file := target.file.(implementations := impls, publicTypes := Insert(TypeSignatureLt, target.file.publicTypes, solved, solvedType));
      assert r == Insert(StringLt, results, name, target.(file := file));
      InsertKeepsSorted(StringLt, results, name, target.(file := file));
      var kn := IndexOfKey(r, name);
      assert HasKey(r[kn].1.file.publicTypes, solved);
      if AlreadySolved(results, s) {
        var k :| 0 <= k < |results| && HasKey(results[k].1.file.publicTypes, s);
        GetAtIndex(results, k);
        if results[k].0 == name {
          assert target == results[k].1;
          assert Get(file.publicTypes, s).Some?;
          assert HasKey(r[kn].1.file.publicTypes, s);
        } else {
          var kk := IndexOfKey(r, results[k].0);
          assert r[kk].1 == results[k].1;
        }
      }
    }
  }

  lemma {:induction false} SolveRequestListSolves(packages: Packages, results: Packages, name: string, requests: seq<TypeSignature>)
    requires Sorted(StringLt, results)
    requires SolveRequestList(packages, results, name, requests).Ok?
    ensures Sorted(StringLt, SolveRequestList(packages, results, name, requests).value)
    ensures forall s :: AlreadySolved(results, s) ==> AlreadySolved(SolveRequestList(packages, results, name, requests).value, s)
    ensures forall q :: q in requests ==> AlreadySolved(SolveRequestList(packages, results, name, requests).value, SolvedSignature(q))
    decreases |requests|
  {
    if |requests| > 0 {
      var next := SolveRequest(packages, results, name, requests[0]).value;
      forall s | AlreadySolved(results, s) ensures AlreadySolved(next, s) {
        SolveRequestKeepsSolved(packages, results, name, requests[0], s);
      }
      SolveRequestKeepsSolved(packages, results, name, requests[0], SolvedSignature(requests[0]));
      SolveRequestListSolves(packages, next, name, requests[1..]);
      forall q | q in requests
        ensures AlreadySolved(SolveRequestList(packages, results, name, requests).value, SolvedSignature(q))
      {
        if q != requests[0] {
          assert q in requests[1..];
        }
      }
    }
  }

  lemma {:induction false} SolveRequestsSolves(packages: Packages, results: Packages, requests: Requests)
    requires Sorted(StringLt, results)
    requires SolveRequests(packages, results, requests).Ok?
    ensures forall i, q :: 0 <= i < |requests| && q in requests[i].1 ==> AlreadySolved(SolveRequests(packages, results, requests).value, SolvedSignature(q))
    decreases |requests|
  {
    if |requests| > 0 {
      var next := SolveRequestList(packages, results, requests[0].0, requests[0].1).value;
      SolveRequestListSolves(packages, results, requests[0].0, requests[0].1);
      SolveRequestsSolves(packages, next, requests[1..]);
      var final := SolveRequests(packages, results, requests).value;
      assert final == SolveRequests(packages, next, requests[1..]).value;
      forall i, q | 0 <= i < |requests| && q in requests[i].1 ensures AlreadySolved(final, SolvedSignature(q)) {
        if i == 0 {
          SolveRequestsKeepsSolved(packages, next, requests[1..], SolvedSignature(q));
        } else {
          assert requests[1..][i - 1] == requests[i];
        }
      }
    }
  }

  lemma {:induction false} SolveRequestsKeepsSolved(packages: Packages, results: Packages, requests: Requests, s: TypeSignature)
    requires Sorted(StringLt, results)
    requires SolveRequests(packages, results, requests).Ok?
    requires AlreadySolved(results, s)
    ensures AlreadySolved(SolveRequests(packages, results, requests).value, s)
    decreases |requests|
  {
    if |requests| > 0 {
      var next := SolveRequestList(packages, results, requests[0].0, requests[0].1).value;
      SolveRequestListSolves(packages, results, requests[0].0, requests[0].1);
      SolveRequestsKeepsSolved(packages, next, requests[1..], s);
    }
  }

  /** Every instantiation that a private procedure of any package writes ends up as a
      public type of some package of the generic results, provided those hold one
      entry per name (as a `BTreeMap` does). */
  lemma RunSolvesEveryRequest(packages: Packages, results: Packages)
    requires Sorted(StringLt, results)
    requires Run(packages, results).Ok?
    ensures forall k, j, q ::
      (0 <= k < |packages| && 0 <= j < |packages[k].1.file.procedures| && q in SolveExpression(packages[k].1.file.procedures[j].body).0) ==>
        AlreadySolved(Run(packages, results).value.1, SolvedSignature(q))
  {
    var (rewritten, requests) := CollectRequests(packages, []);
    CollectAsksEverything(packages, []);
    SolveRequestsSolves(rewritten, results, requests);
    forall k, j, q | 0 <= k < |packages| && 0 <= j < |packages[k].1.file.procedures|
      && q in SolveExpression(packages[k].1.file.procedures[j].body).0
      ensures AlreadySolved(Run(packages, results).value.1, SolvedSignature(q))
    {
      assert Asked(requests, q);
      var n :| Get(requests, n).Some? && q in Get(requests, n).value;
      var i :| 0 <= i < |requests| && requests[i] == (n, Get(requests, n).value);
    }
  }

  /** The position of a key that the map has. */
  function IndexOfKey<V>(m: OMap<string, V>, name: string): (k: nat)
    requires Get(m, name).Some?
    ensures k < |m| && m[k] == (name, Get(m, name).value)
  {
    if m[0].0 == name then 0 else 1 + IndexOfKey(m[1..], name)
  }
}

=== FILE: implicit_pass.dfy ===
/** The implicit-trait pass (`crates/rosarioparser/src/all_passes/implicit_trait_pass.rs`).

    Every public type whose content is a range, directly or through a chain of
    aliases, gets the functions `Min` and `Max` of the trait `Range` appended to
    its implementation of that trait in the same package. Lookups (alias
    resolution and the trait) read a snapshot of the packages taken before the
    pass; since the pass writes only implementations, the snapshot and the live
    packages agree on everything that is looked up.
 */
module ImplicitPass {
  import opened Outcome
  import opened Order
  import opened OrdMap
  import opened Ast

  const AtFindOriginal: string := "find_original_rosario_type_by_signature"
  const AtImplicitPass: string := "implicit_trait_pass"
  const AtFindTrait: string := "find_trait_by_name"

  // ----- alias resolution -----

  /** The first definition of `sig` when packages are scanned in key order and, within
      a package, private types before public ones. */
  function FirstDefinition(packages: Packages, sig: TypeSignature): (r: Option<RosarioType>) {
    if |packages| == 0 then None
    else
      var file := packages[0].1.file;
      if HasKey(file.types, sig) then Get(file.types, sig)
      else if HasKey(file.publicTypes, sig) then Get(file.publicTypes, sig)
      else FirstDefinition(packages[1..], sig)
  }

  /** A signature has no definition exactly when no package defines it. */
  lemma {:induction false} FirstDefinitionNone(packages: Packages, sig: TypeSignature)
    ensures FirstDefinition(packages, sig).None? <==> forall k :: 0 <= k < |packages| ==>
      !HasKey(packages[k].1.file.types, sig) && !HasKey(packages[k].1.file.publicTypes, sig)
  {
    if |packages| > 0 {
      FirstDefinitionNone(packages[1..], sig);
      assert forall k :: 1 <= k < |packages| ==> packages[1..][k - 1] == packages[k];
    }
  }

  /** The definition found is the one of the first package that defines `sig`, and
      that package's private definition wins over its public one. */
  lemma {:induction false} FirstDefinitionIsFirst(packages: Packages, sig: TypeSignature, k: nat)
    requires k < |packages|
    requires HasKey(packages[k].1.file.types, sig) || HasKey(packages[k].1.file.publicTypes, sig)
    requires forall j :: 0 <= j < k ==> !HasKey(packages[j].1.file.types, sig) && !HasKey(packages[j].1.file.publicTypes, sig)
    ensures var file := packages[k].1.file;
      FirstDefinition(packages, sig) == if HasKey(file.types, sig) then Get(file.types, sig) else Get(file.publicTypes, sig)
  {
    if k > 0 {
      forall j | 0 <= j < k - 1
        ensures !HasKey(packages[1..][j].1.file.types, sig) && !HasKey(packages[1..][j].1.file.publicTypes, sig)
      {
        assert packages[1..][j] == packages[j + 1];
      }
      FirstDefinitionIsFirst(packages[1..], sig, k - 1);
    }
  }

  /** How many type definitions there are in all: an alias chain that hops more often
      than this has visited some signature twice. */
  function TypeEntries(packages: Packages): nat {
    if |packages| == 0 then 0
    else |packages[0].1.file.types| + |packages[0].1.file.publicTypes| + TypeEntries(packages[1..])
  }

  /** `find_original_rosario_type_by_signature`: follow aliases until a type that is
      not an alias. An undefined signature is not implemented; a chain that hops more
      than `fuel` times is one that recurses forever. */
  function Resolve(packages: Packages, sig: TypeSignature, fuel: nat): (r: Result<RosarioType>)
    ensures r.Ok? ==> !r.value.content.TypeRef?
    ensures FirstDefinition(packages, sig).None? ==> r == Fail(Failure(Unimplemented, AtFindOriginal))
    decreases fuel
  {
    match FirstDefinition(packages, sig)
    case None => Fail(Failure(Unimplemented, AtFindOriginal))
    case Some(ty) =>
      if !ty.content.TypeRef? then Ok(ty)
      else if fuel == 0 then Fail(Failure(Diverges, AtFindOriginal))
      else Resolve(packages, ty.content.target, fuel - 1)
  }

  /** More fuel never changes a resolution that already ended. */
  lemma {:induction false} ResolveFuelIsEnough(packages: Packages, sig: TypeSignature, fuel: nat, more: nat)
    requires Resolve(packages, sig, fuel).Ok? || Resolve(packages, sig, fuel).failure.kind != Diverges
    requires fuel <= more
    ensures Resolve(packages, sig, more) == Resolve(packages, sig, fuel)
    decreases fuel
  {
    var d := FirstDefinition(packages, sig);
    if d.Some? && d.value.content.TypeRef? && fuel > 0 {
      ResolveFuelIsEnough(packages, d.value.content.target, fuel - 1, more - 1);
    }
  }

  /** Resolution reads only the type definitions. */
  lemma {:induction false} ResolveReadsTypes(p: Packages, q: Packages, sig: TypeSignature, fuel: nat)
    requires SameTypes(p, q)
    ensures Resolve(p, sig, fuel) == Resolve(q, sig, fuel)
    ensures TypeEntries(p) == TypeEntries(q)
    decreases fuel
  {
    SameTypesSameDefinition(p, q, sig);
    SameTypesSameEntries(p, q);
    var d := FirstDefinition(p, sig);
    if d.Some? && d.value.content.TypeRef? && fuel > 0 {
      ResolveReadsTypes(p, q, d.value.content.target, fuel - 1);
    }
  }

  /** Two package maps with the same type definitions, package by package. */
  ghost predicate SameTypes(p: Packages, q: Packages) {
    |p| == |q| && forall k :: 0 <= k < |p| ==>
      p[k].1.file.types == q[k].1.file.types && p[k].1.file.publicTypes == q[k].1.file.publicTypes
  }

  lemma {:induction false} SameTypesSameDefinition(p: Packages, q: Packages, sig: TypeSignature)
    requires SameTypes(p, q)
    ensures FirstDefinition(p, sig) == FirstDefinition(q, sig)
  {
    if |p| > 0 {
      assert p[0].1.file.types == q[0].1.file.types && p[0].1.file.publicTypes == q[0].1.file.publicTypes;
      assert SameTypes(p[1..], q[1..]) by {
        assert forall k :: 0 <= k < |p| - 1 ==> p[1..][k] == p[k + 1] && q[1..][k] == q[k + 1];
      }
      SameTypesSameDefinition(p[1..], q[1..], sig);
    }
  }

  lemma {:induction false} SameTypesSameEntries(p: Packages, q: Packages)
    requires SameTypes(p, q)
    ensures TypeEntries(p) == TypeEntries(q)
  {
    if |p| > 0 {
      assert p[0].1.file.types == q[0].1.file.types && p[0].1.file.publicTypes == q[0].1.file.publicTypes;
      assert SameTypes(p[1..], q[1..]) by {
        assert forall k :: 0 <= k < |p| - 1 ==> p[1..][k] == p[k + 1] && q[1..][k] == q[k + 1];
      }
      SameTypesSameEntries(p[1..], q[1..]);
    }
  }

  // ----- the trait -----

  /** The first public trait key named `name` of one trait map. */
  function TraitNamed(m: TraitMap, name: string): (r: Option<TraitSignature>)
    ensures r.Some? ==> r.value.name == name && exists i :: 0 <= i < |m| && m[i].0 == r.value
    ensures r.None? <==> forall i :: 0 <= i < |m| ==> m[i].0.name != name
    ensures r.Some? ==> exists i :: 0 <= i < |m| && m[i].0 == r.value && forall j :: 0 <= j < i ==> m[j].0.name != name
  {
    if |m| == 0 then None
    else if m[0].0.name == name then Some(m[0].0)
    else
      var r := TraitNamed(m[1..], name);
      assert forall i :: 1 <= i < |m| ==> m[i] == m[1..][i - 1];
      r
  }

  /** `find_trait_by_name`: the first public trait named `name`, packages in key
      order; none is a panic. */
  function FindTraitByName(name: string, packages: Packages): (r: Result<TraitSignature>)
    ensures r.Ok? ==> r.value.name == name
    ensures r.Fail? <==> forall k, i :: 0 <= k < |packages| && 0 <= i < |packages[k].1.file.publicTraits| ==>
      packages[k].1.file.publicTraits[i].0.name != name
    ensures r.Fail? ==> r.failure.kind == Panicked
    ensures r.Ok? ==> exists k :: (0 <= k < |packages| && TraitNamed(packages[k].1.file.publicTraits, name) == Some(r.value) &&
      forall j :: 0 <= j < k ==> TraitNamed(packages[j].1.file.publicTraits, name).None?)
  {
    if |packages| == 0 then Fail(Failure(Panicked, AtFindTrait))
    else
      match TraitNamed(packages[0].1.file.publicTraits, name)
      case Some(t) => Ok(t)
      case None =>
        var rest := FindTraitByName(name, packages[1..]);
        assert forall k :: 1 <= k < |packages| ==> packages[k] == packages[1..][k - 1];
        FoundInTail(name, packages, rest);
        rest
  }

  /** The shift from the tail's package indices to the whole map's, for a first
      package without the trait. */
  lemma FoundInTail(name: string, packages: Packages, rest: Result<TraitSignature>)
    requires |packages| > 0 && TraitNamed(packages[0].1.file.publicTraits, name).None?
    requires rest.Ok? ==> exists k :: (0 <= k < |packages| - 1 && TraitNamed(packages[1..][k].1.file.publicTraits, name) == Some(rest.value) &&
      forall j :: 0 <= j < k ==> TraitNamed(packages[1..][j].1.file.publicTraits, name).None?)
    ensures rest.Ok? ==> exists k :: (0 <= k < |packages| && TraitNamed(packages[k].1.file.publicTraits, name) == Some(rest.value) &&
      forall j :: 0 <= j < k ==> TraitNamed(packages[j].1.file.publicTraits, name).None?)
  {
    if rest.Ok? {
      var k :| 0 <= k < |packages| - 1 && TraitNamed(packages[1..][k].1.file.publicTraits, name) == Some(rest.value) &&
        (forall j :: 0 <= j < k ==> TraitNamed(packages[1..][j].1.file.publicTraits, name).None?);
      assert packages[k + 1] == packages[1..][k];
      forall j | 0 <= j < k + 1 ensures TraitNamed(packages[j].1.file.publicTraits, name).None? {
        if j > 0 {
          assert packages[j] == packages[1..][j - 1];
        }
      }
    }
  }

  lemma {:induction false} SameTraitsSameTrait(p: Packages, q: Packages, name: string)
    requires |p| == |q| && forall k :: 0 <= k < |p| ==> p[k].1.file.publicTraits == q[k].1.file.publicTraits
    ensures FindTraitByName(name, p) == FindTraitByName(name, q)
  {
    if |p| > 0 {
      assert p[0].1.file.publicTraits == q[0].1.file.publicTraits;
      forall k | 0 <= k < |p| - 1 ensures p[1..][k].1.file.publicTraits == q[1..][k].1.file.publicTraits {
        assert p[1..][k] == p[k + 1] && q[1..][k] == q[k + 1];
      }
      SameTraitsSameTrait(p[1..], q[1..], name);
    }
  }

  // ----- synthesis -----

  /** `Min` and `Max` of a range-backed type: no arguments, the type's own signature as
      immutable return type, the range's bounds as bodies. */
  function MinMax(sig: TypeSignature, range: Range): (fs: seq<Function>)
    ensures |fs| == 2
    ensures fs[0].signature.name == "Min" && fs[1].signature.name == "Max"
    ensures fs[0].body == range.left && fs[1].body == range.right
    ensures forall i :: 0 <= i < 2 ==> fs[i].signature.arguments == [] && fs[i].signature.returnType == ReturnsType(NotMutable, sig)
  {
    [Function(Signature("Min", [], ReturnsType(NotMutable, sig)), range.left),
     Function(Signature("Max", [], ReturnsType(NotMutable, sig)), range.right)]
  }

  /** The range behind a public type: its own, the one its alias chain ends in, or none
      for the other kinds of type. An alias to anything but a range is not implemented. */
  function RangeBehind(snapshot: Packages, ty: RosarioType): (r: Result<Option<Range>>)
    ensures ty.content.RangeContent? ==> r == Ok(Some(ty.content.range))
    ensures !ty.content.RangeContent? && !ty.content.TypeRef? ==> r == Ok(None)
    ensures ty.content.TypeRef? && r.Ok? ==> r.value.Some?
    ensures ty.content.TypeRef? ==>
      var resolved := Resolve(snapshot, ty.content.target, TypeEntries(snapshot));
      && (r.Ok? <==> resolved.Ok? && resolved.value.content.RangeContent?)
      && (r.Ok? ==> r.value == Some(resolved.value.content.range))
      && (resolved.Ok? && !resolved.value.content.RangeContent? ==> r.Fail? && r.failure.kind == Unimplemented)
  {
    if ty.content.RangeContent? then Ok(Some(ty.content.range))
    else if ty.content.TypeRef? then
      var original :- Resolve(snapshot, ty.content.target, TypeEntries(snapshot));
      if original.content.RangeContent? then Ok(Some(original.content.range))
      else Fail(Failure(Unimplemented, AtImplicitPass))
    else Ok(None)
  }

  /** `entry(key).or_insert(default)` followed by two pushes onto its public functions. */
  function AppendTo(impls: ImplMap, key: ImplSignature, fs: seq<Function>): (r: ImplMap)
    ensures Get(r, key) == Some(Get(impls, key).GetOr(EmptyImplementation).(publicFunctions := Get(impls, key).GetOr(EmptyImplementation).publicFunctions + fs))
    ensures forall other :: other != key ==> Get(r, other) == Get(impls, other)
  {
    var existing := Get(impls, key).GetOr(EmptyImplementation);
    Insert(ImplSignatureLt, impls, key, existing.(publicFunctions := existing.publicFunctions + fs))
  }

  /** The `Range` implementation key of a type. */
  function RangeKey(rangeTrait: TraitSignature, sig: TypeSignature): ImplSignature {
    ImplSignature(Some(rangeTrait), sig)
  }

  /** `impls` after the loop body for one public type `(sig, ty)`. */
  function Step(snapshot: Packages, impls: ImplMap, sig: TypeSignature, ty: RosarioType): (r: Result<ImplMap>)
    ensures r.Ok? ==> forall key: ImplSignature :: key.implFor != sig ==> Get(r.value, key) == Get(impls, key)
    ensures r.Ok? ==> forall key: ImplSignature :: Get(r.value, key) != Get(impls, key) ==>
      FindTraitByName("Range", snapshot).Ok? && key.implOf == Some(FindTraitByName("Range", snapshot).value)
  {
    var range :- RangeBehind(snapshot, ty);
    if range.None? then Ok(impls)
    else
      var rangeTrait :- FindTraitByName("Range", snapshot);
      Ok(AppendTo(impls, RangeKey(rangeTrait, sig), MinMax(sig, range.value)))
  }

  /** What the loop body promises for `(sig, ty)`, read between the implementations
      `before` and `after`. */
  ghost predicate AppendedPair(snapshot: Packages, before: ImplMap, after: ImplMap, sig: TypeSignature, ty: RosarioType) {
    RangeBehind(snapshot, ty).Ok? &&
    (RangeBehind(snapshot, ty).value.Some? ==>
      FindTraitByName("Range", snapshot).Ok? &&
      var key := RangeKey(FindTraitByName("Range", snapshot).value, sig);
      var existing := Get(before, key).GetOr(EmptyImplementation);
      Get(after, key) == Some(existing.(publicFunctions := existing.publicFunctions + MinMax(sig, RangeBehind(snapshot, ty).value.value))))
  }

  lemma StepAppendsPair(snapshot: Packages, impls: ImplMap, sig: TypeSignature, ty: RosarioType)
    requires Step(snapshot, impls, sig, ty).Ok?
    ensures AppendedPair(snapshot, impls, Step(snapshot, impls, sig, ty).value, sig, ty)
  {
  }

  /** The loop over one package's public types, in key order. */
  function Synthesize(snapshot: Packages, impls: ImplMap, types: TypeMap): (r: Result<ImplMap>)
    ensures r.Ok? ==> forall key: ImplSignature :: !HasKey(types, key.implFor) ==> Get(r.value, key) == Get(impls, key)
    ensures r.Ok? ==> forall key: ImplSignature :: Get(r.value, key) != Get(impls, key) ==>
      FindTraitByName("Range", snapshot).Ok? && key.implOf == Some(FindTraitByName("Range", snapshot).value)
    decreases |types|
  {
    if |types| == 0 then Ok(impls)
    else
      var impls' :- Step(snapshot, impls, types[0].0, types[0].1);
      var r :- Synthesize(snapshot, impls', types[1..]);
      assert forall key: ImplSignature :: !HasKey(types, key.implFor) ==> !HasKey(types[1..], key.implFor) && key.implFor != types[0].0;
      Ok(r)
  }

  /** The implementations of one package after the pass. */
  function PackageImplementations(snapshot: Packages, package: Package): (r: Result<ImplMap>) {
    Synthesize(snapshot, package.file.implementations, package.file.publicTypes)
  }

  function RunOn(snapshot: Packages, packages: Packages): (r: Result<Packages>)
    ensures r.Ok? ==> |r.value| == |packages|
    ensures r.Ok? ==> forall k :: 0 <= k < |packages| ==>
      PackageImplementations(snapshot, packages[k].1).Ok? &&
      r.value[k] == (packages[k].0, packages[k].1.(file := packages[k].1.file.(implementations := PackageImplementations(snapshot, packages[k].1).value)))
  {
    if |packages| == 0 then Ok([])
    else
      var impls :- PackageImplementations(snapshot, packages[0].1);
      var rest :- RunOn(snapshot, packages[1..]);
      assert forall k :: 1 <= k < |packages| ==> packages[k] == packages[1..][k - 1];
      Ok([(packages[0].0, packages[0].1.(file := packages[0].1.file.(implementations := impls)))] + rest)
  }

  /** `implicit_trait_pass`: only implementations change; package names, types, traits
      and procedures stay as they were. */
  function Run(packages: Packages): (r: Result<Packages>)
    ensures r.Ok? ==> |r.value| == |packages| && Keys(r.value) == Keys(packages)
    ensures r.Ok? ==> forall k :: 0 <= k < |packages| ==>
      r.value[k].1 == packages[k].1.(file := packages[k].1.file.(implementations := r.value[k].1.file.implementations))
  {
    RunOn(packages, packages)
  }

  // ----- what the pass promises -----

  /** The loop reaches every public type; for one backed by a range it appends `Min`
      and `Max` to the `Range` implementation keyed by that type's own signature. */
  lemma {:induction false} SynthesizeAppendsPair(snapshot: Packages, impls: ImplMap, types: TypeMap, j: nat)
    requires UniqueKeys(types)
    requires Synthesize(snapshot, impls, types).Ok?
    requires j < |types|
    ensures AppendedPair(snapshot, impls, Synthesize(snapshot, impls, types).value, types[j].0, types[j].1)
    decreases j
  {
    var (sig, ty) := types[0];
    var impls' := Step(snapshot, impls, sig, ty).value;
    var result := Synthesize(snapshot, impls', types[1..]).value;
    assert Synthesize(snapshot, impls, types).value == result;
    StepAppendsPair(snapshot, impls, sig, ty);
    if j == 0 {
      assert forall i :: 0 <= i < |types| - 1 ==> types[1..][i] == types[i + 1];
      assert !HasKey(types[1..], sig);
      assert forall key: ImplSignature :: key.implFor == sig ==> Get(result, key) == Get(impls', key);
    } else {
      assert types[1..][j - 1] == types[j];
      assert UniqueKeys(types[1..]);
      SynthesizeAppendsPair(snapshot, impls', types[1..], j - 1);
      assert types[j].0 != sig;
      assert forall key: ImplSignature :: key.implFor == types[j].0 ==> Get(impls', key) == Get(impls, key);
    }
  }

  /** For a public type backed by a range, the pass leaves the package's `Range`
      implementation for that type holding what it held before followed by `Min` and
      `Max`. */
  lemma RangeTypesGetMinMax(packages: Packages, k: nat, j: nat)
    requires Run(packages).Ok?
    requires k < |packages| && j < |packages[k].1.file.publicTypes|
    requires Sorted(TypeSignatureLt, packages[k].1.file.publicTypes)
    ensures var (sig, ty) := packages[k].1.file.publicTypes[j];
      AppendedPair(packages, packages[k].1.file.implementations, Run(packages).value[k].1.file.implementations, sig, ty)
  {
    TypeSignatureOrderIsTotal();
    SortedHasUniqueKeys(TypeSignatureLt, packages[k].1.file.publicTypes);
    SynthesizeAppendsPair(packages, packages[k].1.file.implementations, packages[k].1.file.publicTypes, j);
  }

  /** The pass writes nothing that its lookups read, so a second run sees the same
      ranges and the same trait. */
  lemma RunKeepsLookups(packages: Packages, ty: RosarioType)
    requires Run(packages).Ok?
    ensures RangeBehind(Run(packages).value, ty) == RangeBehind(packages, ty)
    ensures FindTraitByName("Range", Run(packages).value) == FindTraitByName("Range", packages)
  {
    var once := Run(packages).value;
    assert SameTypes(once, packages);
    SameTraitsSameTrait(once, packages, "Range");
    if ty.content.TypeRef? {
      ResolveReadsTypes(once, packages, ty.content.target, TypeEntries(once));
    }
  }

  /** `entry().or_insert` keeps what is there, so a second run appends a second pair:
      the implementation then holds four synthesized functions, not two. */
  lemma RunTwiceAppendsTwice(packages: Packages, k: nat, j: nat)
    requires Run(packages).Ok? && Run(Run(packages).value).Ok?
    requires k < |packages| && j < |packages[k].1.file.publicTypes|
    requires Sorted(TypeSignatureLt, packages[k].1.file.publicTypes)
    requires RangeBehind(packages, packages[k].1.file.publicTypes[j].1).Ok?
    requires RangeBehind(packages, packages[k].1.file.publicTypes[j].1).value.Some?
    ensures FindTraitByName("Range", packages).Ok?
    ensures var (sig, ty) := packages[k].1.file.publicTypes[j];
      var pair := MinMax(sig, RangeBehind(packages, ty).value.value);
      var key := RangeKey(FindTraitByName("Range", packages).value, sig);
      var before := Get(packages[k].1.file.implementations, key).GetOr(EmptyImplementation);
      Get(Run(Run(packages).value).value[k].1.file.implementations, key)
        == Some(before.(publicFunctions := before.publicFunctions + pair + pair))
  {
    var once := Run(packages).value;
    var (sig, ty) := packages[k].1.file.publicTypes[j];
    assert once[k].1.file.publicTypes == packages[k].1.file.publicTypes;
    RunKeepsLookups(packages, ty);
    RangeTypesGetMinMax(packages, k, j);
    RangeTypesGetMinMax(once, k, j);
    var pair := MinMax(sig, RangeBehind(packages, ty).value.value);
    var key := RangeKey(FindTraitByName("Range", packages).value, sig);
    var before := Get(packages[k].1.file.implementations, key).GetOr(EmptyImplementation).publicFunctions;
    assert before + pair + pair == (before + pair) + pair;
  }

  /** Private types, and public types that are neither ranges nor aliases, get nothing. */
  lemma OnlyRangeBackedTypesChange(packages: Packages, k: nat, key: ImplSignature)
    requires Run(packages).Ok? && k < |packages|
    requires !HasKey(packages[k].1.file.publicTypes, key.implFor)
    ensures Get(Run(packages).value[k].1.file.implementations, key) == Get(packages[k].1.file.implementations, key)
  {
  }
}

=== FILE: lexer.dfy ===
/** The tokenizer (`crates/rosarioparser/src/lexer.rs`) as a function from a byte
    sequence to a token sequence.

    The lexer record carries exactly the state of the source's `Lexer`: the input,
    the tokens emitted so far, a 1-based `position` (the byte last read is
    `input[position - 1]`, and reading past the end yields the byte 0), the column of
    the line last left (`lastLine`) and the current `(line, column)` location. Every
    scanning loop of the source is a function over that record, and each is tied to a
    plain definition over the input bytes (`RunEnd`, `NextQuote`).
 */
module Lexer {
  import opened Outcome

  type Byte = b: int | 0 <= b < 256

  const Tab: Byte := 9
  const NewLine: Byte := 10
  const Space: Byte := 32
  const Quote: Byte := 34
  const Semi: Byte := 59
  const Underscore: Byte := 95

  predicate IsDigit(b: Byte) { 48 <= b <= 57 }

  predicate IsAlpha(b: Byte) { 65 <= b <= 90 || 97 <= b <= 122 }

  predicate IsBlank(b: Byte) { b == Space || b == NewLine || b == Tab }

  /** Bytes that continue a word: ASCII letters, digits and `_`. */
  predicate IsWordByte(b: Byte) { IsAlpha(b) || IsDigit(b) || b == Underscore }

  function AsString(bs: seq<Byte>): (s: string)
    ensures |s| == |bs|
    ensures forall i :: 0 <= i < |bs| ==> s[i] as int == bs[i]
  {
    seq(|bs|, i requires 0 <= i < |bs| => bs[i] as char)
  }

  datatype TokenType =
    | EndOfFile
    | Identifier(name: string)
    | Character(c: char)
    | Number(digits: string, fraction: Option<string>)
    | Procedure | Function | Is | Loop | For | Return | Semicolon | Begin | End
    | If | ElsIf | Else | Then
    | StaticString(text: string)
    | Do | Mutable | Let
    | Add | Sub | Multiply | Divide | Equals | Not | LessThan | MoreThan
    | IsEquals | IsNotEquals | AddEquals | SubEquals | MultiplyEquals | DivideEquals
    | LessThanOrEquals | MoreThanOrEquals
    | Match | Of | Arrow | Type | Range | RangeDots | ToThePowerOf | Dot | Modulo
    | Public | Use | Package | Colon | DoubleColon | Enum | Comment | Implement
    | SelfVariable | Operator | Trait | Clang

  datatype Token = Token(beginLocation: (nat, nat), size: nat, ty: TokenType)

  function Types(toks: seq<Token>): (ts: seq<TokenType>)
    ensures |ts| == |toks|
    ensures forall i :: 0 <= i < |toks| ==> ts[i] == toks[i].ty
  {
    seq(|toks|, i requires 0 <= i < |toks| => toks[i].ty)
  }

  // ----- the two lookup tables -----

  /** `IDENTIFIER_LIST`: the reserved words. */
  function KeywordOf(w: string): (r: Option<TokenType>)
    ensures r.Some? ==> KeywordText(r.value) == Some(w)
  {
    if |w| == 2 then KeywordOfLength2(w)
    else if |w| == 3 then KeywordOfLength3(w)
    else if |w| == 4 then KeywordOfLength4(w)
    else if |w| == 5 then KeywordOfLength5(w)
    else if 6 <= |w| <= 7 then KeywordOfLength6Or7(w)
    else if |w| >= 8 then KeywordOfLong(w)
    else None
  }

  function KeywordOfLength2(w: string): (r: Option<TokenType>)
    ensures r.Some? ==> KeywordText(r.value) == Some(w)
  {
    match w
    case "is" => Some(Is)
    case "if" => Some(If)
    case "do" => Some(Do)
    case "of" => Some(Of)
    case _ => None
  }

  function KeywordOfLength3(w: string): (r: Option<TokenType>)
    ensures r.Some? ==> KeywordText(r.value) == Some(w)
  {
    match w
    case "for" => Some(For)
    case "end" => Some(End)
    case "let" => Some(Let)
    case "mod" => Some(Modulo)
    case "use" => Some(Use)
    case _ => None
  }

  function KeywordOfLength4(w: string): (r: Option<TokenType>)
    ensures r.Some? ==> KeywordText(r.value) == Some(w)
  {
    match w
    case "loop" => Some(Loop)
    case "else" => Some(Else)
    case "then" => Some(Then)
    case "type" => Some(Type)
    case "enum" => Some(Enum)
    case "self" => Some(SelfVariable)
    case _ => None
  }

  function KeywordOfLength5(w: string): (r: Option<TokenType>)
    ensures r.Some? ==> KeywordText(r.value) == Some(w)
  {
    match w
    case "begin" => Some(Begin)
    case "elsif" => Some(ElsIf)
    case "match" => Some(Match)
    case "range" => Some(Range)
    case "trait" => Some(Trait)
    case _ => None
  }

  function KeywordOfLength6Or7(w: string): (r: Option<TokenType>)
    ensures r.Some? ==> KeywordText(r.value) == Some(w)
  {
    match w
    case "return" => Some(Return)
    case "public" => Some(Public)
    case "C_LANG" => Some(Clang)
    case "mutable" => Some(Mutable)
    case "package" => Some(Package)
    case _ => None
  }

  function KeywordOfLong(w: string): (r: Option<TokenType>)
    ensures r.Some? ==> KeywordText(r.value) == Some(w)
  {
    match w
    case "function" => Some(Function)
    case "operator" => Some(Operator)
    case "procedure" => Some(Procedure)
    case "implement" => Some(Implement)
    case _ => None
  }

  /** The spelling of each keyword token: the other direction of `KeywordOf`. */
  function KeywordText(t: TokenType): Option<string> {
    match t
    case Procedure => Some("procedure")
    case Function => Some("function")
    case Is => Some("is")
    case Loop => Some("loop")
    case For => Some("for")
    case Return => Some("return")
    case Begin => Some("begin")
    case End => Some("end")
    case If => Some("if")
    case ElsIf => Some("elsif")
    case Else => Some("else")
    case Then => Some("then")
    case Do => Some("do")
    case Mutable => Some("mutable")
    case Let => Some("let")
    case Match => Some("match")
    case Of => Some("of")
    case Type => Some("type")
    case Range => Some("range")
    case Modulo => Some("mod")
    case Public => Some("public")
    case Use => Some("use")
    case Package => Some("package")
    case Enum => Some("enum")
    case Implement => Some("implement")
    case SelfVariable => Some("self")
    case Operator => Some("operator")
    case Trait => Some("trait")
    case Clang => Some("C_LANG")
    case _ => None
  }

  /** `SYMBOL_LIST`: one- and two-byte operator spellings. */
  function SymbolOf(s: string): (r: Option<TokenType>)
    ensures r.Some? ==> SymbolText(r.value) == Some(s)
  {
    if |s| == 1 then SymbolOfLength1(s)
    else if |s| == 2 && s[1] == '=' then SymbolOfEndingInEquals(s)
    else if |s| == 2 then SymbolOfOtherPair(s)
    else None
  }

  function SymbolOfLength1(s: string): (r: Option<TokenType>)
    ensures r.Some? ==> SymbolText(r.value) == Some(s)
  {
    match s
    case "=" => Some(Equals)
    case "+" => Some(Add)
    case "-" => Some(Sub)
    case "*" => Some(Multiply)
    case "/" => Some(Divide)
    case "<" => Some(LessThan)
    case ">" => Some(MoreThan)
    case "." => Some(Dot)
    case ":" => Some(Colon)
    case "!" => Some(Not)
    case _ => None
  }

  function SymbolOfEndingInEquals(s: string): (r: Option<TokenType>)
    ensures r.Some? ==> SymbolText(r.value) == Some(s)
  {
    match s
    case "+=" => Some(AddEquals)
    case "-=" => Some(SubEquals)
    case "*=" => Some(MultiplyEquals)
    case "/=" => Some(DivideEquals)
    case "<=" => Some(LessThanOrEquals)
    case ">=" => Some(MoreThanOrEquals)
    case "==" => Some(IsEquals)
    case "!=" => Some(IsNotEquals)
    case _ => None
  }

  function SymbolOfOtherPair(s: string): (r: Option<TokenType>)
    ensures r.Some? ==> SymbolText(r.value) == Some(s)
  {
    match s
    case "=>" => Some(Arrow)
    case ".." => Some(RangeDots)
    case "**" => Some(ToThePowerOf)
    case "::" => Some(DoubleColon)
    case "--" => Some(Comment)
    case _ => None
  }

  function SymbolText(t: TokenType): Option<string> {
    match t
    case Equals => Some("=")
    case Add => Some("+")
    case Sub => Some("-")
    case Multiply => Some("*")
    case Divide => Some("/")
    case LessThan => Some("<")
    case MoreThan => Some(">")
    case Dot => Some(".")
    case Colon => Some(":")
    case Not => Some("!")
    case AddEquals => Some("+=")
    case SubEquals => Some("-=")
    case MultiplyEquals => Some("*=")
    case DivideEquals => Some("/=")
    case LessThanOrEquals => Some("<=")
    case MoreThanOrEquals => Some(">=")
    case IsEquals => Some("==")
    case IsNotEquals => Some("!=")
    case Arrow => Some("=>")
    case RangeDots => Some("..")
    case ToThePowerOf => Some("**")
    case DoubleColon => Some("::")
    case Comment => Some("--")
    case _ => None
  }

  /** The keyword table is a bijection between the reserved words and the keyword tokens. */
  lemma KeywordTableInverse(w: string, t: TokenType)
    ensures KeywordOf(w) == Some(t) <==> KeywordText(t) == Some(w)
  {
    if KeywordText(t) == Some(w) {
      assert KeywordOf(KeywordText(t).value) == Some(t);
    }
  }

  /** The symbol table is a bijection between the operator spellings and the operator tokens. */
  lemma SymbolTableInverse(s: string, t: TokenType)
    ensures SymbolOf(s) == Some(t) <==> SymbolText(t) == Some(s)
  {
    if SymbolText(t) == Some(s) {
      assert SymbolOf(SymbolText(t).value) == Some(t);
    }
  }

  /** The token a scanned word becomes. */
  function WordToken(w: string): (t: TokenType)
    ensures KeywordOf(w).Some? ==> t == KeywordOf(w).value && KeywordText(t) == Some(w)
    ensures KeywordOf(w).None? ==> t == Identifier(w)
  {
    KeywordTableInverse(w, KeywordOf(w).GetOr(EndOfFile));
    KeywordOf(w).GetOr(Identifier(w))
  }

  // ----- cursor movement -----

  /** The cursor state of the source's `Lexer`. The emitted tokens are returned by each
      scanner instead of being appended to a field: during scanning the source only ever
      appends to its `contents`. */
  datatype Lexer = Lexer(input: seq<Byte>, position: nat, lastLine: nat, location: (nat, nat))

  /** `current_char`: the byte at the 1-based position, or 0 past the end. */
  function CurrentChar(input: seq<Byte>, position: nat): (b: Byte)
    requires position >= 1
    ensures position <= |input| ==> b == input[position - 1]
    ensures position > |input| ==> b == 0
  {
    if position - 1 >= |input| then 0 else input[position - 1]
  }

  function Current(lx: Lexer): Byte
    requires lx.position >= 1
  {
    CurrentChar(lx.input, lx.position)
  }

  /** `advance`: one byte forward; a newline moves to column 0 of the next line. */
  function Advance(lx: Lexer): (r: Lexer)
    ensures r.input == lx.input && r.position == lx.position + 1
    ensures Current(r) == NewLine ==> r.location == (lx.location.0 + 1, 0) && r.lastLine == lx.location.1 + 1
    ensures Current(r) != NewLine ==> r.location == (lx.location.0, lx.location.1 + 1) && r.lastLine == lx.lastLine
  {
    var column := lx.location.1 + 1;
    if CurrentChar(lx.input, lx.position + 1) == NewLine then
      lx.(position := lx.position + 1, lastLine := column, location := (lx.location.0 + 1, 0))
    else
      lx.(position := lx.position + 1, location := (lx.location.0, column))
  }

  /** `go_back`: one byte back; from column 0 it returns to the end of the previous line,
      and from (0, 0) the line subtraction overflows. */
  function GoBack(lx: Lexer): (r: Result<Lexer>)
    requires lx.position >= 2
    ensures r.Fail? <==> lx.location == (0, 0)
    ensures r.Ok? ==> r.value.input == lx.input && r.value.position == lx.position - 1
    ensures r.Ok? && lx.location.1 == 0 ==> r.value.location == (lx.location.0 - 1, lx.lastLine)
  {
    if lx.location.1 > 0 then Ok(lx.(position := lx.position - 1, location := (lx.location.0, lx.location.1 - 1)))
    else if lx.location.0 == 0 then Fail(Failure(Panicked, "Lexer::go_back"))
    else Ok(lx.(position := lx.position - 1, location := (lx.location.0 - 1, lx.lastLine)))
  }

  /** Stepping back right after a step forward restores the position and, unless the
      byte read was a newline, the location. After a newline the column comes back one
      greater than it was, because `lastLine` holds the column after the increment. */
  lemma AdvanceThenGoBack(lx: Lexer)
    requires lx.position >= 1
    ensures GoBack(Advance(lx)).Ok?
    ensures GoBack(Advance(lx)).value.position == lx.position
    ensures Current(Advance(lx)) != NewLine ==> GoBack(Advance(lx)).value.location == lx.location
    ensures Current(Advance(lx)) == NewLine ==> GoBack(Advance(lx)).value.location == (lx.location.0, lx.location.1 + 1)
  {
  }

  // ----- runs of bytes -----

  /** The byte classes the scanning loops run over. None of them contains 0. */
  datatype RunKind = Blanks | Word | Digits | CommentText

  predicate InRun(kind: RunKind, b: Byte) {
    match kind
    case Blanks => IsBlank(b)
    case Word => IsWordByte(b)
    case Digits => IsDigit(b) || b == Underscore
    case CommentText => b != NewLine && b != 0
  }

  /** Reference definition: the first index at or after `i` that ends the run. */
  function RunEnd(input: seq<Byte>, i: nat, kind: RunKind): (e: nat)
    ensures i <= e
    ensures i <= |input| ==> e <= |input|
    ensures e < |input| ==> !InRun(kind, input[e])
    ensures forall j :: i <= j < e ==> j < |input| && InRun(kind, input[j])
    decreases |input| - i
  {
    if i < |input| && InRun(kind, input[i]) then RunEnd(input, i + 1, kind) else i
  }

  /** The source's `while in_run(char) { char = advance() }` loop. */
  function ScanWhile(lx: Lexer, kind: RunKind): (r: Lexer)
    requires lx.position >= 1
    ensures r.input == lx.input
    ensures r.position == RunEnd(lx.input, lx.position - 1, kind) + 1
    ensures lx.location != (0, 0) ==> r.location != (0, 0)
    decreases |lx.input| + 1 - lx.position
  {
    if InRun(kind, Current(lx)) then ScanWhile(Advance(lx), kind) else lx
  }

  /** The first quote at or after index `i`, if any. */
  function NextQuote(input: seq<Byte>, i: nat): (q: Option<nat>)
    ensures q.Some? ==> i <= q.value < |input| && input[q.value] == Quote
    ensures q.Some? ==> forall j :: i <= j < q.value ==> input[j] != Quote
    ensures q.None? ==> forall j :: i <= j < |input| ==> input[j] != Quote
    decreases |input| - i
  {
    if i >= |input| then None
    else if input[i] == Quote then Some(i)
    else NextQuote(input, i + 1)
  }

  /** The string loop: step until a quote. Past the end every read yields 0, so with no
      closing quote the source loops forever. */
  function ScanToQuote(lx: Lexer): (r: Result<Lexer>)
    requires lx.position >= 1
    ensures r.Fail? <==> NextQuote(lx.input, lx.position - 1).None?
    ensures r.Fail? ==> r.failure.kind == Diverges
    ensures r.Ok? ==> r.value.input == lx.input
    ensures r.Ok? ==> r.value.position == NextQuote(lx.input, lx.position - 1).value + 1
    decreases |lx.input| + 1 - lx.position
  {
    if lx.position > |lx.input| then Fail(Failure(Diverges, "Lexer::get_static_string"))
    else if Current(lx) == Quote then Ok(lx)
    else ScanToQuote(Advance(lx))
  }

  /** The digits of a number with every `_` removed. */
  function DropUnderscores(bs: seq<Byte>): (r: seq<Byte>)
    ensures |r| <= |bs|
    ensures forall i :: 0 <= i < |r| ==> r[i] != Underscore
  {
    if |bs| == 0 then []
    else if bs[0] == Underscore then DropUnderscores(bs[1..])
    else [bs[0]] + DropUnderscores(bs[1..])
  }

  /** Dropping underscores keeps every other byte, as often as it occurs. */
  lemma {:induction false} DropUnderscoresFilters(bs: seq<Byte>)
    ensures Underscore !in DropUnderscores(bs)
    ensures multiset(DropUnderscores(bs)) == multiset(bs)[Underscore := 0]
  {
    if |bs| > 0 {
      DropUnderscoresFilters(bs[1..]);
      assert bs == [bs[0]] + bs[1..];
      assert multiset(bs) == multiset([bs[0]]) + multiset(bs[1..]);
    }
  }

  // ----- the token scanners -----

  /** What one scanning step leaves: the moved cursor and the token it emitted, if any. */
  datatype Step = Step(lexer: Lexer, emitted: Option<Token>)

  /** `get_identifier`: the maximal word starting at the current letter. The source then
      steps the position back by one without touching the location. */
  function LexWord(lx: Lexer): (r: Step)
    requires 1 <= lx.position <= |lx.input| && IsAlpha(Current(lx))
    ensures r.lexer.input == lx.input
    ensures
      var e := RunEnd(lx.input, lx.position - 1, Word);
      var w := AsString(lx.input[lx.position - 1..e]);
      && e >= lx.position
      && r.lexer.position == e
      && r.emitted == Some(Token(lx.location, |w|, WordToken(w)))
  {
    var scanned := ScanWhile(lx, Word);
    var word := AsString(lx.input[lx.position - 1..scanned.position - 1]);
    Step(scanned.(position := scanned.position - 1),
         Some(Token(lx.location, scanned.position - lx.position, WordToken(word))))
  }

  /** `get_number`: digits and `_` from the current digit on; `_` is dropped, the loop
      never reaches a `.`, so there is no fractional part. The size counts one byte
      fewer than the run, because it is taken after the final step back. */
  function LexNumber(lx: Lexer): (r: Step)
    requires 1 <= lx.position <= |lx.input| && IsDigit(Current(lx))
    ensures r.lexer.input == lx.input
    ensures
      var e := RunEnd(lx.input, lx.position - 1, Digits);
      var digits := AsString(DropUnderscores(lx.input[lx.position - 1..e]));
      && e >= lx.position
      && r.lexer.position == e
      && r.emitted == Some(Token(lx.location, e - lx.position, Number(digits, None)))
  {
    var stepped := Advance(lx);
    var scanned := ScanWhile(stepped, Digits);
    var e := RunEnd(lx.input, lx.position - 1, Digits);
    assert e == RunEnd(lx.input, lx.position, Digits) && scanned.position == e + 1;
    assert stepped.location != (0, 0) && scanned.location != (0, 0);
    var back := GoBack(scanned);
    var digits := AsString(DropUnderscores(lx.input[lx.position - 1..e]));
    Step(back.value, Some(Token(lx.location, e - lx.position, Number(digits, None))))
  }

  /** `get_static_string`: the raw bytes between the quotes, no escapes. */
  function LexString(lx: Lexer): (r: Result<Step>)
    requires 1 <= lx.position <= |lx.input| && Current(lx) == Quote
    ensures r.Fail? <==> NextQuote(lx.input, lx.position).None?
    ensures r.Fail? ==> r.failure.kind == Diverges
    ensures r.Ok? ==>
      var q := NextQuote(lx.input, lx.position).value;
      && r.value.lexer.input == lx.input
      && r.value.lexer.position == q + 1
      && r.value.emitted == Some(Token(lx.location, q + 1 - lx.position, StaticString(AsString(lx.input[lx.position..q]))))
  {
    var closed :- ScanToQuote(Advance(lx));
    var text := AsString(lx.input[lx.position..closed.position - 1]);
    Ok(Step(closed, Some(Token(lx.location, closed.position - lx.position, StaticString(text)))))
  }

  /** A one-byte operator, then the two-byte lookahead: a listed pair gives the pair's
      token (size 2), `--` skips to the end of the line and emits nothing, and any other
      byte is stepped back over so the single token (size 1) is emitted. A second byte
      that is not ASCII cannot be decoded and aborts. */
  function LexSymbol(lx: Lexer, single: TokenType): (r: Result<Step>)
    requires 1 <= lx.position <= |lx.input|
    requires Current(lx) < 0x80 && SymbolOf(AsString([Current(lx)])) == Some(single)
    ensures
      var next := CurrentChar(lx.input, lx.position + 1);
      var pair := SymbolOf(AsString([Current(lx), next]));
      && (r.Fail? <==> next >= 0x80)
      && (r.Ok? ==> r.value.lexer.input == lx.input)
      && (r.Ok? && pair == Some(Comment) ==>
            r.value.emitted.None? && r.value.lexer.position == RunEnd(lx.input, lx.position, CommentText) + 1)
      && (r.Ok? && pair.Some? && pair != Some(Comment) ==>
            r.value.emitted == Some(Token(Advance(lx).location, 2, pair.value))
            && r.value.lexer.position == lx.position + 1)
      && (r.Ok? && pair.None? ==>
            r.value.emitted.Some? && r.value.emitted.value.size == 1 && r.value.emitted.value.ty == single
            && r.value.lexer.position == lx.position)
  {
    var first := Current(lx);
    var second := Advance(lx);
    var next := Current(second);
    if next >= 0x80 then Fail(Failure(Panicked, "Lexer::get_token"))
    else match SymbolOf(AsString([first, next]))
      case Some(Comment) => Ok(Step(ScanWhile(second, CommentText), None))
      case Some(pair) => Ok(Step(second, Some(Token(second.location, 2, pair))))
      case None =>
        var back := GoBack(second);
        assert back.Ok?;
        Ok(Step(back.value, Some(Token(back.value.location, 1, single))))
  }

  /** A byte that starts no token class of its own and is not an operator. */
  predicate IsStray(c: Byte) {
    && c != 0 && c < 0x80 && c != Quote && c != Semi && !IsDigit(c) && !IsAlpha(c)
    && SymbolOf(AsString([c])).None?
  }

  /** What `get_token` does once the blanks are skipped, by the first byte `c`. */
  function LexAt(lx: Lexer): (r: Result<Step>)
    requires lx.position >= 1
    ensures r.Ok? ==> r.value.lexer.input == lx.input && r.value.lexer.position >= lx.position
    ensures IsAlpha(Current(lx)) ==>
      r.Ok? && r.value.emitted.Some?
      && (r.value.emitted.value.ty.Identifier? || KeywordText(r.value.emitted.value.ty).Some?)
    ensures IsDigit(Current(lx)) ==>
      r.Ok? && r.value.emitted.Some?
      && r.value.emitted.value.ty.Number? && r.value.emitted.value.ty.fraction.None?
    ensures Current(lx) == Quote && r.Ok? ==> r.value.emitted.Some? && r.value.emitted.value.ty.StaticString?
    ensures Current(lx) == Semi ==> r == Ok(Step(lx, Some(Token(lx.location, 1, Semicolon))))
    ensures Current(lx) >= 0x80 ==> r.Fail? && r.failure.kind == Panicked
    ensures IsStray(Current(lx)) ==> r == Ok(Step(lx, Some(Token(lx.location, 1, Character(Current(lx) as char)))))
    ensures r.Ok? && r.value.emitted.Some? && r.value.emitted.value.ty == EndOfFile
            ==> Current(lx) == 0 && r.value.lexer.position == lx.position
    ensures Current(lx) == 0 ==> r == Ok(Step(lx, Some(Token(lx.location, 0, EndOfFile))))
  {
    var c := Current(lx);
    if IsDigit(c) then Ok(LexNumber(lx))
    else if c == Quote then LexString(lx)
    else if IsAlpha(c) then Ok(LexWord(lx))
    else if c == Semi then Ok(Step(lx, Some(Token(lx.location, 1, Semicolon))))
    else if c == 0 then Ok(Step(lx, Some(Token(lx.location, 0, EndOfFile))))
    else if c >= 0x80 then Fail(Failure(Panicked, "Lexer::get_token"))
    else match SymbolOf(AsString([c]))
      case Some(single) => LexSymbol(lx, single)
      case None => Ok(Step(lx, Some(Token(lx.location, 1, Character(c as char)))))
  }

  /** `get_token`: skip spaces, newlines and tabs, then scan one token. */
  function GetToken(lx: Lexer): (r: Result<Step>)
    ensures r.Ok? ==> r.value.lexer.input == lx.input && r.value.lexer.position > lx.position
    ensures r.Ok? && r.value.emitted.Some? && r.value.emitted.value.ty == EndOfFile
            ==> r.value.lexer.position > |lx.input| || 0 in lx.input
  {
    LexAt(ScanWhile(Advance(lx), Blanks))
  }

  /** The main loop of `start`: scan tokens while unread input remains. */
  function Scan(lx: Lexer): (r: Result<(Lexer, seq<Token>)>)
    ensures r.Ok? ==> r.value.0.input == lx.input && r.value.0.position >= |lx.input|
    ensures r.Ok? && 0 !in lx.input ==> EndOfFileOnlyLast(r.value.1)
    decreases |lx.input| - lx.position
  {
    if lx.position < |lx.input| then
      var step :- GetToken(lx);
      var (last, rest) :- Scan(step.lexer);
      match step.emitted
      case Some(t) =>
        assert t.ty == EndOfFile ==> 0 in lx.input || rest == [];
        PrependKeepsEndOfFileLast(t, rest);
        Ok((last, [t] + rest))
      case None => Ok((last, rest))
    else Ok((lx, []))
  }

  /** No token before the last one is `EndOfFile`. */
  predicate EndOfFileOnlyLast(ts: seq<Token>) {
    forall i :: 0 <= i < |ts| - 1 ==> ts[i].ty != EndOfFile
  }

  lemma PrependKeepsEndOfFileLast(t: Token, rest: seq<Token>)
    ensures EndOfFileOnlyLast(rest) && (t.ty == EndOfFile ==> rest == []) ==> EndOfFileOnlyLast([t] + rest)
  {
    if EndOfFileOnlyLast(rest) && (t.ty == EndOfFile ==> rest == []) {
      forall i | 0 <= i < |[t] + rest| - 1
        ensures ([t] + rest)[i].ty != EndOfFile
      {
        if i > 0 {
          assert ([t] + rest)[i] == rest[i - 1];
        }
      }
    }
  }

  lemma AppendKeepsEndOfFileLast(ts: seq<Token>, t: Token)
    requires EndOfFileOnlyLast(ts) && (|ts| > 0 ==> ts[|ts| - 1].ty != EndOfFile)
    ensures EndOfFileOnlyLast(ts + [t])
  {
    forall i | 0 <= i < |ts + [t]| - 1
      ensures (ts + [t])[i].ty != EndOfFile
    {
      assert (ts + [t])[i] == ts[i];
    }
  }

  /** `start`: scan everything, then make sure the last token is `EndOfFile`. Blanks
      at the end are read past the end of the input, where the current byte is 0, so
      they end in an `EndOfFile` token. Empty input, and input of only comments and
      blanks whose last comment runs to the end, leave no token at all, and the
      source's `last().unwrap()` aborts. */
  function Start(input: seq<Byte>): (r: Result<seq<Token>>)
    ensures |input| == 0 ==> r.Fail?
    ensures r.Ok? ==> |r.value| > 0 && r.value[|r.value| - 1].ty == EndOfFile
    ensures r.Ok? && 0 !in input ==> EndOfFileOnlyLast(r.value)
  {
    var (last, contents) :- Scan(Lexer(input, 0, 0, (0, 0)));
    if |contents| == 0 then Fail(Failure(Panicked, "Lexer::start"))
    else if contents[|contents| - 1].ty != EndOfFile then
      var eof := Token(last.location, 0, EndOfFile);
      (if 0 !in input then AppendKeepsEndOfFileLast(contents, eof); Ok(contents + [eof])
       else Ok(contents + [eof]))
    else Ok(contents)
  }

  /** A single blank is one `EndOfFile` token. */
  lemma BlankIsEndOfFile()
    ensures Start([32]).Ok? && |Start([32]).value| == 1 && Start([32]).value[0].ty == EndOfFile
  {
  }
}

=== FILE: order.dfy ===
/** Strict total orders and the lexicographic order that Rust derives for
    `Vec<T>` and `String` (`#[derive(PartialOrd, Ord)]`).

    Every `BTreeMap` of the compiler is iterated in the order of its keys, so the
    key orders are part of the observable behaviour: "the first type with this name"
    means the first one in key order.
 */
module Order {

  ghost predicate Irreflexive<T(!new)>(lt: (T, T) -> bool) {
    forall x :: !lt(x, x)
  }

  ghost predicate Transitive<T(!new)>(lt: (T, T) -> bool) {
    forall x, y, z :: lt(x, y) && lt(y, z) ==> lt(x, z)
  }

  ghost predicate Trichotomous<T(!new)>(lt: (T, T) -> bool) {
    forall x, y :: x == y || lt(x, y) || lt(y, x)
  }

  ghost predicate StrictTotalOrder<T(!new)>(lt: (T, T) -> bool) {
    && Irreflexive(lt)
    && Transitive(lt)
    && Trichotomous(lt)
  }

  /** Lexicographic order: the first differing element decides, and a proper
      prefix sorts before the longer sequence. */
  predicate SeqLt<T(==)>(lt: (T, T) -> bool, a: seq<T>, b: seq<T>)
    decreases |a|
  {
    if |a| == 0 then |b| > 0
    else if |b| == 0 then false
    else if a[0] == b[0] then SeqLt(lt, a[1..], b[1..])
    else lt(a[0], b[0])
  }

  lemma {:induction false} SeqLtIrreflexive<T(!new)>(lt: (T, T) -> bool, a: seq<T>)
    requires Irreflexive(lt)
    ensures !SeqLt(lt, a, a)
    decreases |a|
  {
    if |a| > 0 {
      SeqLtIrreflexive(lt, a[1..]);
    }
  }

  lemma {:induction false} SeqLtTransitive<T(!new)>(lt: (T, T) -> bool, a: seq<T>, b: seq<T>, c: seq<T>)
    requires StrictTotalOrder(lt)
    requires SeqLt(lt, a, b) && SeqLt(lt, b, c)
    ensures SeqLt(lt, a, c)
    decreases |a|
  {
    if |a| > 0 {
      assert |b| > 0 && |c| > 0;
      if a[0] == b[0] && b[0] == c[0] {
        SeqLtTransitive(lt, a[1..], b[1..], c[1..]);
      } else if a[0] != b[0] && b[0] != c[0] {
        assert lt(a[0], c[0]);
      }
    }
  }

  lemma {:induction false} SeqLtTrichotomous<T(!new)>(lt: (T, T) -> bool, a: seq<T>, b: seq<T>)
    requires Trichotomous(lt)
    ensures a == b || SeqLt(lt, a, b) || SeqLt(lt, b, a)
    decreases |a|
  {
    if |a| > 0 && |b| > 0 && a[0] == b[0] {
      SeqLtTrichotomous(lt, a[1..], b[1..]);
      if a[1..] == b[1..] {
        assert a == [a[0]] + a[1..] && b == [b[0]] + b[1..];
      }
    }
  }

  /** The lexicographic extension of a strict total order is a strict total order. */
  lemma SeqLtIsStrictTotal<T(!new)>(lt: (T, T) -> bool)
    requires StrictTotalOrder(lt)
    ensures forall a: seq<T> :: !SeqLt(lt, a, a)
    ensures forall a: seq<T>, b: seq<T>, c: seq<T> :: SeqLt(lt, a, b) && SeqLt(lt, b, c) ==> SeqLt(lt, a, c)
    ensures forall a: seq<T>, b: seq<T> :: a == b || SeqLt(lt, a, b) || SeqLt(lt, b, a)
  {
    forall a: seq<T> ensures !SeqLt(lt, a, a) {
      SeqLtIrreflexive(lt, a);
    }
    forall a: seq<T>, b: seq<T>, c: seq<T> | SeqLt(lt, a, b) && SeqLt(lt, b, c)
      ensures SeqLt(lt, a, c)
    {
      SeqLtTransitive(lt, a, b, c);
    }
    forall a: seq<T>, b: seq<T> ensures a == b || SeqLt(lt, a, b) || SeqLt(lt, b, a) {
      SeqLtTrichotomous(lt, a, b);
    }
  }

  predicate CharLt(x: char, y: char) {
    x < y
  }

  /** Rust's `String` order: byte-wise on UTF-8, which is the order of code points. */
  predicate StringLt(a: string, b: string) {
    SeqLt(CharLt, a, b)
  }

  lemma StringLtIsStrictTotal()
    ensures StrictTotalOrder(StringLt)
  {
    assert StrictTotalOrder(CharLt);
    SeqLtIsStrictTotal(CharLt);
  }

  predicate NatLt(x: nat, y: nat) {
    x < y
  }
}

=== FILE: ordmap.dfy ===
/** `BTreeMap<K, V>` as the sequence of its entries in iteration order.

    A Rust `BTreeMap` is iterated in ascending key order and holds one entry per
    key. The model keeps the entries in a sequence, so "iterate the map" is "walk
    the sequence"; `Insert` places a new key where the order puts it and overwrites
    an existing key in place, which keeps the sequence sorted and duplicate-free
    (`InsertKeepsSorted`).
 */
module OrdMap {
  import opened Outcome
  import opened Order

  type OMap<K, V> = seq<(K, V)>

  function Keys<K, V>(m: OMap<K, V>): (ks: seq<K>)
    ensures |ks| == |m|
    ensures forall i :: 0 <= i < |m| ==> ks[i] == m[i].0
  {
    if |m| == 0 then [] else [m[0].0] + Keys(m[1..])
  }

  predicate HasKey<K(==), V>(m: OMap<K, V>, k: K) {
    exists i :: 0 <= i < |m| && m[i].0 == k
  }

  ghost predicate Sorted<K, V>(lt: (K, K) -> bool, m: OMap<K, V>) {
    forall i, j :: 0 <= i < j < |m| ==> lt(m[i].0, m[j].0)
  }

  ghost predicate UniqueKeys<K, V>(m: OMap<K, V>) {
    forall i, j :: 0 <= i < j < |m| ==> m[i].0 != m[j].0
  }

  /** The value of the first entry with key `k`. */
  function Get<K(==), V>(m: OMap<K, V>, k: K): (r: Option<V>)
    ensures r.Some? <==> HasKey(m, k)
    ensures r.Some? ==> exists i :: 0 <= i < |m| && m[i] == (k, r.value)
  {
    if |m| == 0 then None
    else if m[0].0 == k then Some(m[0].1)
    else
      var r := Get(m[1..], k);
      assert HasKey(m, k) ==> HasKey(m[1..], k) by {
        if HasKey(m, k) {
          var i :| 0 <= i < |m| && m[i].0 == k;
          assert m[1..][i - 1].0 == k;
        }
      }
      r
  }

  /** `BTreeMap::insert`: overwrite the entry of `k`, or add it at its place in the order. */
  function Insert<K(==,!new), V>(lt: (K, K) -> bool, m: OMap<K, V>, k: K, v: V): (r: OMap<K, V>)
    ensures Get(r, k) == Some(v)
    ensures forall k' :: k' != k ==> Get(r, k') == Get(m, k')
    ensures forall p :: p in r ==> p in m || p == (k, v)
  {
    if |m| == 0 then [(k, v)]
    else if m[0].0 == k then [(k, v)] + m[1..]
    else if lt(k, m[0].0) then [(k, v)] + m
    else [m[0]] + Insert(lt, m[1..], k, v)
  }

  lemma HasKeyTail<K, V>(m: OMap<K, V>, k: K)
    requires |m| > 0 && m[0].0 != k
    ensures HasKey(m, k) <==> HasKey(m[1..], k)
  {
    if HasKey(m, k) {
      var i :| 0 <= i < |m| && m[i].0 == k;
      assert m[1..][i - 1].0 == k;
    }
  }

  lemma {:induction false} InsertKeepsSorted<K(!new), V>(lt: (K, K) -> bool, m: OMap<K, V>, k: K, v: V)
    requires StrictTotalOrder(lt)
    requires Sorted(lt, m)
    ensures Sorted(lt, Insert(lt, m, k, v))
  {
    if |m| > 0 && m[0].0 != k && !lt(k, m[0].0) {
      assert lt(m[0].0, k);
      var t := Insert(lt, m[1..], k, v);
      InsertKeepsSorted(lt, m[1..], k, v);
      var r := [m[0]] + t;
      assert r == Insert(lt, m, k, v);
      forall j | 0 < j < |r| ensures lt(r[0].0, r[j].0) {
        assert r[j] in t;
      }
    }
  }

  /** Every key after an insert is the inserted key or was there before. */
  lemma InsertedKeys<K(!new), V>(lt: (K, K) -> bool, m: OMap<K, V>, k: K, v: V)
    ensures forall i :: 0 <= i < |Insert(lt, m, k, v)| ==>
      Insert(lt, m, k, v)[i].0 == k || HasKey(m, Insert(lt, m, k, v)[i].0)
  {
    var r := Insert(lt, m, k, v);
    forall i | 0 <= i < |r| ensures r[i].0 == k || HasKey(m, r[i].0) {
      assert r[i] in r;
    }
  }

  /** `InsertKeepsSorted` for a map that may or may not be sorted. */
  lemma InsertPreservesSorted<K(!new), V>(lt: (K, K) -> bool, m: OMap<K, V>, k: K, v: V)
    requires StrictTotalOrder(lt)
    ensures Sorted(lt, m) ==> Sorted(lt, Insert(lt, m, k, v))
  {
    if Sorted(lt, m) {
      InsertKeepsSorted(lt, m, k, v);
    }
  }

  /** In a sorted map, every key after the first entry's key is greater than it. */
  lemma SortedFirstIsLeast<K(!new), V>(lt: (K, K) -> bool, m: OMap<K, V>, k: K)
    requires Sorted(lt, m)
    requires HasKey(m, k) && m[0].0 != k
    ensures lt(m[0].0, k)
  {
    var i :| 0 <= i < |m| && m[i].0 == k;
    assert i > 0;
  }

  lemma {:induction false} InsertPresentKeepsKeys<K(!new), V>(lt: (K, K) -> bool, m: OMap<K, V>, k: K, v: V)
    requires StrictTotalOrder(lt)
    requires Sorted(lt, m)
    requires HasKey(m, k)
    ensures Keys(Insert(lt, m, k, v)) == Keys(m)
  {
    if m[0].0 != k {
      SortedFirstIsLeast(lt, m, k);
      assert !lt(k, m[0].0);
      HasKeyTail(m, k);
      InsertPresentKeepsKeys(lt, m[1..], k, v);
    }
  }

  lemma {:induction false} InsertAbsentGrows<K(!new), V>(lt: (K, K) -> bool, m: OMap<K, V>, k: K, v: V)
    requires !HasKey(m, k)
    ensures |Insert(lt, m, k, v)| == |m| + 1
  {
    if |m| > 0 && !lt(k, m[0].0) {
      HasKeyTail(m, k);
      InsertAbsentGrows(lt, m[1..], k, v);
    }
  }

  /** A sorted entry sequence holds each key once: the map-key property of `BTreeMap`. */
  lemma SortedHasUniqueKeys<K(!new), V>(lt: (K, K) -> bool, m: OMap<K, V>)
    requires Irreflexive(lt)
    requires Sorted(lt, m)
    ensures UniqueKeys(m)
  {
  }

  /** In a map with one entry per key, looking up the key of an entry finds that entry. */
  lemma GetAtIndex<K, V>(m: OMap<K, V>, i: nat)
    requires UniqueKeys(m) && i < |m|
    ensures Get(m, m[i].0) == Some(m[i].1)
  {
    var j :| 0 <= j < |m| && m[j] == (m[i].0, Get(m, m[i].0).value);
    assert j == i;
  }

  /** Replace the value of the entry at position `i`, keeping its key and place. */
  function SetValueAt<K, V>(m: OMap<K, V>, i: nat, v: V): (r: OMap<K, V>)
    requires i < |m|
    ensures |r| == |m| && Keys(r) == Keys(m)
    ensures r[i] == (m[i].0, v)
    ensures forall j :: 0 <= j < |m| && j != i ==> r[j] == m[j]
  {
    m[i := (m[i].0, v)]
  }
}

=== FILE: outcome.dfy ===
/** Failure-compatible wrappers shared by every part of the model.

    The compiler front end never recovers from an error: a `panic!`, a `todo!`, an
    `unreachable!`, an `unwrap` of nothing or an out-of-range index aborts the whole
    run. The model turns each of them into a `Fail` value that records what kind of
    abort it is and where it happens, and propagates it with `:-`.
 */
module Outcome {

  datatype Option<+T> = None | Some(value: T) {
    function GetOr(default: T): T {
      match this
      case Some(v) => v
      case None => default
    }
  }

  /** Why the source stops. */
  datatype FailureKind =
    | Unimplemented   // `todo!()`
    | Panicked        // `panic!`, `unwrap()` of nothing, index out of range
    | Unreachable     // `unreachable!()`
    | Overflow        // checked arithmetic on `i128` overflows
    | Diverges        // the source loops or recurses forever

  datatype Failure = Failure(kind: FailureKind, site: string)

  datatype Result<+T> = Ok(value: T) | Fail(failure: Failure) {
    predicate IsFailure() {
      Fail?
    }

    function PropagateFailure<U>(): Result<U>
      requires Fail?
    {
      Fail(failure)
    }

    function Extract(): T
      requires Ok?
    {
      value
    }
  }

  /** `Need(c, k, site)` fails with kind `k` unless `c` holds. */
  datatype Check = Pass | Stop(failure: Failure) {
    predicate IsFailure() {
      Stop?
    }

    function PropagateFailure<U>(): Result<U>
      requires Stop?
    {
      Fail(failure)
    }

    /** Lets a check stand on the right of `var _ :-` inside an expression. */
    function Extract(): bool
      requires Pass?
    {
      true
    }
  }

  function Need(condition: bool, kind: FailureKind, site: string): (c: Check)
  {
    if condition then Pass else Stop(Failure(kind, site))
  }
}

=== FILE: parser_base.dfy ===
/** The token cursor of the recursive-descent parser (`crates/rosarioparser/src/parser.rs`)
    and the pieces every other part of it uses: token checks, type signatures with
    their generic lists, the type lookup and the integer literal conversion.

    The parser reads a token sequence through a 1-based cursor: the current token is
    `toks[pos - 1]`, and reading at 0 or past the end is an index panic. Every parse
    function takes the cursor of its first token and returns the value together with
    the cursor of its LAST token, which is where the source leaves `token_pos`.
 */
module ParserBase {
  import opened Outcome
  import opened Order
  import opened OrdMap
  import opened Ast
  import L = Lexer

  type Tokens = seq<L.TokenType>

  // Where a failure happens, named after the source function.
  const AtCheckEnding: string := "Parser::check_ending"
  const AtCheckToken: string := "Parser::check_token"
  const AtCurrentToken: string := "Parser::current_token"
  const AtFindTypeByName: string := "Parser::find_type_by_name"
  const AtGetIdentifier: string := "Parser::get_identifier"
  const AtParseTypeSignature: string := "Parser::parse_type_signature"

  datatype Parsed<T> = Parsed(value: T, pos: nat)

  /** `current_token`. */
  function Tok(toks: Tokens, pos: nat): (r: Result<L.TokenType>)
    ensures r.Ok? <==> 1 <= pos <= |toks|
    ensures r.Ok? ==> r.value == toks[pos - 1]
  {
    if 1 <= pos <= |toks| then Ok(toks[pos - 1]) else Fail(Failure(Panicked, AtCurrentToken))
  }

  /** The current token exists and is `t`. */
  predicate At(toks: Tokens, pos: nat, t: L.TokenType) {
    1 <= pos <= |toks| && toks[pos - 1] == t
  }

  /** `check_token`. */
  function CheckToken(toks: Tokens, pos: nat, t: L.TokenType): (c: Check)
    ensures c.Pass? <==> At(toks, pos, t)
  {
    if At(toks, pos, t) then Pass else Stop(Failure(Panicked, AtCheckToken))
  }

  /** `get_identifier`. */
  function GetIdentifier(toks: Tokens, pos: nat): (r: Result<string>)
    ensures r.Ok? <==> 1 <= pos <= |toks| && toks[pos - 1].Identifier?
    ensures r.Ok? ==> r.value == toks[pos - 1].name
  {
    var t :- Tok(toks, pos);
    if t.Identifier? then Ok(t.name) else Fail(Failure(Panicked, AtGetIdentifier))
  }

  function Unwrap<T>(o: Option<T>, site: string): (r: Result<T>)
    ensures r.Ok? <==> o.Some?
    ensures r.Ok? ==> r.value == o.value
  {
    match o
    case Some(v) => Ok(v)
    case None => Fail(Failure(Panicked, site))
  }

  /** `check_ending`: `end`, then the expected name when one is given, otherwise the
      expected keyword when one is given. Returns the cursor of the last token read. */
  function CheckEnding(toks: Tokens, pos: nat, name: Option<string>, token: Option<L.TokenType>): (r: Result<nat>)
    ensures r.Ok? <==>
      && At(toks, pos, L.End)
      && (name.Some? ==> At(toks, pos + 1, L.Identifier(name.value)))
      && (name.None? && token.Some? ==> At(toks, pos + 1, token.value))
    ensures r.Ok? ==> r.value == if name.None? && token.None? then pos else pos + 1
  {
    var _ :- CheckToken(toks, pos, L.End);
    match name
    case Some(n) =>
      var id :- GetIdentifier(toks, pos + 1);
      if id != n then Fail(Failure(Panicked, AtCheckEnding)) else Ok(pos + 1)
    case None =>
      match token
      case Some(t) =>
        var _ :- CheckToken(toks, pos + 1, t);
        Ok(pos + 1)
      case None => Ok(pos)
  }

  // ----- type signatures -----

  /** The token that closes a generic argument with the given terminator. */
  function EndToken(e: GenericEnd): L.TokenType {
    match e
    case EndNone => L.MoreThan
    case EndComma => L.Character(',')
    case EndOf => L.Of
  }

  /** The terminator a token stands for inside `<…>`; other tokens are not terminators. */
  function GenericEndOf(t: L.TokenType): (r: Option<GenericEnd>)
    ensures r.Some? ==> EndToken(r.value) == t
    ensures forall e :: EndToken(e) == t ==> r == Some(e)
  {
    if t == L.MoreThan then Some(EndNone)
    else if t == L.Character(',') then Some(EndComma)
    else if t == L.Of then Some(EndOf)
    else None
  }

  /** A signature's generic list is well formed when every entry but the last ends
      with `,` or `of` and the last ends with `>`. */
  predicate WellEnded(gs: seq<Generic>) {
    && |gs| >= 1
    && gs[|gs| - 1].endsWith == EndNone
    && (forall i :: 0 <= i < |gs| - 1 ==> gs[i].endsWith != EndNone)
  }

  /** The tokens of a generic list, each name followed by its terminator. */
  function PrintGenerics(gs: seq<Generic>): (ts: Tokens)
    ensures |ts| == 2 * |gs|
  {
    if |gs| == 0 then [] else [L.Identifier(gs[0].name), EndToken(gs[0].endsWith)] + PrintGenerics(gs[1..])
  }

  /** The tokens of a type signature: the name, then `<` and the generics if it has any. */
  function PrintTypeSignature(sig: TypeSignature): (ts: Tokens)
    ensures |ts| >= 1
  {
    if sig.generics == [] then [L.Identifier(sig.name)]
    else [L.Identifier(sig.name), L.LessThan] + PrintGenerics(sig.generics)
  }

  lemma WellEndedTail(gs: seq<Generic>)
    requires WellEnded(gs) && |gs| > 1
    ensures WellEnded(gs[1..]) && gs[0].endsWith != EndNone
  {
    var tail := gs[1..];
    forall i | 0 <= i < |tail| - 1 ensures tail[i].endsWith != EndNone {
      assert tail[i] == gs[i + 1];
    }
  }

  lemma WellEndedCons(g: Generic, gs: seq<Generic>)
    requires g.endsWith != EndNone && WellEnded(gs)
    ensures WellEnded([g] + gs)
  {
    var all := [g] + gs;
    forall i | 0 <= i < |all| - 1 ensures all[i].endsWith != EndNone {
      if i > 0 {
        assert all[i] == gs[i - 1];
      }
    }
  }

  /** The entries of `<…>`, starting at a generic name; stops at the entry closed by
      `>`, two tokens per entry. */
  function ParseGenerics(toks: Tokens, pos: nat): (r: Result<Parsed<seq<Generic>>>)
    ensures r.Ok? ==> 1 <= pos && r.value.pos == pos + 2 * |r.value.value| - 1 && r.value.pos <= |toks|
    decreases |toks| + 1 - pos
  {
    var g :- GenericEntry(toks, pos);
    if g.endsWith == EndNone then Ok(Parsed([g], pos + 1))
    else
      var rest :- ParseGenerics(toks, pos + 2);
      Ok(Parsed([g] + rest.value, rest.pos))
  }

  /** One entry of `<…>`: a name and the token that closes it. */
  function GenericEntry(toks: Tokens, pos: nat): (r: Result<Generic>)
    ensures r.Ok? <==> 1 <= pos && pos + 1 <= |toks| && toks[pos - 1].Identifier? && GenericEndOf(toks[pos]).Some?
    ensures r.Ok? ==> r.value == Generic(toks[pos - 1].name, GenericEndOf(toks[pos]).value)
  {
    var name :- GetIdentifier(toks, pos);
    var t :- Tok(toks, pos + 1);
    var e :- Unwrap(GenericEndOf(t), AtParseTypeSignature);
    Ok(Generic(name, e))
  }

  /** The entry closed by `>` ends the list. */
  lemma GenericsLast(toks: Tokens, pos: nat, gs: seq<Generic>)
    requires |gs| == 1 && 1 <= pos && pos + 1 <= |toks| && gs[0].endsWith == EndNone
    requires toks[pos - 1] == L.Identifier(gs[0].name) && toks[pos] == L.MoreThan
    ensures ParseGenerics(toks, pos) == Ok(Parsed(gs, pos + 1))
  {
    assert GenericEntry(toks, pos) == Ok(gs[0]);
    assert [gs[0]] == gs;
  }

  /** An entry closed by `,` or `of` is followed by the rest of the list. */
  lemma GenericsMore(toks: Tokens, pos: nat, gs: seq<Generic>, last: nat)
    requires |gs| > 1 && 1 <= pos && pos + 1 <= |toks| && gs[0].endsWith != EndNone
    requires toks[pos - 1] == L.Identifier(gs[0].name) && toks[pos] == EndToken(gs[0].endsWith)
    requires ParseGenerics(toks, pos + 2) == Ok(Parsed(gs[1..], last))
    ensures ParseGenerics(toks, pos) == Ok(Parsed(gs, last))
  {
    assert GenericEntry(toks, pos) == Ok(gs[0]);
    assert [gs[0]] + gs[1..] == gs;
  }

  /** The generic list `gs` as tokens from index `n` of `toks` on: each name, then the
      token that closes it. */
  ghost predicate GenericsAt(toks: Tokens, n: nat, gs: seq<Generic>)
    decreases |gs|
  {
    n + 2 * |gs| <= |toks| &&
    (|gs| == 0 ||
     (toks[n] == L.Identifier(gs[0].name) && toks[n + 1] == EndToken(gs[0].endsWith) && GenericsAt(toks, n + 2, gs[1..])))
  }

  /** A slice equals a sequence exactly when they agree index by index. */
  lemma SliceIsPointwise<T>(s: seq<T>, lo: nat, ts: seq<T>)
    requires lo + |ts| <= |s|
    ensures s[lo..lo + |ts|] == ts <==> forall i :: 0 <= i < |ts| ==> s[lo + i] == ts[i]
  {
    if forall i :: 0 <= i < |ts| ==> s[lo + i] == ts[i] {
      forall i | 0 <= i < |ts|
        ensures s[lo..lo + |ts|][i] == ts[i]
      {
      }
    }
  }

  lemma {:induction false} GenericsAtIsPrinted(toks: Tokens, n: nat, gs: seq<Generic>)
    requires GenericsAt(toks, n, gs)
    ensures forall i :: 0 <= i < 2 * |gs| ==> toks[n + i] == PrintGenerics(gs)[i]
    decreases |gs|
  {
    if |gs| > 0 {
      var ts := PrintGenerics(gs);
      GenericsAtIsPrinted(toks, n + 2, gs[1..]);
      forall i | 0 <= i < 2 * |gs|
        ensures toks[n + i] == ts[i]
      {
        if i >= 2 {
          assert ts[i] == PrintGenerics(gs[1..])[i - 2];
          assert toks[n + 2 + (i - 2)] == PrintGenerics(gs[1..])[i - 2];
        }
      }
    }
  }

  lemma {:induction false} PrintedIsGenericsAt(toks: Tokens, n: nat, gs: seq<Generic>)
    requires n + 2 * |gs| <= |toks|
    requires forall i :: 0 <= i < 2 * |gs| ==> toks[n + i] == PrintGenerics(gs)[i]
    ensures GenericsAt(toks, n, gs)
    decreases |gs|
  {
    if |gs| > 0 {
      var ts := PrintGenerics(gs);
      assert ts[0] == L.Identifier(gs[0].name) && ts[1] == EndToken(gs[0].endsWith);
      assert toks[n + 0] == ts[0] && toks[n + 1] == ts[1];
      forall i | 0 <= i < 2 * |gs[1..]|
        ensures toks[n + 2 + i] == PrintGenerics(gs[1..])[i]
      {
        assert ts[i + 2] == PrintGenerics(gs[1..])[i];
        assert toks[n + (i + 2)] == ts[i + 2];
      }
      PrintedIsGenericsAt(toks, n + 2, gs[1..]);
    }
  }

  /** What `ParseGenerics` reads stands at the cursor, and is well formed. */
  lemma {:induction false} ParsedGenericsAt(toks: Tokens, pos: nat)
    requires ParseGenerics(toks, pos).Ok?
    ensures WellEnded(ParseGenerics(toks, pos).value.value)
    ensures GenericsAt(toks, pos - 1, ParseGenerics(toks, pos).value.value)
    decreases |toks| + 1 - pos
  {
    var r := ParseGenerics(toks, pos).value;
    var g := GenericEntry(toks, pos).value;
    if g.endsWith == EndNone {
      assert r.value == [g];
      assert GenericsAt(toks, pos + 1, r.value[1..]);
    } else {
      var rest := ParseGenerics(toks, pos + 2).value;
      ParsedGenericsAt(toks, pos + 2);
      assert r.value == [g] + rest.value;
      WellEndedCons(g, rest.value);
      assert r.value[1..] == rest.value;
    }
  }

  /** A well-formed list standing at the cursor is read back, up to its `>`. */
  lemma {:induction false} GenericsAtReadBack(gs: seq<Generic>, toks: Tokens, pos: nat)
    requires WellEnded(gs)
    requires 1 <= pos && GenericsAt(toks, pos - 1, gs)
    ensures ParseGenerics(toks, pos) == Ok(Parsed(gs, pos + 2 * |gs| - 1))
    decreases |gs|
  {
    if |gs| == 1 {
      GenericsLast(toks, pos, gs);
    } else {
      WellEndedTail(gs);
      GenericsAtReadBack(gs[1..], toks, pos + 2);
      GenericsMore(toks, pos, gs, pos + 2 * |gs| - 1);
    }
  }

  /** `parse_type_signature`: a name, then optionally `<…>`. Without `<` the cursor
      stays on the name; either way it ends on the signature's last token. */
  function ParseTypeSignature(toks: Tokens, pos: nat): (r: Result<Parsed<TypeSignature>>)
    ensures r.Ok? ==> 1 <= pos < |toks| && pos <= r.value.pos <= |toks|
    ensures r.Ok? ==> (r.value.value.generics == [] <==> toks[pos] != L.LessThan)
    ensures r.Ok? && r.value.value.generics == [] ==> r.value.pos == pos
  {
    var name :- GetIdentifier(toks, pos);
    var t :- Tok(toks, pos + 1);
    if t == L.LessThan then
      var generics :- ParseGenerics(toks, pos + 2);
      Ok(Parsed(TypeSignature(name, generics.value), generics.pos))
    else Ok(Parsed(TypeSignature(name, []), pos))
  }

  /** Whatever `ParseGenerics` accepts is a well-formed list, and the tokens it read are
      exactly that list's printed form. */
  lemma ParsedGenericsArePrinted(toks: Tokens, pos: nat)
    requires ParseGenerics(toks, pos).Ok?
    ensures WellEnded(ParseGenerics(toks, pos).value.value)
    ensures toks[pos - 1..ParseGenerics(toks, pos).value.pos] == PrintGenerics(ParseGenerics(toks, pos).value.value)
  {
    var gs := ParseGenerics(toks, pos).value.value;
    ParsedGenericsAt(toks, pos);
    GenericsAtIsPrinted(toks, pos - 1, gs);
    SliceIsPointwise(toks, pos - 1, PrintGenerics(gs));
  }

  /** Whatever `ParseTypeSignature` accepts was printed from the signature it returns. */
  lemma ParsedTypeSignatureIsPrinted(toks: Tokens, pos: nat)
    requires ParseTypeSignature(toks, pos).Ok?
    ensures toks[pos - 1..ParseTypeSignature(toks, pos).value.pos] == PrintTypeSignature(ParseTypeSignature(toks, pos).value.value)
    ensures ParseTypeSignature(toks, pos).value.value.generics == [] || WellEnded(ParseTypeSignature(toks, pos).value.value.generics)
  {
    var r := ParseTypeSignature(toks, pos).value;
    SignatureAtParsed(toks, pos);
    SignatureTokensArePrinted(toks, pos, r.value);
  }

  /** The tokens of a signature, standing at the cursor. */
  ghost predicate SignatureAt(toks: Tokens, pos: nat, sig: TypeSignature) {
    1 <= pos < |toks| && toks[pos - 1] == L.Identifier(sig.name) &&
    (if sig.generics == [] then toks[pos] != L.LessThan else toks[pos] == L.LessThan && GenericsAt(toks, pos + 1, sig.generics))
  }

  /** The signature `ParseTypeSignature` reads stands at the cursor, and ends where the
      cursor is left. */
  lemma SignatureAtParsed(toks: Tokens, pos: nat)
    requires ParseTypeSignature(toks, pos).Ok?
    ensures SignatureAt(toks, pos, ParseTypeSignature(toks, pos).value.value)
    ensures ParseTypeSignature(toks, pos).value.pos == pos - 1 + |PrintTypeSignature(ParseTypeSignature(toks, pos).value.value)|
    ensures ParseTypeSignature(toks, pos).value.value.generics == [] || WellEnded(ParseTypeSignature(toks, pos).value.value.generics)
  {
    if toks[pos] == L.LessThan {
      ParsedGenericsAt(toks, pos + 2);
    }
  }

  /** A signature standing at the cursor is its printed form. */
  lemma SignatureTokensArePrinted(toks: Tokens, pos: nat, sig: TypeSignature)
    requires SignatureAt(toks, pos, sig) && pos - 1 + |PrintTypeSignature(sig)| <= |toks|
    ensures toks[pos - 1..pos - 1 + |PrintTypeSignature(sig)|] == PrintTypeSignature(sig)
  {
    var printed := PrintTypeSignature(sig);
    if sig.generics != [] {
      var gs := sig.generics;
      GenericsAtIsPrinted(toks, pos + 1, gs);
      forall i | 0 <= i < |printed|
        ensures toks[pos - 1 + i] == printed[i]
      {
        if i >= 2 {
          assert printed[i] == PrintGenerics(gs)[i - 2];
          assert toks[pos + 1 + (i - 2)] == PrintGenerics(gs)[i - 2];
        }
      }
    }
    SliceIsPointwise(toks, pos - 1, printed);
  }

  /** A printed signature stands at the cursor. */
  lemma PrintedSignatureAt(toks: Tokens, pos: nat, sig: TypeSignature)
    requires 1 <= pos && pos - 1 + |PrintTypeSignature(sig)| < |toks|
    requires toks[pos - 1..pos - 1 + |PrintTypeSignature(sig)|] == PrintTypeSignature(sig)
    requires sig.generics == [] ==> toks[pos] != L.LessThan
    ensures SignatureAt(toks, pos, sig)
  {
    var printed := PrintTypeSignature(sig);
    SliceIsPointwise(toks, pos - 1, printed);
    assert toks[pos - 1 + 0] == printed[0];
    if sig.generics != [] {
      assert toks[pos - 1 + 1] == printed[1];
      var gs := sig.generics;
      forall i | 0 <= i < 2 * |gs|
        ensures toks[pos + 1 + i] == PrintGenerics(gs)[i]
      {
        assert printed[2 + i] == PrintGenerics(gs)[i];
        assert toks[pos - 1 + (2 + i)] == printed[2 + i];
      }
      PrintedIsGenericsAt(toks, pos + 1, gs);
    }
  }

  /** A signature standing at the cursor is read back. */
  lemma SignatureAtReadBack(toks: Tokens, pos: nat, sig: TypeSignature)
    requires SignatureAt(toks, pos, sig) && (sig.generics == [] || WellEnded(sig.generics))
    ensures ParseTypeSignature(toks, pos) == Ok(Parsed(sig, pos - 1 + |PrintTypeSignature(sig)|))
  {
    if sig.generics != [] {
      GenericsAtReadBack(sig.generics, toks, pos + 2);
      SignatureWithGenerics(toks, pos, sig, pos + 2 * |sig.generics| + 1);
      assert |PrintTypeSignature(sig)| == 2 + 2 * |sig.generics|;
    } else {
      BareSignature(toks, pos, sig);
      assert |PrintTypeSignature(sig)| == 1;
    }
  }

  /** A name followed by `<` and a generic list read up to `last`. */
  lemma SignatureWithGenerics(toks: Tokens, pos: nat, sig: TypeSignature, last: nat)
    requires 1 <= pos < |toks| && toks[pos - 1] == L.Identifier(sig.name) && toks[pos] == L.LessThan
    requires ParseGenerics(toks, pos + 2) == Ok(Parsed(sig.generics, last))
    ensures ParseTypeSignature(toks, pos) == Ok(Parsed(sig, last))
  {
    assert GetIdentifier(toks, pos) == Ok(sig.name);
    assert Tok(toks, pos + 1) == Ok(L.LessThan);
    assert TypeSignature(sig.name, sig.generics) == sig;
  }

  /** A name not followed by `<`. */
  lemma BareSignature(toks: Tokens, pos: nat, sig: TypeSignature)
    requires 1 <= pos < |toks| && toks[pos - 1] == L.Identifier(sig.name) && toks[pos] != L.LessThan && sig.generics == []
    ensures ParseTypeSignature(toks, pos) == Ok(Parsed(sig, pos))
  {
    assert GetIdentifier(toks, pos) == Ok(sig.name);
    assert Tok(toks, pos + 1) == Ok(toks[pos]);
    assert TypeSignature(sig.name, []) == sig;
  }

  /** Round trip: reading back a printed list gives the list, with the cursor on its
      `>`. */
  lemma ParsePrintedGenerics(gs: seq<Generic>, toks: Tokens, pos: nat)
    requires WellEnded(gs)
    requires 1 <= pos && pos - 1 + 2 * |gs| <= |toks|
    requires toks[pos - 1..pos - 1 + 2 * |gs|] == PrintGenerics(gs)
    ensures ParseGenerics(toks, pos) == Ok(Parsed(gs, pos + 2 * |gs| - 1))
  {
    SliceIsPointwise(toks, pos - 1, PrintGenerics(gs));
    PrintedIsGenericsAt(toks, pos - 1, gs);
    GenericsAtReadBack(gs, toks, pos);
  }

  /** Round trip: parsing the printed signature gives the signature back and leaves the
      cursor on its last token, provided a bare name is not followed by `<`. */
  lemma ParsePrintedTypeSignature(sig: TypeSignature, toks: Tokens, pos: nat)
    requires sig.generics == [] || WellEnded(sig.generics)
    requires 1 <= pos && pos - 1 + |PrintTypeSignature(sig)| < |toks|
    requires toks[pos - 1..pos - 1 + |PrintTypeSignature(sig)|] == PrintTypeSignature(sig)
    requires sig.generics == [] ==> toks[pos] != L.LessThan
    ensures ParseTypeSignature(toks, pos) == Ok(Parsed(sig, pos + |PrintTypeSignature(sig)| - 1))
  {
    PrintedSignatureAt(toks, pos, sig);
    SignatureAtReadBack(toks, pos, sig);
  }

  // ----- the type lookup -----

  /** The first entry of a type map, in key order, whose signature has the given name. */
  function FirstNamed(m: TypeMap, name: string): (r: Option<(TypeSignature, RosarioType)>)
    ensures r.Some? ==> r.value.0.name == name && r.value in m
    ensures r.Some? ==> exists i :: 0 <= i < |m| && m[i] == r.value && forall j :: 0 <= j < i ==> m[j].0.name != name
    ensures r.None? <==> forall i :: 0 <= i < |m| ==> m[i].0.name != name
  {
    if |m| == 0 then None
    else if m[0].0.name == name then Some(m[0])
    else
      var r := FirstNamed(m[1..], name);
      if r.Some? then
        ghost var i :| 0 <= i < |m[1..]| && m[1..][i] == r.value && forall j :: 0 <= j < i ==> m[1..][j].0.name != name;
        assert m[i + 1] == r.value;
        r
      else r
  }

  predicate NamedIn(m: TypeMap, name: string) {
    exists i :: 0 <= i < |m| && m[i].0.name == name
  }

  /** A package holds a public type of that name, or a private one when `getAll` is set. */
  predicate PackageHas(p: Package, name: string, getAll: bool) {
    NamedIn(p.file.publicTypes, name) || (getAll && NamedIn(p.file.types, name))
  }

  /** The first type named `name` in one package: its public types first, then (when
      all types are searched) its private ones. */
  function FirstIn(p: Package, name: string, getAll: bool): (r: Option<(TypeSignature, RosarioType)>)
    ensures r.Some? <==> PackageHas(p, name, getAll)
    ensures r.Some? ==> r.value.0.name == name && (r.value in p.file.publicTypes || (getAll && r.value in p.file.types))
  {
    var inPublic := FirstNamed(p.file.publicTypes, name);
    if inPublic.Some? then inPublic
    else if getAll then FirstNamed(p.file.types, name)
    else None
  }

  /** The package search returns the first hit of the first package, in key order,
      that has the name at all. */
  lemma {:induction false} FindInPackagesIsFirst(packages: Packages, name: string, getAll: bool, k: nat)
    requires k < |packages| && PackageHas(packages[k].1, name, getAll)
    requires forall j :: 0 <= j < k ==> !PackageHas(packages[j].1, name, getAll)
    ensures FindInPackages(packages, name, getAll) == FirstIn(packages[k].1, name, getAll)
    decreases k
  {
    if k > 0 {
      assert !PackageHas(packages[0].1, name, getAll);
      forall j | 0 <= j < k - 1 ensures !PackageHas(packages[1..][j].1, name, getAll) {
        assert packages[1..][j] == packages[j + 1];
      }
      FindInPackagesIsFirst(packages[1..], name, getAll, k - 1);
      assert packages[1..][k - 1] == packages[k];
    }
  }

  /** The packages' part of `find_type_by_name`: each package in key order, public types
      first, then private ones when `getAll` is set. */
  function FindInPackages(packages: Packages, name: string, getAll: bool): (r: Option<(TypeSignature, RosarioType)>)
    ensures r.Some? <==> exists k :: 0 <= k < |packages| && PackageHas(packages[k].1, name, getAll)
    ensures r.Some? ==> r.value.0.name == name
    ensures |packages| > 0 && FirstNamed(packages[0].1.file.publicTypes, name).Some? ==>
      r == FirstNamed(packages[0].1.file.publicTypes, name)
    ensures |packages| > 0 && PackageHas(packages[0].1, name, getAll) ==> r == FirstIn(packages[0].1, name, getAll)
  {
    if |packages| == 0 then None
    else
      var file := packages[0].1.file;
      var inPublic := FirstNamed(file.publicTypes, name);
      var inPrivate := if getAll then FirstNamed(file.types, name) else None;
      var rest := FindInPackages(packages[1..], name, getAll);
      assert rest.Some? <==> exists k :: 1 <= k < |packages| && PackageHas(packages[k].1, name, getAll) by {
        if rest.Some? {
          var k :| 0 <= k < |packages[1..]| && PackageHas(packages[1..][k].1, name, getAll);
          assert packages[1..][k] == packages[k + 1];
        } else {
          forall k | 1 <= k < |packages| ensures !PackageHas(packages[k].1, name, getAll) {
            assert packages[1..][k - 1] == packages[k];
          }
        }
      }
      if inPublic.Some? then inPublic
      else if inPrivate.Some? then inPrivate
      else rest
  }

  /** `find_type_by_name`: the given public map, then the given local map, then the
      packages; a name found nowhere aborts. */
  function FindTypeByName(name: string, publicTypes: Option<TypeMap>, localTypes: Option<TypeMap>,
                          packages: Packages, getAll: bool): (r: Result<(TypeSignature, RosarioType)>)
    ensures r.Ok? ==> r.value.0.name == name
    ensures r.Ok? <==>
      || (publicTypes.Some? && NamedIn(publicTypes.value, name))
      || (localTypes.Some? && NamedIn(localTypes.value, name))
      || FindInPackages(packages, name, getAll).Some?
    ensures publicTypes.Some? && NamedIn(publicTypes.value, name) ==>
      r == Ok(FirstNamed(publicTypes.value, name).value)
    ensures (publicTypes.None? || !NamedIn(publicTypes.value, name)) && localTypes.Some? && NamedIn(localTypes.value, name) ==>
      r == Ok(FirstNamed(localTypes.value, name).value)
    ensures ((publicTypes.None? || !NamedIn(publicTypes.value, name)) && (localTypes.None? || !NamedIn(localTypes.value, name))
             && FindInPackages(packages, name, getAll).Some?) ==>
      r == Ok(FindInPackages(packages, name, getAll).value)
  {
    var fromPublic := if publicTypes.Some? then FirstNamed(publicTypes.value, name) else None;
    var fromLocal := if localTypes.Some? then FirstNamed(localTypes.value, name) else None;
    if fromPublic.Some? then Ok(fromPublic.value)
    else if fromLocal.Some? then Ok(fromLocal.value)
    else
      match FindInPackages(packages, name, getAll)
      case Some(found) => Ok(found)
      case None => Fail(Failure(Panicked, AtFindTypeByName))
  }

  // ----- integer literals -----

  predicate IsDigitChar(c: char) { '0' <= c <= '9' }

  predicate AllDigits(s: string) {
    forall i :: 0 <= i < |s| ==> IsDigitChar(s[i])
  }

  /** The value of a decimal digit string, most significant digit first. */
  function DecimalValue(s: string): nat
    requires AllDigits(s)
  {
    if |s| == 0 then 0 else 10 * DecimalValue(s[..|s| - 1]) + (s[|s| - 1] as int - '0' as int)
  }

  /** The decimal spelling of a natural number, without leading zeros. */
  function Decimal(n: nat): (s: string)
    ensures |s| >= 1 && AllDigits(s)
    ensures |s| > 1 ==> s[0] != '0'
  {
    if n < 10 then [(n + '0' as int) as char]
    else Decimal(n / 10) + [((n % 10) + '0' as int) as char]
  }

  lemma {:induction false} DecimalRoundTrip(n: nat)
    ensures DecimalValue(Decimal(n)) == n
  {
    if n >= 10 {
      var s := Decimal(n);
      assert s[..|s| - 1] == Decimal(n / 10);
      DecimalRoundTrip(n / 10);
    }
  }

  /** Rust's `str::parse::<i128>`: an optional sign, then at least one digit, in range. */
  function ParseI128(s: string): (r: Option<I128>)
    ensures r.Some? ==> |s| >= 1
    ensures AllDigits(s) && |s| >= 1 ==>
      r == if DecimalValue(s) <= I128Max then Some(DecimalValue(s) as I128) else None
  {
    var negative := |s| > 0 && s[0] == '-';
    var digits := if |s| > 0 && (s[0] == '-' || s[0] == '+') then s[1..] else s;
    if |digits| == 0 || !AllDigits(digits) then None
    else
      var magnitude: int := DecimalValue(digits);
      var v := if negative then -magnitude else magnitude;
      if I128Min <= v <= I128Max then Some(v as I128) else None
  }

  /** What a `Number` token's digits become: the literal's value, or 0 when it does not
      fit (`unwrap_or(0)`). */
  function LiteralValue(digits: string): (v: I128)
    ensures AllDigits(digits) && |digits| >= 1 && DecimalValue(digits) <= I128Max ==> v == DecimalValue(digits)
    ensures AllDigits(digits) && |digits| >= 1 && DecimalValue(digits) > I128Max ==> v == 0
  {
    ParseI128(digits).GetOr(0)
  }

  /** Every `i128` in range survives printing and parsing. */
  lemma LiteralRoundTrip(n: nat)
    requires n <= I128Max
    ensures LiteralValue(Decimal(n)) == n
  {
    DecimalRoundTrip(n);
  }
}

=== FILE: pipeline.dfy ===
/** `standard_pass` (`crates/rosarioparser/src/all_passes/mod.rs`): the generic pass,
    then the implicit-trait pass, then the static number pass, once each. */
module Pipeline {
  import opened Outcome
  import opened Order
  import opened OrdMap
  import opened Ast
  import Generic = GenericPass
  import Implicit = ImplicitPass
  import Static = StaticPass

  /** The packages and the generic results after the three passes. */
  function StandardPass(packages: Packages, genericResults: Packages): (r: Result<(Packages, Packages)>)
    ensures r.Ok? ==> Generic.Run(packages, genericResults).Ok? && r.value.1 == Generic.Run(packages, genericResults).value.1
    ensures r.Ok? ==> Keys(r.value.0) == Keys(packages)
  {
    var (rewritten, results) :- Generic.Run(packages, genericResults);
    var implemented :- Implicit.Run(rewritten);
    var folded :- Static.Run(implemented);
    Ok((folded, results))
  }

  /** After the three passes, a package differs from the input only in its private
      procedures' bodies (the generic pass), its implementations (the implicit and
      static passes) and its types (the static pass). Public procedures, top-level
      functions, traits, imports and C includes are as parsed. */
  lemma OnlyBodiesImplementationsAndTypesChange(packages: Packages, genericResults: Packages, k: nat)
    requires StandardPass(packages, genericResults).Ok? && k < |packages|
    ensures var p := StandardPass(packages, genericResults).value.0[k].1;
      var f := packages[k].1.file;
      p == packages[k].1.(file := f.(procedures := p.file.procedures, implementations := p.file.implementations,
        types := p.file.types, publicTypes := p.file.publicTypes))
    ensures var p := StandardPass(packages, genericResults).value.0[k].1;
      p.file.procedures == Generic.Run(packages, genericResults).value.0[k].1.file.procedures
  {
    var rewritten := Generic.Run(packages, genericResults).value.0;
    var implemented := Implicit.Run(rewritten).value;
    assert |Keys(rewritten)| == |Keys(packages)|;
    assert |Keys(implemented)| == |Keys(rewritten)|;
  }

  /** Looking up a key after folding every implementation finds the folded value. */
  lemma {:induction false} FoldedLookup(snapshot: Packages, fuel: nat, m: ImplMap, key: ImplSignature)
    requires Static.FoldImplementations(snapshot, fuel, m).Ok?
    requires Get(m, key).Some?
    ensures Static.FoldImplementation(snapshot, fuel, Get(m, key).value).Ok?
    ensures Get(Static.FoldImplementations(snapshot, fuel, m).value, key) == Some(Static.FoldImplementation(snapshot, fuel, Get(m, key).value).value)
  {
    var r := Static.FoldImplementations(snapshot, fuel, m).value;
    if m[0].0 != key {
      assert r[1..] == Static.FoldImplementations(snapshot, fuel, m[1..]).value;
      FoldedLookup(snapshot, fuel, m[1..], key);
    }
  }

  /** Folding a package folds its implementations with the same snapshot and fuel. */
  lemma FoldPackageImplementations(snapshot: Packages, fuel: nat, p: Package)
    requires Static.FoldPackage(snapshot, fuel, p).Ok?
    ensures Static.FoldImplementations(snapshot, fuel, p.file.implementations).Ok?
    ensures Static.FoldPackage(snapshot, fuel, p).value.file.implementations == Static.FoldImplementations(snapshot, fuel, p.file.implementations).value
  {
  }

  /** Folding an implementation folds its public functions. */
  lemma FoldImplementationPublicFunctions(snapshot: Packages, fuel: nat, im: TypeImplementation)
    requires Static.FoldImplementation(snapshot, fuel, im).Ok?
    ensures Static.FoldFunctions(snapshot, fuel, im.publicFunctions).Ok?
    ensures Static.FoldImplementation(snapshot, fuel, im).value.publicFunctions == Static.FoldFunctions(snapshot, fuel, im.publicFunctions).value
  {
  }

  /** `e` is the literal `v` tagged with `sig`. */
  predicate IsLiteral(e: Expression, v: int, sig: TypeSignature) {
    e.Number? && e.value == v && e.fraction.None? && e.tag == Some(sig)
  }

  /** `f` is the synthesized function `name` of the range type `sig`, folded to `v`. */
  predicate IsFoldedBound(f: Function, name: string, sig: TypeSignature, v: int) {
    f.signature == Signature(name, [], ReturnsType(NotMutable, sig)) && IsLiteral(f.body, v, sig)
  }

  /** The implementation found ends with `Min` and `Max` folded to `lo` and `hi`. */
  predicate EndsWithFoldedBounds(im: Option<TypeImplementation>, sig: TypeSignature, lo: int, hi: int) {
    im.Some? && |im.value.publicFunctions| >= 2 &&
    IsFoldedBound(im.value.publicFunctions[|im.value.publicFunctions| - 2], "Min", sig, lo) &&
    IsFoldedBound(im.value.publicFunctions[|im.value.publicFunctions| - 1], "Max", sig, hi)
  }

  /** A folded constant bound: the function keeps its signature and gets the bound's
      value as a literal tagged with the type it returns. */
  lemma FoldedBound(snapshot: Packages, fuel: nat, f: Function, name: string, sig: TypeSignature)
    requires Static.FoldFunction(snapshot, fuel, f).Ok?
    requires Static.Arithmetic(f.body) && f.signature == Signature(name, [], ReturnsType(NotMutable, sig))
    ensures Static.Value(f.body).Some?
    ensures IsFoldedBound(Static.FoldFunction(snapshot, fuel, f).value, name, sig, Static.Value(f.body).value)
  {
    Static.FoldIsArithmetic(snapshot, f.body, fuel);
  }

  /** The static stage: `Min` and `Max` at the end of an implementation fold to their
      bounds' values. */
  lemma StaticFoldsMinMax(implemented: Packages, k: nat, key: ImplSignature, sig: TypeSignature, range: Range)
    requires Static.Run(implemented).Ok? && k < |implemented|
    requires Static.Arithmetic(range.left) && Static.Arithmetic(range.right)
    requires var im := Get(implemented[k].1.file.implementations, key);
      im.Some? && |im.value.publicFunctions| >= 2 &&
      im.value.publicFunctions[|im.value.publicFunctions| - 2..] == Implicit.MinMax(sig, range)
    ensures Static.Value(range.left).Some? && Static.Value(range.right).Some?
    ensures EndsWithFoldedBounds(Get(Static.Run(implemented).value[k].1.file.implementations, key),
      sig, Static.Value(range.left).value, Static.Value(range.right).value)
  {
    var folded := Static.Run(implemented).value;
    var n := Static.CallDepthBound(implemented);
    var im := Get(implemented[k].1.file.implementations, key).value;
    var pair := Implicit.MinMax(sig, range);
    assert |Keys(folded)| == |Keys(implemented)|;
    assert folded[k].1 == Static.FoldPackage(implemented, n, implemented[k].1).value;
    FoldPackageImplementations(implemented, n, implemented[k].1);
    FoldedLookup(implemented, n, implemented[k].1.file.implementations, key);
    FoldImplementationPublicFunctions(implemented, n, im);
    var fs := Static.FoldFunctions(implemented, n, im.publicFunctions).value;
    assert Get(folded[k].1.file.implementations, key).value.publicFunctions == fs;
    var last := |im.publicFunctions| - 1;
    assert im.publicFunctions[last - 1] == pair[0] && im.publicFunctions[last] == pair[1];
    FoldedBound(implemented, n, pair[0], "Min", sig);
    FoldedBound(implemented, n, pair[1], "Max", sig);
  }

  /** A public range type with constant bounds ends the pipeline with `Min` and `Max`
      whose bodies are its bounds' values as literals tagged with the type's own
      signature: the implicit pass appends them before the static pass folds the
      implementations. */
  lemma RangeBoundsEndAsLiterals(packages: Packages, genericResults: Packages, k: nat, j: nat)
    requires StandardPass(packages, genericResults).Ok?
    requires k < |packages| && j < |packages[k].1.file.publicTypes|
    requires Sorted(TypeSignatureLt, packages[k].1.file.publicTypes)
    requires var ty := packages[k].1.file.publicTypes[j].1;
      ty.content.RangeContent? && Static.Arithmetic(ty.content.range.left) && Static.Arithmetic(ty.content.range.right)
    ensures Implicit.FindTraitByName("Range", packages).Ok?
    ensures var sig, range := packages[k].1.file.publicTypes[j].0, packages[k].1.file.publicTypes[j].1.content.range;
      Static.Value(range.left).Some? && Static.Value(range.right).Some? &&
      EndsWithFoldedBounds(Get(StandardPass(packages, genericResults).value.0[k].1.file.implementations,
        Implicit.RangeKey(Implicit.FindTraitByName("Range", packages).value, sig)),
        sig, Static.Value(range.left).value, Static.Value(range.right).value)
  {
    StandardPassStages(packages, genericResults);
    var rewritten := Generic.Run(packages, genericResults).value.0;
    var implemented := Implicit.Run(rewritten).value;
    var sig := packages[k].1.file.publicTypes[j].0;
    var range := packages[k].1.file.publicTypes[j].1.content.range;
    var key := ImplementedMinMax(packages, rewritten, k, j);
    StaticFoldsMinMax(implemented, k, key, sig, range);
  }

  /** The pipeline is the composition of its three stages. */
  lemma StandardPassStages(packages: Packages, genericResults: Packages)
    requires StandardPass(packages, genericResults).Ok?
    ensures Implicit.Run(Generic.Run(packages, genericResults).value.0).Ok?
    ensures Static.Run(Implicit.Run(Generic.Run(packages, genericResults).value.0).value).Ok?
    ensures StandardPass(packages, genericResults).value.0 == Static.Run(Implicit.Run(Generic.Run(packages, genericResults).value.0).value).value
  {
  }

  /** The implicit stage: after the generic pass, which leaves public types and traits
      alone, the implicit pass appends `Min` and `Max` for a public range type. */
  lemma ImplementedMinMax(packages: Packages, rewritten: Packages, k: nat, j: nat) returns (key: ImplSignature)
    requires Implicit.Run(rewritten).Ok? && Keys(rewritten) == Keys(packages)
    requires forall i :: 0 <= i < |packages| ==> rewritten[i].1.file.publicTypes == packages[i].1.file.publicTypes && rewritten[i].1.file.publicTraits == packages[i].1.file.publicTraits
    requires k < |packages| && j < |packages[k].1.file.publicTypes|
    requires Sorted(TypeSignatureLt, packages[k].1.file.publicTypes)
    requires packages[k].1.file.publicTypes[j].1.content.RangeContent?
    ensures Implicit.FindTraitByName("Range", packages).Ok?
    ensures key == Implicit.RangeKey(Implicit.FindTraitByName("Range", packages).value, packages[k].1.file.publicTypes[j].0)
    ensures var im := Get(Implicit.Run(rewritten).value[k].1.file.implementations, key);
      var fs := packages[k].1.file.publicTypes[j].1.content.range;
      im.Some? && |im.value.publicFunctions| >= 2 &&
      im.value.publicFunctions[|im.value.publicFunctions| - 2..] == Implicit.MinMax(packages[k].1.file.publicTypes[j].0, fs)
  {
    var (sig, ty) := packages[k].1.file.publicTypes[j];
    assert |Keys(rewritten)| == |Keys(packages)|;
    Implicit.SameTraitsSameTrait(rewritten, packages, "Range");
    Implicit.RangeTypesGetMinMax(rewritten, k, j);
    key := Implicit.RangeKey(Implicit.FindTraitByName("Range", packages).value, sig);
    var before := Get(rewritten[k].1.file.implementations, key).GetOr(EmptyImplementation).publicFunctions;
    var pair := Implicit.MinMax(sig, ty.content.range);
    var fs := before + pair;
    assert fs[|fs| - 2..] == pair;
  }
}

=== FILE: static_facts.dfy ===
/** The static number pass is idempotent.

    Folding reads only the public implementation functions. After one run each of
    them is either unchanged or a literal holding the value its prior body folded to,
    so folding against the later packages gives what folding against the prior ones
    gave, and a second run rewrites every body and bound to what it already is.
 */
module StaticFacts {
  import opened Outcome
  import opened OrdMap
  import opened Ast
  import opened StaticPass

  // ----- more fuel changes nothing that already ended -----

  lemma {:induction false} FoldFuelIsEnough(p: Packages, e: Expression, fuel: nat, more: nat)
    requires Fold(p, e, fuel).Ok? && fuel <= more
    ensures Fold(p, e, more) == Fold(p, e, fuel)
    decreases fuel, e
  {
    if e.Add? || e.Sub? || e.ToThePowerOf? {
      FoldFuelIsEnough(p, e.left, fuel, more);
      FoldFuelIsEnough(p, e.right, fuel, more);
    } else if e.Parenthesis? || e.Positive? || e.Negative? {
      FoldFuelIsEnough(p, e.inner, fuel, more);
    } else if e.AccessTypeImplementation? && e.access.Call? {
      FoldCallFuelIsEnough(p, e.access, PublicFunctionsOf(FindImplementations(e.owner, p)), fuel, more);
    }
  }

  lemma {:induction false} FoldCallFuelIsEnough(p: Packages, call: Expression, candidates: seq<Function>, fuel: nat, more: nat)
    requires call.Call?
    requires FoldCall(p, call, candidates, fuel).Ok? && fuel <= more
    ensures FoldCall(p, call, candidates, more) == FoldCall(p, call, candidates, fuel)
    decreases fuel, call, |candidates|
  {
    if |candidates| > 0 {
      if candidates[0].signature.name == call.call.name && |call.call.arguments| == 0 {
        FoldFuelIsEnough(p, candidates[0].body, fuel - 1, more - 1);
        if Fold(p, candidates[0].body, fuel - 1).value.None? {
          FoldCallFuelIsEnough(p, call, candidates[1..], fuel, more);
        }
      } else {
        FoldCallFuelIsEnough(p, call, candidates[1..], fuel, more);
      }
    }
  }

  // ----- how one run relates the later packages to the prior -----

  /** A function after the pass: unchanged, or with its body replaced by a literal of
      the value the prior body folded to. */
  ghost predicate Refolded(prior: Packages, fuel: nat, f: Function, g: Function) {
    g == f ||
    (g.signature == f.signature && g.body.Number? && g.body.fraction.None? && Fold(prior, f.body, fuel) == Ok(Some(g.body.value)))
  }

  ghost predicate RefoldedAll(prior: Packages, fuel: nat, fs: seq<Function>, gs: seq<Function>) {
    |fs| == |gs| && forall i :: 0 <= i < |fs| ==> Refolded(prior, fuel, fs[i], gs[i])
  }

  /** Two lists of implementations with the same keys, in the same order, whose public
      functions are refolded. */
  ghost predicate RefoldedImpls(prior: Packages, fuel: nat, m: seq<(ImplSignature, TypeImplementation)>, n: seq<(ImplSignature, TypeImplementation)>) {
    |m| == |n| && forall i :: 0 <= i < |m| ==> m[i].0 == n[i].0 && RefoldedAll(prior, fuel, m[i].1.publicFunctions, n[i].1.publicFunctions)
  }

  /** Every call sees refolded candidates. */
  ghost predicate Refolds(prior: Packages, later: Packages, fuel: nat) {
    forall sig :: RefoldedAll(prior, fuel, PublicFunctionsOf(FindImplementations(sig, prior)), PublicFunctionsOf(FindImplementations(sig, later)))
  }

  // ----- folding against refolded packages -----

  lemma {:induction false} FoldIsStable(prior: Packages, later: Packages, bound: nat, e: Expression, fuel: nat)
    requires Refolds(prior, later, bound) && fuel <= bound
    requires Fold(prior, e, fuel).Ok?
    ensures Fold(later, e, fuel) == Fold(prior, e, fuel)
    decreases fuel, e
  {
    if e.Add? || e.Sub? || e.ToThePowerOf? {
      FoldIsStable(prior, later, bound, e.left, fuel);
      FoldIsStable(prior, later, bound, e.right, fuel);
    } else if e.Parenthesis? || e.Positive? || e.Negative? {
      FoldIsStable(prior, later, bound, e.inner, fuel);
    } else if e.AccessTypeImplementation? && e.access.Call? {
      FoldCallIsStable(prior, later, bound, e.access,
        PublicFunctionsOf(FindImplementations(e.owner, prior)), PublicFunctionsOf(FindImplementations(e.owner, later)), fuel);
    }
  }

  lemma {:induction false} FoldCallIsStable(prior: Packages, later: Packages, bound: nat, call: Expression,
                                            cs: seq<Function>, ds: seq<Function>, fuel: nat)
    requires call.Call?
    requires Refolds(prior, later, bound) && fuel <= bound
    requires RefoldedAll(prior, bound, cs, ds)
    requires FoldCall(prior, call, cs, fuel).Ok?
    ensures FoldCall(later, call, ds, fuel) == FoldCall(prior, call, cs, fuel)
    decreases fuel, call, |cs|
  {
    if |cs| > 0 {
      assert Refolded(prior, bound, cs[0], ds[0]);
      assert RefoldedAll(prior, bound, cs[1..], ds[1..]) by {
        assert forall i :: 0 <= i < |cs| - 1 ==> cs[1..][i] == cs[i + 1] && ds[1..][i] == ds[i + 1];
      }
      if cs[0].signature.name == call.call.name && |call.call.arguments| == 0 {
        if ds[0] == cs[0] {
          FoldIsStable(prior, later, bound, cs[0].body, fuel - 1);
        } else {
          FoldFuelIsEnough(prior, cs[0].body, fuel - 1, bound);
        }
        if Fold(prior, cs[0].body, fuel - 1).value.None? {
          FoldCallIsStable(prior, later, bound, call, cs[1..], ds[1..], fuel);
        }
      } else {
        FoldCallIsStable(prior, later, bound, call, cs[1..], ds[1..], fuel);
      }
    }
  }

  // ----- one run refolds -----

  lemma FoldFunctionRefolds(p: Packages, fuel: nat, f: Function)
    requires FoldFunction(p, fuel, f).Ok?
    ensures Refolded(p, fuel, f, FoldFunction(p, fuel, f).value)
  {
  }

  lemma {:induction false} FoldFunctionsRefold(p: Packages, fuel: nat, fs: seq<Function>)
    requires FoldFunctions(p, fuel, fs).Ok?
    ensures RefoldedAll(p, fuel, fs, FoldFunctions(p, fuel, fs).value)
  {
    forall i | 0 <= i < |fs| ensures Refolded(p, fuel, fs[i], FoldFunctions(p, fuel, fs).value[i]) {
      FoldFunctionRefolds(p, fuel, fs[i]);
    }
  }

  lemma {:induction false} FoldImplementationsRefold(p: Packages, fuel: nat, m: ImplMap)
    requires FoldImplementations(p, fuel, m).Ok?
    ensures RefoldedImpls(p, fuel, m, FoldImplementations(p, fuel, m).value)
  {
    var n := FoldImplementations(p, fuel, m).value;
    forall i | 0 <= i < |m| ensures m[i].0 == n[i].0 && RefoldedAll(p, fuel, m[i].1.publicFunctions, n[i].1.publicFunctions) {
      assert Keys(n)[i] == Keys(m)[i];
      FoldFunctionsRefold(p, fuel, m[i].1.publicFunctions);
    }
  }

  lemma RefoldedImplsSplit(p: Packages, fuel: nat, m: seq<(ImplSignature, TypeImplementation)>, n: seq<(ImplSignature, TypeImplementation)>)
    requires RefoldedImpls(p, fuel, m, n) && |m| > 0
    ensures RefoldedImpls(p, fuel, m[1..], n[1..]) && RefoldedImpls(p, fuel, [m[0]], [n[0]]) && m[0].0 == n[0].0
  {
    assert forall i :: 0 <= i < |m| - 1 ==> m[1..][i] == m[i + 1] && n[1..][i] == n[i + 1];
  }

  lemma {:induction false} ImplementationsInRefold(p: Packages, fuel: nat, m: ImplMap, n: ImplMap, sig: TypeSignature)
    requires RefoldedImpls(p, fuel, m, n)
    ensures RefoldedImpls(p, fuel, ImplementationsIn(m, sig), ImplementationsIn(n, sig))
  {
    if |m| > 0 {
      RefoldedImplsSplit(p, fuel, m, n);
      ImplementationsInRefold(p, fuel, m[1..], n[1..], sig);
      if m[0].0.implFor == sig {
        ConcatRefoldsImpls(p, fuel, [m[0]], [n[0]], ImplementationsIn(m[1..], sig), ImplementationsIn(n[1..], sig));
      }
    }
  }

  lemma {:induction false} ConcatRefoldsImpls(p: Packages, fuel: nat, a: seq<(ImplSignature, TypeImplementation)>, b: seq<(ImplSignature, TypeImplementation)>,
                                              c: seq<(ImplSignature, TypeImplementation)>, d: seq<(ImplSignature, TypeImplementation)>)
    requires RefoldedImpls(p, fuel, a, b) && RefoldedImpls(p, fuel, c, d)
    ensures RefoldedImpls(p, fuel, a + c, b + d)
  {
    assert forall i :: |a| <= i < |a| + |c| ==> (a + c)[i] == c[i - |a|] && (b + d)[i] == d[i - |a|];
  }

  lemma {:induction false} FindImplementationsRefold(p: Packages, fuel: nat, q: Packages, r: Packages, sig: TypeSignature)
    requires |q| == |r|
    requires forall k :: 0 <= k < |q| ==> RefoldedImpls(p, fuel, q[k].1.file.implementations, r[k].1.file.implementations)
    ensures RefoldedImpls(p, fuel, FindImplementations(sig, q), FindImplementations(sig, r))
  {
    if |q| > 0 {
      assert forall k :: 0 <= k < |q| - 1 ==> q[1..][k] == q[k + 1] && r[1..][k] == r[k + 1];
      FindImplementationsRefold(p, fuel, q[1..], r[1..], sig);
      ImplementationsInRefold(p, fuel, q[0].1.file.implementations, r[0].1.file.implementations, sig);
      ConcatRefoldsImpls(p, fuel, ImplementationsIn(q[0].1.file.implementations, sig), ImplementationsIn(r[0].1.file.implementations, sig),
        FindImplementations(sig, q[1..]), FindImplementations(sig, r[1..]));
    }
  }

  lemma {:induction false} PublicFunctionsRefold(p: Packages, fuel: nat, a: seq<(ImplSignature, TypeImplementation)>, b: seq<(ImplSignature, TypeImplementation)>)
    requires RefoldedImpls(p, fuel, a, b)
    ensures RefoldedAll(p, fuel, PublicFunctionsOf(a), PublicFunctionsOf(b))
  {
    if |a| > 0 {
      assert RefoldedImpls(p, fuel, a[1..], b[1..]) by {
        assert forall i :: 0 <= i < |a| - 1 ==> a[1..][i] == a[i + 1] && b[1..][i] == b[i + 1];
      }
      PublicFunctionsRefold(p, fuel, a[1..], b[1..]);
      var x, y := a[0].1.publicFunctions, b[0].1.publicFunctions;
      var u, w := PublicFunctionsOf(a[1..]), PublicFunctionsOf(b[1..]);
      assert RefoldedAll(p, fuel, x, y);
      assert forall i :: |x| <= i < |x| + |u| ==> (x + u)[i] == u[i - |x|] && (y + w)[i] == w[i - |x|];
    }
  }

  lemma {:induction false} CallDepthBoundRefold(p: Packages, fuel: nat, q: Packages, r: Packages)
    requires |q| == |r|
    requires forall k :: 0 <= k < |q| ==> RefoldedImpls(p, fuel, q[k].1.file.implementations, r[k].1.file.implementations)
    ensures CallDepthBound(q) == CallDepthBound(r)
  {
    if |q| > 0 {
      assert forall k :: 0 <= k < |q| - 1 ==> q[1..][k] == q[k + 1] && r[1..][k] == r[k + 1];
      CallDepthBoundRefold(p, fuel, q[1..], r[1..]);
      PublicFunctionsRefold(p, fuel, q[0].1.file.implementations, r[0].1.file.implementations);
    }
  }

  lemma FoldPackageRefolds(prior: Packages, n: nat, p: Package, q: Package)
    requires FoldPackage(prior, n, p) == Ok(q)
    ensures RefoldedImpls(prior, n, p.file.implementations, q.file.implementations)
  {
    FoldImplementationsRefold(prior, n, p.file.implementations);
  }

  lemma RunRefoldsImplementations(packages: Packages)
    requires Run(packages).Ok?
    ensures |Run(packages).value| == |packages|
    ensures forall k :: 0 <= k < |packages| ==>
      RefoldedImpls(packages, CallDepthBound(packages), packages[k].1.file.implementations, Run(packages).value[k].1.file.implementations)
  {
    var n := CallDepthBound(packages);
    var after := RunOn(packages, n, packages).value;
    assert |Keys(after)| == |Keys(packages)|;
    forall k | 0 <= k < |packages|
      ensures RefoldedImpls(packages, n, packages[k].1.file.implementations, after[k].1.file.implementations)
    {
      FoldPackageRefolds(packages, n, packages[k].1, after[k].1);
    }
  }

  /** After one run, every call sees the candidates of the packages it started from,
      refolded, and the call-depth bound is the same. */
  lemma RunRefolds(packages: Packages)
    requires Run(packages).Ok?
    ensures Refolds(packages, Run(packages).value, CallDepthBound(packages))
    ensures CallDepthBound(Run(packages).value) == CallDepthBound(packages)
  {
    var n := CallDepthBound(packages);
    var after := Run(packages).value;
    RunRefoldsImplementations(packages);
    forall sig ensures RefoldedAll(packages, n, PublicFunctionsOf(FindImplementations(sig, packages)), PublicFunctionsOf(FindImplementations(sig, after))) {
      FindImplementationsRefold(packages, n, packages, after, sig);
      PublicFunctionsRefold(packages, n, FindImplementations(sig, packages), FindImplementations(sig, after));
    }
    CallDepthBoundRefold(packages, n, packages, after);
  }

  // ----- a second run changes nothing -----

  lemma FoldFunctionAgain(prior: Packages, later: Packages, n: nat, f: Function)
    requires Refolds(prior, later, n)
    requires FoldFunction(prior, n, f).Ok?
    ensures FoldFunction(later, n, FoldFunction(prior, n, f).value) == FoldFunction(prior, n, f)
  {
    FoldIsStable(prior, later, n, f.body, n);
  }

  lemma {:induction false} FoldFunctionsAgain(prior: Packages, later: Packages, n: nat, fs: seq<Function>)
    requires Refolds(prior, later, n)
    requires FoldFunctions(prior, n, fs).Ok?
    ensures FoldFunctions(later, n, FoldFunctions(prior, n, fs).value) == FoldFunctions(prior, n, fs)
  {
    if |fs| > 0 {
      var gs := FoldFunctions(prior, n, fs).value;
      FoldFunctionAgain(prior, later, n, fs[0]);
      FoldFunctionsAgain(prior, later, n, fs[1..]);
      assert gs[1..] == FoldFunctions(prior, n, fs[1..]).value;
      assert [gs[0]] + gs[1..] == gs;
    }
  }

  lemma FoldImplementationAgain(prior: Packages, later: Packages, n: nat, im: TypeImplementation)
    requires Refolds(prior, later, n)
    requires FoldImplementation(prior, n, im).Ok?
    ensures FoldImplementation(later, n, FoldImplementation(prior, n, im).value) == FoldImplementation(prior, n, im)
  {
    FoldFunctionsAgain(prior, later, n, im.functions);
    FoldFunctionsAgain(prior, later, n, im.publicFunctions);
  }

  lemma {:induction false} FoldImplementationsAgain(prior: Packages, later: Packages, n: nat, m: ImplMap)
    requires Refolds(prior, later, n)
    requires FoldImplementations(prior, n, m).Ok?
    ensures FoldImplementations(later, n, FoldImplementations(prior, n, m).value) == FoldImplementations(prior, n, m)
  {
    if |m| > 0 {
      var ms := FoldImplementations(prior, n, m).value;
      FoldImplementationAgain(prior, later, n, m[0].1);
      FoldImplementationsAgain(prior, later, n, m[1..]);
      assert ms[1..] == FoldImplementations(prior, n, m[1..]).value;
      assert [ms[0]] + ms[1..] == ms;
    }
  }

  lemma FoldTypeAgain(prior: Packages, later: Packages, n: nat, sig: TypeSignature, ty: RosarioType)
    requires Refolds(prior, later, n)
    requires FoldType(prior, n, sig, ty).Ok?
    ensures FoldType(later, n, sig, FoldType(prior, n, sig, ty).value) == FoldType(prior, n, sig, ty)
  {
    if ty.content.RangeContent? {
      FoldIsStable(prior, later, n, ty.content.range.left, n);
      FoldIsStable(prior, later, n, ty.content.range.right, n);
    }
  }

  lemma {:induction false} FoldTypesAgain(prior: Packages, later: Packages, n: nat, types: TypeMap)
    requires Refolds(prior, later, n)
    requires FoldTypes(prior, n, types).Ok?
    ensures FoldTypes(later, n, FoldTypes(prior, n, types).value) == FoldTypes(prior, n, types)
  {
    if |types| > 0 {
      var ts := FoldTypes(prior, n, types).value;
      FoldTypeAgain(prior, later, n, types[0].0, types[0].1);
      FoldTypesAgain(prior, later, n, types[1..]);
      assert ts[1..] == FoldTypes(prior, n, types[1..]).value;
      assert [ts[0]] + ts[1..] == ts;
    }
  }

  lemma FoldPackageAgain(prior: Packages, later: Packages, n: nat, p: Package)
    requires Refolds(prior, later, n)
    requires FoldPackage(prior, n, p).Ok?
    ensures FoldPackage(later, n, FoldPackage(prior, n, p).value) == FoldPackage(prior, n, p)
  {
    FoldImplementationsAgain(prior, later, n, p.file.implementations);
    FoldTypesAgain(prior, later, n, p.file.types);
    FoldTypesAgain(prior, later, n, p.file.publicTypes);
  }

  lemma {:induction false} RunOnAgain(prior: Packages, later: Packages, n: nat, packages: Packages)
    requires Refolds(prior, later, n)
    requires RunOn(prior, n, packages).Ok?
    ensures RunOn(later, n, RunOn(prior, n, packages).value) == RunOn(prior, n, packages)
  {
    if |packages| > 0 {
      var ps := RunOn(prior, n, packages).value;
      FoldPackageAgain(prior, later, n, packages[0].1);
      RunOnAgain(prior, later, n, packages[1..]);
      assert ps[1..] == RunOn(prior, n, packages[1..]).value;
      assert [ps[0]] + ps[1..] == ps;
    }
  }

  /** The pass is idempotent: running it on its own result succeeds and changes nothing. */
  lemma RunIsIdempotent(packages: Packages)
    requires Run(packages).Ok?
    ensures Run(Run(packages).value) == Run(packages)
  {
    RunRefolds(packages);
    RunOnAgain(packages, Run(packages).value, CallDepthBound(packages), packages);
  }
}

=== FILE: static_pass.dfy ===
/** The static number pass (`crates/rosarioparser/src/all_passes/static_number_solver_pass.rs`).

    Constant integer expressions are folded: literals, `+`, `-`, `**`, parentheses,
    signs, and zero-argument calls `T::f()` to public functions of the
    implementations of `T`. Every implementation function whose body folds gets a
    literal tagged with its return type, and every range whose two bounds fold gets
    both bounds as literals tagged with the range type's signature. Folding reads a
    snapshot of the packages taken before the pass.

    The source computes on `i128` with Rust's checked (debug-build) arithmetic, so a
    result outside `i128` stops the run; the model reports it as an `Overflow`.
 */
module StaticPass {
  import opened Outcome
  import opened OrdMap
  import opened Ast

  const AtSolve: string := "solve_expression_to_number"
  const AtStaticPass: string := "static_number_solver_pass"

  // ----- finding implementations -----

  /** The implementations in one map whose implemented type is `sig`, in key order. */
  function ImplementationsIn(m: ImplMap, sig: TypeSignature): (r: seq<(ImplSignature, TypeImplementation)>)
    ensures forall x :: x in r ==> x in m && x.0.implFor == sig
    ensures forall i :: 0 <= i < |m| && m[i].0.implFor == sig ==> m[i] in r
  {
    if |m| == 0 then []
    else
      var rest := ImplementationsIn(m[1..], sig);
      assert forall i :: 1 <= i < |m| ==> m[i] == m[1..][i - 1];
      if m[0].0.implFor == sig then [m[0]] + rest else rest
  }

  /** `find_type_implementations_by_signature`: exactly the implementations of `sig`,
      packages in key order and, within a package, keys in order. */
  function FindImplementations(sig: TypeSignature, packages: Packages): (r: seq<(ImplSignature, TypeImplementation)>)
    ensures forall x :: x in r ==> x.0.implFor == sig
    ensures forall x :: x in r ==> exists k :: 0 <= k < |packages| && x in packages[k].1.file.implementations
    ensures forall k, i ::
      (0 <= k < |packages| && 0 <= i < |packages[k].1.file.implementations| && packages[k].1.file.implementations[i].0.implFor == sig) ==>
        packages[k].1.file.implementations[i] in r
  {
    if |packages| == 0 then []
    else
      var rest := FindImplementations(sig, packages[1..]);
      assert forall k :: 1 <= k < |packages| ==> packages[k] == packages[1..][k - 1];
      ImplementationsIn(packages[0].1.file.implementations, sig) + rest
  }

  // ----- the order of the search -----

  /** The indices of the entries of `m`, from `from` on, whose implemented type is
      `sig`: ascending, and all of them. */
  function KeyIndices(m: ImplMap, sig: TypeSignature, from: nat): (r: seq<nat>)
    requires from <= |m|
    ensures forall j :: 0 <= j < |r| ==> from <= r[j] < |m| && m[r[j]].0.implFor == sig
    ensures forall a, b :: 0 <= a < b < |r| ==> r[a] < r[b]
    ensures forall i :: from <= i < |m| && m[i].0.implFor == sig ==> i in r
    decreases |m| - from
  {
    if from == |m| then []
    else if m[from].0.implFor == sig then [from] + KeyIndices(m, sig, from + 1)
    else KeyIndices(m, sig, from + 1)
  }

  /** A place in the package map: the package's position, then the entry's position
      in its implementations. */
  type Place = (nat, nat)

  predicate PlaceBefore(a: Place, b: Place) {
    a.0 < b.0 || (a.0 == b.0 && a.1 < b.1)
  }

  function ImplAt(packages: Packages, p: Place): (ImplSignature, TypeImplementation)
    requires p.0 < |packages| && p.1 < |packages[p.0].1.file.implementations|
  {
    packages[p.0].1.file.implementations[p.1]
  }

  /** Every place, from package `from` on, holding an implementation of `sig`, in
      package order and then key order. */
  function Places(sig: TypeSignature, packages: Packages, from: nat): (r: seq<Place>)
    requires from <= |packages|
    ensures forall j :: 0 <= j < |r| ==>
      from <= r[j].0 < |packages| && r[j].1 < |packages[r[j].0].1.file.implementations| && ImplAt(packages, r[j]).0.implFor == sig
    ensures forall a, b :: 0 <= a < b < |r| ==> PlaceBefore(r[a], r[b])
    ensures forall k, i ::
      (from <= k < |packages| && 0 <= i < |packages[k].1.file.implementations| &&
       packages[k].1.file.implementations[i].0.implFor == sig) ==> (k, i) in r
    decreases |packages| - from
  {
    if from == |packages| then []
    else
      var here := KeyIndices(packages[from].1.file.implementations, sig, 0);
      var rest := Places(sig, packages, from + 1);
      var r := seq(|here|, j requires 0 <= j < |here| => (from, here[j])) + rest;
      assert forall i :: 0 <= i < |here| ==> r[i] == (from, here[i]);
      assert forall i :: 0 <= i < |rest| ==> r[|here| + i] == rest[i];
      r
  }

  /** The entries of `m` at the indices `ps`, in the order of `ps`. */
  function Pick(m: ImplMap, ps: seq<nat>): (r: seq<(ImplSignature, TypeImplementation)>)
    requires forall j :: 0 <= j < |ps| ==> ps[j] < |m|
    ensures |r| == |ps| && forall j :: 0 <= j < |ps| ==> r[j] == m[ps[j]]
  {
    if |ps| == 0 then [] else [m[ps[0]]] + Pick(m, ps[1..])
  }

  /** The implementations at the places `ps`, in the order of `ps`. */
  function PickPlaces(packages: Packages, ps: seq<Place>): (r: seq<(ImplSignature, TypeImplementation)>)
    requires forall j :: 0 <= j < |ps| ==> ps[j].0 < |packages| && ps[j].1 < |packages[ps[j].0].1.file.implementations|
    ensures |r| == |ps| && forall j :: 0 <= j < |ps| ==> r[j] == ImplAt(packages, ps[j])
  {
    if |ps| == 0 then [] else [ImplAt(packages, ps[0])] + PickPlaces(packages, ps[1..])
  }

  /** `ImplementationsIn` lists exactly the entries at `KeyIndices`, in that order. */
  lemma {:induction false} ImplementationsInOrder(m: ImplMap, sig: TypeSignature, from: nat)
    requires from <= |m|
    ensures ImplementationsIn(m[from..], sig) == Pick(m, KeyIndices(m, sig, from))
    decreases |m| - from
  {
    if from < |m| {
      assert m[from..][1..] == m[from + 1..];
      assert m[from..][0] == m[from];
      ImplementationsInOrder(m, sig, from + 1);
      var rest := KeyIndices(m, sig, from + 1);
      if m[from].0.implFor == sig {
        assert ([from] + rest)[1..] == rest;
      }
    }
  }

  /** `FindImplementations` lists exactly the implementations at `Places`: every
      implementation of `sig`, packages in key order and, within a package, keys in order. */
  lemma {:induction false} FindImplementationsInOrder(sig: TypeSignature, packages: Packages, from: nat)
    requires from <= |packages|
    ensures FindImplementations(sig, packages[from..]) == PickPlaces(packages, Places(sig, packages, from))
    decreases |packages| - from
  {
    if from < |packages| {
      var m := packages[from].1.file.implementations;
      var here := KeyIndices(m, sig, 0);
      var rest := Places(sig, packages, from + 1);
      var tagged := seq(|here|, j requires 0 <= j < |here| => (from, here[j]));
      assert packages[from..][1..] == packages[from + 1..];
      assert packages[from..][0] == packages[from];
      assert m[0..] == m;
      ImplementationsInOrder(m, sig, 0);
      FindImplementationsInOrder(sig, packages, from + 1);
      assert Places(sig, packages, from) == tagged + rest;
      PickPlacesOfTagged(packages, from, here, rest);
    }
  }

  lemma {:induction false} PickPlacesOfTagged(packages: Packages, k: nat, here: seq<nat>, rest: seq<Place>)
    requires k < |packages| && forall j :: 0 <= j < |here| ==> here[j] < |packages[k].1.file.implementations|
    requires forall j :: 0 <= j < |rest| ==> rest[j].0 < |packages| && rest[j].1 < |packages[rest[j].0].1.file.implementations|
    ensures var tagged := seq(|here|, j requires 0 <= j < |here| => (k, here[j]));
      PickPlaces(packages, tagged + rest) == Pick(packages[k].1.file.implementations, here) + PickPlaces(packages, rest)
  {
    var tagged := seq(|here|, j requires 0 <= j < |here| => (k, here[j]));
    var a := PickPlaces(packages, tagged + rest);
    var b := Pick(packages[k].1.file.implementations, here) + PickPlaces(packages, rest);
    assert |a| == |b|;
    forall j | 0 <= j < |a| ensures a[j] == b[j] {
      if j < |here| {
        assert (tagged + rest)[j] == (k, here[j]);
      } else {
        assert (tagged + rest)[j] == rest[j - |here|];
      }
    }
  }

  /** The public functions of the implementations found, in the order the source
      visits them. */
  function PublicFunctionsOf(impls: seq<(ImplSignature, TypeImplementation)>): seq<Function> {
    if |impls| == 0 then [] else impls[0].1.publicFunctions + PublicFunctionsOf(impls[1..])
  }

  /** How many public implementation functions there are in all. A chain of nested
      calls deeper than this has entered some function twice, and since folding
      depends on nothing but the expression, the source then recurses forever. */
  function CallDepthBound(packages: Packages): nat {
    if |packages| == 0 then 0 else |PublicFunctionsOf(packages[0].1.file.implementations)| + CallDepthBound(packages[1..])
  }

  // ----- i128 arithmetic -----

  function Pow(b: int, e: nat): int {
    if e == 0 then 1 else b * Pow(b, e - 1)
  }

  /** `as u32` on an `i128`: the low 32 bits, as a non-negative number. */
  function AsU32(x: int): (r: nat)
    ensures r < 0x1_0000_0000
    ensures 0 <= x < 0x1_0000_0000 ==> r == x
  {
    x % 0x1_0000_0000
  }

  /** A result of `i128` arithmetic, or the overflow that stops the run. */
  function Checked(x: int): (r: Result<I128>)
    ensures r.Ok? <==> I128Min <= x <= I128Max
    ensures r.Ok? ==> r.value == x
    ensures r.Fail? ==> r.failure.kind == Overflow
  {
    if I128Min <= x <= I128Max then Ok(x) else Fail(Failure(Overflow, AtSolve))
  }

  // ----- folding -----

  /** `solve_expression_to_number`: `Ok(Some(v))` when the expression folds to `v`,
      `Ok(None)` when it does not fold, a failure when the source stops. A call
      nested more than `fuel` deep is one that recurses forever. */
  function Fold(packages: Packages, e: Expression, fuel: nat): (r: Result<Option<I128>>)
    ensures e.Number? ==> (r.Ok? <==> e.fraction.None?)
    ensures r.Ok? && r.value.Some? ==>
      e.Number? || e.Add? || e.Sub? || e.ToThePowerOf? || e.Parenthesis? || e.Positive? || e.Negative? ||
      (e.AccessTypeImplementation? && e.access.Call? && |e.access.call.arguments| == 0)
    decreases fuel, e
  {
    if e.Number? then
      if e.fraction.Some? then Fail(Failure(Unimplemented, AtSolve)) else Ok(Some(e.value))
    else if e.Add? || e.Sub? || e.ToThePowerOf? then
      var l :- Fold(packages, e.left, fuel);
      var r :- Fold(packages, e.right, fuel);
      if l.None? || r.None? then Ok(None)
      else
        var v :- Checked(if e.Add? then l.value + r.value else if e.Sub? then l.value - r.value else Pow(l.value, AsU32(r.value)));
        Ok(Some(v))
    else if e.Parenthesis? || e.Positive? then Fold(packages, e.inner, fuel)
    else if e.Negative? then
      var x :- Fold(packages, e.inner, fuel);
      if x.None? then Ok(None)
      else
        var v :- Checked(0 - x.value);
        Ok(Some(v))
    else if e.AccessTypeImplementation? then
      if e.access.Call? then FoldCall(packages, e.access, PublicFunctionsOf(FindImplementations(e.owner, packages)), fuel)
      else Fail(Failure(Unimplemented, AtSolve))
    else Ok(None)
  }

  /** The loop over the candidate public functions of a call: the first function with
      the call's name whose body folds gives the value; the source only considers
      calls without arguments. */
  function FoldCall(packages: Packages, call: Expression, candidates: seq<Function>, fuel: nat): (r: Result<Option<I128>>)
    requires call.Call?
    ensures |call.call.arguments| > 0 ==> r == Ok(None)
    ensures r.Ok? && r.value.Some? ==> exists i :: 0 <= i < |candidates| && candidates[i].signature.name == call.call.name
    decreases fuel, call, |candidates|
  {
    if |candidates| == 0 then Ok(None)
    else if candidates[0].signature.name == call.call.name && |call.call.arguments| == 0 then
      if fuel == 0 then Fail(Failure(Diverges, AtSolve))
      else
        var body :- Fold(packages, candidates[0].body, fuel - 1);
        if body.None? then FoldCall(packages, call, candidates[1..], fuel) else Ok(body)
    else FoldCall(packages, call, candidates[1..], fuel)
  }

  // ----- the reference: arithmetic on unbounded integers -----

  /** An expression of literals, `+`, `-`, `**`, parentheses and signs only. */
  predicate Arithmetic(e: Expression) {
    if e.Number? then true
    else if e.Add? || e.Sub? || e.ToThePowerOf? then Arithmetic(e.left) && Arithmetic(e.right)
    else if e.Parenthesis? || e.Positive? || e.Negative? then Arithmetic(e.inner)
    else false
  }

  /** The mathematical value of an arithmetic expression; a literal with a fractional
      part has none. The exponent of `**` is taken modulo 2^32, as `as u32` does. */
  function Value(e: Expression): Option<int>
    requires Arithmetic(e)
  {
    if e.Number? then (if e.fraction.Some? then None else Some(e.value))
    else if e.Add? || e.Sub? || e.ToThePowerOf? then
      var l := Value(e.left);
      var r := Value(e.right);
      if l.None? || r.None? then None
      else Some(if e.Add? then l.value + r.value else if e.Sub? then l.value - r.value else Pow(l.value, AsU32(r.value)))
    else if e.Negative? then
      var x := Value(e.inner);
      if x.None? then None else Some(0 - x.value)
    else Value(e.inner)
  }

  /** Every intermediate value of an arithmetic expression fits in `i128`. */
  predicate FitsI128(e: Expression)
    requires Arithmetic(e)
  {
    var v := Value(e);
    (v.None? || I128Min <= v.value <= I128Max) &&
    if e.Add? || e.Sub? || e.ToThePowerOf? then FitsI128(e.left) && FitsI128(e.right)
    else if e.Parenthesis? || e.Positive? || e.Negative? then FitsI128(e.inner)
    else true
  }

  predicate HasFraction(e: Expression)
    requires Arithmetic(e)
  {
    if e.Number? then e.fraction.Some?
    else if e.Add? || e.Sub? || e.ToThePowerOf? then HasFraction(e.left) || HasFraction(e.right)
    else HasFraction(e.inner)
  }

  /** On arithmetic expressions folding is `i128` arithmetic: it succeeds exactly when
      there is no fractional literal and every intermediate value fits, and then it
      yields the mathematical value. A fractional literal is not implemented, and a
      value that does not fit is an overflow. */
  lemma {:induction false} FoldIsArithmetic(packages: Packages, e: Expression, fuel: nat)
    requires Arithmetic(e)
    ensures Fold(packages, e, fuel).Ok? <==> !HasFraction(e) && FitsI128(e)
    ensures Fold(packages, e, fuel).Ok? ==> Value(e).Some? && Fold(packages, e, fuel).value == Some(Value(e).value)
    ensures Fold(packages, e, fuel).Fail? ==> Fold(packages, e, fuel).failure.kind in {Unimplemented, Overflow}
    ensures !HasFraction(e) ==> Value(e).Some?
    decreases e
  {
    if e.Add? || e.Sub? || e.ToThePowerOf? {
      FoldIsArithmetic(packages, e.left, fuel);
      FoldIsArithmetic(packages, e.right, fuel);
    } else if e.Parenthesis? || e.Positive? || e.Negative? {
      FoldIsArithmetic(packages, e.inner, fuel);
    }
  }

  /** A literal tagged by the pass folds to its own value, whatever the tag. */
  lemma LiteralFoldsToItself(packages: Packages, v: I128, tag: Option<TypeSignature>, fuel: nat)
    ensures Fold(packages, Number(v, None, tag), fuel) == Ok(Some(v))
  {
  }

  // ----- the pass -----

  /** The literal that replaces a folded body or bound. */
  function Literal(v: I128, sig: TypeSignature): Expression {
    Number(v, None, Some(sig))
  }

  /** One implementation function: a body that folds becomes a literal tagged with the
      function's return type; a function that returns no type then is unreachable. */
  function FoldFunction(snapshot: Packages, fuel: nat, f: Function): (r: Result<Function>)
    ensures r.Ok? ==> r.value.signature == f.signature
    ensures r.Ok? <==> Fold(snapshot, f.body, fuel).Ok? && (Fold(snapshot, f.body, fuel).value.Some? ==> f.signature.returnType.ReturnsType?)
    ensures r.Ok? && Fold(snapshot, f.body, fuel).value.None? ==> r.value == f
    ensures r.Ok? && Fold(snapshot, f.body, fuel).value.Some? ==>
      r.value.body == Literal(Fold(snapshot, f.body, fuel).value.value, f.signature.returnType.sig)
  {
    var v :- Fold(snapshot, f.body, fuel);
    if v.None? then Ok(f)
    else if f.signature.returnType.ReturnsType? then Ok(f.(body := Literal(v.value, f.signature.returnType.sig)))
    else Fail(Failure(Unreachable, AtStaticPass))
  }

  function FoldFunctions(snapshot: Packages, fuel: nat, fs: seq<Function>): (r: Result<seq<Function>>)
    ensures r.Ok? ==> |r.value| == |fs|
    ensures r.Ok? ==> forall i :: 0 <= i < |fs| ==> FoldFunction(snapshot, fuel, fs[i]).Ok? && r.value[i] == FoldFunction(snapshot, fuel, fs[i]).value
  {
    if |fs| == 0 then Ok([])
    else
      var f :- FoldFunction(snapshot, fuel, fs[0]);
      var rest :- FoldFunctions(snapshot, fuel, fs[1..]);
      assert forall i :: 1 <= i < |fs| ==> fs[i] == fs[1..][i - 1];
      Ok([f] + rest)
  }

  /** One implementation: its functions, then its public functions. */
  function FoldImplementation(snapshot: Packages, fuel: nat, im: TypeImplementation): (r: Result<TypeImplementation>)
    ensures r.Ok? ==> r.value == im.(functions := r.value.functions, publicFunctions := r.value.publicFunctions)
  {
    var functions :- FoldFunctions(snapshot, fuel, im.functions);
    var publicFunctions :- FoldFunctions(snapshot, fuel, im.publicFunctions);
    Ok(im.(functions := functions, publicFunctions := publicFunctions))
  }

  function FoldImplementations(snapshot: Packages, fuel: nat, impls: ImplMap): (r: Result<ImplMap>)
    ensures r.Ok? ==> Keys(r.value) == Keys(impls)
    ensures r.Ok? ==> forall i :: 0 <= i < |impls| ==>
      FoldImplementation(snapshot, fuel, impls[i].1).Ok? && r.value[i].1 == FoldImplementation(snapshot, fuel, impls[i].1).value
  {
    if |impls| == 0 then Ok([])
    else
      var im :- FoldImplementation(snapshot, fuel, impls[0].1);
      var rest :- FoldImplementations(snapshot, fuel, impls[1..]);
      assert forall i :: 1 <= i < |impls| ==> impls[i] == impls[1..][i - 1];
      Ok([(impls[0].0, im)] + rest)
  }

  /** One type: a range whose two bounds fold gets both as literals tagged with the
      type's own signature; any other type, or a range with a bound that does not
      fold, stays as it is. Both bounds are folded before either is checked. */
  function FoldType(snapshot: Packages, fuel: nat, sig: TypeSignature, ty: RosarioType): (r: Result<RosarioType>)
    ensures !ty.content.RangeContent? ==> r == Ok(ty)
    ensures ty.content.RangeContent? ==>
      (r.Ok? <==> Fold(snapshot, ty.content.range.left, fuel).Ok? && Fold(snapshot, ty.content.range.right, fuel).Ok?)
    ensures r.Ok? && ty.content.RangeContent? ==>
      var l, u := Fold(snapshot, ty.content.range.left, fuel).value, Fold(snapshot, ty.content.range.right, fuel).value;
      if l.Some? && u.Some? then r.value == ty.(content := RangeContent(Range(ty.content.range.isSigned, Literal(l.value, sig), Literal(u.value, sig))))
      else r.value == ty
  {
    if ty.content.RangeContent? then
      var range := ty.content.range;
      var l :- Fold(snapshot, range.left, fuel);
      var u :- Fold(snapshot, range.right, fuel);
      if l.None? || u.None? then Ok(ty)
      else Ok(ty.(content := RangeContent(range.(left := Literal(l.value, sig), right := Literal(u.value, sig)))))
    else Ok(ty)
  }

  function FoldTypes(snapshot: Packages, fuel: nat, types: TypeMap): (r: Result<TypeMap>)
    ensures r.Ok? ==> Keys(r.value) == Keys(types)
    ensures r.Ok? ==> forall i :: 0 <= i < |types| ==>
      FoldType(snapshot, fuel, types[i].0, types[i].1).Ok? && r.value[i].1 == FoldType(snapshot, fuel, types[i].0, types[i].1).value
  {
    if |types| == 0 then Ok([])
    else
      var ty :- FoldType(snapshot, fuel, types[0].0, types[0].1);
      var rest :- FoldTypes(snapshot, fuel, types[1..]);
      assert forall i :: 1 <= i < |types| ==> types[i] == types[1..][i - 1];
      Ok([(types[0].0, ty)] + rest)
  }

  /** One package: implementations, then private types, then public types. Nothing
      else in the package changes. */
  function FoldPackage(snapshot: Packages, fuel: nat, p: Package): (r: Result<Package>)
    ensures r.Ok? ==> r.value == p.(file := p.file.(implementations := r.value.file.implementations,
      types := r.value.file.types, publicTypes := r.value.file.publicTypes))
  {
    var impls :- FoldImplementations(snapshot, fuel, p.file.implementations);
    var types :- FoldTypes(snapshot, fuel, p.file.types);
    var publicTypes :- FoldTypes(snapshot, fuel, p.file.publicTypes);
    Ok(p.(file := p.file.(implementations := impls, types := types, publicTypes := publicTypes)))
  }

  function RunOn(snapshot: Packages, fuel: nat, packages: Packages): (r: Result<Packages>)
    ensures r.Ok? ==> Keys(r.value) == Keys(packages)
    ensures r.Ok? ==> forall k :: 0 <= k < |packages| ==>
      FoldPackage(snapshot, fuel, packages[k].1).Ok? && r.value[k].1 == FoldPackage(snapshot, fuel, packages[k].1).value
  {
    if |packages| == 0 then Ok([])
    else
      var p :- FoldPackage(snapshot, fuel, packages[0].1);
      var rest :- RunOn(snapshot, fuel, packages[1..]);
      assert forall k :: 1 <= k < |packages| ==> packages[k] == packages[1..][k - 1];
      Ok([(packages[0].0, p)] + rest)
  }

  /** `static_number_solver_pass`: procedures, top-level functions, traits and
      everything but implementations and types are left as they were. */
  function Run(packages: Packages): (r: Result<Packages>)
    ensures r.Ok? ==> Keys(r.value) == Keys(packages)
    ensures r.Ok? ==> forall k :: 0 <= k < |packages| ==>
      var f := packages[k].1.file;
      r.value[k].1 == packages[k].1.(file := f.(implementations := r.value[k].1.file.implementations,
        types := r.value[k].1.file.types, publicTypes := r.value[k].1.file.publicTypes))
  {
    RunOn(packages, CallDepthBound(packages), packages)
  }
}
